=== FILE: README.md ===
# ArtistTool in Dafny

A model of the core of ArtistTool. ArtistTool is a photo catalog with AI enrichment that runs a
marketing workflow for each photograph. The model covers three parts.

- **The photo catalog.** `Photographs` covers the photograph record, its thumbnail fallback and
  its clone. `PhotoCatalog` and `PhotoStore` cover the in-memory `PhotoDatabase`:
  - its category and tag reverse indexes;
  - the implicit "All" category;
  - upserts;
  - unknown-id errors.

  `PersistentStore` adds what `PersistentPhotoDatabase` does on top of it:
  - loading from JSON files;
  - writing through a temporary file that is then moved over the target;
  - the dispose guard.

  The rest of this part:
  - `IntelligentStore` and `Intelligence`: the enrichment of new photographs, and the canvas and
    marketing caches of `PhotoIntelligenceService`;
  - `ImageManagement`: the upload validation of `ImageManager`;
  - `Registry`: the first-registration-wins tables of `ImageRegistry`;
  - `Utility`: `AsByteSize`.
- **The workflow state.** This part covers:
  - `Observables`: the notification and child-subscription bookkeeping of `BaseObservable`;
  - `WorkflowNodes`: the started, completed and result cell `WorkflowNode<T>`;
  - `WorkflowContext`: the shared run state `MarketingWorkflowContext`;
  - `Agents`: the `AgentCache` and `AgentCacheEntry` lookup tables.
- **The orchestration.** The steps run one after the other in the model.
  - `MarketingWorkflows` covers the graph that `MarketingWorkflow` builds. It is kept as explicit
    lists of steps, edges and fan-in sources.
  - `CritiqueExecution`, `MediumPreviewExecution`, `ResearchExecution` and `ReportGeneration`
    cover the four executors.
  - `WorkflowsHosting` covers `WorkflowsHost`.

Some modules cover the .NET library behaviour this code relies on:
- `Wrappers`: `Option`, `Result` and the exception classes;
- `Text`: string operations;
- `Paths`: `System.IO.Path` on '/'-separated paths;
- `Files`: the file system as maps of contents;
- `Ordering`: `OrderBy` as an insertion sort under an abstract total preorder.

An exception is an `Err` of `Result`, or a `Failed` outcome. A C# `null` is `None`, or a null
reference of a nullable class type. Classes whose fields the code updates in place are Dafny
classes with `modifies` clauses. What those methods promise is stated against value functions,
for example `PhotoStore.PhotoDatabase` against `PhotoCatalog`.

## Behaviour of the code worth noting

- A workflow node's flags can be set and reset in any order.
- The fan-in has one source per medium and research role, so four per medium. A role with no
  prompts contributes a null source.
- The report step proceeds on every arrival at or beyond the fan-in count, not only on the
  arrival that reaches it.
- The host registers a workflow for an unknown photo id, with a null photo.
- The fan-in counter is one static field shared by every run. It is modelled as written in
  `ReportGeneration.FanInCounter`. The per-run counter the barrier evidently needs is
  `ReportGeneration.RunCounters`. See Findings.

## Model

| member | source | states |
|---|---|---|
| Photographs.PhotoData.ThumbnailPath | ArtistTool/ArtistTool.Domain/Photograph.cs:9 | a null, empty or white-space stored thumbnail reads as the image path; any other stored thumbnail reads as itself |
| Photographs.PhotoData.WithThumbnailPath | ArtistTool/ArtistTool.Domain/Photograph.cs:10 | the setter stores `null` as the empty string, changes no other field, and a cleared thumbnail reads as the path |
| Photographs.PhotoData.Cloned | ArtistTool/ArtistTool.Domain/Photograph.cs:21-33 | the copy's thumbnail reads the same as the original's; every other field is copied; the copy stores an empty thumbnail exactly when the original reads as its path |
| Photographs.NewPhoto | ArtistTool/ArtistTool.Domain/Photograph.cs:12-19 | a new photograph has the given fresh id; its path, stored thumbnail, file name, title, content type and description are empty strings; its thumbnail reads as the (empty) path; it has no tags or categories; and cloning it gives it back |
| Photographs.ClonedIdempotent | ArtistTool/ArtistTool.Domain/Photograph.cs:21-33 | cloning a clone gives the same clone |
| Photographs.SerializedRoundTrip | ArtistTool/ArtistTool.Domain/Photograph.cs:7-11 | writing the thumbnail getter's value and handing it back to the setter keeps what the thumbnail reads as, and the clone afterwards is the original's clone |
| Photographs.Photograph.constructor | ArtistTool/ArtistTool.Domain/Photograph.cs:5-19 | the object's fields are the defaults with the supplied id |
| Photographs.Photograph.SetThumbnailPath | ArtistTool/ArtistTool.Domain/Photograph.cs:10 | the object's fields become the setter's result on the old fields |
| Photographs.Photograph.Clone | ArtistTool/ArtistTool.Domain/Photograph.cs:21-33 | a fresh object whose fields are the clone of the original's fields |
| PhotoCatalog.RemoveAll | ArtistTool/ArtistTool.Domain/PhotoDatabase.cs:125 | the id list without any occurrence of the id, every other occurrence kept (as a multiset) |
| PhotoCatalog.UnlinkCategories | ArtistTool/ArtistTool.Domain/PhotoDatabase.cs:122-126 | every category keeps its place, name and description, and loses the id from its list |
| PhotoCatalog.UnlinkTags | ArtistTool/ArtistTool.Domain/PhotoDatabase.cs:128-132 | every tag keeps its place and name, and loses the id from its list |
| PhotoCatalog.Stored | ArtistTool/ArtistTool.Domain/PhotoDatabase.cs:72-73 | the kept copy has the photograph's id, tags and thumbnail reading, and "All" followed by its categories |
| PhotoCatalog.ListPhotoIds | ArtistTool/ArtistTool.Domain/PhotoDatabase.cs:141 | the ids of the photographs, one per photograph, in insertion order |
| PhotoCatalog.LinkCategoryStep | ArtistTool/ArtistTool.Domain/PhotoDatabase.cs:79-92 | one pass of the category loop keeps every existing category's name and description and at most appends the id to its list |
| PhotoCatalog.LinkCategoryFiles | ArtistTool/ArtistTool.Domain/PhotoDatabase.cs:79-92 | after one pass a category of that name lists the id, and every earlier listing of the id remains |
| PhotoCatalog.LinkCategoriesSpec | ArtistTool/ArtistTool.Domain/PhotoDatabase.cs:77-93 | after the category loop, existing categories keep name and description and gain at most the id; a category none of the names mentions is untouched; created categories carry a listed name, the default description and exactly the id; names stay unique |
| PhotoCatalog.LinkCategoriesCovers | ArtistTool/ArtistTool.Domain/PhotoDatabase.cs:77-93 | after the category loop every listed name has a category that lists the id |
| PhotoCatalog.LinkTagStep | ArtistTool/ArtistTool.Domain/PhotoDatabase.cs:97-109 | one pass of the tag loop keeps every existing tag's name and at most appends the id to its list |
| PhotoCatalog.LinkTagFiles | ArtistTool/ArtistTool.Domain/PhotoDatabase.cs:97-109 | after one pass a tag of that name lists the id, and every earlier listing of the id remains |
| PhotoCatalog.LinkTagsSpec | ArtistTool/ArtistTool.Domain/PhotoDatabase.cs:95-110 | after the tag loop, existing tags keep their names and gain at most the id; created tags carry a listed name and exactly the id; names stay unique |
| PhotoCatalog.LinkTagsCovers | ArtistTool/ArtistTool.Domain/PhotoDatabase.cs:95-110 | after the tag loop every listed tag name has a tag that lists the id |
| PhotoCatalog.LinkCategoriesFilesOnce | ArtistTool/ArtistTool.Domain/PhotoDatabase.cs:77-93 | for an id no category listed, each category lists it exactly once if its name is among the names and not at all otherwise |
| PhotoCatalog.LinkTagsFilesOnce | ArtistTool/ArtistTool.Domain/PhotoDatabase.cs:95-110 | for an id no tag listed, each tag lists it exactly once if its name is among the names and not at all otherwise |
| PhotoCatalog.AddPhotoValid | ArtistTool/ArtistTool.Domain/PhotoDatabase.cs:70-112 | adding keeps category and tag names unique and "All" present, and appends the stored copy to the photographs |
| PhotoCatalog.AddPhotoFiles | ArtistTool/ArtistTool.Domain/PhotoDatabase.cs:77-110 | after adding, each of the stored copy's categories and tags exists and lists the photograph's id |
| PhotoCatalog.AddPhotoFilesOnce | ArtistTool/ArtistTool.Domain/PhotoDatabase.cs:70-112 | for a new id, adding files it exactly once under each of the copy's categories and tags and nowhere else |
| PhotoCatalog.AddPhotoKeepsEntries | ArtistTool/ArtistTool.Domain/PhotoDatabase.cs:70-112 | adding never removes a category or tag and never changes a category's name or description |
| PhotoCatalog.AddPhotoAllowsDuplicateIds | ArtistTool/ArtistTool.Domain/PhotoDatabase.cs:70-75 | a photograph whose id is already stored is appended as a second entry; lookups still find the first |
| PhotoCatalog.UpsertCategorySpec | ArtistTool/ArtistTool.Domain/PhotoDatabase.cs:53-68 | with a known name only that category's description and id list change; a new name is appended as a copy; names stay unique and "All" stays |
| PhotoCatalog.UpdateUnknownId | ArtistTool/ArtistTool.Domain/PhotoDatabase.cs:116-120 | the update fails exactly when no stored photograph has the id, and then with the "not found" `InvalidOperationException` |
| PhotoCatalog.UnlinkedValid | ArtistTool/ArtistTool.Domain/PhotoDatabase.cs:122-135 | after unfiling the id and dropping the first entry, the store is still valid and no list holds the id |
| PhotoCatalog.UpdateKeepsValid | ArtistTool/ArtistTool.Domain/PhotoDatabase.cs:114-139 | a successful update keeps the store valid and keeps every category and tag, emptied ones included |
| PhotoCatalog.UpdateReplacesPhoto | ArtistTool/ArtistTool.Domain/PhotoDatabase.cs:134-138 | the first entry with the id gives way to the stored copy at the end; the count of photographs and the multiset of ids are unchanged |
| PhotoCatalog.UpdateReindexes | ArtistTool/ArtistTool.Domain/PhotoDatabase.cs:114-139 | after an update a category or tag lists the id once if the new version names it and not at all otherwise |
| PhotoCatalog.GetPhotoSpec | ArtistTool/ArtistTool.Domain/PhotoDatabase.cs:33-41 | null exactly for an unknown id, otherwise the clone of the first photograph with that id |
| PhotoCatalog.ListCategoriesSpec | ArtistTool/ArtistTool.Domain/PhotoDatabase.cs:43-46 | the listing holds exactly the categories (as a multiset), ordered by name |
| PhotoCatalog.ListTagsSpec | ArtistTool/ArtistTool.Domain/PhotoDatabase.cs:48-51 | the listing holds exactly the tags (as a multiset), ordered by name |
| PhotoCatalog.UpdateWithFetchedCopyRepeatsAll | ArtistTool/ArtistTool.Domain/PhotoDatabase.cs:72-73 | updating with a copy read back from the store files "All" twice in the stored copy's category list |
| PhotoStore.PhotoDatabase.constructor | ArtistTool/ArtistTool.Domain/PhotoDatabase.cs:5-16 | a new store holds the "All" category alone, no photographs and no tags, and is valid |
| PhotoStore.PhotoDatabase.GetPhotographWithId | ArtistTool/ArtistTool.Domain/PhotoDatabase.cs:33-41 | null exactly when the catalog lookup finds nothing, otherwise a fresh object holding the clone of the first match |
| PhotoStore.PhotoDatabase.AddCategory | ArtistTool/ArtistTool.Domain/PhotoDatabase.cs:53-68 | the store becomes the catalog upsert of the category |
| PhotoStore.PhotoDatabase.AddPhotograph | ArtistTool/ArtistTool.Domain/PhotoDatabase.cs:70-112 | the store becomes the catalog after adding the photograph's fields |
| PhotoStore.PhotoDatabase.FileUnderCategories | ArtistTool/ArtistTool.Domain/PhotoDatabase.cs:77-93 | the category list becomes the category loop's result; photographs and tags unchanged |
| PhotoStore.PhotoDatabase.FileUnderTags | ArtistTool/ArtistTool.Domain/PhotoDatabase.cs:95-110 | the tag list becomes the tag loop's result; photographs and categories unchanged |
| PhotoStore.PhotoDatabase.FileUnderCategory | ArtistTool/ArtistTool.Domain/PhotoDatabase.cs:79-92 | one pass of the category loop, as the catalog's step |
| PhotoStore.PhotoDatabase.FileUnderTag | ArtistTool/ArtistTool.Domain/PhotoDatabase.cs:97-109 | one pass of the tag loop, as the catalog's step |
| PhotoStore.PhotoDatabase.UnfileCategories | ArtistTool/ArtistTool.Domain/PhotoDatabase.cs:122-126 | the loop removes the id from every category's list, leaving the photos and tags as they were |
| PhotoStore.PhotoDatabase.UnfileTags | ArtistTool/ArtistTool.Domain/PhotoDatabase.cs:128-132 | the loop removes the id from every tag's list, leaving the photos and categories as they were |
| PhotoStore.PhotoDatabase.UpdatePhotograph | ArtistTool/ArtistTool.Domain/PhotoDatabase.cs:114-139 | an unknown id fails with the catalog's error and changes nothing; otherwise the store becomes the catalog's update |
| PersistentStore.DiscardTemp | ArtistTool/ArtistTool.Domain/PersistentPhotoDatabase.cs:302-305 | the clean-up removes the temporary file unless it is locked, and touches nothing else |
| PersistentStore.AtomicWrite | ArtistTool/ArtistTool.Domain/PersistentPhotoDatabase.cs:290-308 | succeeds exactly when neither the target nor `path.tmp` is locked, and then the target holds the content and the temporary file is gone; on failure the target keeps its old content, the temporary file is removed unless it is the locked one, and the error names the locked file; no other file changes |
| PersistentStore.WriteAllSucceeds | ArtistTool/ArtistTool.Domain/PersistentPhotoDatabase.cs:148-151 | the sequence of writes succeeds exactly when none of its files or temporary files is locked |
| PersistentStore.WriteAllUntouched | ArtistTool/ArtistTool.Domain/PersistentPhotoDatabase.cs:148-151 | a file the sequence does not write keeps its content whatever happens |
| PersistentStore.WriteAllInOrder | ArtistTool/ArtistTool.Domain/PersistentPhotoDatabase.cs:148-151 | the writes happen in order: after a successful prefix the rest runs on its result |
| PersistentStore.WriteAllLands | ArtistTool/ArtistTool.Domain/PersistentPhotoDatabase.cs:148-151 | after a successful sequence a path holds the last content written to it |
| PersistentStore.PhotoWrites | ArtistTool/ArtistTool.Domain/PersistentPhotoDatabase.cs:278-288 | adding or updating writes four files in order: the photograph's own file, the id index, the categories, the tags |
| PersistentStore.LoadPhotosStops | ArtistTool/ArtistTool.Domain/PersistentPhotoDatabase.cs:88-101 | once one id fails, the later ids of the index are not looked at |
| PersistentStore.LoadPhotosCounts | ArtistTool/ArtistTool.Domain/PersistentPhotoDatabase.cs:86-102 | without a failure, loaded plus skipped equals the length of the index, and each loaded id adds one photograph |
| PersistentStore.LoadPhotosSkipsMissing | ArtistTool/ArtistTool.Domain/PersistentPhotoDatabase.cs:90-96 | ids whose files are all missing are all skipped and nothing is loaded |
| PersistentStore.LoadCategoriesValid | ArtistTool/ArtistTool.Domain/PersistentPhotoDatabase.cs:67-77 | loading the categories keeps names unique and "All" present, and adds no photograph |
| PersistentStore.LoadPhotosValid | ArtistTool/ArtistTool.Domain/PersistentPhotoDatabase.cs:79-103 | loading photographs keeps the store valid |
| PersistentStore.LoadValid | ArtistTool/ArtistTool.Domain/PersistentPhotoDatabase.cs:67-103 | loading keeps the store valid, whether it completes or stops at an error |
| PersistentStore.LoadPhotosIgnoresTags | ArtistTool/ArtistTool.Domain/PersistentPhotoDatabase.cs:79-103 | photograph loading gives the same result whatever `tags.json` holds |
| PersistentStore.DataFilesDistinct | ArtistTool/ArtistTool.Domain/PersistentPhotoDatabase.cs:28-30 | the categories file and the index are not the tags file |
| PersistentStore.LoadIgnoresTags | ArtistTool/ArtistTool.Domain/PersistentPhotoDatabase.cs:67-103 | `tags.json` is never read: loading gives the same result whatever it holds |
| PersistentStore.PersistentPhotoDatabase.constructor | ArtistTool/ArtistTool.Domain/PersistentPhotoDatabase.cs:24-40 | an empty, valid, not initialised store whose data directory exists afterwards |
| PersistentStore.PersistentPhotoDatabase.Init | ArtistTool/ArtistTool.Domain/PersistentPhotoDatabase.cs:42-117 | nothing once initialised; with no data file, only the flag is set; a disposed lock fails; otherwise the store becomes the load's result, and the flag is set and the outcome `Done` exactly when loading did not fail |
| PersistentStore.PersistentPhotoDatabase.LoadCategoryList | ArtistTool/ArtistTool.Domain/PersistentPhotoDatabase.cs:73-76 | the store becomes the catalog with each file category upserted in order |
| PersistentStore.PersistentPhotoDatabase.LoadPhotoFiles | ArtistTool/ArtistTool.Domain/PersistentPhotoDatabase.cs:86-101 | the store, counts and failure are those of the load function over the index |
| PersistentStore.PersistentPhotoDatabase.WriteAtomically | ArtistTool/ArtistTool.Domain/PersistentPhotoDatabase.cs:290-308 | the disk and outcome are those of the atomic write |
| PersistentStore.PersistentPhotoDatabase.WriteInOrder | ArtistTool/ArtistTool.Domain/PersistentPhotoDatabase.cs:148-151 | the disk and outcome are those of the writes in order, stopping at the first failure |
| PersistentStore.PersistentPhotoDatabase.Persist | ArtistTool/ArtistTool.Domain/PersistentPhotoDatabase.cs:149-151 | the four writes of an add or update, in order |
| PersistentStore.PersistentPhotoDatabase.AddCategory | ArtistTool/ArtistTool.Domain/PersistentPhotoDatabase.cs:119-139 | a disposed database fails and changes nothing; otherwise the store is upserted first and then the categories file is written atomically |
| PersistentStore.PersistentPhotoDatabase.AddPhotograph | ArtistTool/ArtistTool.Domain/PersistentPhotoDatabase.cs:141-164 | a disposed database fails and changes nothing; otherwise the store gains the photograph first, then the four writes follow, and a failed write leaves the store changed |
| PersistentStore.PersistentPhotoDatabase.UpdatePhotograph | ArtistTool/ArtistTool.Domain/PersistentPhotoDatabase.cs:166-189 | a disposed database fails; an unknown id fails before anything is written; otherwise the store is updated and the four writes follow |
| PersistentStore.PersistentPhotoDatabase.GetPhotographWithId | ArtistTool/ArtistTool.Domain/PersistentPhotoDatabase.cs:191-209 | a disposed database fails; otherwise null exactly for an unknown id, else a fresh copy of the first match |
| PersistentStore.PersistentPhotoDatabase.ListCategories | ArtistTool/ArtistTool.Domain/PersistentPhotoDatabase.cs:211-226 | fails exactly when disposed; otherwise exactly the stored categories, ordered by name as the catalog's listing gives them |
| PersistentStore.PersistentPhotoDatabase.ListPhotoIds | ArtistTool/ArtistTool.Domain/PersistentPhotoDatabase.cs:228-243 | fails exactly when disposed; otherwise the photographs' ids in insertion order |
| PersistentStore.PersistentPhotoDatabase.ListTags | ArtistTool/ArtistTool.Domain/PersistentPhotoDatabase.cs:245-260 | fails exactly when disposed; otherwise exactly the stored tags, ordered by name as the catalog's listing gives them |
| PersistentStore.PersistentPhotoDatabase.Dispose | ArtistTool/ArtistTool.Domain/PersistentPhotoDatabase.cs:319-326 | marks the database disposed; a second call changes nothing |
| Intelligence.Attempt | ArtistTool/ArtistTool.Intelligence/PhotoIntelligenceService.cs:224-230 | one attempt to read the image succeeds exactly when the file exists and is no longer locked |
| Intelligence.ReadImage | ArtistTool/ArtistTool.Intelligence/PhotoIntelligenceService.cs:215-239 | the retry loop succeeds exactly when the file exists and is locked for at most three attempts, giving the file's bytes; otherwise it fails with the last attempt's `IOException` (file not found, or the lock) |
| Intelligence.DescriptionText | ArtistTool/ArtistTool.Intelligence/PhotoIntelligenceService.cs:253 | the vision answer's text, or "No description available" when it is null |
| Intelligence.CandidateNames | ArtistTool/ArtistTool.Intelligence/PhotoIntelligenceService.cs:287 | the names offered for categorisation are exactly the available names other than "All", none without a list |
| Intelligence.NamesExceptAll | ArtistTool/ArtistTool.Intelligence/PhotoIntelligenceService.cs:287 | the names of the categories other than "All" |
| Intelligence.KeepMatching | ArtistTool/ArtistTool.Intelligence/PhotoIntelligenceService.cs:319-321 | the category filter keeps at most the suggestions, and every kept name is a suggestion that matches a candidate ignoring ASCII case |
| Intelligence.TitleTextTrimmed | ArtistTool/ArtistTool.Intelligence/PhotoIntelligenceService.cs:276 | a generated title neither starts nor ends with '"' and occurs within the answer's text |
| Intelligence.KeepMatchingExact | ArtistTool/ArtistTool.Intelligence/PhotoIntelligenceService.cs:319-321 | the filter keeps exactly the suggestions that match a candidate ignoring ASCII case, each as often as suggested |
| Intelligence.KeepMatchingInOrder | ArtistTool/ArtistTool.Intelligence/PhotoIntelligenceService.cs:319-321 | the filter keeps suggestion order: filtering a concatenation filters each part |
| Intelligence.FilterCategoriesSpec | ArtistTool/ArtistTool.Intelligence/PhotoIntelligenceService.cs:287-326 | with no suggestions or no available list nothing is kept; a kept category matches an offered name other than "All" |
| Intelligence.AnalysisKeepsGiven | ArtistTool/ArtistTool.Intelligence/PhotoIntelligenceService.cs:19-40 | a given non-blank description or title survives the analysis unchanged, and the file name is passed through |
| Intelligence.AnalysisGeneratesBlank | ArtistTool/ArtistTool.Intelligence/PhotoIntelligenceService.cs:28-45 | a blank description is the image's description, a blank title is generated from the file name and the final description, and tags and categories come from a request on the final title and description |
| Intelligence.AnalysisFailsWithStep | ArtistTool/ArtistTool.Intelligence/PhotoIntelligenceService.cs:26-54 | the analysis fails with the image read's error when the image is missing or stays locked past the retries |
| Intelligence.PhotoIntelligenceService.ReadImageWithRetry | ArtistTool/ArtistTool.Intelligence/PhotoIntelligenceService.cs:215-239 | the loop's result is the retry function's; there are between one and four attempts; every attempt before the last failed |
| Intelligence.PhotoIntelligenceService.GenerateDescription | ArtistTool/ArtistTool.Intelligence/PhotoIntelligenceService.cs:209-254 | the result is the image read followed by the vision call |
| Intelligence.PhotoIntelligenceService.AnalyzePhoto | ArtistTool/ArtistTool.Intelligence/PhotoIntelligenceService.cs:10-57 | the result is the analysis function's, filled step by step |
| Intelligence.PhotoIntelligenceService.GenerateCanvasVisualization | ArtistTool/ArtistTool.Intelligence/PhotoIntelligenceService.cs:91-164 | the disk and the result are those of `Intelligence.Visualization` on the disk as it was |
| Intelligence.PhotoIntelligenceService.GenerateMarketingContent | ArtistTool/ArtistTool.Intelligence/PhotoIntelligenceService.cs:166-207 | the disk and the result are those of `Intelligence.Marketing` on the disk as it was |
| Intelligence.PhotoIntelligenceService.GenerateCanvasPreview | ArtistTool/ArtistTool.Intelligence/PhotoIntelligenceService.cs:59-89 | the disk and the result are those of `Intelligence.Preview` on the disk as it was |
| Intelligence.CanvasPathsDistinct | ArtistTool/ArtistTool.Intelligence/PhotoIntelligenceService.cs:95-172 | the preview, prompt and marketing files of a photograph are three different paths |
| Intelligence.Visualization | ArtistTool/ArtistTool.Intelligence/PhotoIntelligenceService.cs:91-164 | a failure leaves the disk as it was; success returns the preview or the prompt path, which then exists, and changes no other file; an existing preview is returned as it is; otherwise a missing image fails with `FileNotFoundException`, the image is sent with the photograph's content type, the call's error goes through, and the image (or, without image data, the prompt and answer text) is written to its path, a refused write failing with an `IOException` |
| Intelligence.Marketing | ArtistTool/ArtistTool.Intelligence/PhotoIntelligenceService.cs:166-207 | a failure leaves the disk as it was; success leaves a marketing file that decodes to the result, either the cached one, unread by the model, or the answer just written; the model's error and a refused write go through |
| Intelligence.Preview | ArtistTool/ArtistTool.Intelligence/PhotoIntelligenceService.cs:59-89 | only files change; success carries the photograph's id and the preview or prompt path, which exists, and the marketing file then decodes to the result's headline and copy; a visualization failure stops at once; a marketing failure or a null marketing content (`NullReferenceException`) comes after the visualization's writes |
| Intelligence.PreviewRepeats | ArtistTool/ArtistTool.Intelligence/PhotoIntelligenceService.cs:59-178 | once a preview has been generated into its preview file, generating it again changes nothing and gives the same result |
| Intelligence.FallbackText | ArtistTool/ArtistTool.Intelligence/PhotoIntelligenceService.cs:157 | the saved fallback text starts with the prompt header and the prompt |
| Intelligence.Decoded | ArtistTool/ArtistTool.Intelligence/PhotoIntelligenceService.cs:176-177 | a cache file decodes exactly when it holds a marketing document, giving that document |
| IntelligentStore.ClearDefaultTitle | ArtistTool/ArtistTool.Intelligence/IntelligentPhotoDatabase.cs:25-29 | a title equal to the file name's stem becomes empty; no other field changes |
| IntelligentStore.Existing | ArtistTool/ArtistTool.Intelligence/IntelligentPhotoDatabase.cs:47-48 | a blank value is handed to the analysis as null, any other value as itself |
| IntelligentStore.MergeFillsGapsOnly | ArtistTool/ArtistTool.Intelligence/IntelligentPhotoDatabase.cs:52-71 | applying the suggestions keeps the identity, file and thumbnail fields and every non-blank title or description and non-empty list; a blank title or description takes the suggestion; an empty list takes a non-empty suggestion |
| IntelligentStore.MergeIdempotent | ArtistTool/ArtistTool.Intelligence/IntelligentPhotoDatabase.cs:52-71 | applying the same suggestions twice changes nothing more |
| IntelligentStore.EnrichedKeepsGiven | ArtistTool/ArtistTool.Intelligence/IntelligentPhotoDatabase.cs:23-83 | whatever the service does, enrichment keeps identity and file fields and every given value left by the default-title rule; without a service, or when listing or analysis fails, that is all that happens |
| IntelligentStore.DefaultTitleClearedWithoutService | ArtistTool/ArtistTool.Intelligence/IntelligentPhotoDatabase.cs:25-29 | without a service a title equal to the file name's stem is stored as the empty string |
| IntelligentStore.EnrichedUsesAnalysis | ArtistTool/ArtistTool.Intelligence/IntelligentPhotoDatabase.cs:31-71 | with a service and something missing, a blank description becomes the generated one, a blank title the analysis' title, and empty categories the matching suggestions when there are any |
| IntelligentStore.IntelligentPhotoDatabase.constructor | ArtistTool/ArtistTool.Intelligence/IntelligentPhotoDatabase.cs:6-11 | the wrapper holds the persistent database and the optional service |
| IntelligentStore.IntelligentPhotoDatabase.AddPhotograph | ArtistTool/ArtistTool.Intelligence/IntelligentPhotoDatabase.cs:23-84 | the caller's object ends up holding the enriched fields, and the persistent database's add of those fields is the outcome |
| IntelligentStore.IntelligentPhotoDatabase.Enrich | ArtistTool/ArtistTool.Intelligence/IntelligentPhotoDatabase.cs:25-81 | the photograph object's fields become the enrichment function's result |
| IntelligentStore.IntelligentPhotoDatabase.ApplyAnalysis | ArtistTool/ArtistTool.Intelligence/IntelligentPhotoDatabase.cs:52-71 | the object's fields become the merge of the old fields with the analysis |
| IntelligentStore.IntelligentPhotoDatabase.Init | ArtistTool/ArtistTool.Intelligence/IntelligentPhotoDatabase.cs:13-16 | delegated, with the persistent database's contract: once initialised or disposed nothing changes; otherwise the store is loaded from the root folder's files, a file that cannot be read fails the load, the categories and tags are rebuilt, and the disk is never changed |
| IntelligentStore.IntelligentPhotoDatabase.AddCategory | ArtistTool/ArtistTool.Intelligence/IntelligentPhotoDatabase.cs:18-21 | delegated, with the persistent database's contract: a disposed database fails and changes nothing; otherwise the store is upserted and the category file is written through a temporary file moved over it |
| IntelligentStore.IntelligentPhotoDatabase.UpdatePhotograph | ArtistTool/ArtistTool.Intelligence/IntelligentPhotoDatabase.cs:86-89 | delegated, with no enrichment and the persistent database's contract: the caller's object is unchanged; a failure (disposed, unknown id) leaves store and disk unchanged; otherwise the store is updated and the photograph, category and tag files are written |
| IntelligentStore.IntelligentPhotoDatabase.GetPhotographWithId | ArtistTool/ArtistTool.Intelligence/IntelligentPhotoDatabase.cs:91-94 | delegated: a disposed database fails; otherwise null for an unknown id, else a fresh copy of the first match |
| IntelligentStore.IntelligentPhotoDatabase.ListCategories | ArtistTool/ArtistTool.Intelligence/IntelligentPhotoDatabase.cs:96-99 | delegated: fails exactly when disposed, otherwise exactly the stored categories, in the catalog's name order |
| IntelligentStore.IntelligentPhotoDatabase.ListPhotoIds | ArtistTool/ArtistTool.Intelligence/IntelligentPhotoDatabase.cs:101-104 | delegated: fails exactly when disposed, otherwise the ids in insertion order |
| IntelligentStore.IntelligentPhotoDatabase.ListTags | ArtistTool/ArtistTool.Intelligence/IntelligentPhotoDatabase.cs:106-109 | delegated: fails exactly when disposed, otherwise exactly the stored tags, in the catalog's name order |
| Utility.Unit.Size | ArtistTool/ArtistTool.Services/Utility.cs:5-7 | a unit holds 1024 to the power of its rank bytes: 1, 1024, 1024², 1024³ |
| Utility.UnitFor | ArtistTool/ArtistTool.Services/Utility.cs:11-26 | the unit is the largest that does not exceed the value (bytes below a kilobyte, negative counts included), and gigabytes have no cap |
| Utility.AsByteSize | ArtistTool/ArtistTool.Services/Utility.cs:9-27 | the text is the amount, a space and the unit's word |
| Utility.AmountBounds | ArtistTool/ArtistTool.Services/Utility.cs:11-26 | below a kilobyte the amount is the value itself; above, it is the whole number of units, between 1 and 1023 except for gigabytes |
| Utility.AsByteSizeMonotone | ArtistTool/ArtistTool.Services/Utility.cs:9-27 | a larger count never shows a smaller unit, nor a smaller amount in the same unit |
| Registry.FirstWith | ArtistTool/ArtistTool.Services/ImageRegistry.cs:20-21 | the first registration under a title or a file name, if any: it carries that key and no earlier one does; none when no registration does |
| Registry.Titles | ArtistTool/ArtistTool.Services/ImageRegistry.cs:19 | one title per registration |
| Registry.TableFirst | ArtistTool/ArtistTool.Services/ImageRegistry.cs:20-21 | a title (file name) is in the title (file name) table exactly when it was registered, and maps to its first registration's text |
| Registry.LaterRegistrationIgnored | ArtistTool/ArtistTool.Services/ImageRegistry.cs:20-21 | registering a known title or file name again leaves its entry as it was |
| Registry.ImageRegistry.constructor | ArtistTool/ArtistTool.Services/ImageRegistry.cs:7-9 | an empty bag and empty tables |
| Registry.ImageRegistry.GetImageInformationByTitle | ArtistTool/ArtistTool.Services/ImageRegistry.cs:11 | the first registration's text for a known title, the title itself otherwise |
| Registry.ImageRegistry.GetImageInformationByFilename | ArtistTool/ArtistTool.Services/ImageRegistry.cs:13 | the first registration's text for a known file name, the file name itself otherwise |
| Registry.ImageRegistry.GetTitles | ArtistTool/ArtistTool.Services/ImageRegistry.cs:15 | every registered title, as often as registered |
| Registry.ImageRegistry.RegisterImage | ArtistTool/ArtistTool.Services/ImageRegistry.cs:17-22 | the title always joins the bag; each table gains an entry only for a new key |
| ImageManagement.Uploaded | ArtistTool/ArtistTool.Services/ImageManager.cs:60-67 | the new photograph has the fresh id, the file name, the content type, the file name's stem as title and `{imagesFolder}/{id}{ext}` as path, and nothing else set |
| ImageManagement.ValidExtensionEnding | ArtistTool/ArtistTool.Services/ImageManager.cs:35-42 | every accepted extension ends in 'g' or 'f' |
| ImageManagement.AcceptedPathEnding | ArtistTool/ArtistTool.Services/ImageManager.cs:54-66 | the path of an accepted upload ends in 'g' or 'f' |
| ImageManagement.ImageUntouchedByPersistence | ArtistTool/ArtistTool.Services/ImageManager.cs:82 | adding the photograph to the database writes only JSON files and their temporary files, never the image file |
| ImageManagement.SavedPhotoFound | ArtistTool/ArtistTool.Services/ImageManager.cs:82-84 | a photograph added under a new id is found again by that id, with the path it was saved under |
| ImageManagement.ImageManager.constructor | ArtistTool/ArtistTool.Services/ImageManager.cs:13-33 | the root and images folders exist afterwards and nothing else on disk changes |
| ImageManagement.AcceptedSave | ArtistTool/ArtistTool.Services/ImageManager.cs:57-104 | a locked path fails with the disk unchanged; a failing writer or a disposed database fails and the image file is deleted; otherwise the photograph is enriched and added to the catalogue, and the result is `Ok` exactly when every JSON write of the photograph succeeds, with the disk `WriteAll` leaves, or that disk without the image file on failure |
| ImageManagement.StoreSaved | ArtistTool/ArtistTool.Services/ImageManager.cs:82-103 | the JSON writes decide the result: `Ok` with the image file as written exactly when they all succeed, otherwise their error with the image file deleted |
| ImageManagement.ImageManager.SaveImage | ArtistTool/ArtistTool.Services/ImageManager.cs:44-109 | a content type without "image" and an unsupported extension fail with their `InvalidOperationException`s before anything is written; an accepted upload leaves the disk, result and catalogue that `AcceptedSave` gives for the path `{imagesFolder}/{id}{ext}` |
| ImageManagement.ImageManager.SaveAccepted | ArtistTool/ArtistTool.Services/ImageManager.cs:57-104 | the disk, the returned photograph and the catalogue are exactly those of `AcceptedSave` for the disk, catalogue and category listing before the call |
| ImageManagement.ImageManager.WriteAndAdd | ArtistTool/ArtistTool.Services/ImageManager.cs:69-84 | a failing writer leaves the file created and empty; otherwise the file holds the bytes and, unless the database is disposed, the disk and outcome are those of writing the photograph's JSON files (`WriteAll` of `PhotoWrites`) on top of it; identity and file fields of the photograph stay |
| ImageManagement.ImageManager.Cleanup | ArtistTool/ArtistTool.Services/ImageManager.cs:90-102 | the file is deleted when it exists and is not locked; otherwise the disk is unchanged |
| ImageManagement.ImageManager.AddToDatabase | ArtistTool/ArtistTool.Services/ImageManager.cs:82 | a disposed database leaves the disk unchanged; otherwise the disk and outcome are those of `WriteAll` of the photograph's JSON writes, the photograph is enriched and added as the database does, and the image file keeps its content |
| ImageManagement.ImageManager.GetStreamForPhotoId | ArtistTool/ArtistTool.Services/ImageManager.cs:111-130 | a disposed database fails; an unknown id fails with `InvalidOperationException`; a missing file with `FileNotFoundException`; otherwise the stored image's bytes |
| Observables.KeysOfUpdate | ArtistTool/ArtistTool.Domain/BaseObservable.cs:32 | storing a value under a name moves that name from the old child's names to the new one's |
| Observables.RewiringKeepsBound | ArtistTool/ArtistTool.Domain/BaseObservable.cs:24-33 | detaching from the old child and attaching to the new one keeps every child attached at most as often as it is stored |
| Observables.KeysInRemove | ArtistTool/ArtistTool.Domain/BaseObservable.cs:47-50 | dropping one stored name lowers only its own child's count by one |
| Observables.Repeat | ArtistTool/ArtistTool.Domain/BaseObservable.cs:38-39 | a relayed notification repeated once per attachment |
| Observables.Observable.constructor | ArtistTool/ArtistTool.Domain/BaseObservable.cs:8-15 | named after the runtime type, with no values, subscriptions or notifications, not disposed |
| Observables.Observable.OnPropertyChanged | ArtistTool/ArtistTool.Domain/BaseObservable.cs:17-18 | exactly one notification with the property's name is raised; nothing else changes |
| Observables.Observable.OnObservablePropertyChanged | ArtistTool/ArtistTool.Domain/BaseObservable.cs:20-36 | the handler leaves the child last stored under the name and joins the new non-null one, which is stored; a null value stores nothing; then the property's notification is raised |
| Observables.Observable.ChildPropertyChanged | ArtistTool/ArtistTool.Domain/BaseObservable.cs:38-39 | "{Name}.{property}" is raised once for every attachment of the handler to that child |
| Observables.Observable.Dispose | ArtistTool/ArtistTool.Domain/BaseObservable.cs:41-62 | the first call detaches the handler from every child; later calls do nothing; values and notifications stay |
| WorkflowNodes.CritiqueResponse.constructor | ArtistTool/ArtistTool.Domain/Agents/CritiqueResponse.cs:3-18 | a fresh observable answer holding the critiques, with nobody listening |
| WorkflowNodes.ResearchResponse.constructor | ArtistTool/ArtistTool.Domain/Agents/ResearchResponse.cs:7-51 | every field starts empty, so each initialiser that sets a non-empty area, topic or medium raises its property's notification |
| WorkflowNodes.ResearchResponse.SetContent | ArtistTool/ArtistTool.Domain/Agents/ResearchResponse.cs:53-64 | a new content is stored and announced once; the same content changes nothing |
| WorkflowNodes.WorkflowNode.constructor | ArtistTool/ArtistTool.Workflows/WorkflowNode.cs:6-10 | not started, not completed, no result, nothing recorded |
| WorkflowNodes.WorkflowNode.SetStarted | ArtistTool/ArtistTool.Workflows/WorkflowNode.cs:12-23 | a change is stored and raises "Started" once; the same value changes nothing |
| WorkflowNodes.WorkflowNode.SetCompleted | ArtistTool/ArtistTool.Workflows/WorkflowNode.cs:25-36 | a change is stored and raises "Completed" once; the same value changes nothing |
| WorkflowNodes.WorkflowNode.SetResult | ArtistTool/ArtistTool.Workflows/WorkflowNode.cs:38-56 | a different result is stored and raises "Result"; an observable one replaces the stored child and is relayed; a non-observable one leaves the stored child attached; the same result changes nothing |
| WorkflowNodes.Raised | ArtistTool/ArtistTool.Workflows/WorkflowNode.cs:17-21 | setting a flag true raises its name exactly when it was false |
| WorkflowNodes.RelayedAfterSetResult | ArtistTool/ArtistTool.Workflows/WorkflowNode.cs:46-49 | once a node holds an observable result, a notification of that result is relayed as "{Name}.{property}" |
| WorkflowContext.PreviewProperty | ArtistTool/ArtistTool.Workflows/MarketingWorkflowContext.cs:123 | the name "MediumPreviews[{medium}]" holds the medium between its brackets |
| WorkflowContext.PreviewPropertyInjective | ArtistTool/ArtistTool.Workflows/MarketingWorkflowContext.cs:120-125 | different media are stored under different property names |
| WorkflowContext.MarketingWorkflowContext.constructor | ArtistTool/ArtistTool.Workflows/MarketingWorkflowContext.cs:9-28 | no photo, no folder, not completed, no fan-in count or diagram, no previews or research nodes, a fresh unrelayed critique node and an empty image registry |
| WorkflowContext.MarketingWorkflowContext.Id | ArtistTool/ArtistTool.Workflows/MarketingWorkflowContext.cs:26 | the photo's id, or the empty string without a photo |
| WorkflowContext.MarketingWorkflowContext.SetPhoto | ArtistTool/ArtistTool.Workflows/MarketingWorkflowContext.cs:30-57 | a different photo is stored and "Photo" and "Id" raised; a non-null one also moves the folder to the photo's sub-folder named after its id, creates it when missing, and raises "BaseDirectory"; clearing keeps the folder; the same photo changes nothing |
| WorkflowContext.MarketingWorkflowContext.RegisterResearch | ArtistTool/ArtistTool.Workflows/MarketingWorkflowContext.cs:59-62 | the node is appended after every node registered before it; nothing else changes |
| WorkflowContext.MarketingWorkflowContext.SetCritique | ArtistTool/ArtistTool.Workflows/MarketingWorkflowContext.cs:71-82 | the same node changes no notification, child or subscription; a different node is stored under "Critique", the handler leaves the child stored there before and joins the new node, and one "Critique" notification is raised |
| WorkflowContext.MarketingWorkflowContext.SetCompleted | ArtistTool/ArtistTool.Workflows/MarketingWorkflowContext.cs:84-95 | a change is stored and raises "Completed" once; the same value changes nothing |
| WorkflowContext.MarketingWorkflowContext.SetWorkflowDiagram | ArtistTool/ArtistTool.Workflows/MarketingWorkflowContext.cs:97-108 | a change is stored and raises "WorkflowDiagram" once; the same value changes nothing |
| WorkflowContext.MarketingWorkflowContext.AddMediumPreview | ArtistTool/ArtistTool.Workflows/MarketingWorkflowContext.cs:112 | writing through the getter stores the node under the medium and raises nothing |
| WorkflowContext.MarketingWorkflowContext.SetMediumPreviews | ArtistTool/ArtistTool.Workflows/MarketingWorkflowContext.cs:110-129 | the same dictionary changes no notification, child or subscription; a different one replaces the old one, each node is stored under its medium's property name and announced in enumeration order, the subscriptions are rewired medium by medium as `Rewired` states, and every other stored child stays |
| WorkflowContext.EnumerateKeys | ArtistTool/ArtistTool.Workflows/MarketingWorkflowContext.cs:120 | the enumeration lists every key exactly once |
| WorkflowContext.StorePreviews | ArtistTool/ArtistTool.Workflows/MarketingWorkflowContext.cs:120-125 | every medium's node is stored under its property name with one notification per medium, in enumeration order; the subscriptions and children are `Rewired`, other properties keep their children and no other property appears |
| WorkflowContext.StoreEach | ArtistTool/ArtistTool.Workflows/MarketingWorkflowContext.cs:120-125 | after the loop over the media in a given order, the notifications are one per medium in that order and the subscriptions and children are those of `Rewired` |
| WorkflowContext.RewiredStep | ArtistTool/ArtistTool.Domain/BaseObservable.cs:24-35 | one more medium detaches the child stored under its property, attaches and stores its node, and adds its property to the notifications |
| WorkflowContext.RewiredStores | ArtistTool/ArtistTool.Workflows/MarketingWorkflowContext.cs:120-125 | after rewiring distinct media, each medium's property holds that medium's node |
| WorkflowContext.RewiredKeepsOthers | ArtistTool/ArtistTool.Domain/BaseObservable.cs:29-33 | rewiring leaves the children of properties outside the media untouched and adds no other property |
| Agents.AgentCacheEntry.constructor | ArtistTool/ArtistTool.Workflows/AgentCacheEntry.cs:6-20 | no name, no prompts and no clients; only the required agent is set |
| Agents.AgentCacheEntry.Prompt | ArtistTool/ArtistTool.Workflows/AgentCacheEntry.cs:10-13 | the prompt stored under the name, or the empty string for an unknown name |
| Agents.AgentCacheEntry.SetPrompt | ArtistTool/ArtistTool.Workflows/AgentCacheEntry.cs:13 | the prompt is added or replaced and reads back as set; a new name is enumerated after the others; nothing else changes |
| Agents.AgentCache.constructor | ArtistTool/ArtistTool.Workflows/AgentCache.cs:8 | an empty cache |
| Agents.AgentCache.GetImageClient | ArtistTool/ArtistTool.Workflows/AgentCache.cs:10-27 | the agent's image generator; an unknown agent is `KeyNotFoundException`, one without a generator `InvalidOperationException` |
| Agents.AgentCache.GetChatClient | ArtistTool/ArtistTool.Workflows/AgentCache.cs:29-46 | the agent's chat client; an unknown agent is `KeyNotFoundException`, one without a client `InvalidOperationException` |
| Agents.AgentCache.Agent | ArtistTool/ArtistTool.Workflows/AgentCache.cs:48-52 | the cached agent; an unknown agent is `KeyNotFoundException` |
| Agents.AgentCache.GetPromptsForAgent | ArtistTool/ArtistTool.Workflows/AgentCache.cs:54-64 | the agent's prompt names in enumeration order; an unknown agent is `KeyNotFoundException` |
| Agents.AgentCache.GetPrompt | ArtistTool/ArtistTool.Workflows/AgentCache.cs:66-83 | the named prompt; an unknown agent or prompt name is `KeyNotFoundException` with its own message |
| Agents.AgentCache.AddAgent | ArtistTool/ArtistTool.Workflows/AgentCache.cs:85-88 | the entry is cached under its name, replacing any earlier agent of that name |
| Agents.AgentCache.ListedPromptsResolve | ArtistTool/ArtistTool.Workflows/AgentCache.cs:54-83 | every name the prompt listing gives is one the prompt lookup accepts, and no other |
| MarketingWorkflows.Step | ArtistTool/ArtistTool.Workflows/MarketingWorkflow.cs:77-85 | a research step carries the medium, the role's area, the prompt name as topic, the id "{researcher}_{medium}_{prompt}", and the prompt template, a space and the medium's text |
| MarketingWorkflows.RoleSteps | ArtistTool/ArtistTool.Workflows/MarketingWorkflow.cs:75-97 | one research step per prompt name of the role |
| MarketingWorkflows.Chain | ArtistTool/ArtistTool.Workflows/MarketingWorkflow.cs:87-96 | one edge per step of a role's chain |
| MarketingWorkflows.Roles | ArtistTool/ArtistTool.Workflows/MarketingWorkflow.cs:68-99 | one fan-in source per research role |
| MarketingWorkflows.Assemble | ArtistTool/ArtistTool.Workflows/MarketingWorkflow.cs:49 | the critique step comes first |
| MarketingWorkflows.PlanAssembles | ArtistTool/ArtistTool.Workflows/MarketingWorkflow.cs:51-100 | the plan is the critique followed by every medium's part, in the media's order |
| MarketingWorkflows.PartsExtend | ArtistTool/ArtistTool.Workflows/MarketingWorkflow.cs:51-100 | appending the next medium's part keeps the parts those of the media so far |
| MarketingWorkflows.FanInCount | ArtistTool/ArtistTool.Workflows/MarketingWorkflow.cs:98-107 | the fan-in has four sources per medium, so the fan-in count is four times the number of media |
| MarketingWorkflows.RolesFanInNull | ArtistTool/ArtistTool.Workflows/MarketingWorkflow.cs:72-98 | within one medium, a role's fan-in source is null exactly when the role has no prompts, and otherwise is the role's last research step |
| MarketingWorkflows.FanInNull | ArtistTool/ArtistTool.Workflows/MarketingWorkflow.cs:51-100 | across the media, fan-in source 4i+j is null exactly when role j has no prompts |
| MarketingWorkflows.PlanFanIn | ArtistTool/ArtistTool.Workflows/MarketingWorkflow.cs:51-100 | the fan-in sources of the earlier media come first, then the last medium's four, one per role |
| MarketingWorkflows.PreviewAfterCritique | ArtistTool/ArtistTool.Workflows/MarketingWorkflow.cs:57 | every medium's preview step has an edge from the critique step |
| MarketingWorkflows.PartOutcome | ArtistTool/ArtistTool.Workflows/MarketingWorkflow.cs:59-74 | a medium's part is built exactly when there is a photo and every research role is cached; otherwise a null dereference or `KeyNotFoundException` for a missing role |
| MarketingWorkflows.BuildOutcome | ArtistTool/ArtistTool.Workflows/MarketingWorkflow.cs:51 | an uncached medium agent fails with `KeyNotFoundException`; otherwise the outcome is the media's |
| MarketingWorkflows.MissingRole | ArtistTool/ArtistTool.Workflows/MarketingWorkflow.cs:74 | the first research role that is not cached, if any |
| MarketingWorkflows.MissingRoleStays | ArtistTool/ArtistTool.Workflows/MarketingWorkflow.cs:68-74 | the first missing role stays the first missing one as more roles are looked at |
| MarketingWorkflows.BuildRole | ArtistTool/ArtistTool.Workflows/MarketingWorkflow.cs:72-97 | the inner loop yields the role's steps, their chain from the preview step, and its last step |
| MarketingWorkflows.BuildRoles | ArtistTool/ArtistTool.Workflows/MarketingWorkflow.cs:68-99 | a missing role fails with the first missing role's error; otherwise the four roles' graph |
| MarketingWorkflows.MarketingWorkflow.constructor | ArtistTool/ArtistTool.Workflows/MarketingWorkflow.cs:13-15 | no graph yet and a fresh, empty context |
| MarketingWorkflows.MarketingWorkflow.InitAsync | ArtistTool/ArtistTool.Workflows/MarketingWorkflow.cs:22-36 | once the graph is built, false and nothing changes; otherwise the photo with the id (null for an unknown id) becomes the context's photo and the answer is true; with a photo the run folder next to the image, named by the id, becomes the base directory and is created, without one the disk is unchanged; a disposed database's exception goes through with the disk unchanged |
| MarketingWorkflows.MarketingWorkflow.RunWorkflow | ArtistTool/ArtistTool.Workflows/MarketingWorkflow.cs:38-116 | a build failure leaves graph, flags and count as they were; otherwise the graph is the whole plan, the fan-in count is four per medium, the diagram is recorded, every medium has an unstarted preview node, and a finished run marks the context completed |
| MarketingWorkflows.MarketingWorkflow.Record | ArtistTool/ArtistTool.Workflows/MarketingWorkflow.cs:102-115 | the graph, its fan-in count and its diagram are recorded, and the run's outcome is returned, marking the context completed when it finished |
| MarketingWorkflows.MarketingWorkflow.BuildWorkflow | ArtistTool/ArtistTool.Workflows/MarketingWorkflow.cs:45-109 | the outcome is the build function's; on success the graph is the plan with the report step bound, with four fan-in sources per medium, and every medium got a new preview node |
| MarketingWorkflows.MarketingWorkflow.BuildMedia | ArtistTool/ArtistTool.Workflows/MarketingWorkflow.cs:51-100 | the media loop stops at the first failing medium; on success the graph is the plan and every medium has a fresh preview node |
| MarketingWorkflows.MarketingWorkflow.AddMedium | ArtistTool/ArtistTool.Workflows/MarketingWorkflow.cs:53-99 | a fresh unstarted node is stored under the medium first; then the medium's part is built, or the step fails as the part outcome says |
| CritiqueExecution.Request | ArtistTool/ArtistTool.Workflows/CritiqueExecutor.cs:20-26 | the request is built exactly when the critique agent is cached with a "Critique" prompt and a chat client and the photo and its file exist; it then carries that prompt, the file's bytes, the photo's content type and the client; a missing agent, a null photo and a missing file fail with their own exceptions, in the source's order |
| CritiqueExecution.Handle | ArtistTool/ArtistTool.Workflows/CritiqueExecutor.cs:13-33 | the critique node is started whatever happens; on success it holds a new response with the client's critiques and is completed; on failure its result and completion stay as they were; the node's notifications are those of exactly the flags and result that changed |
| CritiqueExecution.Record | ArtistTool/ArtistTool.Workflows/CritiqueExecutor.cs:29-30 | the answer is stored as a new response before the node is completed, announcing "Result" and then "Completed" if it was not already |
| MediumPreviewExecution.Extension | ArtistTool/ArtistTool.Workflows/MediumPreviewExecutor.cs:59-64 | ".png" exactly for "image/png", ".jpg" exactly for "image/jpeg", ".img" otherwise |
| MediumPreviewExecution.StemHasNoSeparator | ArtistTool/ArtistTool.Workflows/MediumPreviewExecutor.cs:18 | the photo's file stem holds no path separator |
| MediumPreviewExecution.PreviewPathParts | ArtistTool/ArtistTool.Workflows/MediumPreviewExecutor.cs:66 | the rendition is saved as "{stem}_{medium}{extension}" in the run's folder, so its extension is the media type's and its stem names photo and medium |
| MediumPreviewExecution.Request | ArtistTool/ArtistTool.Workflows/MediumPreviewExecutor.cs:36-42 | the request is built exactly when the medium agent is cached with a prompt for the medium and an image generator and the photo's file exists; it then carries that prompt, the file's bytes, the content type and the generator; an uncached agent fails with `KeyNotFoundException` |
| MediumPreviewExecution.Render | ArtistTool/ArtistTool.Workflows/MediumPreviewExecutor.cs:44-52 | the generator is asked exactly when the request is built; an image is reported only with a non-empty first data content |
| MediumPreviewExecution.Handle | ArtistTool/ArtistTool.Workflows/MediumPreviewExecutor.cs:13-83 | a null photo or a medium without a node fails before anything changes; a node already started, or completed with its file still there, is left alone; otherwise the node is rendered as `Generate` states |
| MediumPreviewExecution.Generate | ArtistTool/ArtistTool.Workflows/MediumPreviewExecutor.cs:34-82 | the node is started first; an exception changes nothing else; no image completes the node with no file and no result; an image is written to the preview path and, only if that succeeds, registered, stored as the result and the node completed |
| MediumPreviewExecution.Publish | ArtistTool/ArtistTool.Workflows/MediumPreviewExecutor.cs:73-81 | one registration is appended for the saved file, the result names the medium and the path, and the node is completed, announcing only what changed |
| ResearchExecution.ContentRelayed | ArtistTool/ArtistTool.Workflows/ResearchExecutor.cs:30 | the node relays a "Content" notification exactly when the answer is non-empty |
| ResearchExecution.Handle | ArtistTool/ArtistTool.Workflows/ResearchExecutor.cs:12-34 | exactly one new node is appended to the context's research, started and holding a response naming the medium, area and topic; the agent's answer becomes the content and completes the node; a failing agent leaves the node started, incomplete and without content; nothing else in the context changes |
| ResearchExecution.Open | ArtistTool/ArtistTool.Workflows/ResearchExecutor.cs:17-26 | a fresh node is registered after the earlier ones, started, and given a fresh response with the step's medium, area and topic and no content |
| ResearchExecution.Fill | ArtistTool/ArtistTool.Workflows/ResearchExecutor.cs:30-31 | the response's content becomes the answer and the node is completed, announcing the relayed "Content" and then "Completed" |
| ReportGeneration.Int32 | ArtistTool/ArtistTool.Workflows/GenerateReportExecutor.cs:12-16 | the counter wraps into the 32-bit range and is unchanged inside it |
| ReportGeneration.FanInCounter.constructor | ArtistTool/ArtistTool.Workflows/GenerateReportExecutor.cs:12 | the shared counter starts at zero |
| ReportGeneration.FanInCounter.Arrive | ArtistTool/ArtistTool.Workflows/GenerateReportExecutor.cs:16-24 | each arrival increments the counter with wrap-around and proceeds exactly when it has reached the fan-in count |
| ReportGeneration.FirstRunProceedsFromLast | ArtistTool/ArtistTool.Workflows/GenerateReportExecutor.cs:16-24 | in the first run, the k-th arrival proceeds exactly when k has reached the fan-in count |
| ReportGeneration.SharedCounterProceedsEarly | ArtistTool/ArtistTool.Workflows/GenerateReportExecutor.cs:12-24 | after earlier runs have counted enough arrivals, a run's first arrival proceeds already |
| ReportGeneration.SecondRunOfFourProceedsAtOnce | ArtistTool/ArtistTool.Workflows/GenerateReportExecutor.cs:12-24 | after a run of four fan-in nodes, the shared count is 4, so the next run of four proceeds on its first arrival |
| ReportGeneration.RunCounters.constructor | ArtistTool/ArtistTool.Workflows/GenerateReportExecutor.cs:12 | no run has been counted yet |
| ReportGeneration.RunCounters.Arrive | ArtistTool/ArtistTool.Workflows/GenerateReportExecutor.cs:16-24 | an arrival counts, with 32-bit wrap-around, against its own run only, and proceeds exactly when that count has reached the fan-in count |
| ReportGeneration.OwnArrivalsCounted | ArtistTool/ArtistTool.Workflows/GenerateReportExecutor.cs:12-24 | with a count per run, a run's count is the number of its own arrivals, however the arrivals of other runs interleave with it |
| ReportGeneration.RunCounterProceedsOnce | ArtistTool/ArtistTool.Workflows/GenerateReportExecutor.cs:16-24 | with a count per run, among a run's N arrivals, interleaved with any other runs, exactly the N-th proceeds |
| ReportGeneration.PhotoPath | ArtistTool/ArtistTool.Workflows/GenerateReportExecutor.cs:35 | a path exactly when there is a photo |
| ReportGeneration.ReportNames | ArtistTool/ArtistTool.Workflows/GenerateReportExecutor.cs:26-31 | the diagram, style sheet and report paths in one folder are distinct |
| ReportGeneration.ArtifactFiles | ArtistTool/ArtistTool.Workflows/GenerateReportExecutor.cs:26-38 | when the artifacts are in place there is a photo and a style sheet to copy; the diagram file holds the mermaid document, the style sheet is the application's, the photo has a copy, and no other file changed |
| ReportGeneration.PublishedFiles | ArtistTool/ArtistTool.Workflows/GenerateReportExecutor.cs:26-129 | a published report also leaves `index.html` holding the report text, and changes no file but the four |
| ReportGeneration.RepublishFails | ArtistTool/ArtistTool.Workflows/GenerateReportExecutor.cs:33 | publishing the same report into a folder that already holds one fails when the style sheet is copied onto the existing copy |
| ReportGeneration.OfMedium | ArtistTool/ArtistTool.Workflows/GenerateReportExecutor.cs:95 | the filter keeps each entry of the medium as often as it occurs, and no other |
| ReportGeneration.Shown | ArtistTool/ArtistTool.Workflows/GenerateReportExecutor.cs:95 | the shown research is a permutation of the medium's entries, ordered by "{Area} {Topic}" |
| ReportGeneration.ShownStable | ArtistTool/ArtistTool.Workflows/GenerateReportExecutor.cs:95 | research entries of the medium whose keys tie keep their registration order |
| Ordering.SortByStable | ArtistTool/ArtistTool.Workflows/GenerateReportExecutor.cs:95 | the sort is stable: the elements whose keys tie with a given key come out in their input order |
| ReportGeneration.MediumSection | ArtistTool/ArtistTool.Workflows/GenerateReportExecutor.cs:86-112 | as written, the loop appends the medium's heading, its figure, each entry's lines after the area before it, and one closing tag |
| ReportGeneration.AppendEntry | ArtistTool/ArtistTool.Workflows/GenerateReportExecutor.cs:97-110 | a change of area closes the previous subsection when its area is not blank and opens one for the new area; then the topic and the rendered content follow, and the entry's area becomes the current one |
| ReportGeneration.DepthAppend | ArtistTool/ArtistTool.Workflows/GenerateReportExecutor.cs:84-115 | the section depth of two runs of lines is the sum of their depths |
| ReportGeneration.OpensWith | ArtistTool/ArtistTool.Workflows/GenerateReportExecutor.cs:87-104 | a line starting with a section tag opens a section |
| ReportGeneration.NeutralWith | ArtistTool/ArtistTool.Workflows/GenerateReportExecutor.cs:89-108 | a line that differs from both section tags early on is neutral |
| ReportGeneration.AreaHeadingOpens | ArtistTool/ArtistTool.Workflows/GenerateReportExecutor.cs:103-104 | an area heading opens a subsection |
| ReportGeneration.MediumHeadingOpens | ArtistTool/ArtistTool.Workflows/GenerateReportExecutor.cs:87-88 | a medium heading opens a section |
| ReportGeneration.TopicLineNeutral | ArtistTool/ArtistTool.Workflows/GenerateReportExecutor.cs:108 | a topic line neither opens nor closes |
| ReportGeneration.FigureNeutral | ArtistTool/ArtistTool.Workflows/GenerateReportExecutor.cs:89-92 | a figure neither opens nor closes |
| ReportGeneration.SectionCloseCloses | ArtistTool/ArtistTool.Workflows/GenerateReportExecutor.cs:101 | the closing tag does not open |
| ReportGeneration.DepthSingle | ArtistTool/ArtistTool.Workflows/GenerateReportExecutor.cs:84-115 | one line's depth is 1, -1 or 0 as it opens, closes or neither |
| ReportGeneration.HeadDepth | ArtistTool/ArtistTool.Workflows/GenerateReportExecutor.cs:87-92 | a medium's heading and figure leave one section open |
| ReportGeneration.OpeningDepth | ArtistTool/ArtistTool.Workflows/GenerateReportExecutor.cs:99-104 | closing the previous subsection and opening the next leaves the depth as it was; opening alone adds one |
| ReportGeneration.BodyDepth | ArtistTool/ArtistTool.Workflows/GenerateReportExecutor.cs:108-110 | a topic and neutral rendered content leave the depth as it was |
| ReportGeneration.DepthStep | ArtistTool/ArtistTool.Workflows/GenerateReportExecutor.cs:97-110 | an entry adds one to the depth only when it opens the first subsection after a blank area |
| ReportGeneration.EntriesLeaveAreaOpen | ArtistTool/ArtistTool.Workflows/GenerateReportExecutor.cs:93-111 | as written, research with non-blank areas always leaves exactly one subsection open |
| ReportGeneration.LastAreaLeftOpen | ArtistTool/ArtistTool.Workflows/GenerateReportExecutor.cs:93-112 | as written, a medium with research leaves its own section open |
| ReportGeneration.CorrectedDepthStep | ArtistTool/ArtistTool.Workflows/GenerateReportExecutor.cs:97-106 | with the correction, an entry opens a subsection only when none is open |
| ReportGeneration.CorrectedEntriesDepth | ArtistTool/ArtistTool.Workflows/GenerateReportExecutor.cs:93-111 | with the correction, exactly one subsection is open once any was opened, and none otherwise |
| ReportGeneration.CorrectedMediumBalanced | ArtistTool/ArtistTool.Workflows/GenerateReportExecutor.cs:86-112 | with the correction, every medium's section is balanced |
| ReportGeneration.CorrectedMediumSection | ArtistTool/ArtistTool.Workflows/GenerateReportExecutor.cs:86-112 | the corrected loop, which also tracks whether a subsection is open, appends the corrected section of the medium |
| ReportGeneration.AppendCorrectedEntry | ArtistTool/ArtistTool.Workflows/GenerateReportExecutor.cs:97-110 | with the correction, a change of area closes the open subsection whatever its area, then opens the new one; a subsection is open afterwards exactly when one was before or one was opened |
| ReportGeneration.CritiqueItem | ArtistTool/ArtistTool.Workflows/GenerateReportExecutor.cs:72-76 | five lines per critique |
| ReportGeneration.LinesAppend | ArtistTool/ArtistTool.Workflows/GenerateReportExecutor.cs:70-77 | the lines of two runs of items are the lines of each, in order |
| ReportGeneration.LinesLength | ArtistTool/ArtistTool.Workflows/GenerateReportExecutor.cs:70-77 | items of equal width give that width per element |
| ReportGeneration.LinesSplit | ArtistTool/ArtistTool.Workflows/GenerateReportExecutor.cs:70-77 | each element's lines come between those before it and those after it |
| ReportGeneration.CritiqueItems | ArtistTool/ArtistTool.Workflows/GenerateReportExecutor.cs:70-77 | the critique list is five lines per critique, each critique's item in its own place |
| ReportGeneration.Padded | ArtistTool/ArtistTool.Workflows/GenerateReportExecutor.cs:121 | the zero-padded date field ends with the number's digits, is at least as wide as asked, and is zeros before them |
| ReportGeneration.CritiquesOf | ArtistTool/ArtistTool.Workflows/GenerateReportExecutor.cs:70 | the critiques exactly when the node holds a critique result |
| ReportGeneration.ResearchEntries | ArtistTool/ArtistTool.Workflows/GenerateReportExecutor.cs:95 | the research, one entry per node in order, exactly when every node holds a research result |
| ReportGeneration.ImageFile | ArtistTool/ArtistTool.Workflows/GenerateReportExecutor.cs:90 | a rendition's file name exactly when the node holds a preview result |
| ReportGeneration.MediaLines | ArtistTool/ArtistTool.Workflows/GenerateReportExecutor.cs:84-113 | the market research, with each medium's section as the chosen loop writes it; succeeds exactly when every medium has a rendition and, if there are media, all research is present; it fails only with a null reference |
| ReportGeneration.MediaSection | ArtistTool/ArtistTool.Workflows/GenerateReportExecutor.cs:84-113 | the loop over the media yields the market research as specified |
| ReportGeneration.Snapshot | ArtistTool/ArtistTool.Workflows/GenerateReportExecutor.cs:35-113 | the report's view of the context keeps the media keys and has a photo exactly when the context does |
| ReportGeneration.Assemble | ArtistTool/ArtistTool.Workflows/GenerateReportExecutor.cs:40-126 | the report is built exactly when the market research was, and passes on its error otherwise |
| ReportGeneration.Html | ArtistTool/ArtistTool.Workflows/GenerateReportExecutor.cs:40-126 | the report is built exactly when there are a photo, a critique result, a rendition for every medium and, with media, all research; it fails only with a null reference |
| ReportGeneration.BuildHtml | ArtistTool/ArtistTool.Workflows/GenerateReportExecutor.cs:40-126 | building yields the specified report |
| ReportGeneration.BuildDocument | ArtistTool/ArtistTool.Workflows/GenerateReportExecutor.cs:54-126 | the appended lines give the specified report |
| ReportGeneration.CritiqueSection | ArtistTool/ArtistTool.Workflows/GenerateReportExecutor.cs:70-77 | the loop yields the critique list |
| ReportGeneration.WriteArtifacts | ArtistTool/ArtistTool.Workflows/GenerateReportExecutor.cs:26-38 | the disk and outcome are those of writing the diagram, then copying the style sheet, then the photo, stopping at the first failure |
| ReportGeneration.Handle | ArtistTool/ArtistTool.Workflows/GenerateReportExecutor.cs:14-134 | with the corrected counter and sections: each arrival increments only its own run's count; one below the fan-in count changes no file; one that reaches it publishes the artifacts and the report of the context as it stood, media in the dictionary's order |
| ReportGeneration.HandleAsWritten | ArtistTool/ArtistTool.Workflows/GenerateReportExecutor.cs:12-134 | as written: each arrival increments the process-wide count with wrap-around; below this run's fan-in count no file changes; at or beyond it the artifacts and the report of the context as it stood are published, with the medium sections of the loop as written |
| ReportGeneration.Report | ArtistTool/ArtistTool.Workflows/GenerateReportExecutor.cs:26-129 | the artifacts, then the report built from the snapshot, then `index.html` |
| WorkflowsHosting.WorkflowsHost.constructor | ArtistTool/ArtistTool.Workflows/WorkflowsHost.cs:8-14 | not started, no workflows |
| WorkflowsHosting.WorkflowsHost.Start | ArtistTool/ArtistTool.Workflows/WorkflowsHost.cs:16-26 | the host is started and its workflows are unchanged; a second start changes nothing |
| WorkflowsHosting.WorkflowsHost.Stop | ArtistTool/ArtistTool.Workflows/WorkflowsHost.cs:48-52 | nothing changes |
| WorkflowsHosting.WorkflowsHost.GetOrStart | ArtistTool/ArtistTool.Workflows/WorkflowsHost.cs:28-46 | a known photo id gives its workflow's context and changes nothing; otherwise a new workflow is initialised and, when that succeeds and no rival was added first, stored under the id and its context returned, holding the database's photo; otherwise the database's exception or `InvalidOperationException`; earlier workflows are kept |
| WorkflowsHosting.WorkflowsHost.Create | ArtistTool/ArtistTool.Workflows/WorkflowsHost.cs:35-37 | a new workflow, initialised: a disposed database fails and the disk is unchanged; otherwise the run folder of the photo found, if any, is created and becomes the context's base directory |
| WorkflowsHosting.WorkflowsHost.Register | ArtistTool/ArtistTool.Workflows/WorkflowsHost.cs:37-45 | a rival's workflow is registered first; a failed initialisation passes on its error; a successful one is registered and its context returned when the id is still free, and `InvalidOperationException` is thrown otherwise |
| WorkflowsHosting.RunFolders | ArtistTool/ArtistTool.Workflows/WorkflowsHost.cs:35-37 | a new workflow creates one run folder exactly when a photo is found, and it is that photo's run directory |
| WorkflowContext.PreviewProperties | ArtistTool/ArtistTool.Workflows/MarketingWorkflowContext.cs:120-125 | one "MediumPreviews[{medium}]" notification per medium, in the enumeration's order |
| Intelligence.PhotoIntelligenceService.constructor | ArtistTool/ArtistTool.Intelligence/PhotoIntelligenceService.cs:8 | the service holds the AI client, the file system and the canvas prompt it was given |

## Left out

- Concurrency is modelled as one step after another. That covers the `SemaphoreSlim` lock of `PersistentPhotoDatabase`, `ConcurrentDictionary` and `ConcurrentBag`, and the re-read of the static counter after `Interlocked.Increment` (`GenerateReportExecutor.cs:16-20`).
- WorkflowsHosting.WorkflowsHost.GetOrStart: a concurrent caller that wins the `TryAdd` race is the `rival` parameter, because the model has no threads.
- The `ConcurrentDictionary` of the host cannot hold a null workflow in the model, so the `value is not null` test is always true.
- MarketingWorkflows.MarketingWorkflow.InitAsync: the `Timer` that defers the run is not modelled. `RunWorkflow` is a separate method that the caller invokes.
- The workflow library's own work is a set of parameters: the run of the graph, `WorkflowBuilder`, executor binding and `ToMermaidString`. The model keeps the graph as explicit lists, and the run's outcome and the diagram text are inputs.
- Relaying messages between executors is not modelled; each executor's `Handle` receives the context directly.
- AI calls are functions held in `Agents` and `Intelligence.Assistant`, and an `Err` stands for an exception. The wording of prompts is not modelled; the model keeps only the values a prompt is built from.
- Prices in `CanvasPreviewResult` and the marketing content are not modelled (decimal arithmetic).
- JSON serialisation is not modelled: files hold the values they encode, and `None` is a document whose text is `null`.
- Client construction, credentials, service registration, the web host and HTTP routing are out of scope. So is every `Services.cs`.
- Logging and cancellation tokens are not modelled. No logged text is part of any contract.
- `Guid.NewGuid` values are the `id` parameters of `ImageManagement.ImageManager.SaveImage` and `Photographs.NewPhoto`.
- `DateTime.Now` is the `ReportDate` parameter, including its culture-dependent `ToShortDateString` text.
- Markdig's markdown-to-HTML conversion is the `toHtml` parameter.
- `AppContext.BaseDirectory` is the `appBase` parameter.
- `Environment.NewLine` is "\n".
- The report's verbatim template text is transcribed with its line breaks as "\n".
- `OrderBy` on strings uses the current culture's comparison, which is the abstract total preorder `le`.
- Case-insensitive comparison and `ToLower` fold only the ASCII letters.
- Paths use '/' as the only separator.
- Files.Write: the folder of the path is not checked against `dirs`. Writing into a missing folder succeeds in the model, where .NET throws `DirectoryNotFoundException`. Every write in the code goes into a folder it has created or that holds the photograph.
- Paths.GetDirectoryName: for "" and for the root "/" the model returns "" and "/". .NET returns `null` for both, and `Path.Combine` of that `null` would throw `ArgumentNullException` (`MarketingWorkflowContext.cs:43-45` and the canvas and marketing paths of `PhotoIntelligenceService.cs`). A photograph's path is a file in an upload folder, so neither input reaches these calls.
- The order in which a `Dictionary` enumerates its keys is left open (`WorkflowContext.Enumerates`).
- Agents.AgentCache.AddAgent: the cache stores a snapshot of the entry's values. Changes made to an `AgentCacheEntry` after it was added are not seen through the cache, unlike the shared reference in the code.
- Observables.Observable.OnObservablePropertyChanged: the `is T` test on values (`BaseObservable.cs:24`) is not modelled. Every value given is an observable object or `null`.
- WorkflowNodes.WorkflowNode.SetResult: results are compared by the response they hold. A `MediumPreviewResponse` is a value, so two equal responses count as the same result.
- WorkflowContext.MarketingWorkflowContext.SetMediumPreviews: the reference comparison of dictionaries is modelled as equality of maps.
- `message.Photo?.ContentType ?? "unknown"` in the critique and preview executors: the model's content type is never null, so the fallback text is not modelled.
- ReportGeneration.Handle reads the context once, on arrival (`ReportGeneration.Snapshot`). Research nodes that change while the report is being built are not seen.
- ReportGeneration.Handle uses the two corrections listed under Findings: a count per run, and closing the last area subsection. The behaviour as written is `ReportGeneration.HandleAsWritten`: it counts on the process-wide `ReportGeneration.FanInCounter` and builds the page with `ReportGeneration.MediumSection`. The lemmas named there state the two defects.
- Intelligence.PhotoIntelligenceService.constructor: the fixed canvas instruction (`PhotoIntelligenceService.cs:116`) is a constructor parameter, because prompt wording is not modelled. The file system is passed in, as it is everywhere in the model.
- `Aspire.DotnetConf` holds no behaviour and is not part of this model. The plain response and interface declarations appear only as the datatypes and classes they define.
- The rating bound of 1 to 10 on `Critique` is only a comment in the code, so the model does not enforce it.

## Findings

| source | as written | input that shows it | evidently intended | confidence | as-written member | corrected member |
|---|---|---|---|---|---|---|
| ArtistTool/ArtistTool.Workflows/GenerateReportExecutor.cs:12-24 | `received` is static: one count for every run in the process, never reset | a second run with four fan-in nodes, after a first run with four: the counter goes from 4 to 5, so the run proceeds on its first arrival, before the other chains have reported; every later arrival proceeds too, and once one of them has published, the next fails copying index.css onto the existing copy (ReportGeneration.RepublishFails) | one count per run, starting at zero; among a run's N arrivals exactly the N-th proceeds | high, not executed | ReportGeneration.SecondRunOfFourProceedsAtOnce | ReportGeneration.RunCounterProceedsOnce |
| ArtistTool/ArtistTool.Workflows/GenerateReportExecutor.cs:93-112 | a change of area closes the previous subsection, but after the loop the single `</section>` closes only the last area subsection | one medium with one research entry whose area is "Price": the lines `<section>` (medium), `<section>` (area) and one `</section>` leave the medium's section open, and the next medium's section nests inside it | every medium's section and area subsections closed: depth 0 after each medium | medium, not executed | ReportGeneration.LastAreaLeftOpen | ReportGeneration.CorrectedMediumBalanced |

=== FILE: agents.dfy ===
/**
 * The agents the workflow calls, and `AgentCache`: the agents by name, each with its named prompt
 * templates and the AI clients it may use.
 *
 * The AI services are functions the model does not see into: an agent answers a prompt with a
 * text, a chat client answers the critique prompt and a photo with critiques, and an image
 * generator answers a prompt and a photo with the first image it produced, if any. Any of them
 * may fail with an exception.
 */
module Agents {
  import opened Wrappers
  import opened Files
  import opened WorkflowNodes

  /** `AIAgent.RunAsync(prompt)`: the answer's text. */
  datatype ResearchAgent = ResearchAgent(run: string -> Result<string>)

  /** `IChatClient.GetResponseAsync<CritiqueResponse>` on a prompt and a photo with its content type. */
  datatype ChatClient = ChatClient(critique: (string, Content, string) -> Result<seq<Critique>>)

  /** The first `DataContent` of an image generator's answer: its media type and bytes. */
  datatype GeneratedImage = GeneratedImage(mediaType: string, data: seq<bv8>)

  /** `IImageGenerator.GenerateAsync` on a prompt and a photo with its content type. */
  datatype ImageGenerator = ImageGenerator(generate: (string, Content, string) -> Result<Option<GeneratedImage>>)

  /**
   * One cached agent. `promptKeys` lists the prompt names in the order the dictionary enumerates
   * them: the order they were first added, since none is ever removed.
   */
  datatype AgentData = AgentData(
    agentName: string,
    promptKeys: seq<string>,
    prompts: map<string, string>,
    agent: ResearchAgent,
    chatClient: Option<ChatClient>,
    imageGenerator: Option<ImageGenerator>)
  {
    /** Every prompt name is listed exactly once. */
    ghost predicate Valid() {
      && (forall i, j :: 0 <= i < j < |promptKeys| ==> promptKeys[i] != promptKeys[j])
      && (forall k :: k in promptKeys <==> k in prompts)
    }
  }

  /** `AgentCacheEntry`: an agent being described, one prompt at a time. */
  class AgentCacheEntry {
    var agentName: string
    var promptKeys: seq<string>
    var prompts: map<string, string>
    var agent: ResearchAgent
    var chatClient: Option<ChatClient>
    var imageGenerator: Option<ImageGenerator>

    function Data(): AgentData
      reads this
    {
      AgentData(agentName, promptKeys, prompts, agent, chatClient, imageGenerator)
    }

    /** A new entry: no name, no prompts, no clients; the agent itself is required. */
    constructor (agent: ResearchAgent)
      ensures Data() == AgentData("", [], map[], agent, None, None) && Data().Valid()
    {
      agentName, promptKeys, prompts := "", [], map[];
      this.agent, chatClient, imageGenerator := agent, None, None;
    }

    /** The indexer's getter: the prompt under the name, or the empty string for an unknown name. */
    function Prompt(promptKey: string): (r: string)
      reads this
      ensures promptKey in prompts ==> r == prompts[promptKey]
      ensures promptKey !in prompts ==> r == ""
    {
      if promptKey in prompts then prompts[promptKey] else ""
    }

    /** The indexer's setter: add or replace the prompt; a new name is enumerated after the others. */
    method SetPrompt(promptKey: string, value: string)
      requires Data().Valid()
      modifies this
      ensures Data().Valid() && prompts == old(prompts)[promptKey := value]
      ensures promptKeys == if promptKey in old(prompts) then old(promptKeys) else old(promptKeys) + [promptKey]
      ensures Prompt(promptKey) == value
      ensures agentName == old(agentName) && agent == old(agent)
      ensures chatClient == old(chatClient) && imageGenerator == old(imageGenerator)
    {
      if promptKey !in prompts {
        promptKeys := promptKeys + [promptKey];
      }
      prompts := prompts[promptKey := value];
    }
  }

  /** The exception for an agent that is not cached. */
  function AgentNotFound(agentName: string): Error {
    KeyNotFound("Agent '" + agentName + "' not found in cache.")
  }

  class AgentCache {
    /** `_cache`: the entries by agent name, as they were when added. */
    var cache: map<string, AgentData>

    ghost predicate Valid()
      reads this
    {
      forall name | name in cache :: cache[name].Valid()
    }

    constructor ()
      ensures cache == map[] && Valid()
    {
      cache := map[];
    }

    /** `GetImageClient`: the agent's image generator; an unknown agent or one without a generator is an error. */
    function GetImageClient(agentName: string): (r: Result<ImageGenerator>)
      reads this
      ensures r.Ok? <==> agentName in cache && cache[agentName].imageGenerator.Some?
      ensures r.Ok? ==> r.value == cache[agentName].imageGenerator.value
      ensures agentName !in cache ==> r == Err(AgentNotFound(agentName))
      ensures agentName in cache && cache[agentName].imageGenerator.None?
              ==> r == Err(InvalidOperation("Agent '" + agentName + "' does not have an associated ImageGenerator."))
    {
      if agentName !in cache then Err(AgentNotFound(agentName))
      else match cache[agentName].imageGenerator
        case Some(generator) => Ok(generator)
        case None => Err(InvalidOperation("Agent '" + agentName + "' does not have an associated ImageGenerator."))
    }

    /** `GetChatClient`: the agent's chat client; an unknown agent or one without a client is an error. */
    function GetChatClient(agentName: string): (r: Result<ChatClient>)
      reads this
      ensures r.Ok? <==> agentName in cache && cache[agentName].chatClient.Some?
      ensures r.Ok? ==> r.value == cache[agentName].chatClient.value
      ensures agentName !in cache ==> r == Err(AgentNotFound(agentName))
      ensures agentName in cache && cache[agentName].chatClient.None?
              ==> r == Err(InvalidOperation("Agent '" + agentName + "' does not have an associated ChatClient."))
    {
      if agentName !in cache then Err(AgentNotFound(agentName))
      else match cache[agentName].chatClient
        case Some(client) => Ok(client)
        case None => Err(InvalidOperation("Agent '" + agentName + "' does not have an associated ChatClient."))
    }

    /** The indexer: the agent itself; an unknown agent is an error. */
    function Agent(agentName: string): (r: Result<ResearchAgent>)
      reads this
      ensures r.Ok? <==> agentName in cache
      ensures r.Ok? ==> r.value == cache[agentName].agent
      ensures r.Err? ==> r.error == AgentNotFound(agentName)
    {
      if agentName in cache then Ok(cache[agentName].agent) else Err(AgentNotFound(agentName))
    }

    /** `GetPromptsForAgent`: a copy of the agent's prompt names, in enumeration order. */
    function GetPromptsForAgent(agentName: string): (r: Result<seq<string>>)
      reads this
      ensures r.Ok? <==> agentName in cache
      ensures r.Ok? ==> r.value == cache[agentName].promptKeys
      ensures r.Err? ==> r.error == AgentNotFound(agentName)
    {
      if agentName in cache then Ok(cache[agentName].promptKeys) else Err(AgentNotFound(agentName))
    }

    /** `GetPrompt`: the named prompt of the agent; an unknown agent or prompt name is an error. */
    function GetPrompt(agentName: string, promptKey: string): (r: Result<string>)
      reads this
      ensures r.Ok? <==> agentName in cache && promptKey in cache[agentName].prompts
      ensures r.Ok? ==> r.value == cache[agentName].prompts[promptKey]
      ensures agentName !in cache ==> r == Err(AgentNotFound(agentName))
      ensures agentName in cache && promptKey !in cache[agentName].prompts
              ==> r == Err(KeyNotFound("Prompt key '" + promptKey + "' not found for agent '" + agentName + "'."))
    {
      if agentName !in cache then Err(AgentNotFound(agentName))
      else if promptKey in cache[agentName].prompts then Ok(cache[agentName].prompts[promptKey])
      else Err(KeyNotFound("Prompt key '" + promptKey + "' not found for agent '" + agentName + "'."))
    }

    /** `AddAgent`: cache the entry under its name, replacing any agent cached under it before. */
    method AddAgent(entry: AgentCacheEntry)
      requires Valid() && entry.Data().Valid()
      modifies this
      ensures Valid() && cache == old(cache)[entry.agentName := entry.Data()]
    {
      cache := cache[entry.agentName := entry.Data()];
    }

    /** Every name `GetPromptsForAgent` lists is one `GetPrompt` accepts, and no other. */
    lemma ListedPromptsResolve(agentName: string, promptKey: string)
      requires Valid() && GetPromptsForAgent(agentName).Ok?
      ensures promptKey in GetPromptsForAgent(agentName).value <==> GetPrompt(agentName, promptKey).Ok?
    {
    }
  }
}

=== FILE: context.dfy ===
/**
 * `MarketingWorkflowContext`: the state one marketing run shares between its steps — the photo,
 * the folder the run writes to, the nodes tracking each step, the images the run produced, the
 * workflow diagram and whether the whole run has completed.
 */
module WorkflowContext {
  import opened Wrappers
  import opened Paths
  import opened Photographs
  import opened Files
  import opened Registry
  import opened Observables
  import opened WorkflowNodes

  /** The folder of a run for a photo: a sub-folder, named after the photo's id, of the photo's own folder. */
  function RunDirectory(path: string, id: string): string {
    Combine(GetDirectoryName(path), id)
  }

  /** The property name under which the `MediumPreviews` setter stores the node of one medium. */
  function PreviewProperty(medium: string): (r: string)
    ensures |r| == |medium| + 16 && r[15..|r| - 1] == medium
  {
    "MediumPreviews[" + medium + "]"
  }

  /** Different media are stored under different property names. */
  lemma PreviewPropertyInjective(a: string, b: string)
    requires PreviewProperty(a) == PreviewProperty(b)
    ensures a == b
  {
    var p := PreviewProperty(a);
    assert a == p[15..|p| - 1] == b;
  }

  class MarketingWorkflowContext {
    const base: Observable
    /** The file system the run's folder is created in. */
    const fs: FileSystem
    const imageRegistry: ImageRegistry
    var baseDirectory: string
    var completed: bool
    var fanInNodes: int
    var critique: WorkflowNode
    var mediumPreviews: map<string, WorkflowNode>
    var researchNodes: seq<WorkflowNode>
    var photo: Photograph?
    var workflowDiagram: string

    /** A new context: no photo, no folder, a fresh critique node and an empty registry. */
    constructor (fs: FileSystem)
      ensures this.fs == fs && fresh(base) && fresh(imageRegistry) && fresh(critique) && fresh(critique.base)
      ensures base.name == "MarketingWorkflowContext" && base.Valid() && base.notifications == []
      ensures base.values == map[] && base.subscriptions == multiset{}
      ensures imageRegistry.Valid() && imageRegistry.registrations == []
      ensures critique.Valid() && !critique.started && !critique.completed && critique.result == None
      ensures baseDirectory == "" && !completed && fanInNodes == 0 && workflowDiagram == ""
      ensures mediumPreviews == map[] && researchNodes == [] && photo == null
    {
      this.fs := fs;
      base := new Observable("MarketingWorkflowContext");
      imageRegistry := new ImageRegistry();
      critique := new WorkflowNode();
      baseDirectory, completed, fanInNodes, workflowDiagram := "", false, 0, "";
      mediumPreviews, researchNodes, photo := map[], [], null;
    }

    /** `Id`: the photo's id, or the empty string without a photo. */
    function Id(): (r: string)
      reads this, photo
      ensures photo == null ==> r == ""
      ensures photo != null ==> r == photo.id
    {
      if photo == null then "" else photo.id
    }

    /**
     * The `Photo` setter. A different photo (by reference) is stored and "Photo" and "Id" are
     * announced; a non-null one also moves the run's folder to the photo's sub-folder, creates
     * it when missing, and announces "BaseDirectory". Clearing the photo keeps the old folder.
     */
    method SetPhoto(value: Photograph?)
      modifies this, base, fs
      ensures photo == value
      ensures old(photo) == value ==> base.notifications == old(base.notifications)
                                      && baseDirectory == old(baseDirectory) && fs.State() == old(fs.State())
      ensures old(photo) != value && value == null
              ==> base.notifications == old(base.notifications) + ["Photo", "Id"]
                  && baseDirectory == old(baseDirectory) && fs.State() == old(fs.State())
      ensures old(photo) != value && value != null
              ==> base.notifications == old(base.notifications) + ["Photo", "Id", "BaseDirectory"]
                  && baseDirectory == RunDirectory(value.path, value.id)
                  && fs.State() == old(fs.State()).(dirs := old(fs.dirs) + {baseDirectory})
      ensures base.values == old(base.values) && base.subscriptions == old(base.subscriptions)
      ensures completed == old(completed) && fanInNodes == old(fanInNodes) && critique == old(critique)
      ensures mediumPreviews == old(mediumPreviews) && researchNodes == old(researchNodes)
      ensures workflowDiagram == old(workflowDiagram)
    {
      if photo != value {
        photo := value;
        base.OnPropertyChanged("Photo");
        base.OnPropertyChanged("Id");
        if value != null {
          baseDirectory := RunDirectory(value.path, value.id);
          if !fs.DirectoryExists(baseDirectory) {
            fs.CreateDirectory(baseDirectory);
          }
          base.OnPropertyChanged("BaseDirectory");
        }
      }
    }

    /** `RegisterResearch`: the node is added after every node registered before it. */
    method RegisterResearch(node: WorkflowNode)
      modifies this
      ensures researchNodes == old(researchNodes) + [node]
      ensures photo == old(photo) && baseDirectory == old(baseDirectory) && completed == old(completed)
      ensures fanInNodes == old(fanInNodes) && critique == old(critique) && mediumPreviews == old(mediumPreviews)
      ensures workflowDiagram == old(workflowDiagram)
    {
      researchNodes := researchNodes + [node];
    }

    /** The `Critique` setter: a different node is stored under "Critique" and its notifications relayed. */
    method SetCritique(value: WorkflowNode)
      requires base.Valid()
      modifies this, base
      ensures base.Valid() && critique == value
      ensures old(critique) == value ==> base.notifications == old(base.notifications)
                                         && base.values == old(base.values)
                                         && base.subscriptions == old(base.subscriptions)
      ensures old(critique) != value
              ==> && base.notifications == old(base.notifications) + ["Critique"]
                  && base.values == old(base.values)["Critique" := value]
                  && base.subscriptions
                     == (if "Critique" in old(base.values)
                         then old(base.subscriptions) - multiset{old(base.values)["Critique"]}
                         else old(base.subscriptions))
                        + multiset{value}
      ensures photo == old(photo) && baseDirectory == old(baseDirectory) && completed == old(completed)
      ensures fanInNodes == old(fanInNodes) && mediumPreviews == old(mediumPreviews)
      ensures researchNodes == old(researchNodes) && workflowDiagram == old(workflowDiagram)
    {
      if critique != value {
        critique := value;
        base.OnObservablePropertyChanged("Critique", value);
      }
    }

    /** The `Completed` setter: a change is stored and announced. */
    method SetCompleted(value: bool)
      modifies this, base
      ensures completed == value
      ensures base.notifications == old(base.notifications) + (if old(completed) != value then ["Completed"] else [])
      ensures base.values == old(base.values) && base.subscriptions == old(base.subscriptions)
      ensures photo == old(photo) && baseDirectory == old(baseDirectory) && fanInNodes == old(fanInNodes)
      ensures critique == old(critique) && mediumPreviews == old(mediumPreviews)
      ensures researchNodes == old(researchNodes) && workflowDiagram == old(workflowDiagram)
    {
      if completed != value {
        completed := value;
        base.OnPropertyChanged("Completed");
      }
    }

    /** The `WorkflowDiagram` setter: a change is stored and announced. */
    method SetWorkflowDiagram(value: string)
      modifies this, base
      ensures workflowDiagram == value
      ensures base.notifications
              == old(base.notifications) + (if old(workflowDiagram) != value then ["WorkflowDiagram"] else [])
      ensures base.values == old(base.values) && base.subscriptions == old(base.subscriptions)
      ensures photo == old(photo) && baseDirectory == old(baseDirectory) && fanInNodes == old(fanInNodes)
      ensures critique == old(critique) && mediumPreviews == old(mediumPreviews)
      ensures researchNodes == old(researchNodes) && completed == old(completed)
    {
      if workflowDiagram != value {
        workflowDiagram := value;
        base.OnPropertyChanged("WorkflowDiagram");
      }
    }

    /**
     * `MediumPreviews[medium] = node` through the getter: the live dictionary is written to
     * directly, so nothing is announced and the node's notifications are not relayed.
     */
    method AddMediumPreview(medium: string, node: WorkflowNode)
      modifies this
      ensures mediumPreviews == old(mediumPreviews)[medium := node]
      ensures photo == old(photo) && baseDirectory == old(baseDirectory) && completed == old(completed)
      ensures fanInNodes == old(fanInNodes) && critique == old(critique)
      ensures researchNodes == old(researchNodes) && workflowDiagram == old(workflowDiagram)
    {
      mediumPreviews := mediumPreviews[medium := node];
    }

    /**
     * The `MediumPreviews` setter: a different dictionary replaces the old one, and each of its
     * nodes is stored under "MediumPreviews[{medium}]" and announced, one medium at a time, in
     * the dictionary's order.
     */
    method SetMediumPreviews(value: map<string, WorkflowNode>) returns (order: seq<string>)
      requires base.Valid()
      modifies this, base
      ensures base.Valid() && mediumPreviews == value
      ensures old(mediumPreviews) == value ==> base.notifications == old(base.notifications)
                                               && base.values == old(base.values)
                                               && base.subscriptions == old(base.subscriptions)
      ensures old(mediumPreviews) != value
              ==> && Enumerates(order, value.Keys)
                  && base.notifications == old(base.notifications) + PreviewProperties(order)
                  && (forall m :: m in value ==> PreviewProperty(m) in base.values
                                                 && base.values[PreviewProperty(m)] == value[m])
                  && (forall k :: k in old(base.values) && k !in PreviewProperties(order)
                                  ==> k in base.values && base.values[k] == old(base.values)[k])
                  && (forall k :: k in base.values ==> k in old(base.values) || k in PreviewProperties(order))
                  && (base.subscriptions, base.values)
                     == Rewired(old(base.subscriptions), old(base.values), order, value)
      ensures photo == old(photo) && baseDirectory == old(baseDirectory) && completed == old(completed)
      ensures fanInNodes == old(fanInNodes) && critique == old(critique)
      ensures researchNodes == old(researchNodes) && workflowDiagram == old(workflowDiagram)
    {
      order := [];
      if mediumPreviews != value {
        mediumPreviews := value;
        order := StorePreviews(base, value);
      }
    }
  }

  /** `order` lists every element of `keys` exactly once. */
  ghost predicate Enumerates(order: seq<string>, keys: set<string>) {
    && (forall i, j :: 0 <= i < j < |order| ==> order[i] != order[j])
    && (forall m :: m in order <==> m in keys)
  }

  /** The property names of the media, in order. */
  function PreviewProperties(order: seq<string>): (r: seq<string>)
    ensures |r| == |order| && forall i :: 0 <= i < |order| ==> r[i] == PreviewProperty(order[i])
  {
    if order == [] then [] else PreviewProperties(order[..|order| - 1]) + [PreviewProperty(order[|order| - 1])]
  }

  /**
   * The children on record and the handler's subscriptions after the `MediumPreviews` setter's
   * loop: medium by medium in `order`, the child stored under its property is detached, the
   * medium's node attached and stored, as `OnObservablePropertyChanged` does. Properties the loop
   * does not write keep their children.
   */
  ghost function Rewired(subscriptions: multiset<object>, values: map<string, object>, order: seq<string>,
                         value: map<string, WorkflowNode>): (multiset<object>, map<string, object>)
    requires forall m :: m in order ==> m in value
    decreases |order|
  {
    if order == [] then (subscriptions, values)
    else
      var n := |order| - 1;
      assert forall m :: m in order[..n] ==> m in order;
      var (subs, vals) := Rewired(subscriptions, values, order[..n], value);
      var property := PreviewProperty(order[n]);
      ((if property in vals then subs - multiset{vals[property]} else subs) + multiset{value[order[n]]},
       vals[property := value[order[n]]])
  }

  /** One more medium rewires its property on top of the media before it. */
  lemma RewiredStep(subscriptions: multiset<object>, values: map<string, object>, order: seq<string>,
                    value: map<string, WorkflowNode>, i: nat)
    requires i < |order| && forall m :: m in order ==> m in value
    ensures forall m :: m in order[..i] ==> m in value
    ensures var (subs, vals) := Rewired(subscriptions, values, order[..i], value);
      var property := PreviewProperty(order[i]);
      Rewired(subscriptions, values, order[..i + 1], value)
      == ((if property in vals then subs - multiset{vals[property]} else subs) + multiset{value[order[i]]},
          vals[property := value[order[i]]])
    ensures PreviewProperties(order[..i + 1]) == PreviewProperties(order[..i]) + [PreviewProperty(order[i])]
  {
    assert order[..i + 1][..i] == order[..i];
    assert forall m :: m in order[..i] ==> m in order;
  }

  /** Properties the loop does not write keep their children, and no other property appears. */
  lemma {:induction false} RewiredKeepsOthers(subscriptions: multiset<object>, values: map<string, object>,
                                              order: seq<string>, value: map<string, WorkflowNode>)
    requires forall m :: m in order ==> m in value
    ensures var r := Rewired(subscriptions, values, order, value);
      && (forall k :: k in values && k !in PreviewProperties(order) ==> k in r.1 && r.1[k] == values[k])
      && (forall k :: k in r.1 ==> k in values || k in PreviewProperties(order))
    decreases |order|
  {
    if order != [] {
      var n := |order| - 1;
      RewiredStep(subscriptions, values, order, value, n);
      assert order[..n + 1] == order;
      RewiredKeepsOthers(subscriptions, values, order[..n], value);
      assert PreviewProperties(order) == PreviewProperties(order[..n]) + [PreviewProperty(order[n])];
    }
  }

  /** With every medium listed once, each medium's property ends up holding the medium's node. */
  lemma {:induction false} RewiredStores(subscriptions: multiset<object>, values: map<string, object>, order: seq<string>,
                                         value: map<string, WorkflowNode>)
    requires forall m :: m in order ==> m in value
    requires forall i, j :: 0 <= i < j < |order| ==> order[i] != order[j]
    ensures var r := Rewired(subscriptions, values, order, value);
      forall k :: 0 <= k < |order| ==> PreviewProperty(order[k]) in r.1 && r.1[PreviewProperty(order[k])] == value[order[k]]
    decreases |order|
  {
    if order != [] {
      var n := |order| - 1;
      RewiredStep(subscriptions, values, order, value, n);
      assert order[..n + 1] == order;
      RewiredStores(subscriptions, values, order[..n], value);
      forall k | 0 <= k < n
        ensures PreviewProperty(order[k]) != PreviewProperty(order[n])
      {
        if PreviewProperty(order[k]) == PreviewProperty(order[n]) {
          PreviewPropertyInjective(order[k], order[n]);
        }
      }
    }
  }

  /** The order in which a dictionary enumerates its keys, which the model leaves open. */
  method EnumerateKeys(keys: set<string>) returns (order: seq<string>)
    ensures Enumerates(order, keys)
  {
    var pending := keys;
    order := [];
    while pending != {}
      invariant pending <= keys
      invariant forall m :: m in keys ==> (m in pending <==> m !in order)
      invariant forall i, j :: 0 <= i < j < |order| ==> order[i] != order[j]
      invariant forall m :: m in order ==> m in keys
      decreases pending
    {
      var m :| m in pending;
      order, pending := order + [m], pending - {m};
    }
  }

  /** The loop of the `MediumPreviews` setter over the media in `order`: rewire, store and announce each node. */
  method StoreEach(base: Observable, value: map<string, WorkflowNode>, order: seq<string>)
    requires base.Valid() && forall m :: m in order ==> m in value
    modifies base
    ensures base.Valid()
    ensures base.notifications == old(base.notifications) + PreviewProperties(order)
    ensures (base.subscriptions, base.values) == Rewired(old(base.subscriptions), old(base.values), order, value)
  {
    ghost var subscriptions, values, notifications := base.subscriptions, base.values, base.notifications;
    for i := 0 to |order|
      invariant base.Valid()
      invariant base.notifications == notifications + PreviewProperties(order[..i])
      invariant (base.subscriptions, base.values) == Rewired(subscriptions, values, order[..i], value)
    {
      RewiredStep(subscriptions, values, order, value, i);
      base.OnObservablePropertyChanged(PreviewProperty(order[i]), value[order[i]]);
    }
    assert order[..|order|] == order;
  }

  /** The loop of the `MediumPreviews` setter: store and announce every medium's node. */
  method StorePreviews(base: Observable, value: map<string, WorkflowNode>) returns (order: seq<string>)
    requires base.Valid()
    modifies base
    ensures base.Valid() && Enumerates(order, value.Keys)
    ensures base.notifications == old(base.notifications) + PreviewProperties(order)
    ensures forall m :: m in value ==> PreviewProperty(m) in base.values && base.values[PreviewProperty(m)] == value[m]
    ensures (base.subscriptions, base.values) == Rewired(old(base.subscriptions), old(base.values), order, value)
    ensures forall k :: k in old(base.values) && k !in PreviewProperties(order)
                        ==> k in base.values && base.values[k] == old(base.values)[k]
    ensures forall k :: k in base.values ==> k in old(base.values) || k in PreviewProperties(order)
  {
    order := EnumerateKeys(value.Keys);
    StoreEach(base, value, order);
    RewiredStores(old(base.subscriptions), old(base.values), order, value);
    RewiredKeepsOthers(old(base.subscriptions), old(base.values), order, value);
    forall m | m in value
      ensures PreviewProperty(m) in base.values && base.values[PreviewProperty(m)] == value[m]
    {
      var k :| 0 <= k < |order| && order[k] == m;
    }
  }
}

=== FILE: critique_executor.dfy ===
/**
 * `CritiqueExecutor`: the first step of a marketing run. It marks the context's critique node
 * started, asks the critique agent's chat client to critique the photo, and stores the answer in
 * the node before marking it completed. The handler changes the context it receives in place and
 * hands the same context on.
 */
module CritiqueExecution {
  import opened Wrappers
  import opened Files
  import opened Photographs
  import opened Agents
  import opened WorkflowNodes
  import opened WorkflowContext

  /** `CRITIQUE_AGENT`. */
  const CritiqueAgent: string := "Photo Critique Agent"

  /** What the chat client is given: the prompt, the photo's bytes and content type, and the client itself. */
  datatype CritiqueRequest = CritiqueRequest(prompt: string, image: Content, contentType: string, client: ChatClient)

  /**
   * The request, or the first exception met while putting it together: the "Critique" prompt of
   * the critique agent, then the photo, then its file, then the agent's chat client.
   */
  function Request(agents: AgentCache, photo: Photograph?, fs: FileSystem): (r: Result<CritiqueRequest>)
    reads agents, photo, fs
    ensures r.Ok? <==> && CritiqueAgent in agents.cache
                       && "Critique" in agents.cache[CritiqueAgent].prompts
                       && photo != null && photo.path in fs.files
                       && agents.cache[CritiqueAgent].chatClient.Some?
    ensures r.Ok? ==> r.value == CritiqueRequest(agents.cache[CritiqueAgent].prompts["Critique"], fs.files[photo.path],
                                                 photo.contentType, agents.cache[CritiqueAgent].chatClient.value)
    ensures CritiqueAgent !in agents.cache ==> r == Err(AgentNotFound(CritiqueAgent))
    ensures agents.GetPrompt(CritiqueAgent, "Critique").Ok? && photo == null ==> r == Err(NullReference)
    ensures agents.GetPrompt(CritiqueAgent, "Critique").Ok? && photo != null && photo.path !in fs.files
            ==> r == Err(FileNotFound(photo.path))
  {
    var prompt :- agents.GetPrompt(CritiqueAgent, "Critique");
    if photo == null then Err(NullReference)
    else
      var image :- fs.ReadFile(photo.path);
      var client :- agents.GetChatClient(CritiqueAgent);
      Ok(CritiqueRequest(prompt, image, photo.contentType, client))
  }

  /** The critiques the chat client answers the request with, or the exception that ended the step. */
  function Answer(agents: AgentCache, photo: Photograph?, fs: FileSystem): Result<seq<Critique>>
    reads agents, photo, fs
  {
    var q :- Request(agents, photo, fs);
    q.client.critique(q.prompt, q.image, q.contentType)
  }

  /**
   * `HandleAsync`. The node is started before anything is looked up; the answer is stored as a
   * new `CritiqueResponse` and only then is the node completed. When a lookup or the call fails,
   * the node is left started with its earlier result and completion.
   */
  method Handle(context: MarketingWorkflowContext, agents: AgentCache) returns (outcome: Outcome)
    requires context.critique.Valid()
    modifies context.critique, context.critique.base
    ensures context.critique.Valid() && context.critique.started
    ensures outcome.Done? <==> Answer(agents, context.photo, context.fs).Ok?
    ensures outcome.Failed?
            ==> && outcome.error == Answer(agents, context.photo, context.fs).error
                && context.critique.completed == old(context.critique.completed)
                && context.critique.result == old(context.critique.result)
    ensures outcome.Done?
            ==> && context.critique.completed
                && context.critique.result.Some? && context.critique.result.value.Critiqued?
                && fresh(context.critique.result.value.critique)
                && context.critique.result.value.critique.critiques == Answer(agents, context.photo, context.fs).value
    ensures context.critique.base.notifications
            == old(context.critique.base.notifications) + Raised(old(context.critique.started), "Started")
               + (if outcome.Done? then ["Result"] + Raised(old(context.critique.completed), "Completed") else [])
  {
    var node := context.critique;
    node.SetStarted(true);
    var answer := Answer(agents, context.photo, context.fs);
    if answer.Err? {
      return Failed(answer.error);
    }
    Record(node, answer.value);
    outcome := Done;
  }

  /** The steps after the answer: store it as a new response, then complete the node. */
  method Record(node: WorkflowNode, critiques: seq<Critique>)
    requires node.Valid()
    modifies node, node.base
    ensures node.Valid() && node.started == old(node.started) && node.completed
    ensures node.result.Some? && node.result.value.Critiqued? && fresh(node.result.value.critique)
    ensures node.result.value.critique.critiques == critiques
    ensures node.base.notifications == old(node.base.notifications) + ["Result"] + Raised(old(node.completed), "Completed")
  {
    var response := new CritiqueResponse(critiques);
    node.SetResult(Some(Critiqued(response)));
    node.SetCompleted(true);
  }
}

=== FILE: files.dfy ===
/**
 * The file system as the modelled code sees it: a map from path to content, a set of existing
 * directories, and a set of paths on which writing, moving onto, or deleting fails with an
 * `IOException` (a locked or read-only file). JSON documents are held as the values they encode;
 * a document whose text is the JSON `null` holds `None`.
 */
module Files {
  import opened Wrappers
  import opened Photographs
  import opened PhotoCatalog

  /** What `GenerateMarketingContentAsync` stores; the price is not part of this model. */
  datatype MarketingContent = MarketingContent(headline: string, marketingCopy: string, twitterText: string)

  /** The content of one file. */
  datatype Content =
    | Bytes(data: seq<bv8>)
    | Text(text: string)
    | CategoriesDocument(categories: Option<seq<Category>>)
    | IdsDocument(ids: Option<seq<string>>)
    | PhotoDocument(photo: Option<PhotoData>)
    | TagsDocument(tags: Option<seq<Tag>>)
    | MarketingDocument(marketing: Option<MarketingContent>)

  /** The whole file system at one moment. */
  datatype Disk = Disk(files: map<string, Content>, dirs: set<string>, denied: set<string>)

  /** `File.WriteAllText` / `File.WriteAllBytes`: create or replace the file. */
  function Write(d: Disk, path: string, content: Content): (r: (Disk, Outcome))
    ensures r.1.Done? <==> path !in d.denied
    ensures r.1.Done? ==> r.0 == d.(files := d.files[path := content])
    ensures r.1.Failed? ==> r.0 == d && r.1.error == IOFailure(path)
  {
    if path in d.denied then (d, Failed(IOFailure(path)))
    else (d.(files := d.files[path := content]), Done)
  }

  /** `File.Move(source, target, overwrite)`. */
  function Move(d: Disk, source: string, target: string, overwrite: bool): (r: (Disk, Outcome))
    ensures r.1.Done? <==> (source in d.files && source !in d.denied && target !in d.denied
                            && (overwrite || target !in d.files))
    ensures r.1.Done? ==> r.0 == d.(files := (d.files - {source})[target := d.files[source]])
    ensures r.1.Failed? ==> r.0 == d
  {
    if source !in d.files then (d, Failed(FileNotFound(source)))
    else if source in d.denied then (d, Failed(IOFailure(source)))
    else if target in d.denied || (!overwrite && target in d.files) then (d, Failed(IOFailure(target)))
    else (d.(files := (d.files - {source})[target := d.files[source]]), Done)
  }

  /** `File.Delete`: deleting a file that does not exist is not an error. */
  function Delete(d: Disk, path: string): (r: (Disk, Outcome))
    ensures r.1.Done? <==> path !in d.denied || path !in d.files
    ensures r.1.Done? ==> r.0 == d.(files := d.files - {path})
    ensures r.1.Failed? ==> r.0 == d
  {
    if path !in d.files then (d, Done)
    else if path in d.denied then (d, Failed(IOFailure(path)))
    else (d.(files := d.files - {path}), Done)
  }

  /** `File.Copy(source, target)` without overwrite: an existing target is an error. */
  function Copy(d: Disk, source: string, target: string): (r: (Disk, Outcome))
    ensures r.1.Done? <==> source in d.files && target !in d.files && target !in d.denied
    ensures r.1.Done? ==> r.0 == d.(files := d.files[target := d.files[source]])
    ensures r.1.Failed? ==> r.0 == d
  {
    if source !in d.files then (d, Failed(FileNotFound(source)))
    else if target in d.files || target in d.denied then (d, Failed(IOFailure(target)))
    else (d.(files := d.files[target := d.files[source]]), Done)
  }

  /** `File.ReadAllText` / `File.ReadAllBytes`. */
  function Read(d: Disk, path: string): (r: Result<Content>)
    ensures r.Ok? <==> path in d.files
    ensures r.Ok? ==> r.value == d.files[path]
    ensures r.Err? ==> r.error == FileNotFound(path)
  {
    if path in d.files then Ok(d.files[path]) else Err(FileNotFound(path))
  }

  /** The file system, which the modelled operations change one call at a time. */
  class FileSystem {
    var files: map<string, Content>
    var dirs: set<string>
    var denied: set<string>

    function State(): Disk
      reads this
    {
      Disk(files, dirs, denied)
    }

    constructor (initial: Disk)
      ensures State() == initial
    {
      files, dirs, denied := initial.files, initial.dirs, initial.denied;
    }

    /** `File.Exists`. */
    predicate Exists(path: string)
      reads this
    {
      path in files
    }

    /** `Directory.Exists`. */
    predicate DirectoryExists(path: string)
      reads this
    {
      path in dirs
    }

    /** `Directory.CreateDirectory`: creating an existing directory is not an error. */
    method CreateDirectory(path: string)
      modifies this
      ensures State() == old(State()).(dirs := old(dirs) + {path})
    {
      dirs := dirs + {path};
    }

    method WriteFile(path: string, content: Content) returns (outcome: Outcome)
      modifies this
      ensures (State(), outcome) == Write(old(State()), path, content)
    {
      if path in denied {
        return Failed(IOFailure(path));
      }
      files := files[path := content];
      outcome := Done;
    }

    method MoveFile(source: string, target: string, overwrite: bool) returns (outcome: Outcome)
      modifies this
      ensures (State(), outcome) == Move(old(State()), source, target, overwrite)
    {
      var r := Move(State(), source, target, overwrite);
      files := r.0.files;
      outcome := r.1;
    }

    method DeleteFile(path: string) returns (outcome: Outcome)
      modifies this
      ensures (State(), outcome) == Delete(old(State()), path)
    {
      if path in files && path in denied {
        return Failed(IOFailure(path));
      }
      files := files - {path};
      outcome := Done;
    }

    method CopyFile(source: string, target: string) returns (outcome: Outcome)
      modifies this
      ensures (State(), outcome) == Copy(old(State()), source, target)
    {
      var r := Copy(State(), source, target);
      files := r.0.files;
      outcome := r.1;
    }

    function ReadFile(path: string): Result<Content>
      reads this
    {
      Read(State(), path)
    }
  }
}

=== FILE: image_manager.dfy ===
/**
 * `ImageManager`: accepts an uploaded image, stores its bytes under the images folder and adds
 * the photograph to the database, deleting the file again when either step fails; and opens
 * the stored image of a photograph by id.
 */
module ImageManagement {
  import opened Wrappers
  import opened Text
  import opened Paths
  import opened Photographs
  import opened Ordering
  import opened PhotoCatalog
  import opened Files
  import opened PersistentStore
  import opened Intelligence
  import opened IntelligentStore

  /** The extensions accepted, compared after lower-casing. */
  const ValidExtensions: seq<string> := [".jpg", ".jpeg", ".gif", ".png", ".tif", ".tiff"]

  function ImagesFolder(root: string): string {
    Combine(root, "images")
  }

  /** The lower-cased extension of the uploaded file's name. */
  function Extension(filename: string): string {
    ToLower(GetExtension(filename))
  }

  /** An upload is accepted when its content type mentions "image" and its extension is a valid one. */
  predicate Accepted(contentType: string, filename: string) {
    Contains(contentType, "image") && Extension(filename) in ValidExtensions
  }

  /** Where the image of the given id is stored: `{imagesFolder}/{id}{ext}`. */
  function ImagePath(images: string, id: string, filename: string): string {
    Combine(images, id) + Extension(filename)
  }

  function ContentTypeNotSupported(contentType: string, filename: string): Error {
    InvalidOperation("Content type " + contentType + " not supported for file '" + filename + "'")
  }

  function ExtensionNotSupported(filename: string): Error {
    InvalidOperation("Extension '" + Extension(filename) + "' not supported for file '" + filename + "'")
  }

  function PhotoIdNotFound(id: string): Error {
    InvalidOperation("File with id: '" + id + "' not found.")
  }

  /** The photograph built for an upload: the stem as its title, the derived path, nothing else set. */
  function Uploaded(images: string, id: string, filename: string, contentType: string): (r: PhotoData)
    ensures r.id == id && r.fileName == filename && r.contentType == contentType
    ensures r.title == GetFileNameWithoutExtension(filename) && r.path == ImagePath(images, id, filename)
    ensures r.description == "" && r.tags == [] && r.categories == []
  {
    NewPhoto(id).(fileName := filename, title := GetFileNameWithoutExtension(filename),
                  contentType := contentType, path := ImagePath(images, id, filename))
  }

  lemma ValidExtensionEnding(ext: string)
    requires ext in ValidExtensions
    ensures |ext| > 0 && ext[|ext| - 1] in {'g', 'f'}
  {
  }

  /** An accepted image path ends in 'g' or 'f' (".jpg", ".jpeg", ".png", ".gif", ".tif", ".tiff"). */
  lemma AcceptedPathEnding(images: string, id: string, filename: string)
    requires Extension(filename) in ValidExtensions
    ensures var path := ImagePath(images, id, filename);
      |path| > 0 && path[|path| - 1] in {'g', 'f'}
  {
    var ext := Extension(filename);
    ValidExtensionEnding(ext);
    var path := Combine(images, id) + ext;
    assert path[|path| - 1] == ext[|ext| - 1];
  }

  /** No write of the database touches an image file: those paths end in ".json" or ".json.tmp". */
  lemma ImageUntouchedByPersistence(root: string, c: Catalog, p: PhotoData, le: (string, string) -> bool, path: string)
    requires TotalPreorder(le)
    requires |path| > 0 && path[|path| - 1] in {'g', 'f'}
    ensures Untouched(PhotoWrites(root, c, p, le), path)
  {
    var ws := PhotoWrites(root, c, p, le);
    JsonFileEnd(root, p.id + ".json", path);
    JsonFileEnd(root, "photos-index.json", path);
    JsonFileEnd(root, "categories.json", path);
    JsonFileEnd(root, "tags.json", path);
  }

  /** A JSON file of the database, and its temporary file, differ from a path ending in 'g' or 'f'. */
  lemma JsonFileEnd(root: string, name: string, path: string)
    requires |name| > 0 && name[|name| - 1] == 'n'
    requires |path| > 0 && path[|path| - 1] in {'g', 'f'}
    ensures path != Combine(root, name) && path != TempPath(Combine(root, name))
  {
    CombineEndsWith(root, name);
    var w := Combine(root, name);
    assert w[|w| - 1] == 'n';
    assert TempPath(w)[|TempPath(w)| - 1] == 'p';
  }

  /** A photograph added under a new id is found again by that id, with the path it was saved under. */
  lemma SavedPhotoFound(c: Catalog, p: PhotoData)
    requires forall j :: 0 <= j < |c.photos| ==> c.photos[j].id != p.id
    ensures GetPhoto(AddPhoto(c, p), p.id).Some?
    ensures GetPhoto(AddPhoto(c, p), p.id).value.path == p.path
  {
    var r := AddPhoto(c, p);
    GetPhotoSpec(r, p.id);
    assert r.photos[|c.photos|].id == p.id;
  }

  /**
   * What saving an accepted upload does, on values: the disk afterwards, the photograph returned
   * or the error thrown, and the catalog afterwards. A locked path fails at once; a failing
   * writer fails with its error; otherwise the enriched photograph is added to the catalog
   * (unless the database is disposed) and the database's files are written. Whenever the save
   * fails after the file was opened, the image file is deleted again.
   */
  function AcceptedSave(before: Disk, upload: PhotoData, bytes: Result<seq<bv8>>, locked: nat,
                        service: Option<Assistant>, listing: Result<seq<Category>>, disposed: bool,
                        root: string, c: Catalog, le: (string, string) -> bool): (r: (Disk, Result<PhotoData>, Catalog))
    requires TotalPreorder(le)
    requires |upload.path| > 0 && upload.path[|upload.path| - 1] in {'g', 'f'}
    ensures r.0.denied == before.denied
    ensures upload.path in before.denied ==> r == (before, Err(IOFailure(upload.path)), c)
    ensures upload.path !in before.denied && bytes.Err? ==>
      r == (before.(files := before.files - {upload.path}), Err(bytes.error), c)
    ensures upload.path !in before.denied && bytes.Ok? && disposed ==>
      r == (before.(files := before.files - {upload.path}), Err(DatabaseDisposed), c)
    ensures upload.path !in before.denied && bytes.Ok? && !disposed ==>
      var written := before.(files := before.files[upload.path := Bytes(bytes.value)]);
      var photo := Enriched(upload, service, written, locked, listing);
      var (disk, outcome) := WriteAll(written, PhotoWrites(root, r.2, photo, le));
      && r.2 == AddPhoto(c, photo)
      && (r.1.Ok? <==> Writable(before, PhotoWrites(root, r.2, photo, le)))
      && (outcome.Done? ==> r.0 == disk && r.1 == Ok(photo))
      && (outcome.Failed? ==> r.0 == disk.(files := disk.files - {upload.path}) && r.1 == Err(outcome.error))
    ensures r.1.Err? && upload.path !in before.denied ==> upload.path !in r.0.files
    ensures r.1.Ok? ==>
      && bytes.Ok? && r.1.value.id == upload.id && r.1.value.fileName == upload.fileName
      && r.1.value.contentType == upload.contentType && r.1.value.path == upload.path
      && Read(r.0, upload.path) == Ok(Bytes(bytes.value))
      && r.2 == AddPhoto(c, r.1.value)
  {
    var path := upload.path;
    if path in before.denied then (before, Err(IOFailure(path)), c)
    else if bytes.Err? then (before.(files := before.files - {path}), Err(bytes.error), c)
    else
      var written := before.(files := before.files[path := Bytes(bytes.value)]);
      var photo := Enriched(upload, service, written, locked, listing);
      if disposed then (before.(files := before.files - {path}), Err(DatabaseDisposed), c)
      else
        EnrichedKeepsGiven(upload, service, written, locked, listing);
        StoreSaved(written, path, photo, root, c, le)
  }

  /**
   * The database half of a save, once the image is written: add the photograph to the catalog and
   * write the database's files; if that fails, delete the image again.
   */
  function StoreSaved(written: Disk, path: string, photo: PhotoData, root: string, c: Catalog,
                      le: (string, string) -> bool): (r: (Disk, Result<PhotoData>, Catalog))
    requires TotalPreorder(le)
    requires |path| > 0 && path[|path| - 1] in {'g', 'f'}
    ensures r.2 == AddPhoto(c, photo) && r.0.denied == written.denied
    ensures r.1.Ok? <==> Writable(written, PhotoWrites(root, r.2, photo, le))
    ensures var (disk, outcome) := WriteAll(written, PhotoWrites(root, r.2, photo, le));
      && (outcome.Done? ==> r.0 == disk && r.1 == Ok(photo))
      && (outcome.Failed? ==> r.0 == disk.(files := disk.files - {path}) && r.1 == Err(outcome.error))
    ensures r.1.Err? ==> path !in r.0.files
    ensures r.1.Ok? ==> SameAt(written, r.0, path)
  {
    var added := AddPhoto(c, photo);
    var writes := PhotoWrites(root, added, photo, le);
    ImageUntouchedByPersistence(root, added, photo, le, path);
    WriteAllUntouched(written, writes, path);
    WriteAllSucceeds(written, writes);
    var (disk, outcome) := WriteAll(written, writes);
    if outcome.Failed? then (disk.(files := disk.files - {path}), Err(outcome.error), added)
    else (disk, Ok(photo), added)
  }

  /** What a save hands back: the photograph's fields, or the exception. */
  function Returned(r: Result<Photograph>): Result<PhotoData>
    reads if r.Ok? then {r.value} else {}
  {
    if r.Ok? then Ok(r.value.Data()) else Err(r.error)
  }

  class ImageManager {
    const database: IntelligentPhotoDatabase
    const fs: FileSystem
    const rootFolder: string
    const imagesFolder: string

    ghost predicate Valid()
      reads this, database, database.persistent, database.persistent.store
    {
      database.Valid() && fs == database.persistent.fs
    }

    /** The constructor: create the root folder and the images folder below it where missing. */
    constructor (db: IntelligentPhotoDatabase, files: FileSystem, appData: string)
      requires db.Valid() && files == db.persistent.fs
      modifies files
      ensures Valid() && database == db && fs == files
      ensures rootFolder == RootFolder(appData) && imagesFolder == ImagesFolder(RootFolder(appData))
      ensures fs.State() == old(files.State()).(dirs := old(files.dirs) + {rootFolder, imagesFolder})
    {
      database, fs := db, files;
      rootFolder := RootFolder(appData);
      imagesFolder := ImagesFolder(RootFolder(appData));
      new;
      if !fs.DirectoryExists(rootFolder) {
        fs.CreateDirectory(rootFolder);
      }
      if !fs.DirectoryExists(imagesFolder) {
        fs.CreateDirectory(imagesFolder);
      }
    }

    /**
     * `SaveImageAsync`. `bytes` is what the caller's writer puts into the new file, or the
     * error it throws; `id` is the new GUID text; `locked` is passed on to the enrichment.
     */
    method SaveImage(filename: string, contentType: string, id: string, bytes: Result<seq<bv8>>, locked: nat)
      returns (r: Result<Photograph>)
      requires Valid()
      modifies fs, database.persistent.store
      ensures Valid() && (r.Ok? ==> fresh(r.value))
      ensures !Contains(contentType, "image") ==>
        r == Err(ContentTypeNotSupported(contentType, filename))
        && fs.State() == old(fs.State()) && database.persistent.store.Model() == old(database.persistent.store.Model())
      ensures Contains(contentType, "image") && Extension(filename) !in ValidExtensions ==>
        r == Err(ExtensionNotSupported(filename))
        && fs.State() == old(fs.State()) && database.persistent.store.Model() == old(database.persistent.store.Model())
      ensures Accepted(contentType, filename) ==>
        && |ImagePath(imagesFolder, id, filename)| > 0
        && ImagePath(imagesFolder, id, filename)[|ImagePath(imagesFolder, id, filename)| - 1] in {'g', 'f'}
        && (fs.State(), Returned(r), database.persistent.store.Model())
           == AcceptedSave(old(fs.State()), Uploaded(imagesFolder, id, filename, contentType), bytes, locked,
                           database.Service(), old(database.ListCategories()), database.persistent.disposed,
                           database.persistent.rootFolder, old(database.persistent.store.Model()), database.persistent.le)
    {
      if !Contains(contentType, "image") {
        return Err(ContentTypeNotSupported(contentType, filename));
      }
      var ext := Extension(filename);
      if ext !in ValidExtensions {
        return Err(ExtensionNotSupported(filename));
      }
      AcceptedPathEnding(imagesFolder, id, filename);
      r := SaveAccepted(Uploaded(imagesFolder, id, filename, contentType), bytes, locked);
    }

    /** `SaveImageAsync` once the upload is accepted: build the photograph, write, add, clean up on failure. */
    method SaveAccepted(upload: PhotoData, bytes: Result<seq<bv8>>, locked: nat) returns (r: Result<Photograph>)
      requires Valid()
      requires |upload.path| > 0 && upload.path[|upload.path| - 1] in {'g', 'f'}
      modifies fs, database.persistent.store
      ensures Valid() && (r.Ok? ==> fresh(r.value))
      ensures (fs.State(), Returned(r), database.persistent.store.Model())
              == AcceptedSave(old(fs.State()), upload, bytes, locked, database.Service(), old(database.ListCategories()),
                              database.persistent.disposed, database.persistent.rootFolder,
                              old(database.persistent.store.Model()), database.persistent.le)
    {
      var path := upload.path;
      var photo := new Photograph.FromData(upload);
      var outcome := WriteAndAdd(photo, path, bytes, locked);
      ghost var mid := fs.State();
      if outcome.Failed? {
        Cleanup(path);
        if path !in old(fs.denied) && bytes.Err? {
          assert mid.files == old(fs.files)[path := Bytes([])];
          assert fs.files == old(fs.files) - {path};
        } else if path !in old(fs.denied) && database.persistent.disposed {
          assert mid.files == old(fs.files)[path := Bytes(bytes.value)];
          assert fs.files == old(fs.files) - {path};
        }
        return Err(outcome.error);
      }
      r := Ok(photo);
    }

    /**
     * The guarded part of `SaveImageAsync`: open the file with `FileMode.Create` (creating or
     * emptying it), let the caller's writer fill it, then add the photograph to the database.
     */
    method WriteAndAdd(photo: Photograph, path: string, bytes: Result<seq<bv8>>, locked: nat) returns (outcome: Outcome)
      requires Valid() && photo.path == path
      requires |path| > 0 && path[|path| - 1] in {'g', 'f'}
      modifies photo, fs, database.persistent.store
      ensures Valid() && fs.denied == old(fs.denied)
      ensures photo.path == path && photo.id == old(photo.id)
      ensures photo.fileName == old(photo.fileName) && photo.contentType == old(photo.contentType)
      ensures path in old(fs.denied) ==>
        outcome == Failed(IOFailure(path)) && photo.Data() == old(photo.Data())
        && fs.State() == old(fs.State()) && database.persistent.store.Model() == old(database.persistent.store.Model())
      ensures path !in old(fs.denied) && bytes.Err? ==>
        outcome == Failed(bytes.error) && photo.Data() == old(photo.Data())
        && fs.State() == old(fs.State()).(files := old(fs.files)[path := Bytes([])])
        && database.persistent.store.Model() == old(database.persistent.store.Model())
      ensures path !in old(fs.denied) && bytes.Ok? ==>
        && photo.Data() == Enriched(old(photo.Data()), database.Service(),
                                    old(fs.State()).(files := old(fs.files)[path := Bytes(bytes.value)]),
                                    locked, old(database.ListCategories()))
        && path in fs.files && fs.files[path] == Bytes(bytes.value)
        && (database.persistent.disposed ==>
              && outcome == Failed(DatabaseDisposed)
              && database.persistent.store.Model() == old(database.persistent.store.Model())
              && fs.State() == old(fs.State()).(files := old(fs.files)[path := Bytes(bytes.value)]))
        && (!database.persistent.disposed ==>
              && database.persistent.store.Model() == AddPhoto(old(database.persistent.store.Model()), photo.Data())
              && (fs.State(), outcome)
                 == WriteAll(old(fs.State()).(files := old(fs.files)[path := Bytes(bytes.value)]),
                             PhotoWrites(database.persistent.rootFolder, database.persistent.store.Model(),
                                         photo.Data(), database.persistent.le)))
    {
      outcome := fs.WriteFile(path, Bytes([]));
      if outcome.Done? {
        match bytes {
          case Err(e) =>
            outcome := Failed(e);
          case Ok(data) =>
            outcome := fs.WriteFile(path, Bytes(data));
            assert fs.files == old(fs.files)[path := Bytes(data)];
            assert database.ListCategories() == old(database.ListCategories());
            EnrichedKeepsGiven(photo.Data(), database.Service(), fs.State(), locked, database.ListCategories());
            outcome := AddToDatabase(photo, path, locked);
        }
      }
    }

    /** The clean-up after a failed save: delete the file if it exists, ignoring a failure to do so. */
    method Cleanup(path: string)
      modifies fs
      ensures fs.State() == if path in old(fs.files) && path !in old(fs.denied)
                            then old(fs.State()).(files := old(fs.files) - {path})
                            else old(fs.State())
    {
      if fs.Exists(path) {
        var _ := fs.DeleteFile(path);
      }
    }

    /** The database half of `SaveImageAsync`: add the written photograph, keeping its image file. */
    method AddToDatabase(photo: Photograph, path: string, locked: nat) returns (outcome: Outcome)
      requires Valid() && photo.path == path
      requires |path| > 0 && path[|path| - 1] in {'g', 'f'}
      modifies photo, fs, database.persistent.store
      ensures Valid()
      ensures photo.Data()
              == Enriched(old(photo.Data()), database.Service(), old(fs.State()), locked, old(database.ListCategories()))
      ensures database.persistent.disposed ==>
        outcome == Failed(DatabaseDisposed) && database.persistent.store.Model() == old(database.persistent.store.Model())
        && fs.State() == old(fs.State())
      ensures !database.persistent.disposed ==>
        && database.persistent.store.Model() == AddPhoto(old(database.persistent.store.Model()), photo.Data())
        && (fs.State(), outcome)
           == WriteAll(old(fs.State()), PhotoWrites(database.persistent.rootFolder, database.persistent.store.Model(),
                                                    photo.Data(), database.persistent.le))
      ensures SameAt(old(fs.State()), fs.State(), path)
      ensures fs.denied == old(fs.denied)
    {
      ghost var before := fs.State();
      outcome := database.AddPhotograph(photo, locked);
      if !database.persistent.disposed {
        var p := database.persistent;
        ImageUntouchedByPersistence(p.rootFolder, p.store.Model(), photo.Data(), p.le, path);
        WriteAllUntouched(before, PhotoWrites(p.rootFolder, p.store.Model(), photo.Data(), p.le), path);
        WriteAllSucceeds(before, PhotoWrites(p.rootFolder, p.store.Model(), photo.Data(), p.le));
      }
    }

    /**
     * `GetStreamForPhotoIdAsync`: the stored image of the photograph with that id. An unknown id
     * is an `InvalidOperationException`, a missing file a `FileNotFoundException`.
     */
    method GetStreamForPhotoId(id: string) returns (r: Result<Content>)
      requires Valid()
      ensures database.persistent.disposed ==> r == Err(DatabaseDisposed)
      ensures !database.persistent.disposed && GetPhoto(database.persistent.store.Model(), id).None? ==>
        r == Err(PhotoIdNotFound(id))
      ensures !database.persistent.disposed && GetPhoto(database.persistent.store.Model(), id).Some? ==>
        r == Read(fs.State(), GetPhoto(database.persistent.store.Model(), id).value.path)
    {
      var found := database.GetPhotographWithId(id);
      if found.Err? {
        return Err(found.error);
      }
      var photo := found.value;
      if photo == null {
        return Err(PhotoIdNotFound(id));
      }
      if !fs.Exists(photo.path) {
        return Err(FileNotFound(photo.path));
      }
      r := Ok(fs.files[photo.path]);
    }
  }
}

=== FILE: image_registry.dfy ===
/**
 * `ImageRegistry`: every registered title in a bag, and two lookup tables, by title and by file
 * name, in which the first registration of a key wins.
 */
module Registry {
  import opened Wrappers

  /** One call of `RegisterImage`. */
  datatype Registration = Registration(filename: string, title: string, description: string)

  /** The text stored for a registration. */
  function Info(r: Registration): string {
    "Filename: " + r.filename + "\nTitle: " + r.title + "\nDescription: " + r.description
  }

  /** The two keys a registration is looked up by. */
  datatype Key = ByTitle | ByFilename

  /** The registration's value under the key. */
  function KeyOf(r: Registration, key: Key): string {
    match key
    case ByTitle => r.title
    case ByFilename => r.filename
  }

  /** The index of the first registration whose key is `value`, if any. */
  function FirstWith(regs: seq<Registration>, key: Key, value: string): (r: Option<nat>)
    ensures r.Some? ==> r.value < |regs| && KeyOf(regs[r.value], key) == value
                        && forall j :: 0 <= j < r.value ==> KeyOf(regs[j], key) != value
    ensures r.None? ==> forall j :: 0 <= j < |regs| ==> KeyOf(regs[j], key) != value
  {
    if regs == [] then None
    else if KeyOf(regs[0], key) == value then Some(0)
    else match FirstWith(regs[1..], key, value)
      case None => None
      case Some(i) => Some(i + 1)
  }

  /** The table under the key after a sequence of registrations: `TryAdd` keeps an existing entry. */
  function Table(regs: seq<Registration>, key: Key): map<string, string>
    decreases |regs|
  {
    if regs == [] then map[]
    else
      var t := Table(regs[..|regs| - 1], key);
      var last := regs[|regs| - 1];
      if KeyOf(last, key) in t then t else t[KeyOf(last, key) := Info(last)]
  }

  /** The titles registered, one per registration. */
  function Titles(regs: seq<Registration>): (r: multiset<string>)
    ensures |r| == |regs|
    decreases |regs|
  {
    if regs == [] then multiset{} else Titles(regs[..|regs| - 1]) + multiset{regs[|regs| - 1].title}
  }

  /** A value is in the table exactly when it was registered, and maps to its first registration's text. */
  lemma {:induction false} TableFirst(regs: seq<Registration>, key: Key, value: string)
    ensures value in Table(regs, key) <==> FirstWith(regs, key, value).Some?
    ensures value in Table(regs, key) ==> Table(regs, key)[value] == Info(regs[FirstWith(regs, key, value).value])
    decreases |regs|
  {
    if regs != [] {
      var init, last := regs[..|regs| - 1], regs[|regs| - 1];
      assert regs == init + [last];
      TableFirst(init, key, value);
      FirstWithAppend(init, last, key, value);
    }
  }

  /** Appending a registration changes the first match only when there was none. */
  lemma {:induction false} FirstWithAppend(init: seq<Registration>, last: Registration, key: Key, value: string)
    ensures FirstWith(init + [last], key, value)
            == if FirstWith(init, key, value).Some? then FirstWith(init, key, value)
               else if KeyOf(last, key) == value then Some(|init|)
               else None
  {
    if init != [] && KeyOf(init[0], key) != value {
      assert (init + [last])[1..] == init[1..] + [last];
      FirstWithAppend(init[1..], last, key, value);
    }
  }

  /** A later registration under a key already registered leaves that key's entry as it was. */
  lemma LaterRegistrationIgnored(regs: seq<Registration>, reg: Registration, key: Key)
    requires FirstWith(regs, key, KeyOf(reg, key)).Some?
    ensures KeyOf(reg, key) in Table(regs, key)
    ensures Table(regs + [reg], key)[KeyOf(reg, key)] == Table(regs, key)[KeyOf(reg, key)]
  {
    var all := regs + [reg];
    assert all[..|all| - 1] == regs;
    TableFirst(regs, key, KeyOf(reg, key));
  }

  class ImageRegistry {
    var titles: multiset<string>
    var infoByTitle: map<string, string>
    var infoByFilename: map<string, string>
    /** Every registration so far, in order. */
    ghost var registrations: seq<Registration>

    ghost predicate Valid()
      reads this
    {
      && titles == Titles(registrations)
      && infoByTitle == Table(registrations, ByTitle)
      && infoByFilename == Table(registrations, ByFilename)
    }

    constructor ()
      ensures Valid() && registrations == []
      ensures titles == multiset{} && infoByTitle == map[] && infoByFilename == map[]
    {
      titles, infoByTitle, infoByFilename := multiset{}, map[], map[];
      registrations := [];
    }

    /** `GetImageInformationByTitle`: the first registration's text, or the title itself when unknown. */
    function GetImageInformationByTitle(title: string): (r: string)
      requires Valid()
      reads this
      ensures FirstWith(registrations, ByTitle, title).None? ==> r == title
      ensures FirstWith(registrations, ByTitle, title).Some?
              ==> r == Info(registrations[FirstWith(registrations, ByTitle, title).value])
    {
      TableFirst(registrations, ByTitle, title);
      if title in infoByTitle then infoByTitle[title] else title
    }

    /** `GetImageInformationByFilename`: the first registration's text, or the file name itself when unknown. */
    function GetImageInformationByFilename(filename: string): (r: string)
      requires Valid()
      reads this
      ensures FirstWith(registrations, ByFilename, filename).None? ==> r == filename
      ensures FirstWith(registrations, ByFilename, filename).Some?
              ==> r == Info(registrations[FirstWith(registrations, ByFilename, filename).value])
    {
      TableFirst(registrations, ByFilename, filename);
      if filename in infoByFilename then infoByFilename[filename] else filename
    }

    /** `GetTitles`: a snapshot array of the bag, in no particular order. */
    method GetTitles() returns (r: seq<string>)
      requires Valid()
      ensures multiset(r) == Titles(registrations)
      ensures |r| == |registrations|
    {
      var rest := titles;
      r := [];
      while rest != multiset{}
        invariant multiset(r) + rest == titles
        decreases |rest|
      {
        var x :| x in rest;
        r := r + [x];
        rest := rest - multiset{x};
      }
    }

    /** `RegisterImage`: always add the title; add each table entry only if its key is new. */
    method RegisterImage(filename: string, title: string, description: string)
      requires Valid()
      modifies this
      ensures Valid() && registrations == old(registrations) + [Registration(filename, title, description)]
      ensures titles == old(titles) + multiset{title}
      ensures title in old(infoByTitle) ==> infoByTitle == old(infoByTitle)
      ensures title !in old(infoByTitle)
              ==> infoByTitle == old(infoByTitle)[title := Info(Registration(filename, title, description))]
      ensures filename in old(infoByFilename) ==> infoByFilename == old(infoByFilename)
      ensures filename !in old(infoByFilename)
              ==> infoByFilename == old(infoByFilename)[filename := Info(Registration(filename, title, description))]
    {
      var reg := Registration(filename, title, description);
      ghost var regs := registrations + [reg];
      assert regs[..|regs| - 1] == registrations;
      assert Titles(regs) == titles + multiset{title};
      assert Table(regs, ByTitle) == if title in infoByTitle then infoByTitle else infoByTitle[title := Info(reg)];
      assert Table(regs, ByFilename)
             == if filename in infoByFilename then infoByFilename else infoByFilename[filename := Info(reg)];
      registrations := regs;
      titles := titles + multiset{title};
      if title !in infoByTitle {
        infoByTitle := infoByTitle[title := Info(reg)];
      }
      if filename !in infoByFilename {
        infoByFilename := infoByFilename[filename := Info(reg)];
      }
    }
  }
}

=== FILE: intelligence.dfy ===
/**
 * `PhotoIntelligenceService`: the analysis that proposes a description, a title, tags and
 * categories for a new photograph, and the canvas-preview and marketing generation with their
 * file caches. Every model call is a function of what the code hands it, held in an `Assistant`.
 */
module Intelligence {
  import opened Wrappers
  import opened Text
  import opened Paths
  import opened Photographs
  import opened PhotoCatalog
  import opened Files

  /** What the tag-and-category request answers; either list may be null. */
  datatype TagCategoryResponse = TagCategoryResponse(tags: Option<seq<string>>, categories: Option<seq<string>>)

  /** What the image request answers: the first binary content, if any, and the first text, if any. */
  datatype ImageResponse = ImageResponse(image: Option<seq<bv8>>, text: Option<string>)

  /**
   * The model calls, each as a function of its inputs; a call that throws answers `Err`. The
   * prompts' wording is not part of the model: each function receives the values the prompt is
   * built from.
   */
  datatype Assistant = Assistant(
    describe: (Content, string) -> Result<Option<string>>,
    entitle: (string, string) -> Result<Option<string>>,
    classify: (string, string, seq<string>) -> Result<TagCategoryResponse>,
    visualize: (Content, string) -> Result<ImageResponse>,
    advertise: PhotoData -> Result<Option<MarketingContent>>)

  /** `PhotoAnalysisResult`. */
  datatype PhotoAnalysis = PhotoAnalysis(
    originalFileName: string,
    title: string,
    description: string,
    suggestedTags: seq<string>,
    suggestedCategories: seq<string>)

  /** `CanvasPreviewResult` without the price. */
  datatype CanvasPreview = CanvasPreview(
    photoId: string,
    pathToCanvasPreview: string,
    headline: string,
    marketingCopy: string,
    twitterText: string)

  const MaxRetries: nat := 3

  const NoDescription: string := "No description available"

  // ---------------------------------------------------------------------------------------
  // Reading the image, with retries
  // ---------------------------------------------------------------------------------------

  /**
   * Attempt `k` (from 0) to open and read the image, when the first `locked` attempts find it
   * locked. A missing file fails every attempt with `FileNotFoundException`, which is an
   * `IOException` too.
   */
  function Attempt(d: Disk, path: string, locked: nat, k: nat): (r: Result<Content>)
    ensures r.Ok? <==> path in d.files && locked <= k
  {
    if path !in d.files then Err(FileNotFound(path))
    else if k < locked then Err(IOFailure(path))
    else Ok(d.files[path])
  }

  /** What the retry loop of `GenerateDescriptionAsync` ends with: the first success, or the last attempt's error. */
  function ReadImage(d: Disk, path: string, locked: nat): (r: Result<Content>)
    ensures r.Ok? <==> path in d.files && locked <= MaxRetries
    ensures r.Ok? ==> r.value == d.files[path]
    ensures r.Err? ==> r.error == (if path in d.files then IOFailure(path) else FileNotFound(path))
  {
    Attempt(d, path, locked, if locked < MaxRetries then locked else MaxRetries)
  }

  // ---------------------------------------------------------------------------------------
  // The pure steps
  // ---------------------------------------------------------------------------------------

  /** The description from the vision answer: a null text reads as "No description available". */
  function DescriptionText(text: Option<string>): (r: string)
    ensures text.Some? ==> r == text.value
    ensures text.None? ==> r == NoDescription
  {
    text.GetOr(NoDescription)
  }

  /** `GenerateTitleAsync`'s answer: trimmed of white space, then of '"'; the file name's stem when the text is null. */
  function TitleText(text: Option<string>, fileName: string): string {
    match text
    case Some(t) => TrimChar(Trim(t), '"')
    case None => GetFileNameWithoutExtension(fileName)
  }

  /** The names the categorisation may choose from: the available ones except "All". */
  function CandidateNames(available: Option<seq<Category>>): (r: seq<string>)
    ensures AllCategory !in r
    ensures available.None? ==> r == []
    ensures available.Some? ==> forall n :: n in r <==> n != AllCategory && exists c :: c in available.value && c.name == n
  {
    match available
    case None => []
    case Some(cs) => NamesExceptAll(cs)
  }

  function NamesExceptAll(cs: seq<Category>): (r: seq<string>)
    ensures forall n :: n in r <==> n != AllCategory && exists c :: c in cs && c.name == n
  {
    if cs == [] then []
    else
      var rest := NamesExceptAll(cs[1..]);
      assert forall c :: c in cs <==> c == cs[0] || c in cs[1..];
      if cs[0].name == AllCategory then rest else [cs[0].name] + rest
  }

  /** `candidates.Contains(c, StringComparer.OrdinalIgnoreCase)`. */
  predicate Matches(c: string, candidates: seq<string>) {
    exists n :: n in candidates && EqualsIgnoreCase(c, n)
  }

  /** The suggestions that match a candidate name ignoring case, in suggestion order. */
  function KeepMatching(suggested: seq<string>, candidates: seq<string>): (r: seq<string>)
    ensures |r| <= |suggested|
    ensures forall i :: 0 <= i < |r| ==> r[i] in suggested && Matches(r[i], candidates)
  {
    if suggested == [] then []
    else if Matches(suggested[0], candidates) then [suggested[0]] + KeepMatching(suggested[1..], candidates)
    else KeepMatching(suggested[1..], candidates)
  }

  /** The category filter of `GenerateTagsAndCategoriesAsync`: a null suggestion list gives the empty list. */
  function FilterCategories(suggested: Option<seq<string>>, candidates: seq<string>): seq<string> {
    match suggested
    case None => []
    case Some(s) => KeepMatching(s, candidates)
  }

  /** The description step: read the image with retries, then ask for a description. */
  function DescribeImage(d: Disk, ai: Assistant, imagePath: string, contentType: string, locked: nat): Result<string> {
    var image :- ReadImage(d, imagePath, locked);
    var text :- ai.describe(image, contentType);
    Ok(DescriptionText(text))
  }

  /**
   * `AnalyzePhotoAsync`: a given non-blank description or title is kept (null reads as "");
   * a blank description is generated first, then a blank title from the final description;
   * then tags and categories are always requested for the final title and description.
   */
  function Analysis(d: Disk, ai: Assistant, locked: nat, imagePath: string, fileName: string, contentType: string,
                    existingDescription: Option<string>, existingTitle: Option<string>,
                    available: Option<seq<Category>>): Result<PhotoAnalysis>
  {
    var given := existingDescription.GetOr("");
    var description :- if IsBlank(given) then DescribeImage(d, ai, imagePath, contentType, locked) else Ok(given);
    var givenTitle := existingTitle.GetOr("");
    var title :- if IsBlank(givenTitle) then
                   (match ai.entitle(fileName, description)
                    case Err(e) => Err(e)
                    case Ok(text) => Ok(TitleText(text, fileName)))
                 else Ok(givenTitle);
    var names := CandidateNames(available);
    var response :- ai.classify(title, description, names);
    Ok(PhotoAnalysis(fileName, title, description, response.tags.GetOr([]), FilterCategories(response.categories, names)))
  }

  // ---------------------------------------------------------------------------------------
  // Properties
  // ---------------------------------------------------------------------------------------

  /** A generated title neither starts nor ends with '"', and occurs within the answer's text. */
  lemma TitleTextTrimmed(text: string, fileName: string)
    ensures var r := TitleText(Some(text), fileName);
      && (r == [] || (r[0] != '"' && r[|r| - 1] != '"'))
      && exists k :: OccursAt(text, r, k)
  {
    var t := Trim(text);
    var r := TrimChar(t, '"');
    var i :| OccursAt(text, t, i);
    var j :| OccursAt(t, r, j);
    OccursWithin(text, t, r, i, j);
  }

  /** The filter keeps exactly the suggestions that match a candidate, each as often as it was suggested. */
  lemma {:induction false} KeepMatchingExact(suggested: seq<string>, candidates: seq<string>)
    ensures forall c :: c in KeepMatching(suggested, candidates) <==> c in suggested && Matches(c, candidates)
    ensures forall c :: multiset(KeepMatching(suggested, candidates))[c]
                        == if Matches(c, candidates) then multiset(suggested)[c] else 0
  {
    if suggested != [] {
      KeepMatchingExact(suggested[1..], candidates);
      assert suggested == [suggested[0]] + suggested[1..];
      assert forall c :: c in suggested <==> c == suggested[0] || c in suggested[1..];
    }
  }

  /** The filter keeps the suggestion order: filtering a concatenation filters each part. */
  lemma {:induction false} KeepMatchingInOrder(s1: seq<string>, s2: seq<string>, candidates: seq<string>)
    ensures KeepMatching(s1 + s2, candidates) == KeepMatching(s1, candidates) + KeepMatching(s2, candidates)
  {
    if s1 != [] {
      assert (s1 + s2)[0] == s1[0];
      assert (s1 + s2)[1..] == s1[1..] + s2;
      KeepMatchingInOrder(s1[1..], s2, candidates);
    } else {
      assert s1 + s2 == s2;
    }
  }

  /** "All" is never a candidate: a suggestion matches only a name the caller offered other than "All". */
  lemma FilterCategoriesSpec(suggested: Option<seq<string>>, available: Option<seq<Category>>)
    ensures suggested.None? || available.None? ==> FilterCategories(suggested, CandidateNames(available)) == []
    ensures forall c :: c in FilterCategories(suggested, CandidateNames(available)) ==>
      && suggested.Some? && c in suggested.value
      && available.Some? && exists k :: k in available.value && k.name != AllCategory && EqualsIgnoreCase(c, k.name)
  {
    if suggested.Some? {
      KeepMatchingExact(suggested.value, CandidateNames(available));
    }
  }

  /** A given non-blank description or title survives the analysis unchanged, and the file name is passed through. */
  lemma AnalysisKeepsGiven(d: Disk, ai: Assistant, locked: nat, imagePath: string, fileName: string, contentType: string,
                           existingDescription: Option<string>, existingTitle: Option<string>,
                           available: Option<seq<Category>>)
    requires Analysis(d, ai, locked, imagePath, fileName, contentType, existingDescription, existingTitle, available).Ok?
    ensures var a := Analysis(d, ai, locked, imagePath, fileName, contentType, existingDescription, existingTitle, available).value;
      && a.originalFileName == fileName
      && (!IsNullOrWhiteSpace(existingDescription) ==> a.description == existingDescription.value)
      && (!IsNullOrWhiteSpace(existingTitle) ==> a.title == existingTitle.value)
  {
  }

  /**
   * A blank description is the image's description; a blank title is generated from the file
   * name and the final description; the tags and categories come from a request on the final
   * title and description.
   */
  lemma AnalysisGeneratesBlank(d: Disk, ai: Assistant, locked: nat, imagePath: string, fileName: string, contentType: string,
                               existingDescription: Option<string>, existingTitle: Option<string>,
                               available: Option<seq<Category>>)
    requires Analysis(d, ai, locked, imagePath, fileName, contentType, existingDescription, existingTitle, available).Ok?
    ensures var a := Analysis(d, ai, locked, imagePath, fileName, contentType, existingDescription, existingTitle, available).value;
      && (IsNullOrWhiteSpace(existingDescription) ==>
            imagePath in d.files && locked <= MaxRetries
            && ai.describe(d.files[imagePath], contentType).Ok?
            && a.description == DescriptionText(ai.describe(d.files[imagePath], contentType).value))
      && (IsNullOrWhiteSpace(existingTitle) ==>
            ai.entitle(fileName, a.description).Ok?
            && a.title == TitleText(ai.entitle(fileName, a.description).value, fileName))
      && ai.classify(a.title, a.description, CandidateNames(available)).Ok?
      && a.suggestedTags == ai.classify(a.title, a.description, CandidateNames(available)).value.tags.GetOr([])
      && a.suggestedCategories
         == FilterCategories(ai.classify(a.title, a.description, CandidateNames(available)).value.categories, CandidateNames(available))
  {
  }

  /** The analysis fails when a step it needs fails: the image read (after the retries) or a model call. */
  lemma AnalysisFailsWithStep(d: Disk, ai: Assistant, locked: nat, imagePath: string, fileName: string, contentType: string,
                              existingTitle: Option<string>, available: Option<seq<Category>>)
    ensures imagePath !in d.files ==>
      Analysis(d, ai, locked, imagePath, fileName, contentType, None, existingTitle, available) == Err(FileNotFound(imagePath))
    ensures imagePath in d.files && locked > MaxRetries ==>
      Analysis(d, ai, locked, imagePath, fileName, contentType, None, existingTitle, available) == Err(IOFailure(imagePath))
  {
  }

  // ---------------------------------------------------------------------------------------
  // Canvas previews
  // ---------------------------------------------------------------------------------------

  /** `{id}_canvas_preview.png` beside the image: where the generated canvas image is saved. */
  function PreviewPath(photo: PhotoData): string {
    Combine(GetDirectoryName(photo.path), photo.id + "_canvas_preview.png")
  }

  /** `{id}_canvas_prompt.txt` beside the image: where the prompt is saved when no image comes back. */
  function PromptPath(photo: PhotoData): string {
    Combine(GetDirectoryName(photo.path), photo.id + "_canvas_prompt.txt")
  }

  /** `{id}_marketing.json` beside the image: the cached marketing content. */
  function MarketingPath(photo: PhotoData): string {
    Combine(GetDirectoryName(photo.path), photo.id + "_marketing.json")
  }

  /** Two names that end differently give different paths in the same directory. */
  lemma CombineDistinct(dir: string, a: string, b: string)
    requires |a| > 0 && |b| > 0 && a[|a| - 1] != b[|b| - 1]
    ensures Combine(dir, a) != Combine(dir, b)
  {
    CombineEndsWith(dir, a);
    CombineEndsWith(dir, b);
    var pa, pb := Combine(dir, a), Combine(dir, b);
    assert pa[|pa| - 1] == a[|a| - 1];
    assert pb[|pb| - 1] == b[|b| - 1];
  }

  /** The three files a canvas preview reads or writes beside the image are different files. */
  lemma CanvasPathsDistinct(photo: PhotoData)
    ensures PreviewPath(photo) != PromptPath(photo)
    ensures PreviewPath(photo) != MarketingPath(photo) && PromptPath(photo) != MarketingPath(photo)
  {
    var dir := GetDirectoryName(photo.path);
    CombineDistinct(dir, photo.id + "_canvas_preview.png", photo.id + "_canvas_prompt.txt");
    CombineDistinct(dir, photo.id + "_canvas_preview.png", photo.id + "_marketing.json");
    CombineDistinct(dir, photo.id + "_canvas_prompt.txt", photo.id + "_marketing.json");
  }

  /**
   * `GenerateCanvasVisualizationAsync` on a disk: the disk afterwards and the path returned. An
   * existing preview is returned as it is; otherwise the image is read and sent, and the answer's
   * image is written to the preview path, or, without one, the prompt and the answer's text to
   * the prompt path. Any failure leaves the disk as it was.
   */
  function Visualization(d: Disk, ai: Assistant, prompt: string, photo: PhotoData): (r: (Disk, Result<string>))
    ensures r.1.Err? ==> r.0 == d
    ensures r.1.Ok? ==> r.1.value == PreviewPath(photo) || r.1.value == PromptPath(photo)
    ensures r.1.Ok? ==> r.1.value in r.0.files && r.0 == d.(files := d.files[r.1.value := r.0.files[r.1.value]])
    ensures PreviewPath(photo) in d.files ==> r == (d, Ok(PreviewPath(photo)))
    ensures PreviewPath(photo) !in d.files && photo.path !in d.files ==> r == (d, Err(FileNotFound(photo.path)))
    ensures PreviewPath(photo) !in d.files && photo.path in d.files
            && ai.visualize(d.files[photo.path], photo.contentType).Err?
            ==> r == (d, Err(ai.visualize(d.files[photo.path], photo.contentType).error))
    ensures PreviewPath(photo) !in d.files && photo.path in d.files
            && ai.visualize(d.files[photo.path], photo.contentType).Ok? ==>
              var answer := ai.visualize(d.files[photo.path], photo.contentType).value;
              var target := if answer.image.Some? then PreviewPath(photo) else PromptPath(photo);
              && (r.1.Ok? <==> target !in d.denied)
              && (r.1.Ok? ==> r.1.value == target
                              && r.0.files[target]
                                 == if answer.image.Some? then Bytes(answer.image.value)
                                    else Text(FallbackText(prompt, answer.text)))
              && (r.1.Err? ==> r.1.error == IOFailure(target))
  {
    var preview := PreviewPath(photo);
    if preview in d.files then (d, Ok(preview))
    else if photo.path !in d.files then (d, Err(FileNotFound(photo.path)))
    else
      var answer := ai.visualize(d.files[photo.path], photo.contentType);
      if answer.Err? then (d, Err(answer.error))
      else
        var target := if answer.value.image.Some? then preview else PromptPath(photo);
        var content := if answer.value.image.Some? then Bytes(answer.value.image.value)
                       else Text(FallbackText(prompt, answer.value.text));
        var written := Write(d, target, content);
        (written.0, if written.1.Done? then Ok(target) else Err(written.1.error))
  }

  /**
   * `GenerateMarketingContentAsync` on a disk: an existing cache file is read back without a
   * model call; otherwise the answer is written to the cache file and returned. Whatever
   * succeeds, the cache file then reads back as the content returned.
   */
  function Marketing(d: Disk, ai: Assistant, photo: PhotoData): (r: (Disk, Result<Option<MarketingContent>>))
    ensures r.1.Err? ==> r.0 == d
    ensures r.1.Ok? ==> MarketingPath(photo) in r.0.files && Decoded(r.0.files[MarketingPath(photo)], MarketingPath(photo)) == r.1
    ensures r.0 == d || r.0 == d.(files := d.files[MarketingPath(photo) := MarketingDocument(r.1.value)])
    ensures MarketingPath(photo) in d.files ==> r == (d, Decoded(d.files[MarketingPath(photo)], MarketingPath(photo)))
    ensures MarketingPath(photo) !in d.files && ai.advertise(photo).Err? ==> r == (d, Err(ai.advertise(photo).error))
    ensures MarketingPath(photo) !in d.files && ai.advertise(photo).Ok? ==>
              && (r.1.Ok? <==> MarketingPath(photo) !in d.denied)
              && (r.1.Ok? ==> r.1.value == ai.advertise(photo).value)
              && (r.1.Err? ==> r.1.error == IOFailure(MarketingPath(photo)))
  {
    var cached := MarketingPath(photo);
    if cached in d.files then (d, Decoded(d.files[cached], cached))
    else
      var answer := ai.advertise(photo);
      if answer.Err? then (d, Err(answer.error))
      else
        var written := Write(d, cached, MarketingDocument(answer.value));
        (written.0, if written.1.Done? then Ok(answer.value) else Err(written.1.error))
  }

  /**
   * `GenerateCanvasPreviewAsync` on a disk: the visualization, then the marketing content on the
   * disk the visualization left; a null marketing content fails with `NullReferenceException`.
   * A successful preview names a file that exists, and its headline, copy and post are what the
   * marketing cache file holds.
   */
  function Preview(d: Disk, ai: Assistant, prompt: string, photo: PhotoData): (r: (Disk, Result<CanvasPreview>))
    ensures r.0.dirs == d.dirs && r.0.denied == d.denied
    ensures r.1.Ok? ==>
              && r.1.value.photoId == photo.id
              && (r.1.value.pathToCanvasPreview == PreviewPath(photo) || r.1.value.pathToCanvasPreview == PromptPath(photo))
              && r.1.value.pathToCanvasPreview in r.0.files
              && MarketingPath(photo) in r.0.files
              && Decoded(r.0.files[MarketingPath(photo)], MarketingPath(photo))
                 == Ok(Some(MarketingContent(r.1.value.headline, r.1.value.marketingCopy, r.1.value.twitterText)))
    ensures var v := Visualization(d, ai, prompt, photo);
            v.1.Err? ==> r == (v.0, Err(v.1.error))
    ensures var v := Visualization(d, ai, prompt, photo);
            v.1.Ok? && Marketing(v.0, ai, photo).1.Err? ==> r == (Marketing(v.0, ai, photo).0, Err(Marketing(v.0, ai, photo).1.error))
    ensures var v := Visualization(d, ai, prompt, photo);
            v.1.Ok? && Marketing(v.0, ai, photo).1 == Ok(None) ==> r == (Marketing(v.0, ai, photo).0, Err(NullReference))
  {
    CanvasPathsDistinct(photo);
    var v := Visualization(d, ai, prompt, photo);
    if v.1.Err? then (v.0, Err(v.1.error))
    else
      var m := Marketing(v.0, ai, photo);
      if m.1.Err? then (m.0, Err(m.1.error))
      else if m.1.value.None? then (m.0, Err(NullReference))
      else
        var content := m.1.value.value;
        assert v.1.value in m.0.files;
        (m.0, Ok(CanvasPreview(photo.id, v.1.value, content.headline, content.marketingCopy, content.twitterText)))
  }

  /**
   * Both steps are cached: once a preview has been generated with an image, asking again changes
   * nothing on disk and gives the same preview, without a model call.
   */
  lemma PreviewRepeats(d: Disk, ai: Assistant, prompt: string, photo: PhotoData)
    requires Preview(d, ai, prompt, photo).1.Ok?
    requires Preview(d, ai, prompt, photo).1.value.pathToCanvasPreview == PreviewPath(photo)
    ensures Preview(Preview(d, ai, prompt, photo).0, ai, prompt, photo) == Preview(d, ai, prompt, photo)
  {
    var r := Preview(d, ai, prompt, photo);
    CanvasPathsDistinct(photo);
    assert Visualization(r.0, ai, prompt, photo) == (r.0, Ok(PreviewPath(photo)));
    assert Marketing(r.0, ai, photo) == (r.0, Decoded(r.0.files[MarketingPath(photo)], MarketingPath(photo)));
  }

  // ---------------------------------------------------------------------------------------
  // The service
  // ---------------------------------------------------------------------------------------

  /** The service: the model calls and the file system it reads and writes. */
  class PhotoIntelligenceService {
    const ai: Assistant
    const fs: FileSystem
    /** The fixed instruction of the canvas request; its wording is not part of the model. */
    const canvasPrompt: string

    constructor (assistant: Assistant, files: FileSystem, prompt: string)
      ensures ai == assistant && fs == files && canvasPrompt == prompt
    {
      ai, fs, canvasPrompt := assistant, files, prompt;
    }

    /**
     * The retry loop of `GenerateDescriptionAsync`: an `IOException` is retried while fewer than
     * three retries have been made, so there are at most four attempts.
     */
    method ReadImageWithRetry(path: string, locked: nat) returns (r: Result<Content>, attempts: nat)
      ensures r == ReadImage(fs.State(), path, locked)
      ensures 1 <= attempts <= MaxRetries + 1
      ensures r.Ok? ==> attempts == locked + 1
      ensures forall k :: 0 <= k < attempts - 1 ==> Attempt(fs.State(), path, locked, k).Err?
    {
      var retryCount := 0;
      r := Attempt(fs.State(), path, locked, retryCount);
      while r.Err? && retryCount < MaxRetries
        invariant retryCount <= MaxRetries
        invariant r == Attempt(fs.State(), path, locked, retryCount)
        invariant forall k :: 0 <= k < retryCount ==> Attempt(fs.State(), path, locked, k).Err?
        decreases MaxRetries - retryCount
      {
        retryCount := retryCount + 1;
        r := Attempt(fs.State(), path, locked, retryCount);
      }
      attempts := retryCount + 1;
    }

    /** `GenerateDescriptionAsync`. */
    method GenerateDescription(imagePath: string, contentType: string, locked: nat) returns (r: Result<string>)
      ensures r == DescribeImage(fs.State(), ai, imagePath, contentType, locked)
    {
      var image, _ := ReadImageWithRetry(imagePath, locked);
      if image.Err? {
        return Err(image.error);
      }
      var text := ai.describe(image.value, contentType);
      if text.Err? {
        return Err(text.error);
      }
      r := Ok(DescriptionText(text.value));
    }

    /** `AnalyzePhotoAsync`, filling the result step by step. */
    method AnalyzePhoto(imagePath: string, fileName: string, contentType: string,
                        existingDescription: Option<string>, existingTitle: Option<string>,
                        available: Option<seq<Category>>, locked: nat) returns (r: Result<PhotoAnalysis>)
      ensures r == Analysis(fs.State(), ai, locked, imagePath, fileName, contentType, existingDescription, existingTitle, available)
    {
      var result := PhotoAnalysis(fileName, existingTitle.GetOr(""), existingDescription.GetOr(""), [], []);
      if IsBlank(result.description) {
        var description := GenerateDescription(imagePath, contentType, locked);
        if description.Err? {
          return Err(description.error);
        }
        result := result.(description := description.value);
      }
      if IsBlank(result.title) {
        var text := ai.entitle(fileName, result.description);
        if text.Err? {
          return Err(text.error);
        }
        result := result.(title := TitleText(text.value, fileName));
      }
      var names := CandidateNames(available);
      var response := ai.classify(result.title, result.description, names);
      if response.Err? {
        return Err(response.error);
      }
      result := result.(suggestedTags := response.value.tags.GetOr([]),
                        suggestedCategories := FilterCategories(response.value.categories, names));
      r := Ok(result);
    }

    /**
     * `GenerateCanvasVisualizationAsync`: an existing `{id}_canvas_preview.png` beside the image
     * is returned without a model call; otherwise the image is sent, and the answer's image is
     * written there, or, without one, the prompt and the answer's text to `{id}_canvas_prompt.txt`.
     */
    method GenerateCanvasVisualization(photo: PhotoData) returns (r: Result<string>)
      modifies fs
      ensures (fs.State(), r) == Visualization(old(fs.State()), ai, canvasPrompt, photo)
    {
      var directory := GetDirectoryName(photo.path);
      var preview := Combine(directory, photo.id + "_canvas_preview.png");
      if fs.Exists(preview) {
        return Ok(preview);
      }
      var image := fs.ReadFile(photo.path);
      if image.Err? {
        return Err(image.error);
      }
      var response := ai.visualize(image.value, photo.contentType);
      if response.Err? {
        return Err(response.error);
      }
      if response.value.image.Some? {
        var written := fs.WriteFile(preview, Bytes(response.value.image.value));
        if written.Failed? {
          return Err(written.error);
        }
        return Ok(preview);
      }
      var fallback := Combine(directory, photo.id + "_canvas_prompt.txt");
      var written := fs.WriteFile(fallback, Text(FallbackText(canvasPrompt, response.value.text)));
      if written.Failed? {
        return Err(written.error);
      }
      r := Ok(fallback);
    }

    /**
     * `GenerateMarketingContentAsync`: an existing `{id}_marketing.json` beside the image is read
     * back without a model call; otherwise the answer is written there and returned. `None`
     * stands for a null content.
     */
    method GenerateMarketingContent(photo: PhotoData) returns (r: Result<Option<MarketingContent>>)
      modifies fs
      ensures (fs.State(), r) == Marketing(old(fs.State()), ai, photo)
    {
      var cached := Combine(GetDirectoryName(photo.path), photo.id + "_marketing.json");
      if fs.Exists(cached) {
        return Decoded(fs.files[cached], cached);
      }
      var response := ai.advertise(photo);
      if response.Err? {
        return Err(response.error);
      }
      var written := fs.WriteFile(cached, MarketingDocument(response.value));
      if written.Failed? {
        return Err(written.error);
      }
      r := Ok(response.value);
    }

    /**
     * `GenerateCanvasPreviewAsync`: the visualization, then the marketing content; a null
     * marketing content fails at its first use with `NullReferenceException`.
     */
    method GenerateCanvasPreview(photo: PhotoData) returns (r: Result<CanvasPreview>)
      modifies fs
      ensures (fs.State(), r) == Preview(old(fs.State()), ai, canvasPrompt, photo)
    {
      var path := GenerateCanvasVisualization(photo);
      if path.Err? {
        return Err(path.error);
      }
      var marketing := GenerateMarketingContent(photo);
      if marketing.Err? {
        return Err(marketing.error);
      }
      if marketing.value.None? {
        return Err(NullReference);
      }
      var m := marketing.value.value;
      r := Ok(CanvasPreview(photo.id, path.value, m.headline, m.marketingCopy, m.twitterText));
    }
  }

  /** The text saved when the image answer holds no image: the prompt, then the answer's text ("" if none). */
  function FallbackText(prompt: string, responseText: Option<string>): (r: string)
    ensures StartsWith(r, "Canvas Visualization Prompt:\n" + prompt + "\n\nResponse Text:\n")
  {
    "Canvas Visualization Prompt:\n" + prompt + "\n\nResponse Text:\n" + responseText.GetOr("")
  }

  /** The marketing document a cache file holds; any other content does not decode. */
  function Decoded(c: Content, path: string): (r: Result<Option<MarketingContent>>)
    ensures r.Ok? <==> c.MarketingDocument?
    ensures r.Ok? ==> r.value == c.marketing
  {
    match c
    case MarketingDocument(m) => Ok(m)
    case _ => Err(MalformedDocument(path))
  }
}

=== FILE: intelligent_database.dfy ===
/**
 * `IntelligentPhotoDatabase`: the persistent database with one addition — before a photograph
 * is added, an analysis fills in whichever of its title, description, tags and categories are
 * missing. Analysis failures are swallowed and the photograph is added anyway.
 */
module IntelligentStore {
  import opened Wrappers
  import opened Text
  import opened Paths
  import opened Photographs
  import opened PhotoCatalog
  import opened Files
  import opened PersistentStore
  import opened Intelligence

  /** A title equal to the file name's stem is the default one, and is cleared first. */
  function ClearDefaultTitle(p: PhotoData): (r: PhotoData)
    ensures r.(title := p.title) == p
    ensures r.title == (if p.title == GetFileNameWithoutExtension(p.fileName) then "" else p.title)
  {
    if p.title == GetFileNameWithoutExtension(p.fileName) then p.(title := "") else p
  }

  /** Enrichment is wanted when the title or description is blank, or the tags or categories are empty. */
  predicate NeedsEnrichment(p: PhotoData) {
    IsBlank(p.title) || IsBlank(p.description) || |p.tags| == 0 || |p.categories| == 0
  }

  /** A value handed to the analysis as existing: blank ones go as null. */
  function Existing(s: string): (r: Option<string>)
    ensures r.None? <==> IsBlank(s)
    ensures r.Some? ==> r.value == s
  {
    if IsBlank(s) then None else Some(s)
  }

  /** Applying the suggestions: only a blank title or description, and only an empty tag or category list, take them. */
  function Merge(p: PhotoData, a: PhotoAnalysis): PhotoData {
    p.(title := if IsBlank(p.title) then a.title else p.title,
       description := if IsBlank(p.description) then a.description else p.description,
       tags := if |p.tags| == 0 && |a.suggestedTags| > 0 then a.suggestedTags else p.tags,
       categories := if |p.categories| == 0 && |a.suggestedCategories| > 0 then a.suggestedCategories else p.categories)
  }

  /**
   * What `AddPhotographAsync` hands to the persistent database: the default title cleared, then,
   * with a service and something missing, the analysis merged in — unless listing the categories
   * or the analysis fails, in which case the photograph goes in as it is.
   */
  function Enriched(p: PhotoData, service: Option<Assistant>, d: Disk, locked: nat,
                    listing: Result<seq<Category>>): PhotoData
  {
    var q := ClearDefaultTitle(p);
    if service.None? || !NeedsEnrichment(q) then q
    else match listing
      case Err(_) => q
      case Ok(cs) =>
        match Analysis(d, service.value, locked, q.path, q.fileName, q.contentType,
                       Existing(q.description), Existing(q.title), Some(cs))
        case Err(_) => q
        case Ok(a) => Merge(q, a)
  }

  /** A merge fills gaps only: identity, file and thumbnail fields, and every filled-in field, are kept. */
  lemma MergeFillsGapsOnly(p: PhotoData, a: PhotoAnalysis)
    ensures var r := Merge(p, a);
      && r.(title := p.title, description := p.description, tags := p.tags, categories := p.categories) == p
      && (!IsBlank(p.title) ==> r.title == p.title)
      && (!IsBlank(p.description) ==> r.description == p.description)
      && (|p.tags| > 0 ==> r.tags == p.tags)
      && (|p.categories| > 0 ==> r.categories == p.categories)
      && (IsBlank(p.title) ==> r.title == a.title)
      && (IsBlank(p.description) ==> r.description == a.description)
      && (|r.tags| == 0 <==> |p.tags| == 0 && |a.suggestedTags| == 0)
      && (|r.categories| == 0 <==> |p.categories| == 0 && |a.suggestedCategories| == 0)
  {
  }

  /** Merging the same analysis again changes nothing more. */
  lemma MergeIdempotent(p: PhotoData, a: PhotoAnalysis)
    ensures Merge(Merge(p, a), a) == Merge(p, a)
  {
    var r := Merge(p, a);
    if IsBlank(p.title) && IsBlank(a.title) {
      assert r.title == a.title;
    }
    if IsBlank(p.description) && IsBlank(a.description) {
      assert r.description == a.description;
    }
  }

  /**
   * Whatever the service does, enrichment keeps the identity and file fields and every
   * non-blank title or description and non-empty list of the photograph as the default-title
   * rule left it; without a service, or if anything fails, that is all that happens.
   */
  lemma EnrichedKeepsGiven(p: PhotoData, service: Option<Assistant>, d: Disk, locked: nat, listing: Result<seq<Category>>)
    ensures var q := ClearDefaultTitle(p);
      var r := Enriched(p, service, d, locked, listing);
      && r.(title := p.title, description := p.description, tags := p.tags, categories := p.categories) == p
      && (!IsBlank(q.title) ==> r.title == q.title)
      && (!IsBlank(q.description) ==> r.description == q.description)
      && (|q.tags| > 0 ==> r.tags == q.tags)
      && (|q.categories| > 0 ==> r.categories == q.categories)
      && (service.None? || listing.Err? || !NeedsEnrichment(q) ==> r == q)
  {
    var q := ClearDefaultTitle(p);
    if service.Some? && NeedsEnrichment(q) && listing.Ok? {
      var analysis := Analysis(d, service.value, locked, q.path, q.fileName, q.contentType,
                               Existing(q.description), Existing(q.title), Some(listing.value));
      if analysis.Ok? {
        MergeFillsGapsOnly(q, analysis.value);
      }
    }
  }

  /** Without a service, a title equal to the file name's stem is stored as "". */
  lemma DefaultTitleClearedWithoutService(p: PhotoData, d: Disk, locked: nat, listing: Result<seq<Category>>)
    requires p.title == GetFileNameWithoutExtension(p.fileName)
    ensures Enriched(p, None, d, locked, listing) == p.(title := "")
  {
  }

  /**
   * With a service, a blank description is the one generated from the image, a blank title
   * becomes the analysis' title, and empty categories become the matching suggestions when
   * there are any.
   */
  lemma EnrichedUsesAnalysis(p: PhotoData, ai: Assistant, d: Disk, locked: nat, cs: seq<Category>)
    requires NeedsEnrichment(ClearDefaultTitle(p))
    requires var q := ClearDefaultTitle(p);
      Analysis(d, ai, locked, q.path, q.fileName, q.contentType, Existing(q.description), Existing(q.title), Some(cs)).Ok?
    ensures var q := ClearDefaultTitle(p);
      var a := Analysis(d, ai, locked, q.path, q.fileName, q.contentType, Existing(q.description), Existing(q.title), Some(cs)).value;
      var r := Enriched(p, Some(ai), d, locked, Ok(cs));
      && r == Merge(q, a)
      && (IsBlank(q.description) ==> r.description == DescribeImage(d, ai, q.path, q.contentType, locked).value)
      && (IsBlank(q.title) ==> r.title == a.title)
      && (|q.categories| == 0 && |a.suggestedCategories| > 0 ==>
            forall c :: c in r.categories ==> exists k :: k in cs && k.name != AllCategory && EqualsIgnoreCase(c, k.name))
  {
    var q := ClearDefaultTitle(p);
    var a := Analysis(d, ai, locked, q.path, q.fileName, q.contentType, Existing(q.description), Existing(q.title), Some(cs)).value;
    AnalysisGeneratesBlank(d, ai, locked, q.path, q.fileName, q.contentType, Existing(q.description), Existing(q.title), Some(cs));
    FilterCategoriesSpec(ai.classify(a.title, a.description, CandidateNames(Some(cs))).value.categories, Some(cs));
  }

  class IntelligentPhotoDatabase {
    const persistent: PersistentPhotoDatabase
    /** The optional analysis service. */
    const service: PhotoIntelligenceService?

    ghost predicate Valid()
      reads this, persistent, persistent.store
    {
      persistent.Valid() && (service != null ==> service.fs == persistent.fs)
    }

    constructor (database: PersistentPhotoDatabase, analysis: PhotoIntelligenceService?)
      requires database.Valid() && (analysis != null ==> analysis.fs == database.fs)
      ensures persistent == database && service == analysis && Valid()
    {
      persistent, service := database, analysis;
    }

    /** The service's model calls, if there is a service. */
    function Service(): Option<Assistant>
      reads this
    {
      if service == null then None else Some(service.ai)
    }

    /**
     * `AddPhotographAsync`: clear a default title, enrich the photograph object in place where
     * something is missing (`locked` counts the reads that find the image locked), then add it to
     * the persistent database, whose outcome is the call's outcome.
     */
    method AddPhotograph(photograph: Photograph, locked: nat) returns (outcome: Outcome)
      requires Valid()
      modifies photograph, persistent.store, persistent.fs
      ensures Valid()
      ensures photograph.Data()
              == Enriched(old(photograph.Data()), Service(), old(persistent.fs.State()), locked, old(persistent.ListCategories()))
      ensures persistent.disposed ==>
        outcome == Failed(DatabaseDisposed) && persistent.store.Model() == old(persistent.store.Model())
        && persistent.fs.State() == old(persistent.fs.State())
      ensures !persistent.disposed ==>
        && persistent.store.Model() == AddPhoto(old(persistent.store.Model()), photograph.Data())
        && (persistent.fs.State(), outcome)
           == WriteAll(old(persistent.fs.State()),
                       PhotoWrites(persistent.rootFolder, persistent.store.Model(), photograph.Data(), persistent.le))
    {
      Enrich(photograph, locked);
      outcome := persistent.AddPhotograph(photograph);
    }

    /** The enrichment half of `AddPhotographAsync`: change the photograph object field by field. */
    method Enrich(photograph: Photograph, locked: nat)
      requires Valid()
      modifies photograph
      ensures photograph.Data()
              == Enriched(old(photograph.Data()), Service(), persistent.fs.State(), locked, persistent.ListCategories())
    {
      if photograph.title == GetFileNameWithoutExtension(photograph.fileName) {
        photograph.title := "";
      }
      if service != null && NeedsEnrichment(photograph.Data()) {
        var available := persistent.ListCategories();
        if available.Ok? {
          var analysis := service.AnalyzePhoto(photograph.path, photograph.fileName, photograph.contentType,
                                               Existing(photograph.description), Existing(photograph.title),
                                               Some(available.value), locked);
          if analysis.Ok? {
            ApplyAnalysis(photograph, analysis.value);
          }
        }
      }
    }

    /** The four guarded assignments that apply an analysis. */
    method ApplyAnalysis(photograph: Photograph, a: PhotoAnalysis)
      modifies photograph
      ensures photograph.Data() == Merge(old(photograph.Data()), a)
    {
      if IsBlank(photograph.title) {
        photograph.title := a.title;
      }
      if IsBlank(photograph.description) {
        photograph.description := a.description;
      }
      if |photograph.tags| == 0 && |a.suggestedTags| > 0 {
        photograph.tags := a.suggestedTags;
      }
      if |photograph.categories| == 0 && |a.suggestedCategories| > 0 {
        photograph.categories := a.suggestedCategories;
      }
    }

    /** `InitAsync`, delegated: the persistent database's load, or its failure. */
    method Init() returns (outcome: Outcome)
      requires Valid()
      modifies persistent, persistent.store
      ensures Valid()
      ensures persistent.disposed == old(persistent.disposed) && persistent.fs.State() == old(persistent.fs.State())
      ensures old(persistent.initialized) ==>
        outcome == Done && persistent.initialized && persistent.store.Model() == old(persistent.store.Model())
      ensures !old(persistent.initialized) && NoDataFiles(persistent.fs.State(), persistent.rootFolder) ==>
        outcome == Done && persistent.initialized && persistent.store.Model() == old(persistent.store.Model())
      ensures !old(persistent.initialized) && !NoDataFiles(persistent.fs.State(), persistent.rootFolder) && persistent.disposed ==>
        outcome == Failed(LockDisposed) && !persistent.initialized && persistent.store.Model() == old(persistent.store.Model())
      ensures !old(persistent.initialized) && !NoDataFiles(persistent.fs.State(), persistent.rootFolder) && !persistent.disposed ==>
        var load := Load(persistent.fs.State(), persistent.rootFolder, old(persistent.store.Model()));
        && persistent.store.Model() == load.catalog
        && (persistent.initialized <==> load.failure.None?)
        && (outcome.Failed? ==> load.failure == Some(outcome.error))
        && (outcome.Done? <==> persistent.initialized)
    {
      outcome := persistent.Init();
    }

    /** `AddCategoryAsync`, delegated: the store's upsert, then the atomic rewrite of `categories.json`. */
    method AddCategory(category: Category) returns (outcome: Outcome)
      requires Valid()
      modifies persistent.store, persistent.fs
      ensures Valid()
      ensures persistent.disposed ==>
        && outcome == Failed(DatabaseDisposed) && persistent.store.Model() == old(persistent.store.Model())
        && persistent.fs.State() == old(persistent.fs.State())
      ensures !persistent.disposed ==>
        && persistent.store.Model() == PhotoCatalog.AddCategory(old(persistent.store.Model()), category)
        && (persistent.fs.State(), outcome)
           == AtomicWrite(old(persistent.fs.State()), CategoriesPath(persistent.rootFolder),
                          CategoriesDocument(Some(PhotoCatalog.ListCategories(persistent.store.Model(), persistent.le))))
    {
      outcome := persistent.AddCategory(category);
    }

    /**
     * `UpdatePhotographAsync`, delegated: no enrichment on update. An unknown id fails before
     * anything is written; otherwise the store is updated and the four files are written.
     */
    method UpdatePhotograph(photograph: Photograph) returns (outcome: Outcome)
      requires Valid()
      modifies persistent.store, persistent.fs
      ensures Valid() && photograph.Data() == old(photograph.Data())
      ensures persistent.disposed ==>
        && outcome == Failed(DatabaseDisposed) && persistent.store.Model() == old(persistent.store.Model())
        && persistent.fs.State() == old(persistent.fs.State())
      ensures !persistent.disposed && UpdatePhoto(old(persistent.store.Model()), photograph.Data()).Err? ==>
        && outcome == Failed(UpdatePhoto(old(persistent.store.Model()), photograph.Data()).error)
        && persistent.store.Model() == old(persistent.store.Model())
        && persistent.fs.State() == old(persistent.fs.State())
      ensures !persistent.disposed && UpdatePhoto(old(persistent.store.Model()), photograph.Data()).Ok? ==>
        && persistent.store.Model() == UpdatePhoto(old(persistent.store.Model()), photograph.Data()).value
        && (persistent.fs.State(), outcome)
           == WriteAll(old(persistent.fs.State()),
                       PhotoWrites(persistent.rootFolder, persistent.store.Model(), photograph.Data(), persistent.le))
    {
      outcome := persistent.UpdatePhotograph(photograph);
    }

    /** `GetPhotographWithIdAsync`, delegated. */
    method GetPhotographWithId(id: string) returns (r: Result<Photograph?>)
      ensures persistent.disposed ==> r == Err(DatabaseDisposed)
      ensures !persistent.disposed ==> r.Ok? && (r.value == null <==> GetPhoto(persistent.store.Model(), id).None?)
      ensures !persistent.disposed && r.Ok? && r.value != null
              ==> fresh(r.value) && r.value.Data() == GetPhoto(persistent.store.Model(), id).value
    {
      r := persistent.GetPhotographWithId(id);
    }

    /** `ListCategoriesAsync`, delegated. */
    function ListCategories(): (r: Result<seq<Category>>)
      requires Valid()
      reads this, persistent, persistent.store
      ensures r.Ok? <==> !persistent.disposed
      ensures r.Ok? ==> multiset(r.value) == multiset(persistent.store.categories)
      ensures r.Ok? ==> r.value == PhotoCatalog.ListCategories(persistent.store.Model(), persistent.le)
    {
      persistent.ListCategories()
    }

    /** `ListPhotoIdsAsync`, delegated. */
    function ListPhotoIds(): (r: Result<seq<string>>)
      reads this, persistent, persistent.store
      ensures r.Ok? <==> !persistent.disposed
      ensures r.Ok? ==> r.value == PhotoCatalog.ListPhotoIds(persistent.store.Model())
    {
      persistent.ListPhotoIds()
    }

    /** `ListTagsAsync`, delegated. */
    function ListTags(): (r: Result<seq<Tag>>)
      requires Valid()
      reads this, persistent, persistent.store
      ensures r.Ok? <==> !persistent.disposed
      ensures r.Ok? ==> multiset(r.value) == multiset(persistent.store.tags)
      ensures r.Ok? ==> r.value == PhotoCatalog.ListTags(persistent.store.Model(), persistent.le)
    {
      persistent.ListTags()
    }
  }
}

=== FILE: medium_preview_executor.dfy ===
/**
 * `MediumPreviewExecutor`: renders the photo in one medium. A node that has already been started,
 * or that completed with a saved file still present, is left alone. Otherwise the node is
 * started, the medium agent's image generator is asked for a rendition, and a non-empty image is
 * saved next to the run's other files as "{photo file stem}_{medium}{extension}", registered with
 * the context's image registry and stored as the node's result before the node is completed.
 */
module MediumPreviewExecution {
  import opened Wrappers
  import opened Paths
  import opened Files
  import opened Photographs
  import opened Agents
  import opened Registry
  import opened WorkflowNodes
  import opened WorkflowContext
  import MarketingWorkflows

  /** `KeyNotFoundException` of a dictionary indexer. */
  function MissingKey(key: string): Error {
    KeyNotFound("The given key '" + key + "' was not present in the dictionary.")
  }

  /** The file extension for the media type the generator reports. */
  function Extension(mediaType: string): (ext: string)
    ensures ext == ".png" <==> mediaType == "image/png"
    ensures ext == ".jpg" <==> mediaType == "image/jpeg"
    ensures ext == ".png" || ext == ".jpg" || ext == ".img"
  {
    match mediaType
    case "image/png" => ".png"
    case "image/jpeg" => ".jpg"
    case _ => ".img"
  }

  /** Where the rendition is saved: the run's folder, then "{stem}_{medium}{extension}". */
  function PreviewPath(directory: string, photoPath: string, medium: string, mediaType: string): string {
    Combine(directory, GetFileNameWithoutExtension(photoPath) + "_" + medium + Extension(mediaType))
  }

  /** A file stem never holds a separator. */
  lemma StemHasNoSeparator(path: string)
    ensures Separator !in GetFileNameWithoutExtension(path)
  {
    var i := LastIndexOf(path, Separator);
    var name := GetFileName(path);
    assert forall k :: 0 <= k < |name| ==> name[k] == path[i + 1 + k];
  }

  /**
   * For a medium and a stem without dots or separators, the saved file is named
   * "{stem}_{medium}{extension}", so its extension is the one chosen for the media type and its
   * stem names the photo and the medium.
   */
  lemma PreviewPathParts(directory: string, photoPath: string, medium: string, mediaType: string)
    requires '.' !in GetFileNameWithoutExtension(photoPath)
    requires '.' !in medium && Separator !in medium
    ensures GetFileName(PreviewPath(directory, photoPath, medium, mediaType))
            == GetFileNameWithoutExtension(photoPath) + "_" + medium + Extension(mediaType)
    ensures GetExtension(PreviewPath(directory, photoPath, medium, mediaType)) == Extension(mediaType)
    ensures GetFileNameWithoutExtension(PreviewPath(directory, photoPath, medium, mediaType))
            == GetFileNameWithoutExtension(photoPath) + "_" + medium
  {
    var stem := GetFileNameWithoutExtension(photoPath) + "_" + medium;
    var ext := Extension(mediaType);
    StemHasNoSeparator(photoPath);
    assert '.' !in stem && Separator !in stem by {
      assert forall k :: 0 <= k < |stem| ==> stem[k] in GetFileNameWithoutExtension(photoPath) || stem[k] == '_' || stem[k] in medium;
    }
    assert ext[1..] == "png" || ext[1..] == "jpg" || ext[1..] == "img";
    StemAndExtension(stem, ext);
    CombineFileName(directory, stem + ext);
  }

  /** What the generator is given: the prompt for the medium, the photo's bytes and content type, and the generator. */
  datatype PreviewRequest = PreviewRequest(prompt: string, image: Content, contentType: string, generator: ImageGenerator)

  /**
   * The request, or the first exception met while putting it together: the medium agent's prompt
   * for the medium, then the photo's file, then the agent's image generator.
   */
  function Request(agents: AgentCache, photo: Photograph, fs: FileSystem, medium: string): (r: Result<PreviewRequest>)
    reads agents, photo, fs
    ensures r.Ok? <==> && MarketingWorkflows.MediumAgent in agents.cache
                       && medium in agents.cache[MarketingWorkflows.MediumAgent].prompts
                       && photo.path in fs.files
                       && agents.cache[MarketingWorkflows.MediumAgent].imageGenerator.Some?
    ensures r.Ok? ==> r.value == PreviewRequest(agents.cache[MarketingWorkflows.MediumAgent].prompts[medium],
                                                fs.files[photo.path], photo.contentType,
                                                agents.cache[MarketingWorkflows.MediumAgent].imageGenerator.value)
    ensures MarketingWorkflows.MediumAgent !in agents.cache ==> r == Err(AgentNotFound(MarketingWorkflows.MediumAgent))
  {
    var prompt :- agents.GetPrompt(MarketingWorkflows.MediumAgent, medium);
    var image :- fs.ReadFile(photo.path);
    var generator :- agents.GetImageClient(MarketingWorkflows.MediumAgent);
    Ok(PreviewRequest(prompt, image, photo.contentType, generator))
  }

  /** How asking for a rendition ends: an exception, no usable image, or an image with its bytes. */
  datatype Rendition = Failure(error: Error) | NoImage | Image(mediaType: string, data: seq<bv8>)

  /** The first data content the generator answers with, when it holds any bytes. */
  function Render(agents: AgentCache, photo: Photograph, fs: FileSystem, medium: string): (r: Rendition)
    reads agents, photo, fs
    ensures r.Failure? <==> Request(agents, photo, fs, medium).Err?
                            || (var q := Request(agents, photo, fs, medium).value;
                                q.generator.generate(q.prompt, q.image, q.contentType).Err?)
    ensures r.Image? ==> |r.data| > 0
    ensures r.NoImage? ==> var q := Request(agents, photo, fs, medium).value;
                           var answer := q.generator.generate(q.prompt, q.image, q.contentType);
                           answer.Ok? && (answer.value == None || answer.value.value.data == [])
  {
    match Request(agents, photo, fs, medium)
    case Err(e) => Failure(e)
    case Ok(q) =>
      match q.generator.generate(q.prompt, q.image, q.contentType)
      case Err(e) => Failure(e)
      case Ok(None) => NoImage
      case Ok(Some(image)) => if image.data == [] then NoImage else Image(image.mediaType, image.data)
  }

  /** The photo is present and the medium has a node. */
  predicate Found(context: MarketingWorkflowContext, medium: string)
    reads context
  {
    context.photo != null && medium in context.mediumPreviews
  }

  /** The guard: a node already started, or completed with its saved file still there, is not rendered again. */
  predicate Skips(node: WorkflowNode, fs: FileSystem)
    reads node, fs
  {
    || (node.completed && node.result.Some? && node.result.value.Previewed?
        && fs.Exists(node.result.value.preview.imagePath))
    || node.started
  }

  /** The node of the medium, with its notifications, if there is one. */
  function NodeFrame(previews: map<string, WorkflowNode>, medium: string): set<object> {
    if medium in previews then {previews[medium], previews[medium].base} else {}
  }

  /** The registration of a saved rendition. */
  function PreviewRegistration(path: string, medium: string, title: string): Registration {
    Registration(GetFileName(path), "In the style of " + medium + ": " + title, "A rendition of the image in " + medium)
  }

  /**
   * `HandleAsync`. Without a photo the stem cannot be taken; a medium without a node fails at the
   * lookup; a skipped node changes nothing. Otherwise the node is started first, and:
   * an exception leaves it started only; no image completes it with no result and no file; an
   * image is written, then registered, then stored as the result, then the node completes.
   */
  method Handle(context: MarketingWorkflowContext, agents: AgentCache, medium: string) returns (outcome: Outcome)
    requires context.imageRegistry.Valid()
    requires medium in context.mediumPreviews ==> context.mediumPreviews[medium].Valid()
    modifies context.fs, context.imageRegistry, NodeFrame(context.mediumPreviews, medium)
    ensures context.imageRegistry.Valid()
    ensures context.photo == null ==> outcome == Failed(NullReference)
    ensures context.photo != null && medium !in context.mediumPreviews ==> outcome == Failed(MissingKey(medium))
    ensures !Found(context, medium) || old(Skips(context.mediumPreviews[medium], context.fs))
            ==> && (Found(context, medium) ==> outcome == Done)
                && unchanged(context.fs, context.imageRegistry) && unchanged(NodeFrame(context.mediumPreviews, medium))
    ensures Found(context, medium) && !old(Skips(context.mediumPreviews[medium], context.fs))
            ==> Rendered(context, context.mediumPreviews[medium], context.photo,
                         old(Render(agents, context.photo, context.fs, medium)), medium, outcome)
  {
    if context.photo == null {
      return Failed(NullReference);
    }
    var directory := context.baseDirectory;
    var photo := context.photo;
    if medium !in context.mediumPreviews {
      return Failed(MissingKey(medium));
    }
    var node := context.mediumPreviews[medium];
    if Skips(node, context.fs) {
      return Done;
    }
    var rendition := Render(agents, photo, context.fs, medium);
    outcome := Generate(context, medium, node, photo, rendition);
  }

  /**
   * The part of `HandleAsync` after the guard, on the medium's node, which has not been started,
   * given what asking the generator comes to: starting the node changes nothing the request reads.
   */
  method Generate(context: MarketingWorkflowContext, medium: string, node: WorkflowNode, photo: Photograph,
                  rendition: Rendition)
    returns (outcome: Outcome)
    requires node.Valid() && !node.started && context.imageRegistry.Valid()
    modifies context.fs, context.imageRegistry, node, node.base
    ensures context.imageRegistry.Valid()
    ensures Rendered(context, node, photo, rendition, medium, outcome)
  {
    node.SetStarted(true);
    if rendition.Failure? {
      return Failed(rendition.error);
    }
    if rendition.NoImage? {
      node.SetCompleted(true);
      return Done;
    }
    var path := PreviewPath(context.baseDirectory, photo.path, medium, rendition.mediaType);
    outcome := context.fs.WriteFile(path, Bytes(rendition.data));
    if outcome.Failed? {
      return;
    }
    Publish(context, node, photo, medium, path);
  }

  /** The end of a rendition whose file was written: register it, store it as the result, complete the node. */
  method Publish(context: MarketingWorkflowContext, node: WorkflowNode, photo: Photograph, medium: string, path: string)
    requires node.Valid() && context.imageRegistry.Valid()
    modifies context.imageRegistry, node, node.base
    ensures context.imageRegistry.Valid()
    ensures context.imageRegistry.registrations
            == old(context.imageRegistry.registrations) + [PreviewRegistration(path, medium, photo.title)]
    ensures node.started == old(node.started) && node.completed
    ensures node.result == Some(Previewed(MediumPreviewResponse(medium, path)))
    ensures node.base.notifications
            == old(node.base.notifications) + (if old(node.result) != node.result then ["Result"] else [])
               + Raised(old(node.completed), "Completed")
  {
    context.imageRegistry.RegisterImage(GetFileName(path), "In the style of " + medium + ": " + photo.title,
                                        "A rendition of the image in " + medium);
    node.SetResult(Some(Previewed(MediumPreviewResponse(medium, path))));
    node.SetCompleted(true);
  }

  /**
   * What rendering a node that was not skipped leaves behind. The node is started, announcing
   * "Started", "Result" and "Completed" for what changed, in that order. On an exception it is
   * otherwise untouched; without an image it is completed with no result and no file; with an
   * image the file is written, and only if that succeeds is it registered, stored as the result
   * and the node completed.
   */
  twostate predicate Rendered(context: MarketingWorkflowContext, node: WorkflowNode, photo: Photograph, r: Rendition,
                             medium: string, outcome: Outcome)
    reads context, photo, context.fs, context.imageRegistry, node, node.base
  {
    && node.started
    && match r
       case Failure(e) =>
         && outcome == Failed(e) && Kept(context, node) && node.completed == old(node.completed)
         && node.base.notifications == old(node.base.notifications) + ["Started"]
       case NoImage =>
         && outcome == Done && Kept(context, node) && node.completed
         && node.base.notifications
            == old(node.base.notifications) + ["Started"] + Raised(old(node.completed), "Completed")
       case Image(mediaType, data) =>
         var path := PreviewPath(context.baseDirectory, photo.path, medium, mediaType);
         var written := Write(old(context.fs.State()), path, Bytes(data));
         && context.fs.State() == written.0 && outcome == written.1
         && (outcome.Failed?
             ==> && Kept(context, node) && node.completed == old(node.completed)
                 && node.base.notifications == old(node.base.notifications) + ["Started"])
         && (outcome.Done?
             ==> && context.imageRegistry.registrations
                    == old(context.imageRegistry.registrations) + [PreviewRegistration(path, medium, photo.title)]
                 && node.completed && node.result == Some(Previewed(MediumPreviewResponse(medium, path)))
                 && node.base.notifications
                    == old(node.base.notifications) + ["Started"]
                       + (if old(node.result) != node.result then ["Result"] else [])
                       + Raised(old(node.completed), "Completed"))
  }

  /** Nothing but the node's flags changed: no file written, nothing registered, the result kept. */
  twostate predicate Kept(context: MarketingWorkflowContext, node: WorkflowNode)
    reads context, context.fs, context.imageRegistry, node
  {
    && context.fs.State() == old(context.fs.State())
    && context.imageRegistry.registrations == old(context.imageRegistry.registrations)
    && node.result == old(node.result)
  }
}

=== FILE: observable.dfy ===
/**
 * `BaseObservable`: an object that raises property-change notifications, remembers the observable
 * values it holds under each property name, subscribes to their own notifications, and relays
 * them as "{Name}.{property}".
 *
 * The notifications this object has raised are kept as a log, in order. A subscription of this
 * object's relay handler to a child is kept in a multiset of children: attaching the handler
 * twice to the same child relays that child's notifications twice, and detaching it removes one
 * attachment, if there is one.
 */
module Observables {

  /** `GetType().Name` of a `WorkflowNode<T>`: the CLR name of the generic type. */
  const NodeTypeName: string := "WorkflowNode`1"

  /** The property names under which `values` holds the child `c`. */
  function KeysOf(values: map<string, object>, c: object): set<string> {
    set k | k in values && values[k] == c
  }

  /** Storing `v` under `k` moves `k` from the old child's keys to `v`'s. */
  lemma KeysOfUpdate(values: map<string, object>, k: string, v: object, c: object)
    ensures |KeysOf(values[k := v], c)|
            == |KeysOf(values, c)| - (if k in values && values[k] == c then 1 else 0) + (if v == c then 1 else 0)
  {
    var before, after := KeysOf(values, c), KeysOf(values[k := v], c);
    if v == c {
      assert after == before + {k};
      if k in values && values[k] == c {
        assert after == before;
      }
    } else {
      assert after == before - {k};
    }
  }

  /** Every attached child is stored under at least as many names as it has attachments. */
  ghost predicate Bounded(subscriptions: multiset<object>, values: map<string, object>) {
    forall c | c in subscriptions :: subscriptions[c] <= |KeysOf(values, c)|
  }

  /** Detaching from the old child under `property` and attaching to `value` keeps the bound. */
  lemma RewiringKeepsBound(subscriptions: multiset<object>, values: map<string, object>, property: string, value: object?)
    requires Bounded(subscriptions, values)
    ensures var detached := if property in values then subscriptions - multiset{values[property]} else subscriptions;
      value == null ==> Bounded(detached, values)
    ensures var detached := if property in values then subscriptions - multiset{values[property]} else subscriptions;
      value != null ==> Bounded(detached + multiset{value}, values[property := value])
  {
    var detached := if property in values then subscriptions - multiset{values[property]} else subscriptions;
    if value != null {
      var attached := detached + multiset{value};
      forall c | c in attached
        ensures attached[c] <= |KeysOf(values[property := value], c)|
      {
        KeysOfUpdate(values, property, value, c);
        if property in values && values[property] == c {
          assert property in KeysOf(values, c);
        }
      }
    }
  }

  /** The keys among `keys` under which `values` holds the child `c`. */
  function KeysIn(values: map<string, object>, keys: set<string>, c: object): set<string>
    requires keys <= values.Keys
  {
    set k | k in keys && values[k] == c
  }

  /** Dropping the key `k` drops it from its own child's keys only. */
  lemma KeysInRemove(values: map<string, object>, keys: set<string>, k: string, c: object)
    requires keys <= values.Keys && k in keys
    ensures |KeysIn(values, keys - {k}, c)| == |KeysIn(values, keys, c)| - (if values[k] == c then 1 else 0)
  {
    if values[k] == c {
      assert KeysIn(values, keys - {k}, c) == KeysIn(values, keys, c) - {k};
    } else {
      assert KeysIn(values, keys - {k}, c) == KeysIn(values, keys, c);
    }
  }

  /** A notification repeated `n` times. */
  function Repeat(s: string, n: nat): (r: seq<string>)
    ensures |r| == n && forall i :: 0 <= i < n ==> r[i] == s
  {
    if n == 0 then [] else Repeat(s, n - 1) + [s]
  }

  class Observable {
    /** The runtime type name of the object, which prefixes every relayed notification. */
    const name: string
    /** `_propertyValues`: the last non-null observable value stored under each property name. */
    var values: map<string, object>
    /** The children the relay handler is attached to, with multiplicity. */
    var subscriptions: multiset<object>
    /** Every `PropertyChanged` notification raised so far, in order. */
    var notifications: seq<string>
    /** `disposedValue`. */
    var disposed: bool

    /** The handler is never attached to a child more often than the child is stored here. */
    ghost predicate Valid()
      reads this
    {
      Bounded(subscriptions, values)
    }

    constructor (typeName: string)
      ensures name == typeName && values == map[] && subscriptions == multiset{}
      ensures notifications == [] && !disposed
      ensures Valid()
    {
      name, values, subscriptions, notifications, disposed := typeName, map[], multiset{}, [], false;
    }

    /** `OnPropertyChanged`: raise one notification. */
    method OnPropertyChanged(property: string)
      modifies this
      ensures notifications == old(notifications) + [property]
      ensures values == old(values) && subscriptions == old(subscriptions) && disposed == old(disposed)
    {
      notifications := notifications + [property];
    }

    /**
     * `OnObservablePropertyChanged`: detach from the child last stored under the property, attach
     * to the new one and store it (a null value is neither attached nor stored, so the old child
     * stays on record), then raise the property's notification.
     */
    method OnObservablePropertyChanged(property: string, value: object?)
      requires Valid()
      modifies this
      ensures Valid()
      ensures values == if value == null then old(values) else old(values)[property := value]
      ensures subscriptions
              == (if property in old(values) then old(subscriptions) - multiset{old(values)[property]}
                  else old(subscriptions))
                 + (if value == null then multiset{} else multiset{value})
      ensures notifications == old(notifications) + [property]
      ensures disposed == old(disposed)
    {
      RewiringKeepsBound(subscriptions, values, property, value);
      var detached := if property in values then subscriptions - multiset{values[property]} else subscriptions;
      if value == null {
        subscriptions := detached;
      } else {
        subscriptions, values := detached + multiset{value}, values[property := value];
      }
      notifications := notifications + [property];
    }

    /**
     * `ChildPropertyChanged`: the child raised `property`; every attachment of the relay handler
     * to it raises "{Name}.{property}" on this object.
     */
    method ChildPropertyChanged(child: object, property: string)
      modifies this
      ensures notifications == old(notifications) + Repeat(name + "." + property, old(subscriptions)[child])
      ensures values == old(values) && subscriptions == old(subscriptions) && disposed == old(disposed)
    {
      var relayed := name + "." + property;
      for i := 0 to subscriptions[child]
        invariant notifications == old(notifications) + Repeat(relayed, i)
        invariant values == old(values) && subscriptions == old(subscriptions) && disposed == old(disposed)
      {
        notifications := notifications + [relayed];
      }
    }

    /** `Dispose`: the first call detaches the handler from every stored child; later calls do nothing. */
    method Dispose()
      requires Valid()
      modifies this
      ensures Valid() && disposed
      ensures old(disposed) ==> subscriptions == old(subscriptions)
      ensures !old(disposed) ==> subscriptions == multiset{}
      ensures values == old(values) && notifications == old(notifications)
    {
      if !disposed {
        var keys := values.Keys;
        while keys != {}
          invariant keys <= values.Keys
          invariant forall c | c in subscriptions :: subscriptions[c] <= |KeysIn(values, keys, c)|
          invariant values == old(values) && notifications == old(notifications)
          decreases keys
        {
          var k :| k in keys;
          var child := values[k];
          forall c | c in subscriptions - multiset{child}
            ensures (subscriptions - multiset{child})[c] <= |KeysIn(values, keys - {k}, c)|
          {
            KeysInRemove(values, keys, k, c);
          }
          subscriptions := subscriptions - multiset{child};
          keys := keys - {k};
        }
        assert forall c | c in subscriptions :: subscriptions[c] == 0;
        disposed := true;
      }
    }
  }
}

=== FILE: ordering.dfy ===
/**
 * `Enumerable.OrderBy(x => key(x))` over a key comparer the model does not fix: the culture-sensitive
 * string comparison is an arbitrary total preorder `le`, and the ordering is an insertion sort.
 */
module Ordering {

  /** `le` is reflexive, transitive and total: what a comparer that `OrderBy` accepts behaves like. */
  ghost predicate TotalPreorder<K(!new)>(le: (K, K) -> bool) {
    && (forall a, b :: le(a, b) || le(b, a))
    && (forall a, b, c :: le(a, b) && le(b, c) ==> le(a, c))
  }

  /** Every element's key is at most the key of every later element. */
  ghost predicate SortedBy<T, K>(s: seq<T>, key: T -> K, le: (K, K) -> bool) {
    forall i, j :: 0 <= i < j < |s| ==> le(key(s[i]), key(s[j]))
  }

  /** Places `x` in front of the first element whose key is not below `x`'s. */
  function Insert<T, K(!new)>(x: T, s: seq<T>, key: T -> K, le: (K, K) -> bool): (r: seq<T>)
    requires TotalPreorder(le) && SortedBy(s, key, le)
    ensures multiset(r) == multiset(s) + multiset{x}
    ensures SortedBy(r, key, le)
  {
    if s == [] then [x]
    else if le(key(x), key(s[0])) then [x] + s
    else
      assert s == [s[0]] + s[1..];
      var rest := Insert(x, s[1..], key, le);
      assert forall i :: 0 <= i < |rest| ==> le(key(s[0]), key(rest[i])) by {
        forall i | 0 <= i < |rest| ensures le(key(s[0]), key(rest[i])) {
          assert rest[i] in multiset(rest);
          if rest[i] != x {
            assert rest[i] in multiset(s[1..]);
            var k :| 0 <= k < |s[1..]| && s[1..][k] == rest[i];
            assert s[k + 1] == rest[i];
          }
        }
      }
      SortedCons(s[0], rest, key, le);
      [s[0]] + rest
  }

  /** An element whose key is at most every key of a sorted sequence can go in front of it. */
  lemma SortedCons<T, K>(y: T, r: seq<T>, key: T -> K, le: (K, K) -> bool)
    requires SortedBy(r, key, le)
    requires forall i :: 0 <= i < |r| ==> le(key(y), key(r[i]))
    ensures SortedBy([y] + r, key, le)
  {
    forall i, j | 0 <= i < j < |[y] + r| ensures le(key(([y] + r)[i]), key(([y] + r)[j])) {
      if i > 0 {
        assert ([y] + r)[i] == r[i - 1];
      }
      assert ([y] + r)[j] == r[j - 1];
    }
  }

  /** `xs.OrderBy(key)`: the same elements, sorted by their keys. */
  function SortBy<T, K(!new)>(xs: seq<T>, key: T -> K, le: (K, K) -> bool): (r: seq<T>)
    requires TotalPreorder(le)
    ensures multiset(r) == multiset(xs)
    ensures SortedBy(r, key, le)
  {
    if xs == [] then []
    else
      assert xs == [xs[0]] + xs[1..];
      Insert(xs[0], SortBy(xs[1..], key, le), key, le)
  }

  /** Keys neither of which is below the other. */
  predicate Tied<K>(le: (K, K) -> bool, a: K, b: K) {
    le(a, b) && le(b, a)
  }

  /** The elements whose keys are tied with `k`, in their order in `s`. */
  function TiedWith<T, K>(s: seq<T>, key: T -> K, le: (K, K) -> bool, k: K): seq<T> {
    if s == [] then []
    else (if Tied(le, key(s[0]), k) then [s[0]] else []) + TiedWith(s[1..], key, le, k)
  }

  /** Inserting `x` puts it in front of every element whose key is tied with its own. */
  lemma {:induction false} InsertTiedFirst<T, K(!new)>(x: T, s: seq<T>, key: T -> K, le: (K, K) -> bool, k: K)
    requires TotalPreorder(le) && SortedBy(s, key, le)
    ensures TiedWith(Insert(x, s, key, le), key, le, k)
            == (if Tied(le, key(x), k) then [x] else []) + TiedWith(s, key, le, k)
  {
    if s == [] {
      assert [x][1..] == [];
    } else if le(key(x), key(s[0])) {
      assert ([x] + s)[0] == x && ([x] + s)[1..] == s;
    } else {
      var tail := s[1..];
      SortedTail(s, key, le);
      var rest := Insert(x, tail, key, le);
      var r := [s[0]] + rest;
      assert Insert(x, s, key, le) == r;
      assert r[0] == s[0] && r[1..] == rest;
      InsertTiedFirst(x, tail, key, le, k);
      NotBothTied(le, key(x), key(s[0]), k);
      InFront(if Tied(le, key(s[0]), k) then [s[0]] else [], if Tied(le, key(x), k) then [x] else [],
              TiedWith(tail, key, le, k));
    }
  }

  /** The tail of a sorted sequence is sorted. */
  lemma SortedTail<T, K>(s: seq<T>, key: T -> K, le: (K, K) -> bool)
    requires s != [] && SortedBy(s, key, le)
    ensures SortedBy(s[1..], key, le)
  {
    var tail := s[1..];
    forall i, j | 0 <= i < j < |tail| ensures le(key(tail[i]), key(tail[j])) {
      assert tail[i] == s[i + 1] && tail[j] == s[j + 1];
    }
  }

  /** When `a`'s key is not below `b`'s, they cannot both be tied with one key. */
  lemma NotBothTied<K(!new)>(le: (K, K) -> bool, a: K, b: K, k: K)
    requires TotalPreorder(le) && !le(a, b)
    ensures !(Tied(le, b, k) && Tied(le, a, k))
  {
  }

  /** Of two pieces at most one of which is non-empty, either may come first. */
  lemma InFront<T>(a: seq<T>, b: seq<T>, c: seq<T>)
    requires a == [] || b == []
    ensures a + (b + c) == b + (a + c)
  {
  }

  /**
   * `OrderBy` is stable: among elements whose keys are tied, the sorted sequence keeps the
   * order they had in the input.
   */
  lemma {:induction false} SortByStable<T, K(!new)>(xs: seq<T>, key: T -> K, le: (K, K) -> bool, k: K)
    requires TotalPreorder(le)
    ensures TiedWith(SortBy(xs, key, le), key, le, k) == TiedWith(xs, key, le, k)
  {
    if xs != [] {
      SortByStable(xs[1..], key, le, k);
      InsertTiedFirst(xs[0], SortBy(xs[1..], key, le), key, le, k);
    }
  }

  /** Sorting keeps the length and the membership of every element. */
  lemma SortByKeepsElements<T, K(!new)>(xs: seq<T>, key: T -> K, le: (K, K) -> bool)
    requires TotalPreorder(le)
    ensures |SortBy(xs, key, le)| == |xs|
    ensures forall x :: x in SortBy(xs, key, le) <==> x in xs
  {
    var r := SortBy(xs, key, le);
    assert |r| == |multiset(r)| == |multiset(xs)| == |xs|;
    forall x
      ensures x in r <==> x in xs
    {
      assert x in r <==> x in multiset(r);
      assert x in xs <==> x in multiset(xs);
    }
  }
}

=== FILE: paths.dfy ===
/**
 * The `System.IO.Path` operations the modelled code uses, on '/'-separated paths:
 * `GetFileName`, `GetExtension`, `GetFileNameWithoutExtension`, `GetDirectoryName` and
 * `Combine`.
 */
module Paths {

  const Separator: char := '/'

  /** The index of the last `c` in `s`, or -1 when `s` holds none. */
  function LastIndexOf(s: string, c: char): (i: int)
    ensures -1 <= i < |s|
    ensures i >= 0 ==> s[i] == c
    ensures forall j :: i < j < |s| ==> s[j] != c
    decreases |s|
  {
    if s == [] then -1
    else if s[|s| - 1] == c then |s| - 1
    else LastIndexOf(s[..|s| - 1], c)
  }

  /** `Path.GetFileName`: the part after the last separator. */
  function GetFileName(path: string): string {
    path[LastIndexOf(path, Separator) + 1..]
  }

  /** `Path.GetExtension`: from the last '.' of the file name on, or "" when there is none or it ends the name. */
  function GetExtension(path: string): string {
    var name := GetFileName(path);
    var dot := LastIndexOf(name, '.');
    if dot < 0 || dot == |name| - 1 then "" else name[dot..]
  }

  /** `Path.GetFileNameWithoutExtension`: the file name up to its last '.'. */
  function GetFileNameWithoutExtension(path: string): string {
    var name := GetFileName(path);
    var dot := LastIndexOf(name, '.');
    if dot < 0 then name else name[..dot]
  }

  /** `Path.GetDirectoryName`: the part before the last separator ("" when there is none). */
  function GetDirectoryName(path: string): string {
    var i := LastIndexOf(path, Separator);
    if i < 0 then "" else if i == 0 then [Separator] else path[..i]
  }

  /** `Path.Combine` of two parts: a rooted second part wins, an empty part yields the other, otherwise one separator joins them. */
  function Combine(first: string, second: string): string {
    if |second| > 0 && second[0] == Separator then second
    else if first == [] then second
    else if second == [] then first
    else if first[|first| - 1] == Separator then first + second
    else first + [Separator] + second
  }

  /** A plain file name: neither empty nor rooted, with no separator in it. */
  predicate IsPlainName(name: string) {
    name != [] && Separator !in name
  }

  /** Combining a directory with a plain name gives back that name as the file name. */
  lemma CombineFileName(dir: string, name: string)
    requires IsPlainName(name)
    ensures GetFileName(Combine(dir, name)) == name
  {
    var p := Combine(dir, name);
    var i := LastIndexOf(p, Separator);
    assert p == name || p == dir + name || p == dir + [Separator] + name;
    if p == name {
      assert forall j :: 0 <= j < |p| ==> p[j] in name;
      assert i == -1;
    } else {
      var cut := |p| - |name|;
      assert p[cut..] == name;
      assert p[cut - 1] == Separator;
      assert forall j :: cut <= j < |p| ==> p[j] == name[j - cut];
      assert i == cut - 1;
    }
  }

  /** A combined path ends with its second part. */
  lemma CombineEndsWith(first: string, second: string)
    ensures |second| <= |Combine(first, second)|
    ensures Combine(first, second)[|Combine(first, second)| - |second|..] == second
  {
  }

  /** The name of a saved image, `{id}{ext}`, keeps `ext` as its extension and `id` as its stem. */
  lemma {:induction false} StemAndExtension(id: string, ext: string)
    requires '.' !in id && Separator !in id
    requires |ext| >= 2 && ext[0] == '.' && '.' !in ext[1..] && Separator !in ext
    ensures GetFileName(id + ext) == id + ext
    ensures GetExtension(id + ext) == ext
    ensures GetFileNameWithoutExtension(id + ext) == id
  {
    var name := id + ext;
    assert forall j :: 0 <= j < |name| ==> name[j] == if j < |id| then id[j] else ext[j - |id|];
    assert LastIndexOf(name, Separator) == -1;
    assert GetFileName(name) == name;
    var dot := LastIndexOf(name, '.');
    assert name[|id|] == '.';
    assert forall j :: |id| < j < |name| ==> name[j] == ext[1..][j - |id| - 1];
    assert dot == |id|;
    assert name[dot..] == ext;
    assert name[..dot] == id;
  }
}

=== FILE: persistent_database.dfy ===
/**
 * `PersistentPhotoDatabase`: the in-memory `PhotoDatabase` backed by JSON files in one data
 * directory — `photos-index.json` (the photo ids), `categories.json`, `tags.json` and one
 * `{id}.json` per photograph. Loading happens once, in `Init`; every change is written back
 * through a temporary file that is then moved over the target.
 */
module PersistentStore {
  import opened Wrappers
  import opened Paths
  import opened Ordering
  import opened Photographs
  import opened PhotoCatalog
  import opened PhotoStore
  import opened Files

  /** The data directory: `ArtistTool` under the application-data folder. */
  function RootFolder(appData: string): string {
    Combine(appData, "ArtistTool")
  }

  function PhotosPath(root: string): string {
    Combine(root, "photos-index.json")
  }

  function CategoriesPath(root: string): string {
    Combine(root, "categories.json")
  }

  function TagsPath(root: string): string {
    Combine(root, "tags.json")
  }

  /** The file holding one photograph. */
  function PhotoPath(root: string, id: string): string {
    Combine(root, id + ".json")
  }

  /** The temporary file a write goes through. */
  function TempPath(path: string): string {
    path + ".tmp"
  }

  /** What a call on a disposed database fails with. */
  const DatabaseDisposed: Error := ObjectDisposed("PersistentPhotoDatabase")

  /** What waiting on the disposed lock fails with: the lock's exception names no object. */
  const LockDisposed: Error := ObjectDisposed("")

  const CategoriesCorrupt: Error := InvalidOperation("Categories list is corrupt.")

  const PhotosCorrupt: Error := InvalidOperation("Photos list is corrupt.")

  function UnloadablePhoto(id: string): Error {
    InvalidOperation("Unable to load photo with id: " + id)
  }

  // ---------------------------------------------------------------------------------------
  // Writing: temporary file, then move
  // ---------------------------------------------------------------------------------------

  /** The files of `before` and `after` agree at `q`. */
  ghost predicate SameAt(before: Disk, after: Disk, q: string) {
    (q in after.files <==> q in before.files) && (q in before.files ==> after.files[q] == before.files[q])
  }

  /** The best-effort clean-up after a failed write: delete the temporary file if it exists, ignoring failure. */
  function DiscardTemp(d: Disk, tmp: string): (r: Disk)
    ensures tmp !in d.denied ==> tmp !in r.files
    ensures forall q :: q != tmp ==> SameAt(d, r, q)
    ensures r.dirs == d.dirs && r.denied == d.denied
  {
    if tmp in d.files then Delete(d, tmp).0 else d
  }

  /**
   * `AtomicWriteAsync`: write `path.tmp`, then move it over `path`. It succeeds exactly when
   * neither file is locked, and then `path` holds the content and the temporary file is gone;
   * on failure `path` keeps what it held and the temporary file is removed unless it is the
   * locked one. No other file changes.
   */
  function AtomicWrite(d: Disk, path: string, content: Content): (r: (Disk, Outcome))
    ensures r.1.Done? <==> TempPath(path) !in d.denied && path !in d.denied
    ensures r.1.Done? ==> r.0.files == (d.files - {TempPath(path)})[path := content]
    ensures r.1.Failed? ==> SameAt(d, r.0, path)
    ensures r.1.Failed? ==> r.1.error == IOFailure(if TempPath(path) in d.denied then TempPath(path) else path)
    ensures r.1.Failed? && TempPath(path) !in d.denied ==> TempPath(path) !in r.0.files
    ensures forall q :: q != path && q != TempPath(path) ==> SameAt(d, r.0, q)
    ensures r.0.dirs == d.dirs && r.0.denied == d.denied
  {
    var tmp := TempPath(path);
    assert |tmp| > |path|;
    var (written, wrote) := Write(d, tmp, content);
    if wrote.Failed? then (DiscardTemp(written, tmp), wrote)
    else
      var (moved, move) := Move(written, tmp, path, true);
      if move.Failed? then (DiscardTemp(moved, tmp), move)
      else (moved, Done)
  }

  /** One atomic write of the persistence sequence. */
  datatype FileWrite = FileWrite(path: string, content: Content)

  /** Atomic writes in order, stopping at the first that fails and passing its error on. */
  function WriteAll(d: Disk, ws: seq<FileWrite>): (Disk, Outcome)
    decreases |ws|
  {
    if ws == [] then (d, Done)
    else
      var (next, outcome) := AtomicWrite(d, ws[0].path, ws[0].content);
      if outcome.Failed? then (next, outcome) else WriteAll(next, ws[1..])
  }

  /** Neither a file the sequence writes nor its temporary file is locked. */
  ghost predicate Writable(d: Disk, ws: seq<FileWrite>) {
    forall i :: 0 <= i < |ws| ==> ws[i].path !in d.denied && TempPath(ws[i].path) !in d.denied
  }

  /** `q` is neither written by the sequence nor one of its temporary files. */
  ghost predicate Untouched(ws: seq<FileWrite>, q: string) {
    forall i :: 0 <= i < |ws| ==> q != ws[i].path && q != TempPath(ws[i].path)
  }

  /** The sequence succeeds exactly when none of its files is locked. */
  lemma {:induction false} WriteAllSucceeds(d: Disk, ws: seq<FileWrite>)
    ensures WriteAll(d, ws).1.Done? <==> Writable(d, ws)
    ensures WriteAll(d, ws).0.denied == d.denied
    decreases |ws|
  {
    if ws != [] {
      var next := AtomicWrite(d, ws[0].path, ws[0].content).0;
      WriteAllSucceeds(next, ws[1..]);
      assert Writable(d, ws) <==> ws[0].path !in d.denied && TempPath(ws[0].path) !in d.denied && Writable(next, ws[1..]) by {
        assert forall i :: 1 <= i < |ws| ==> ws[i] == ws[1..][i - 1];
      }
    }
  }

  /** Whatever happens, a file the sequence does not touch keeps its content. */
  lemma {:induction false} WriteAllUntouched(d: Disk, ws: seq<FileWrite>, q: string)
    requires Untouched(ws, q)
    ensures SameAt(d, WriteAll(d, ws).0, q)
    decreases |ws|
  {
    if ws != [] {
      var (next, outcome) := AtomicWrite(d, ws[0].path, ws[0].content);
      if outcome.Done? {
        assert Untouched(ws[1..], q) by {
          assert forall i :: 1 <= i < |ws| ==> ws[i] == ws[1..][i - 1];
        }
        WriteAllUntouched(next, ws[1..], q);
      }
    }
  }

  /** The writes happen in sequence order: once a prefix has succeeded, the rest continues from its result. */
  lemma {:induction false} WriteAllInOrder(d: Disk, ws: seq<FileWrite>, k: nat)
    requires k <= |ws| && WriteAll(d, ws[..k]).1.Done?
    ensures WriteAll(d, ws) == WriteAll(WriteAll(d, ws[..k]).0, ws[k..])
    decreases k
  {
    if k > 0 {
      var next := AtomicWrite(d, ws[0].path, ws[0].content).0;
      assert ws[..k][0] == ws[0];
      assert ws[..k][1..] == ws[1..][..k - 1];
      WriteAllInOrder(next, ws[1..], k - 1);
      assert ws[1..][k - 1..] == ws[k..];
    }
  }

  /** After a successful sequence, the last write to a path is what that path holds. */
  lemma {:induction false} WriteAllLands(d: Disk, ws: seq<FileWrite>, i: nat)
    requires i < |ws| && WriteAll(d, ws).1.Done?
    requires forall j :: i < j < |ws| ==> ws[j].path != ws[i].path && TempPath(ws[j].path) != ws[i].path
    ensures ws[i].path in WriteAll(d, ws).0.files
    ensures WriteAll(d, ws).0.files[ws[i].path] == ws[i].content
    decreases i
  {
    var next := AtomicWrite(d, ws[0].path, ws[0].content).0;
    assert forall j :: 1 <= j < |ws| ==> ws[j] == ws[1..][j - 1];
    if i == 0 {
      WriteAllUntouched(next, ws[1..], ws[0].path);
    } else {
      WriteAllLands(next, ws[1..], i - 1);
    }
  }

  /**
   * What adding or updating a photograph writes, in order: the photograph's own file and the
   * id index (`SerializePhotoAsync`), then the categories, then the tags, each list as the store
   * now reports it. The photograph file holds the caller's object as a JSON round trip returns it.
   */
  function PhotoWrites(root: string, c: Catalog, p: PhotoData, le: (string, string) -> bool): (r: seq<FileWrite>)
    requires TotalPreorder(le)
    ensures |r| == 4
    ensures r[0].path == PhotoPath(root, p.id) && r[1].path == PhotosPath(root)
    ensures r[2].path == CategoriesPath(root) && r[3].path == TagsPath(root)
  {
    [ FileWrite(PhotoPath(root, p.id), PhotoDocument(Some(p.Serialized()))),
      FileWrite(PhotosPath(root), IdsDocument(Some(ListPhotoIds(c)))),
      FileWrite(CategoriesPath(root), CategoriesDocument(Some(ListCategories(c, le)))),
      FileWrite(TagsPath(root), TagsDocument(Some(ListTags(c, le)))) ]
  }

  // ---------------------------------------------------------------------------------------
  // Loading
  // ---------------------------------------------------------------------------------------

  /** The catalog under way, the photographs loaded and skipped so far, and the error that stopped loading. */
  datatype LoadState = LoadState(catalog: Catalog, loaded: nat, skipped: nat, failure: Option<Error>)

  /** Each category of `categories.json`, in file order, passed to the store's `AddCategoryAsync`. */
  function LoadCategories(c: Catalog, cs: seq<Category>): Catalog
    decreases |cs|
  {
    if cs == [] then c else AddCategory(LoadCategories(c, cs[..|cs| - 1]), cs[|cs| - 1])
  }

  /** One id of the index: skip it if its file is missing, fail if the file holds no photograph, else add it. */
  function LoadPhoto(d: Disk, root: string, s: LoadState, id: string): LoadState {
    var path := PhotoPath(root, id);
    if path !in d.files then s.(skipped := s.skipped + 1)
    else match d.files[path]
      case PhotoDocument(Some(p)) => s.(catalog := AddPhoto(s.catalog, p), loaded := s.loaded + 1)
      case PhotoDocument(None) => s.(failure := Some(UnloadablePhoto(id)))
      case _ => s.(failure := Some(MalformedDocument(path)))
  }

  /** The ids of the index in order, until one fails. */
  function LoadPhotos(d: Disk, root: string, c: Catalog, ids: seq<string>): LoadState
    decreases |ids|
  {
    if ids == [] then LoadState(c, 0, 0, None)
    else
      var s := LoadPhotos(d, root, c, ids[..|ids| - 1]);
      if s.failure.Some? then s else LoadPhoto(d, root, s, ids[|ids| - 1])
  }

  /** The categories read from `categories.json`, or why they cannot be. */
  function ReadCategories(d: Disk, root: string): Result<seq<Category>> {
    var path := CategoriesPath(root);
    if path !in d.files then Ok([])
    else match d.files[path]
      case CategoriesDocument(Some(cs)) => Ok(cs)
      case CategoriesDocument(None) => Err(CategoriesCorrupt)
      case _ => Err(MalformedDocument(path))
  }

  /** The ids read from `photos-index.json`, or why they cannot be. */
  function ReadIndex(d: Disk, root: string): Result<seq<string>> {
    var path := PhotosPath(root);
    if path !in d.files then Ok([])
    else match d.files[path]
      case IdsDocument(Some(ids)) => Ok(ids)
      case IdsDocument(None) => Err(PhotosCorrupt)
      case _ => Err(MalformedDocument(path))
  }

  /**
   * The loading part of `InitAsync`: the categories first, then the photographs of the index.
   * `tags.json` is not read: the tags come back only from the photographs added.
   */
  function Load(d: Disk, root: string, c: Catalog): LoadState {
    match ReadCategories(d, root)
    case Err(e) => LoadState(c, 0, 0, Some(e))
    case Ok(cs) =>
      var withCategories := LoadCategories(c, cs);
      match ReadIndex(d, root)
      case Err(e) => LoadState(withCategories, 0, 0, Some(e))
      case Ok(ids) => LoadPhotos(d, root, withCategories, ids)
  }

  /** None of the three data files exists: a fresh database. */
  predicate NoDataFiles(d: Disk, root: string) {
    CategoriesPath(root) !in d.files && PhotosPath(root) !in d.files && TagsPath(root) !in d.files
  }

  /** Once one id has failed, the later ids are not looked at. */
  lemma {:induction false} LoadPhotosStops(d: Disk, root: string, c: Catalog, ids: seq<string>, k: nat)
    requires k <= |ids| && LoadPhotos(d, root, c, ids[..k]).failure.Some?
    ensures LoadPhotos(d, root, c, ids) == LoadPhotos(d, root, c, ids[..k])
    decreases |ids|
  {
    if k < |ids| {
      var init := ids[..|ids| - 1];
      assert init[..k] == ids[..k];
      LoadPhotosStops(d, root, c, init, k);
    } else {
      assert ids[..k] == ids;
    }
  }

  /**
   * Every id of the index is either loaded or skipped, and each loaded one adds one photograph:
   * without a failure, loaded + skipped is the length of the index.
   */
  lemma {:induction false} LoadPhotosCounts(d: Disk, root: string, c: Catalog, ids: seq<string>)
    ensures var s := LoadPhotos(d, root, c, ids);
      && s.loaded + s.skipped <= |ids|
      && (s.failure.None? ==> s.loaded + s.skipped == |ids|)
      && |s.catalog.photos| == |c.photos| + s.loaded
    decreases |ids|
  {
    if ids != [] {
      LoadPhotosCounts(d, root, c, ids[..|ids| - 1]);
    }
  }

  /** An id whose file is missing is skipped: with no photograph file present, nothing is loaded. */
  lemma {:induction false} LoadPhotosSkipsMissing(d: Disk, root: string, c: Catalog, ids: seq<string>)
    requires forall id :: id in ids ==> PhotoPath(root, id) !in d.files
    ensures LoadPhotos(d, root, c, ids) == LoadState(c, 0, |ids|, None)
    decreases |ids|
  {
    if ids != [] {
      assert ids[|ids| - 1] in ids;
      assert forall id :: id in ids[..|ids| - 1] ==> id in ids;
      LoadPhotosSkipsMissing(d, root, c, ids[..|ids| - 1]);
    }
  }

  /** Loading categories keeps the store valid: names stay unique and "All" stays. */
  lemma {:induction false} LoadCategoriesValid(c: Catalog, cs: seq<Category>)
    requires Valid(c)
    ensures Valid(LoadCategories(c, cs)) && LoadCategories(c, cs).photos == c.photos
    decreases |cs|
  {
    if cs != [] {
      LoadCategoriesValid(c, cs[..|cs| - 1]);
      UpsertCategorySpec(LoadCategories(c, cs[..|cs| - 1]), cs[|cs| - 1]);
    }
  }

  /** Loading photographs keeps the store valid. */
  lemma {:induction false} LoadPhotosValid(d: Disk, root: string, c: Catalog, ids: seq<string>)
    requires Valid(c)
    ensures Valid(LoadPhotos(d, root, c, ids).catalog)
    decreases |ids|
  {
    if ids != [] {
      var s := LoadPhotos(d, root, c, ids[..|ids| - 1]);
      LoadPhotosValid(d, root, c, ids[..|ids| - 1]);
      var path := PhotoPath(root, ids[|ids| - 1]);
      if s.failure.None? && path in d.files && d.files[path].PhotoDocument? && d.files[path].photo.Some? {
        AddPhotoValid(s.catalog, d.files[path].photo.value);
      }
    }
  }

  /** Loading keeps the store valid, whether it completes or stops at an error. */
  lemma LoadValid(d: Disk, root: string, c: Catalog)
    requires Valid(c)
    ensures Valid(Load(d, root, c).catalog)
  {
    if ReadCategories(d, root).Ok? {
      LoadCategoriesValid(c, ReadCategories(d, root).value);
      if ReadIndex(d, root).Ok? {
        LoadPhotosValid(d, root, LoadCategories(c, ReadCategories(d, root).value), ReadIndex(d, root).value);
      }
    }
  }

  /** Two disks that differ at most in `tags.json`. */
  ghost predicate DifferOnlyInTags(d: Disk, e: Disk, root: string) {
    forall q :: q != TagsPath(root) ==> SameAt(d, e, q)
  }

  /** Photograph loading does not look at `tags.json` unless an id's own file is that file. */
  lemma {:induction false} LoadPhotosIgnoresTags(d: Disk, e: Disk, root: string, c: Catalog, ids: seq<string>)
    requires DifferOnlyInTags(d, e, root)
    requires forall id :: id in ids ==> PhotoPath(root, id) != TagsPath(root)
    ensures LoadPhotos(d, root, c, ids) == LoadPhotos(e, root, c, ids)
    decreases |ids|
  {
    if ids != [] {
      assert ids[|ids| - 1] in ids;
      assert forall id :: id in ids[..|ids| - 1] ==> id in ids;
      LoadPhotosIgnoresTags(d, e, root, c, ids[..|ids| - 1]);
      assert SameAt(d, e, PhotoPath(root, ids[|ids| - 1]));
    }
  }

  /** `categories.json` and `photos-index.json` are not `tags.json`. */
  lemma DataFilesDistinct(root: string)
    ensures CategoriesPath(root) != TagsPath(root) && PhotosPath(root) != TagsPath(root)
  {
    CombineFileName(root, "categories.json");
    CombineFileName(root, "photos-index.json");
    CombineFileName(root, "tags.json");
  }

  /**
   * `tags.json` is never read: what loading gives does not depend on it, provided no id of the
   * index names `tags.json` itself as its photograph file.
   */
  lemma LoadIgnoresTags(d: Disk, e: Disk, root: string, c: Catalog)
    requires DifferOnlyInTags(d, e, root)
    requires ReadIndex(d, root).Ok? ==> forall id :: id in ReadIndex(d, root).value ==> PhotoPath(root, id) != TagsPath(root)
    ensures Load(d, root, c) == Load(e, root, c)
  {
    DataFilesDistinct(root);
    assert SameAt(d, e, CategoriesPath(root)) && SameAt(d, e, PhotosPath(root));
    assert ReadCategories(d, root) == ReadCategories(e, root);
    assert ReadIndex(d, root) == ReadIndex(e, root);
    if ReadCategories(d, root).Ok? && ReadIndex(d, root).Ok? {
      LoadPhotosIgnoresTags(d, e, root, LoadCategories(c, ReadCategories(d, root).value), ReadIndex(d, root).value);
    }
  }

  // ---------------------------------------------------------------------------------------
  // The database object
  // ---------------------------------------------------------------------------------------

  class PersistentPhotoDatabase {
    const rootFolder: string
    /** The culture-sensitive name order the listings use. */
    const le: (string, string) -> bool
    const store: PhotoDatabase
    const fs: FileSystem
    var disposed: bool
    var initialized: bool

    ghost predicate Valid()
      reads this, store
    {
      TotalPreorder(le) && PhotoCatalog.Valid(store.Model())
    }

    /** The constructor: an empty store over the data directory, which is created if missing. */
    constructor (appData: string, files: FileSystem, order: (string, string) -> bool)
      requires TotalPreorder(order)
      modifies files
      ensures rootFolder == RootFolder(appData) && fs == files && le == order && fresh(store)
      ensures store.Model() == EmptyCatalog() && !disposed && !initialized && Valid()
      ensures fs.State() == old(files.State()).(dirs := old(files.dirs) + {RootFolder(appData)})
    {
      rootFolder := RootFolder(appData);
      le := order;
      fs := files;
      store := new PhotoDatabase();
      disposed, initialized := false, false;
      new;
      if !fs.DirectoryExists(rootFolder) {
        fs.CreateDirectory(rootFolder);
      }
    }

    /**
     * `InitAsync`: nothing once initialized; with no data file, just mark initialized; otherwise
     * take the lock (which fails once disposed) and load. A load that fails leaves what it
     * added so far in the store and `initialized` false.
     */
    method Init() returns (outcome: Outcome)
      requires Valid()
      modifies this, store
      ensures Valid() && disposed == old(disposed) && fs.State() == old(fs.State())
      ensures old(initialized) ==> outcome == Done && initialized && store.Model() == old(store.Model())
      ensures !old(initialized) && NoDataFiles(fs.State(), rootFolder) ==>
        outcome == Done && initialized && store.Model() == old(store.Model())
      ensures !old(initialized) && !NoDataFiles(fs.State(), rootFolder) && disposed ==>
        outcome == Failed(LockDisposed) && !initialized && store.Model() == old(store.Model())
      ensures !old(initialized) && !NoDataFiles(fs.State(), rootFolder) && !disposed ==>
        && store.Model() == Load(fs.State(), rootFolder, old(store.Model())).catalog
        && (initialized <==> Load(fs.State(), rootFolder, old(store.Model())).failure.None?)
        && (outcome.Failed? ==> Load(fs.State(), rootFolder, old(store.Model())).failure == Some(outcome.error))
        && (outcome.Done? <==> initialized)
    {
      if initialized {
        return Done;
      }
      if !fs.Exists(CategoriesPath(rootFolder)) && !fs.Exists(PhotosPath(rootFolder)) && !fs.Exists(TagsPath(rootFolder)) {
        initialized := true;
        return Done;
      }
      if disposed {
        return Failed(LockDisposed);
      }
      LoadValid(fs.State(), rootFolder, store.Model());
      var categories := ReadCategories(fs.State(), rootFolder);
      if categories.Err? {
        return Failed(categories.error);
      }
      LoadCategoryList(categories.value);
      var index := ReadIndex(fs.State(), rootFolder);
      if index.Err? {
        return Failed(index.error);
      }
      var failure := LoadPhotoFiles(index.value);
      if failure.Some? {
        return Failed(failure.value);
      }
      initialized := true;
      outcome := Done;
    }

    /** The category loop of `InitAsync`. */
    method LoadCategoryList(cs: seq<Category>)
      modifies store
      ensures store.Model() == LoadCategories(old(store.Model()), cs)
    {
      for i := 0 to |cs|
        invariant store.Model() == LoadCategories(old(store.Model()), cs[..i])
      {
        assert cs[..i + 1][..i] == cs[..i];
        store.AddCategory(cs[i]);
      }
      assert cs[..|cs|] == cs;
    }

    /** The photograph loop of `InitAsync`, counting the loaded and skipped ids. */
    method LoadPhotoFiles(ids: seq<string>) returns (failure: Option<Error>)
      modifies store
      ensures var s := LoadPhotos(fs.State(), rootFolder, old(store.Model()), ids);
        store.Model() == s.catalog && failure == s.failure
    {
      var loaded, skipped := 0, 0;
      var i := 0;
      failure := None;
      while i < |ids| && failure.None?
        invariant i <= |ids|
        invariant LoadPhotos(fs.State(), rootFolder, old(store.Model()), ids[..i])
               == LoadState(store.Model(), loaded, skipped, failure)
      {
        assert ids[..i + 1][..i] == ids[..i];
        var path := PhotoPath(rootFolder, ids[i]);
        if !fs.Exists(path) {
          skipped := skipped + 1;
        } else {
          var content := fs.files[path];
          if content.PhotoDocument? && content.photo.Some? {
            var photo := new Photograph.FromData(content.photo.value);
            store.AddPhotograph(photo);
            loaded := loaded + 1;
          } else if content.PhotoDocument? {
            failure := Some(UnloadablePhoto(ids[i]));
          } else {
            failure := Some(MalformedDocument(path));
          }
        }
        i := i + 1;
      }
      if failure.Some? {
        LoadPhotosStops(fs.State(), rootFolder, old(store.Model()), ids, i);
      } else {
        assert ids[..i] == ids;
      }
    }

    /** `AtomicWriteAsync`. */
    method WriteAtomically(path: string, content: Content) returns (outcome: Outcome)
      modifies fs
      ensures (fs.State(), outcome) == AtomicWrite(old(fs.State()), path, content)
    {
      var tmp := TempPath(path);
      outcome := fs.WriteFile(tmp, content);
      if outcome.Done? {
        outcome := fs.MoveFile(tmp, path, true);
      }
      if outcome.Failed? && fs.Exists(tmp) {
        var _ := fs.DeleteFile(tmp);
      }
    }

    /** Atomic writes one after the other, stopping at the first failure. */
    method WriteInOrder(ws: seq<FileWrite>) returns (outcome: Outcome)
      modifies fs
      ensures (fs.State(), outcome) == WriteAll(old(fs.State()), ws)
    {
      var i := 0;
      outcome := Done;
      while i < |ws| && outcome.Done?
        invariant i <= |ws|
        invariant outcome.Done? ==> WriteAll(old(fs.State()), ws) == WriteAll(fs.State(), ws[i..])
        invariant outcome.Failed? ==> WriteAll(old(fs.State()), ws) == (fs.State(), outcome)
      {
        assert ws[i..][0] == ws[i] && ws[i..][1..] == ws[i + 1..];
        outcome := WriteAtomically(ws[i].path, ws[i].content);
        i := i + 1;
      }
      if outcome.Done? {
        assert ws[i..] == [];
      }
    }

    /** `AddPhotographAsync` and `UpdatePhotographAsync` after the store has changed: the four writes in order. */
    method Persist(photo: PhotoData) returns (outcome: Outcome)
      requires TotalPreorder(le)
      modifies fs
      ensures (fs.State(), outcome) == WriteAll(old(fs.State()), PhotoWrites(rootFolder, store.Model(), photo, le))
    {
      outcome := WriteInOrder(PhotoWrites(rootFolder, store.Model(), photo, le));
    }

    /** `AddCategoryAsync`: upsert into the store, then rewrite `categories.json`. */
    method AddCategory(category: Category) returns (outcome: Outcome)
      requires Valid()
      modifies store, fs
      ensures Valid()
      ensures disposed ==> outcome == Failed(DatabaseDisposed) && store.Model() == old(store.Model()) && fs.State() == old(fs.State())
      ensures !disposed ==>
        && store.Model() == PhotoCatalog.AddCategory(old(store.Model()), category)
        && (fs.State(), outcome)
           == AtomicWrite(old(fs.State()), CategoriesPath(rootFolder), CategoriesDocument(Some(PhotoCatalog.ListCategories(store.Model(), le))))
    {
      if disposed {
        return Failed(DatabaseDisposed);
      }
      UpsertCategorySpec(store.Model(), category);
      store.AddCategory(category);
      outcome := WriteAtomically(CategoriesPath(rootFolder), CategoriesDocument(Some(PhotoCatalog.ListCategories(store.Model(), le))));
    }

    /**
     * `AddPhotographAsync`: add to the store first, then write the photograph file, the index,
     * the categories and the tags. A failed write leaves the store changed.
     */
    method AddPhotograph(photograph: Photograph) returns (outcome: Outcome)
      requires Valid()
      modifies store, fs
      ensures Valid()
      ensures disposed ==> outcome == Failed(DatabaseDisposed) && store.Model() == old(store.Model()) && fs.State() == old(fs.State())
      ensures !disposed ==>
        && store.Model() == AddPhoto(old(store.Model()), photograph.Data())
        && (fs.State(), outcome) == WriteAll(old(fs.State()), PhotoWrites(rootFolder, store.Model(), photograph.Data(), le))
    {
      if disposed {
        return Failed(DatabaseDisposed);
      }
      AddPhotoValid(store.Model(), photograph.Data());
      store.AddPhotograph(photograph);
      outcome := Persist(photograph.Data());
    }

    /**
     * `UpdatePhotographAsync`: update the store; an unknown id fails before anything is written,
     * otherwise the same four writes as an add follow.
     */
    method UpdatePhotograph(photograph: Photograph) returns (outcome: Outcome)
      requires Valid()
      modifies store, fs
      ensures Valid()
      ensures disposed ==> outcome == Failed(DatabaseDisposed) && store.Model() == old(store.Model()) && fs.State() == old(fs.State())
      ensures !disposed && UpdatePhoto(old(store.Model()), photograph.Data()).Err? ==>
        && outcome == Failed(UpdatePhoto(old(store.Model()), photograph.Data()).error)
        && store.Model() == old(store.Model()) && fs.State() == old(fs.State())
      ensures !disposed && UpdatePhoto(old(store.Model()), photograph.Data()).Ok? ==>
        && store.Model() == UpdatePhoto(old(store.Model()), photograph.Data()).value
        && (fs.State(), outcome) == WriteAll(old(fs.State()), PhotoWrites(rootFolder, store.Model(), photograph.Data(), le))
    {
      if disposed {
        return Failed(DatabaseDisposed);
      }
      if UpdatePhoto(store.Model(), photograph.Data()).Ok? {
        UpdateKeepsValid(store.Model(), photograph.Data());
      }
      outcome := store.UpdatePhotograph(photograph);
      if outcome.Failed? {
        return;
      }
      outcome := Persist(photograph.Data());
    }

    /** `GetPhotographWithIdAsync`: a fresh copy of the first match, or null. */
    method GetPhotographWithId(id: string) returns (r: Result<Photograph?>)
      ensures disposed ==> r == Err(DatabaseDisposed)
      ensures !disposed ==> r.Ok? && (r.value == null <==> GetPhoto(store.Model(), id).None?)
      ensures !disposed && r.Ok? && r.value != null ==> fresh(r.value) && r.value.Data() == GetPhoto(store.Model(), id).value
    {
      if disposed {
        return Err(DatabaseDisposed);
      }
      var p := store.GetPhotographWithId(id);
      r := Ok(p);
    }

    /** `ListCategoriesAsync`. */
    function ListCategories(): (r: Result<seq<Category>>)
      requires Valid()
      reads this, store
      ensures disposed <==> r == Err(DatabaseDisposed)
      ensures r.Ok? ==> multiset(r.value) == multiset(store.categories)
      ensures r.Ok? ==> r.value == PhotoCatalog.ListCategories(store.Model(), le)
    {
      if disposed then Err(DatabaseDisposed) else Ok(PhotoCatalog.ListCategories(store.Model(), le))
    }

    /** `ListPhotoIdsAsync`. */
    function ListPhotoIds(): (r: Result<seq<string>>)
      reads this, store
      ensures disposed <==> r == Err(DatabaseDisposed)
      ensures r.Ok? ==> |r.value| == |store.photos| && forall k :: 0 <= k < |r.value| ==> r.value[k] == store.photos[k].id
    {
      if disposed then Err(DatabaseDisposed) else Ok(PhotoCatalog.ListPhotoIds(store.Model()))
    }

    /** `ListTagsAsync`. */
    function ListTags(): (r: Result<seq<Tag>>)
      requires Valid()
      reads this, store
      ensures disposed <==> r == Err(DatabaseDisposed)
      ensures r.Ok? ==> multiset(r.value) == multiset(store.tags)
      ensures r.Ok? ==> r.value == PhotoCatalog.ListTags(store.Model(), le)
    {
      if disposed then Err(DatabaseDisposed) else Ok(PhotoCatalog.ListTags(store.Model(), le))
    }

    /** `Dispose`: mark disposed; a second call does nothing. */
    method Dispose()
      modifies this
      ensures disposed && initialized == old(initialized)
      ensures old(disposed) ==> unchanged(this)
    {
      if disposed {
        return;
      }
      disposed := true;
    }
  }
}

=== FILE: photo_catalog.dfy ===
/**
 * The in-memory photo store: the photographs in insertion order, and two reverse indexes —
 * categories and tags, each listing the ids of the photographs filed under it. Every
 * photograph is filed under the implicit "All" category.
 *
 * This module holds the store's state as a value and its operations as functions; the
 * `PhotoStore` module's class performs them step by step and is proved to agree.
 */
module PhotoCatalog {
  import opened Wrappers
  import opened Ordering
  import opened Photographs

  const AllCategory: string := "All"
  const AllDescription: string := "All of your photographs."

  /** A category: a name, a description and the ids of the photographs filed under it. */
  datatype Category = Category(name: string, description: string, photographs: seq<string>)

  /** A tag: a name and the ids of the photographs that carry it. */
  datatype Tag = Tag(tagName: string, photographs: seq<string>)

  /** The whole store. */
  datatype Catalog = Catalog(photos: seq<PhotoData>, categories: seq<Category>, tags: seq<Tag>)

  /** The description given to a category that adding a photograph creates. */
  function DefaultDescription(name: string): string {
    "Collection of photographs in the '" + name + "' category."
  }

  /** A fresh store: the "All" category alone, no photographs and no tags. */
  function EmptyCatalog(): Catalog {
    Catalog([], [Category(AllCategory, AllDescription, [])], [])
  }

  /** `FirstOrDefault`: the index of the first element satisfying `p`. */
  function FirstIndex<T>(s: seq<T>, p: T -> bool): (r: Option<nat>)
    ensures r.Some? ==> r.value < |s| && p(s[r.value])
    ensures r.Some? ==> forall j :: 0 <= j < r.value ==> !p(s[j])
    ensures r.None? <==> forall j :: 0 <= j < |s| ==> !p(s[j])
  {
    if s == [] then None
    else if p(s[0]) then Some(0)
    else match FirstIndex(s[1..], p)
      case None => None
      case Some(i) => Some(i + 1)
  }

  function CategoryIndex(cs: seq<Category>, name: string): Option<nat> {
    FirstIndex(cs, (c: Category) => c.name == name)
  }

  function TagIndex(ts: seq<Tag>, name: string): Option<nat> {
    FirstIndex(ts, (t: Tag) => t.tagName == name)
  }

  function PhotoIndex(ps: seq<PhotoData>, id: string): Option<nat> {
    FirstIndex(ps, (p: PhotoData) => p.id == id)
  }

  /** No two categories share a name. */
  ghost predicate UniqueCategoryNames(cs: seq<Category>) {
    forall i, j :: 0 <= i < j < |cs| ==> cs[i].name != cs[j].name
  }

  /** No two tags share a name. */
  ghost predicate UniqueTagNames(ts: seq<Tag>) {
    forall i, j :: 0 <= i < j < |ts| ==> ts[i].tagName != ts[j].tagName
  }

  /** What every reachable store satisfies: unique names and the "All" category present. */
  ghost predicate Valid(c: Catalog) {
    && UniqueCategoryNames(c.categories)
    && UniqueTagNames(c.tags)
    && (exists k :: 0 <= k < |c.categories| && c.categories[k].name == AllCategory)
    && FiledUnderAll(c.photos)
  }

  /** Every stored photograph names "All" as its first category. */
  ghost predicate FiledUnderAll(ps: seq<PhotoData>) {
    forall j :: 0 <= j < |ps| ==> |ps[j].categories| > 0 && ps[j].categories[0] == AllCategory
  }

  /** An id list after a "link `id`" step: unchanged, or `id` appended because it was missing. */
  ghost predicate Extends(before: seq<string>, after: seq<string>, id: string) {
    after == before || (id !in before && after == before + [id])
  }

  /** The category loop of `AddPhotographAsync` for one name: create the category if needed, then add the id if missing. */
  function LinkCategory(cs: seq<Category>, name: string, id: string): seq<Category> {
    match CategoryIndex(cs, name)
    case None => cs + [Category(name, DefaultDescription(name), [id])]
    case Some(i) =>
      if id in cs[i].photographs then cs
      else cs[i := cs[i].(photographs := cs[i].photographs + [id])]
  }

  /** The category loop of `AddPhotographAsync` over `names`, in order. */
  function LinkCategories(cs: seq<Category>, names: seq<string>, id: string): seq<Category>
    decreases |names|
  {
    if names == [] then cs
    else LinkCategory(LinkCategories(cs, names[..|names| - 1], id), names[|names| - 1], id)
  }

  /** The tag loop of `AddPhotographAsync` for one name. */
  function LinkTag(ts: seq<Tag>, name: string, id: string): seq<Tag> {
    match TagIndex(ts, name)
    case None => ts + [Tag(name, [id])]
    case Some(i) =>
      if id in ts[i].photographs then ts
      else ts[i := ts[i].(photographs := ts[i].photographs + [id])]
  }

  /** The tag loop of `AddPhotographAsync` over `names`, in order. */
  function LinkTags(ts: seq<Tag>, names: seq<string>, id: string): seq<Tag>
    decreases |names|
  {
    if names == [] then ts
    else LinkTag(LinkTags(ts, names[..|names| - 1], id), names[|names| - 1], id)
  }

  /** `RemoveAll(x => x == id)`: the list without any occurrence of `id`, the rest in order. */
  function RemoveAll(ids: seq<string>, id: string): (r: seq<string>)
    ensures id !in r
    ensures multiset(r) == multiset(ids)[id := 0]
    ensures forall x :: x in r <==> x in ids && x != id
  {
    if ids == [] then []
    else
      assert ids == [ids[0]] + ids[1..];
      (if ids[0] == id then [] else [ids[0]]) + RemoveAll(ids[1..], id)
  }

  /** The first loop of `UpdatePhotographAsync`: `id` removed from every category. */
  function UnlinkCategories(cs: seq<Category>, id: string): (r: seq<Category>)
    ensures |r| == |cs|
    ensures forall k :: 0 <= k < |cs| ==> r[k] == cs[k].(photographs := RemoveAll(cs[k].photographs, id))
  {
    seq(|cs|, k requires 0 <= k < |cs| => cs[k].(photographs := RemoveAll(cs[k].photographs, id)))
  }

  /** The second loop of `UpdatePhotographAsync`: `id` removed from every tag. */
  function UnlinkTags(ts: seq<Tag>, id: string): (r: seq<Tag>)
    ensures |r| == |ts|
    ensures forall k :: 0 <= k < |ts| ==> r[k] == ts[k].(photographs := RemoveAll(ts[k].photographs, id))
  {
    seq(|ts|, k requires 0 <= k < |ts| => ts[k].(photographs := RemoveAll(ts[k].photographs, id)))
  }

  /** The copy `AddPhotographAsync` keeps: a clone whose categories are "All" followed by the given ones. */
  function Stored(p: PhotoData): (r: PhotoData)
    ensures r.id == p.id && r.tags == p.tags
    ensures r.categories == [AllCategory] + p.categories
    ensures r.ThumbnailPath() == p.ThumbnailPath()
  {
    p.Cloned().(categories := [AllCategory] + p.categories)
  }

  /** `AddPhotographAsync`: append the stored copy and file its id under its categories and tags. */
  function AddPhoto(c: Catalog, p: PhotoData): Catalog {
    var s := Stored(p);
    Catalog(c.photos + [s], LinkCategories(c.categories, s.categories, s.id), LinkTags(c.tags, s.tags, s.id))
  }

  /** `AddCategoryAsync`: append a copy, or replace description and id list of the category of that name. */
  function UpsertCategory(cs: seq<Category>, cat: Category): seq<Category> {
    match CategoryIndex(cs, cat.name)
    case None => cs + [cat]
    case Some(i) => cs[i := cs[i].(description := cat.description, photographs := cat.photographs)]
  }

  /** The catalog after `AddCategoryAsync`. */
  function AddCategory(c: Catalog, cat: Category): Catalog {
    c.(categories := UpsertCategory(c.categories, cat))
  }

  /** The error `UpdatePhotographAsync` raises for an id the store does not hold. */
  function UnknownPhoto(id: string): Error {
    InvalidOperation("Photograph with id " + id + " not found.")
  }

  /** The store a successful update works from: the first entry with the id dropped and the id unfiled everywhere. */
  function Unlinked(c: Catalog, id: string, i: nat): Catalog
    requires i < |c.photos|
  {
    Catalog(c.photos[..i] + c.photos[i + 1..], UnlinkCategories(c.categories, id), UnlinkTags(c.tags, id))
  }

  /**
   * `UpdatePhotographAsync`: the id leaves every category and tag, the first photograph with
   * that id is dropped, and the new version is added as by `AddPhotographAsync`.
   */
  function UpdatePhoto(c: Catalog, p: PhotoData): Result<Catalog> {
    match PhotoIndex(c.photos, p.id)
    case None => Err(UnknownPhoto(p.id))
    case Some(i) => Ok(AddPhoto(Unlinked(c, p.id, i), p))
  }

  /** `GetPhotographWithIdAsync`: a clone of the first photograph with that id, or null. */
  function GetPhoto(c: Catalog, id: string): Option<PhotoData> {
    match PhotoIndex(c.photos, id)
    case None => None
    case Some(i) => Some(c.photos[i].Cloned())
  }

  /** `ListCategoriesAsync`: copies of the categories ordered by name under the comparer `le`. */
  function ListCategories(c: Catalog, le: (string, string) -> bool): seq<Category>
    requires TotalPreorder(le)
  {
    SortBy(c.categories, (x: Category) => x.name, le)
  }

  /** `ListTagsAsync`: copies of the tags ordered by name under the comparer `le`. */
  function ListTags(c: Catalog, le: (string, string) -> bool): seq<Tag>
    requires TotalPreorder(le)
  {
    SortBy(c.tags, (x: Tag) => x.tagName, le)
  }

  /** `ListPhotoIdsAsync`: the ids of the photographs in insertion order. */
  function ListPhotoIds(c: Catalog): (r: seq<string>)
    ensures |r| == |c.photos|
    ensures forall k :: 0 <= k < |r| ==> r[k] == c.photos[k].id
  {
    seq(|c.photos|, k requires 0 <= k < |c.photos| => c.photos[k].id)
  }

  // ---------------------------------------------------------------------------------------
  // Properties of the reverse index
  // ---------------------------------------------------------------------------------------

  /** `Extends` steps compose. */
  lemma ExtendsTransitive(a: seq<string>, b: seq<string>, c: seq<string>, id: string)
    requires Extends(a, b, id) && Extends(b, c, id)
    ensures Extends(a, c, id)
  {
  }

  /** What one category step does to the existing categories: names and descriptions stay, id lists only gain `id`. */
  lemma LinkCategoryStep(cs: seq<Category>, name: string, id: string)
    ensures var r := LinkCategory(cs, name, id);
      && |cs| <= |r| <= |cs| + 1
      && (forall j :: 0 <= j < |cs| ==> r[j].name == cs[j].name && r[j].description == cs[j].description)
      && (forall j :: 0 <= j < |cs| ==> Extends(cs[j].photographs, r[j].photographs, id))
      && (forall j :: 0 <= j < |cs| && cs[j].name != name ==> r[j] == cs[j])
      && (|r| == |cs| + 1 ==> r[|cs|] == Category(name, DefaultDescription(name), [id]))
      && (UniqueCategoryNames(cs) ==> UniqueCategoryNames(r))
  {
  }

  /** Some category named `name` lists `id`. */
  ghost predicate CategoryLists(cs: seq<Category>, name: string, id: string) {
    exists k :: 0 <= k < |cs| && cs[k].name == name && id in cs[k].photographs
  }

  /** Some tag named `name` lists `id`. */
  ghost predicate TagLists(ts: seq<Tag>, name: string, id: string) {
    exists k :: 0 <= k < |ts| && ts[k].tagName == name && id in ts[k].photographs
  }

  /** After one category step, a category of that name lists `id`, and every listing from before remains. */
  lemma LinkCategoryFiles(cs: seq<Category>, name: string, id: string)
    ensures CategoryLists(LinkCategory(cs, name, id), name, id)
    ensures forall n :: CategoryLists(cs, n, id) ==> CategoryLists(LinkCategory(cs, name, id), n, id)
  {
    var r := LinkCategory(cs, name, id);
    match CategoryIndex(cs, name) {
      case None =>
        assert r[|cs|].name == name && id in r[|cs|].photographs;
      case Some(i) =>
        assert r[i].name == name && id in r[i].photographs;
    }
    LinkCategoryStep(cs, name, id);
    forall n | CategoryLists(cs, n, id)
      ensures CategoryLists(r, n, id)
    {
      var k :| 0 <= k < |cs| && cs[k].name == n && id in cs[k].photographs;
      assert Extends(cs[k].photographs, r[k].photographs, id);
      assert r[k].name == n && id in r[k].photographs;
    }
  }

  /**
   * The category loop of `AddPhotographAsync`, over all of `names`, on the categories that
   * exist: each keeps its name and description and gains at most `id`; one none of the names
   * mentions is untouched. Created categories carry a name from `names`, the default
   * description and exactly `[id]`. Names stay unique.
   */
  lemma {:induction false} LinkCategoriesSpec(cs: seq<Category>, names: seq<string>, id: string)
    ensures var r := LinkCategories(cs, names, id);
      && |cs| <= |r|
      && (forall j :: 0 <= j < |cs| ==> r[j].name == cs[j].name && r[j].description == cs[j].description)
      && (forall j :: 0 <= j < |cs| ==> Extends(cs[j].photographs, r[j].photographs, id))
      && (forall j :: 0 <= j < |cs| && cs[j].name !in names ==> r[j] == cs[j])
      && (forall j :: |cs| <= j < |r| ==>
            r[j].name in names && r[j].description == DefaultDescription(r[j].name) && r[j].photographs == [id])
      && (UniqueCategoryNames(cs) ==> UniqueCategoryNames(r))
    decreases |names|
  {
    if names != [] {
      var front := names[..|names| - 1];
      var mid := LinkCategories(cs, front, id);
      LinkCategoriesSpec(cs, front, id);
      LinkCategoryStep(mid, names[|names| - 1], id);
      var r := LinkCategories(cs, names, id);
      forall j | 0 <= j < |cs|
        ensures Extends(cs[j].photographs, r[j].photographs, id)
      {
        ExtendsTransitive(cs[j].photographs, mid[j].photographs, r[j].photographs, id);
      }
      forall j | |cs| <= j < |r|
        ensures r[j].name in names && r[j].description == DefaultDescription(r[j].name) && r[j].photographs == [id]
      {
        if j < |mid| {
          assert mid[j].name in front;
          assert Extends(mid[j].photographs, r[j].photographs, id);
        }
      }
    }
  }

  /** After the category loop, every name in `names` has a category that lists `id`. */
  lemma {:induction false} LinkCategoriesCovers(cs: seq<Category>, names: seq<string>, id: string)
    ensures forall n :: n in names ==> CategoryLists(LinkCategories(cs, names, id), n, id)
    decreases |names|
  {
    if names != [] {
      var front := names[..|names| - 1];
      var last := names[|names| - 1];
      LinkCategoriesCovers(cs, front, id);
      LinkCategoryFiles(LinkCategories(cs, front, id), last, id);
      assert forall n :: n in names ==> n in front || n == last;
    }
  }

  /** What one tag step does to the existing tags: names stay, id lists only gain `id`. */
  lemma LinkTagStep(ts: seq<Tag>, name: string, id: string)
    ensures var r := LinkTag(ts, name, id);
      && |ts| <= |r| <= |ts| + 1
      && (forall j :: 0 <= j < |ts| ==> r[j].tagName == ts[j].tagName)
      && (forall j :: 0 <= j < |ts| ==> Extends(ts[j].photographs, r[j].photographs, id))
      && (forall j :: 0 <= j < |ts| && ts[j].tagName != name ==> r[j] == ts[j])
      && (|r| == |ts| + 1 ==> r[|ts|] == Tag(name, [id]))
      && (UniqueTagNames(ts) ==> UniqueTagNames(r))
  {
  }

  /** After one tag step, a tag of that name lists `id`, and every listing from before remains. */
  lemma LinkTagFiles(ts: seq<Tag>, name: string, id: string)
    ensures TagLists(LinkTag(ts, name, id), name, id)
    ensures forall n :: TagLists(ts, n, id) ==> TagLists(LinkTag(ts, name, id), n, id)
  {
    var r := LinkTag(ts, name, id);
    match TagIndex(ts, name) {
      case None =>
        assert r[|ts|].tagName == name && id in r[|ts|].photographs;
      case Some(i) =>
        assert r[i].tagName == name && id in r[i].photographs;
    }
    LinkTagStep(ts, name, id);
    forall n | TagLists(ts, n, id)
      ensures TagLists(r, n, id)
    {
      var k :| 0 <= k < |ts| && ts[k].tagName == n && id in ts[k].photographs;
      assert Extends(ts[k].photographs, r[k].photographs, id);
      assert r[k].tagName == n && id in r[k].photographs;
    }
  }

  /** The tag loop of `AddPhotographAsync` on the tags that exist, and the tags it creates. */
  lemma {:induction false} LinkTagsSpec(ts: seq<Tag>, names: seq<string>, id: string)
    ensures var r := LinkTags(ts, names, id);
      && |ts| <= |r|
      && (forall j :: 0 <= j < |ts| ==> r[j].tagName == ts[j].tagName)
      && (forall j :: 0 <= j < |ts| ==> Extends(ts[j].photographs, r[j].photographs, id))
      && (forall j :: 0 <= j < |ts| && ts[j].tagName !in names ==> r[j] == ts[j])
      && (forall j :: |ts| <= j < |r| ==> r[j].tagName in names && r[j].photographs == [id])
      && (UniqueTagNames(ts) ==> UniqueTagNames(r))
    decreases |names|
  {
    if names != [] {
      var front := names[..|names| - 1];
      var mid := LinkTags(ts, front, id);
      LinkTagsSpec(ts, front, id);
      LinkTagStep(mid, names[|names| - 1], id);
      var r := LinkTags(ts, names, id);
      forall j | 0 <= j < |ts|
        ensures Extends(ts[j].photographs, r[j].photographs, id)
      {
        ExtendsTransitive(ts[j].photographs, mid[j].photographs, r[j].photographs, id);
      }
      forall j | |ts| <= j < |r|
        ensures r[j].tagName in names && r[j].photographs == [id]
      {
        if j < |mid| {
          assert mid[j].tagName in front;
          assert Extends(mid[j].photographs, r[j].photographs, id);
        }
      }
    }
  }

  /** After the tag loop, every name in `names` has a tag that lists `id`. */
  lemma {:induction false} LinkTagsCovers(ts: seq<Tag>, names: seq<string>, id: string)
    ensures forall n :: n in names ==> TagLists(LinkTags(ts, names, id), n, id)
    decreases |names|
  {
    if names != [] {
      var front := names[..|names| - 1];
      var last := names[|names| - 1];
      LinkTagsCovers(ts, front, id);
      LinkTagFiles(LinkTags(ts, front, id), last, id);
      assert forall n :: n in names ==> n in front || n == last;
    }
  }

  /** The number of times `id` occurs in `ids`. */
  function Occurrences(ids: seq<string>, id: string): nat {
    multiset(ids)[id]
  }

  /** No category or tag lists `id`: true of a photograph id the store has not seen. */
  ghost predicate Unfiled(c: Catalog, id: string) {
    && (forall j :: 0 <= j < |c.categories| ==> id !in c.categories[j].photographs)
    && (forall j :: 0 <= j < |c.tags| ==> id !in c.tags[j].photographs)
  }

  /** Filing an id no category lists yet: afterwards a category lists it once if its name is among `names`, else not at all. */
  lemma LinkCategoriesFilesOnce(cs: seq<Category>, names: seq<string>, id: string)
    requires UniqueCategoryNames(cs)
    requires forall j :: 0 <= j < |cs| ==> id !in cs[j].photographs
    ensures forall j :: 0 <= j < |LinkCategories(cs, names, id)| ==>
      Occurrences(LinkCategories(cs, names, id)[j].photographs, id) == if LinkCategories(cs, names, id)[j].name in names then 1 else 0
  {
    var r := LinkCategories(cs, names, id);
    LinkCategoriesSpec(cs, names, id);
    LinkCategoriesCovers(cs, names, id);
    forall j | 0 <= j < |r|
      ensures Occurrences(r[j].photographs, id) == if r[j].name in names then 1 else 0
    {
      if j < |cs| {
        assert Extends(cs[j].photographs, r[j].photographs, id);
        assert multiset(cs[j].photographs)[id] == 0;
        if r[j].name in names {
          assert CategoryLists(r, r[j].name, id);
          var k :| 0 <= k < |r| && r[k].name == r[j].name && id in r[k].photographs;
          assert k == j;
        }
      } else {
        assert multiset(r[j].photographs) == multiset{id};
      }
    }
  }

  /** Filing an id no tag lists yet: afterwards a tag lists it once if its name is among `names`, else not at all. */
  lemma LinkTagsFilesOnce(ts: seq<Tag>, names: seq<string>, id: string)
    requires UniqueTagNames(ts)
    requires forall j :: 0 <= j < |ts| ==> id !in ts[j].photographs
    ensures forall j :: 0 <= j < |LinkTags(ts, names, id)| ==>
      Occurrences(LinkTags(ts, names, id)[j].photographs, id) == if LinkTags(ts, names, id)[j].tagName in names then 1 else 0
  {
    var r := LinkTags(ts, names, id);
    LinkTagsSpec(ts, names, id);
    LinkTagsCovers(ts, names, id);
    forall j | 0 <= j < |r|
      ensures Occurrences(r[j].photographs, id) == if r[j].tagName in names then 1 else 0
    {
      if j < |ts| {
        assert Extends(ts[j].photographs, r[j].photographs, id);
        assert multiset(ts[j].photographs)[id] == 0;
        if r[j].tagName in names {
          assert TagLists(r, r[j].tagName, id);
          var k :| 0 <= k < |r| && r[k].tagName == r[j].tagName && id in r[k].photographs;
          assert k == j;
        }
      } else {
        assert multiset(r[j].photographs) == multiset{id};
      }
    }
  }

  /** Adding a photograph keeps the store valid and appends its stored copy. */
  lemma AddPhotoValid(c: Catalog, p: PhotoData)
    requires Valid(c)
    ensures Valid(AddPhoto(c, p))
    ensures AddPhoto(c, p).photos == c.photos + [Stored(p)]
  {
    var s := Stored(p);
    var r := AddPhoto(c, p);
    LinkCategoriesSpec(c.categories, s.categories, p.id);
    LinkTagsSpec(c.tags, s.tags, p.id);
    var k0 :| 0 <= k0 < |c.categories| && c.categories[k0].name == AllCategory;
    assert r.categories[k0].name == AllCategory;
    assert r.photos[|c.photos|] == s;
  }

  /** After adding a photograph, each of the stored copy's categories and tags exists and lists its id. */
  lemma AddPhotoFiles(c: Catalog, p: PhotoData)
    ensures forall n :: n in Stored(p).categories ==> CategoryLists(AddPhoto(c, p).categories, n, p.id)
    ensures forall n :: n in p.tags ==> TagLists(AddPhoto(c, p).tags, n, p.id)
  {
    LinkCategoriesCovers(c.categories, Stored(p).categories, p.id);
    LinkTagsCovers(c.tags, p.tags, p.id);
  }

  /**
   * When no list held the id before, adding the photograph files it exactly once under each of
   * the stored copy's categories and tags, and nowhere else.
   */
  lemma AddPhotoFilesOnce(c: Catalog, p: PhotoData)
    requires Valid(c) && Unfiled(c, p.id)
    ensures var r := AddPhoto(c, p);
      && (forall j :: 0 <= j < |r.categories| ==>
            Occurrences(r.categories[j].photographs, p.id) == if r.categories[j].name in Stored(p).categories then 1 else 0)
      && (forall j :: 0 <= j < |r.tags| ==>
            Occurrences(r.tags[j].photographs, p.id) == if r.tags[j].tagName in p.tags then 1 else 0)
  {
    var r := AddPhoto(c, p);
    assert r.categories == LinkCategories(c.categories, Stored(p).categories, p.id);
    assert r.tags == LinkTags(c.tags, p.tags, p.id);
    LinkCategoriesFilesOnce(c.categories, Stored(p).categories, p.id);
    LinkTagsFilesOnce(c.tags, p.tags, p.id);
  }

  /** Adding a photograph never removes a category or tag, nor changes a category's name or description. */
  lemma AddPhotoKeepsEntries(c: Catalog, p: PhotoData)
    ensures var r := AddPhoto(c, p);
      && |c.categories| <= |r.categories| && |c.tags| <= |r.tags|
      && (forall j :: 0 <= j < |c.categories| ==>
            r.categories[j].name == c.categories[j].name && r.categories[j].description == c.categories[j].description)
      && (forall j :: 0 <= j < |c.tags| ==> r.tags[j].tagName == c.tags[j].tagName)
      && (forall j, x :: 0 <= j < |c.categories| && x in c.categories[j].photographs ==> x in r.categories[j].photographs)
  {
    LinkCategoriesSpec(c.categories, Stored(p).categories, p.id);
    LinkTagsSpec(c.tags, Stored(p).tags, p.id);
  }

  /** Duplicate photograph ids are not rejected: adding a photograph with a known id appends a second entry. */
  lemma AddPhotoAllowsDuplicateIds(c: Catalog, p: PhotoData)
    requires PhotoIndex(c.photos, p.id).Some?
    ensures |AddPhoto(c, p).photos| == |c.photos| + 1
    ensures var r := AddPhoto(c, p).photos; r[|r| - 1].id == p.id && PhotoIndex(r, p.id) == PhotoIndex(c.photos, p.id)
  {
    var r := AddPhoto(c, p).photos;
    var i := PhotoIndex(c.photos, p.id).value;
    assert r[i] == c.photos[i];
    assert forall j :: 0 <= j < i ==> r[j] == c.photos[j];
  }

  /**
   * `AddCategoryAsync` is an upsert by name: with a known name, the one category of that name
   * takes the new description and id list and nothing else changes; with a new name, the
   * category is appended. Names stay unique, and the "All" category stays.
   */
  lemma UpsertCategorySpec(c: Catalog, cat: Category)
    requires Valid(c)
    ensures var r := AddCategory(c, cat);
      && Valid(r)
      && r.photos == c.photos && r.tags == c.tags
      && (forall j :: 0 <= j < |c.categories| && c.categories[j].name != cat.name ==> r.categories[j] == c.categories[j])
      && (forall j :: 0 <= j < |c.categories| && c.categories[j].name == cat.name ==> r.categories[j] == cat)
      && ((exists j :: 0 <= j < |c.categories| && c.categories[j].name == cat.name) ==> |r.categories| == |c.categories|)
      && ((forall j :: 0 <= j < |c.categories| ==> c.categories[j].name != cat.name) ==> r.categories == c.categories + [cat])
  {
    var r := AddCategory(c, cat);
    var k0 :| 0 <= k0 < |c.categories| && c.categories[k0].name == AllCategory;
    assert r.categories[k0].name == AllCategory;
    match CategoryIndex(c.categories, cat.name)
    case None =>
    case Some(i) =>
      assert r.categories[i] == cat;
  }

  /** `UpdatePhotographAsync` fails exactly for an id the store does not hold, and then with `InvalidOperationException`. */
  lemma UpdateUnknownId(c: Catalog, p: PhotoData)
    ensures UpdatePhoto(c, p).Err? <==> forall j :: 0 <= j < |c.photos| ==> c.photos[j].id != p.id
    ensures UpdatePhoto(c, p).Err? ==> UpdatePhoto(c, p).error == UnknownPhoto(p.id)
  {
  }

  /** The store between the two halves of an update: the id unfiled everywhere and the old entry dropped; still valid. */
  lemma UnlinkedValid(c: Catalog, id: string, i: nat)
    requires Valid(c) && i < |c.photos|
    ensures Valid(Unlinked(c, id, i)) && Unfiled(Unlinked(c, id, i), id)
  {
    var removed := Unlinked(c, id, i);
    forall a, b | 0 <= a < b < |removed.categories|
      ensures removed.categories[a].name != removed.categories[b].name
    {
      assert c.categories[a].name != c.categories[b].name;
    }
    forall a, b | 0 <= a < b < |removed.tags|
      ensures removed.tags[a].tagName != removed.tags[b].tagName
    {
      assert c.tags[a].tagName != c.tags[b].tagName;
    }
    var k0 :| 0 <= k0 < |c.categories| && c.categories[k0].name == AllCategory;
    assert removed.categories[k0].name == AllCategory;
    forall j | 0 <= j < |removed.photos|
      ensures |removed.photos[j].categories| > 0 && removed.photos[j].categories[0] == AllCategory
    {
      if j < i { assert removed.photos[j] == c.photos[j]; } else { assert removed.photos[j] == c.photos[j + 1]; }
    }
  }

  /** A successful update keeps the store valid; emptied categories and tags are kept. */
  lemma UpdateKeepsValid(c: Catalog, p: PhotoData)
    requires Valid(c) && UpdatePhoto(c, p).Ok?
    ensures Valid(UpdatePhoto(c, p).value)
    ensures |c.categories| <= |UpdatePhoto(c, p).value.categories|
    ensures |c.tags| <= |UpdatePhoto(c, p).value.tags|
  {
    var i := PhotoIndex(c.photos, p.id).value;
    UnlinkedValid(c, p.id, i);
    AddPhotoValid(Unlinked(c, p.id, i), p);
    AddPhotoKeepsEntries(Unlinked(c, p.id, i), p);
  }

  /**
   * A successful update replaces one photograph: the first old entry with the id gives way to
   * the stored copy at the end, so the number of photographs and the multiset of ids are unchanged.
   */
  lemma UpdateReplacesPhoto(c: Catalog, p: PhotoData)
    requires UpdatePhoto(c, p).Ok?
    ensures var r := UpdatePhoto(c, p).value;
      && |r.photos| == |c.photos|
      && r.photos[|r.photos| - 1] == Stored(p)
      && multiset(ListPhotoIds(r)) == multiset(ListPhotoIds(c))
  {
    var i := PhotoIndex(c.photos, p.id).value;
    UpdatedPhotos(c, p, i);
    MovedIds(c, UpdatePhoto(c, p).value, i, Stored(p));
  }

  /** Moving the `i`-th photograph's id to the end, as a new entry with that id, keeps the multiset of ids. */
  lemma MovedIds(c: Catalog, r: Catalog, i: nat, x: PhotoData)
    requires i < |c.photos| && x.id == c.photos[i].id && r.photos == c.photos[..i] + c.photos[i + 1..] + [x]
    ensures multiset(ListPhotoIds(r)) == multiset(ListPhotoIds(c))
  {
    var before, after := ListPhotoIds(c), ListPhotoIds(r);
    assert after == before[..i] + before[i + 1..] + [before[i]] by {
      forall k | 0 <= k < |after|
        ensures after[k] == (before[..i] + before[i + 1..] + [before[i]])[k]
      {
        if k < i { assert r.photos[k] == c.photos[k]; }
        else if k < |after| - 1 { assert r.photos[k] == c.photos[k + 1]; }
      }
    }
    MovedToEnd(before, i);
  }

  /** The photographs after a successful update: the first entry with the id dropped, the stored copy appended. */
  lemma UpdatedPhotos(c: Catalog, p: PhotoData, i: nat)
    requires PhotoIndex(c.photos, p.id) == Some(i)
    ensures i < |c.photos| && c.photos[i].id == p.id
    ensures UpdatePhoto(c, p).Ok? && UpdatePhoto(c, p).value.photos == c.photos[..i] + c.photos[i + 1..] + [Stored(p)]
  {
  }

  /** Moving one element of a sequence to its end keeps the multiset. */
  lemma MovedToEnd<T>(s: seq<T>, i: nat)
    requires i < |s|
    ensures multiset(s[..i] + s[i + 1..] + [s[i]]) == multiset(s)
  {
    assert s == s[..i] + [s[i]] + s[i + 1..];
  }

  /**
   * A successful update re-files the photograph: a category (or tag) lists the id once if its
   * name is among the new version's categories (or tags), and not at all otherwise — whatever the
   * old version was filed under.
   */
  lemma UpdateReindexes(c: Catalog, p: PhotoData)
    requires Valid(c) && UpdatePhoto(c, p).Ok?
    ensures var r := UpdatePhoto(c, p).value;
      && (forall j :: 0 <= j < |r.categories| ==>
            Occurrences(r.categories[j].photographs, p.id) == if r.categories[j].name in Stored(p).categories then 1 else 0)
      && (forall j :: 0 <= j < |r.tags| ==>
            Occurrences(r.tags[j].photographs, p.id) == if r.tags[j].tagName in p.tags then 1 else 0)
  {
    var i := PhotoIndex(c.photos, p.id).value;
    UnlinkedValid(c, p.id, i);
    AddPhotoFilesOnce(Unlinked(c, p.id, i), p);
  }

  /** `GetPhotographWithIdAsync` answers null exactly for an unknown id, and otherwise a clone of the first match. */
  lemma GetPhotoSpec(c: Catalog, id: string)
    ensures GetPhoto(c, id).None? <==> forall j :: 0 <= j < |c.photos| ==> c.photos[j].id != id
    ensures GetPhoto(c, id).Some? ==>
      exists i :: && 0 <= i < |c.photos| && c.photos[i].id == id
                  && GetPhoto(c, id).value == c.photos[i].Cloned()
                  && forall j :: 0 <= j < i ==> c.photos[j].id != id
  {
    if GetPhoto(c, id).Some? {
      var i := PhotoIndex(c.photos, id).value;
      assert c.photos[i].id == id;
    }
  }

  /** The category listing holds exactly the categories, ordered by name. */
  lemma ListCategoriesSpec(c: Catalog, le: (string, string) -> bool)
    requires TotalPreorder(le)
    ensures multiset(ListCategories(c, le)) == multiset(c.categories)
    ensures forall i, j :: 0 <= i < j < |ListCategories(c, le)| ==>
      le(ListCategories(c, le)[i].name, ListCategories(c, le)[j].name)
  {
  }

  /** The tag listing holds exactly the tags, ordered by name. */
  lemma ListTagsSpec(c: Catalog, le: (string, string) -> bool)
    requires TotalPreorder(le)
    ensures multiset(ListTags(c, le)) == multiset(c.tags)
    ensures forall i, j :: 0 <= i < j < |ListTags(c, le)| ==>
      le(ListTags(c, le)[i].tagName, ListTags(c, le)[j].tagName)
  {
  }

  /**
   * A photograph read back with `GetPhotographWithIdAsync` already names "All"; updating the
   * store with it unchanged stores a copy that names "All" twice in its own category list.
   */
  lemma UpdateWithFetchedCopyRepeatsAll(c: Catalog, id: string)
    requires Valid(c) && GetPhoto(c, id).Some?
    ensures var fetched := GetPhoto(c, id).value;
      UpdatePhoto(c, fetched).Ok? && Stored(fetched).categories[..2] == [AllCategory, AllCategory]
  {
    var i := PhotoIndex(c.photos, id).value;
    assert c.photos[i].categories[0] == AllCategory;
  }
}

=== FILE: photo_store.dfy ===
/**
 * `PhotoDatabase`: the in-memory store whose three lists the add and update operations change
 * in place, proved to perform the catalog operations of `PhotoCatalog`.
 */
module PhotoStore {
  import opened Wrappers
  import opened Photographs
  import opened PhotoCatalog

  class PhotoDatabase {
    var photos: seq<PhotoData>
    var categories: seq<Category>
    var tags: seq<Tag>

    /** The store's state as a catalog value. */
    function Model(): Catalog
      reads this
    {
      Catalog(photos, categories, tags)
    }

    /** A new store holds the "All" category alone. */
    constructor ()
      ensures Model() == EmptyCatalog()
      ensures Valid(Model())
    {
      photos := [];
      categories := [Category(AllCategory, AllDescription, [])];
      tags := [];
      new;
      assert categories[0].name == AllCategory;
    }

    /** `GetPhotographWithIdAsync`: a new photograph object copying the first match, or null. */
    method GetPhotographWithId(id: string) returns (p: Photograph?)
      ensures p == null <==> GetPhoto(Model(), id).None?
      ensures p != null ==> fresh(p) && p.Data() == GetPhoto(Model(), id).value
    {
      var found := PhotoIndex(photos, id);
      if found.None? {
        p := null;
      } else {
        p := new Photograph.FromData(photos[found.value].Cloned());
      }
    }

    /** `AddCategoryAsync`: insert a copy, or overwrite description and id list of the category of that name. */
    method AddCategory(category: Category)
      modifies this
      ensures Model() == PhotoCatalog.AddCategory(old(Model()), category)
    {
      match CategoryIndex(categories, category.name) {
        case None =>
          categories := categories + [category];
        case Some(i) =>
          categories := categories[i := categories[i].(description := category.description,
                                                        photographs := category.photographs)];
      }
    }

    /** `AddPhotographAsync`: store a copy under "All" and its own categories, then file its id. */
    method AddPhotograph(photograph: Photograph)
      modifies this
      ensures Model() == AddPhoto(old(Model()), photograph.Data())
    {
      var photo := Stored(photograph.Data());
      photos := photos + [photo];
      FileUnderCategories(photo.categories, photo.id);
      FileUnderTags(photo.tags, photo.id);
    }

    /** The category loop of `AddPhotographAsync`. */
    method FileUnderCategories(names: seq<string>, id: string)
      modifies this
      ensures categories == LinkCategories(old(categories), names, id)
      ensures photos == old(photos) && tags == old(tags)
    {
      for i := 0 to |names|
        invariant photos == old(photos) && tags == old(tags)
        invariant categories == LinkCategories(old(categories), names[..i], id)
      {
        assert names[..i + 1][..i] == names[..i];
        FileUnderCategory(names[i], id);
      }
      assert names[..|names|] == names;
    }

    /** The tag loop of `AddPhotographAsync`. */
    method FileUnderTags(names: seq<string>, id: string)
      modifies this
      ensures tags == LinkTags(old(tags), names, id)
      ensures photos == old(photos) && categories == old(categories)
    {
      for i := 0 to |names|
        invariant photos == old(photos) && categories == old(categories)
        invariant tags == LinkTags(old(tags), names[..i], id)
      {
        assert names[..i + 1][..i] == names[..i];
        FileUnderTag(names[i], id);
      }
      assert names[..|names|] == names;
    }

    /** One pass of the category loop: find or create the category, then add the id unless it is listed. */
    method FileUnderCategory(name: string, id: string)
      modifies this
      ensures categories == LinkCategory(old(categories), name, id)
      ensures photos == old(photos) && tags == old(tags)
    {
      var found := CategoryIndex(categories, name);
      var k;
      if found.None? {
        categories := categories + [Category(name, DefaultDescription(name), [])];
        k := |categories| - 1;
        assert categories[k].photographs + [id] == [id];
      } else {
        k := found.value;
      }
      if id !in categories[k].photographs {
        categories := categories[k := categories[k].(photographs := categories[k].photographs + [id])];
      }
    }

    /** One pass of the tag loop: find or create the tag, then add the id unless it is listed. */
    method FileUnderTag(name: string, id: string)
      modifies this
      ensures tags == LinkTag(old(tags), name, id)
      ensures photos == old(photos) && categories == old(categories)
    {
      var found := TagIndex(tags, name);
      var k;
      if found.None? {
        tags := tags + [Tag(name, [])];
        k := |tags| - 1;
        assert tags[k].photographs + [id] == [id];
      } else {
        k := found.value;
      }
      if id !in tags[k].photographs {
        tags := tags[k := tags[k].(photographs := tags[k].photographs + [id])];
      }
    }

    /** The category loop of an update: the id is removed from every category's list. */
    method UnfileCategories(id: string)
      modifies this
      ensures categories == UnlinkCategories(old(categories), id)
      ensures photos == old(photos) && tags == old(tags)
    {
      for j := 0 to |categories|
        invariant |categories| == |old(categories)|
        invariant forall k :: 0 <= k < j ==> categories[k] == UnlinkCategories(old(categories), id)[k]
        invariant forall k :: j <= k < |categories| ==> categories[k] == old(categories)[k]
        invariant photos == old(photos) && tags == old(tags)
      {
        categories := categories[j := categories[j].(photographs := RemoveAll(categories[j].photographs, id))];
      }
    }

    /** The tag loop of an update: the id is removed from every tag's list. */
    method UnfileTags(id: string)
      modifies this
      ensures tags == UnlinkTags(old(tags), id)
      ensures photos == old(photos) && categories == old(categories)
    {
      for j := 0 to |tags|
        invariant |tags| == |old(tags)|
        invariant forall k :: 0 <= k < j ==> tags[k] == UnlinkTags(old(tags), id)[k]
        invariant forall k :: j <= k < |tags| ==> tags[k] == old(tags)[k]
        invariant photos == old(photos) && categories == old(categories)
      {
        tags := tags[j := tags[j].(photographs := RemoveAll(tags[j].photographs, id))];
      }
    }

    /**
     * `UpdatePhotographAsync`: for an unknown id, fail with `InvalidOperationException` and change
     * nothing; otherwise unfile the id everywhere, drop the old entry and add the new version.
     */
    method UpdatePhotograph(photograph: Photograph) returns (outcome: Outcome)
      modifies this
      ensures UpdatePhoto(old(Model()), photograph.Data()).Err? ==>
        outcome == Failed(UpdatePhoto(old(Model()), photograph.Data()).error) && Model() == old(Model())
      ensures UpdatePhoto(old(Model()), photograph.Data()).Ok? ==>
        outcome == Done && Model() == UpdatePhoto(old(Model()), photograph.Data()).value
    {
      var id := photograph.id;
      var found := PhotoIndex(photos, id);
      if found.None? {
        return Failed(UnknownPhoto(id));
      }
      var existing := found.value;
      UnfileCategories(id);
      UnfileTags(id);
      photos := photos[..existing] + photos[existing + 1..];
      assert Model() == Unlinked(old(Model()), id, existing);
      AddPhotograph(photograph);
      outcome := Done;
    }
  }
}

=== FILE: photograph.dfy ===
/**
 * A photograph record: its identity, file information, text and the names of its tags and
 * categories, with the thumbnail fallback rule and the copy the stores keep.
 */
module Photographs {
  import opened Wrappers
  import opened Text

  /** The fields of a photograph at one moment, as a value. */
  datatype PhotoData = PhotoData(
    storedThumbnail: string,
    id: string,
    fileName: string,
    path: string,
    title: string,
    contentType: string,
    description: string,
    tags: seq<string>,
    categories: seq<string>)
  {
    /** The `ThumbnailPath` getter: a blank stored thumbnail reads as the image path itself. */
    function ThumbnailPath(): (r: string)
      ensures IsBlank(storedThumbnail) ==> r == path
      ensures !IsBlank(storedThumbnail) ==> r == storedThumbnail
    {
      if IsBlank(storedThumbnail) then path else storedThumbnail
    }

    /** The `ThumbnailPath` setter: `null` is stored as the empty string. */
    function WithThumbnailPath(value: Option<string>): (r: PhotoData)
      ensures r.storedThumbnail == value.GetOr("")
      ensures value.None? ==> r.ThumbnailPath() == path
      ensures r.(storedThumbnail := storedThumbnail) == this
    {
      this.(storedThumbnail := value.GetOr(""))
    }

    /**
     * `Clone`: every field copied, except that a thumbnail equal to the path is not stored,
     * because the getter falls back to the path anyway.
     */
    function Cloned(): (r: PhotoData)
      ensures r.ThumbnailPath() == ThumbnailPath()
      ensures r.(storedThumbnail := storedThumbnail) == this
      ensures r.storedThumbnail == "" <==> ThumbnailPath() == path
    {
      var thumbnail := ThumbnailPath();
      this.(storedThumbnail := if thumbnail == path then "" else thumbnail)
    }

    /**
     * The record a JSON round trip gives back: the serialiser writes the `ThumbnailPath`
     * getter's value and the reader hands it to the setter.
     */
    function Serialized(): PhotoData {
      this.(storedThumbnail := ThumbnailPath())
    }
  }

  /** A new `Photograph` with the given fresh id: every other string empty, no tags or categories. */
  function NewPhoto(id: string): (r: PhotoData)
    ensures r.id == id && r.ThumbnailPath() == "" && r.path == "" && r.storedThumbnail == ""
    ensures r.fileName == "" && r.title == "" && r.contentType == "" && r.description == ""
    ensures r.tags == [] && r.categories == []
    ensures r.Cloned() == r
  {
    PhotoData("", id, "", "", "", "", "", [], [])
  }

  /** Cloning a clone changes nothing more: `Clone` is idempotent. */
  lemma ClonedIdempotent(p: PhotoData)
    ensures p.Cloned().Cloned() == p.Cloned()
  {
  }

  /** A JSON round trip keeps what the thumbnail reads as, and a clone of it is the clone of the original. */
  lemma SerializedRoundTrip(p: PhotoData)
    ensures p.Serialized().ThumbnailPath() == p.ThumbnailPath()
    ensures p.Serialized().Cloned() == p.Cloned()
  {
  }

  /** A photograph whose fields a caller sets one by one. */
  class Photograph {
    var storedThumbnail: string
    var id: string
    var fileName: string
    var path: string
    var title: string
    var contentType: string
    var description: string
    var tags: seq<string>
    var categories: seq<string>

    /** The current field values. */
    function Data(): PhotoData
      reads this
    {
      PhotoData(storedThumbnail, id, fileName, path, title, contentType, description, tags, categories)
    }

    /** `new Photograph()`: the id is the fresh GUID text the caller supplies. */
    constructor (newId: string)
      ensures Data() == NewPhoto(newId)
    {
      storedThumbnail, id, fileName, path, title, contentType, description := "", newId, "", "", "", "", "";
      tags, categories := [], [];
    }

    /** A photograph object holding the given field values. */
    constructor FromData(d: PhotoData)
      ensures Data() == d
    {
      storedThumbnail, id, fileName, path, title := d.storedThumbnail, d.id, d.fileName, d.path, d.title;
      contentType, description, tags, categories := d.contentType, d.description, d.tags, d.categories;
    }

    /** The `ThumbnailPath` setter. */
    method SetThumbnailPath(value: Option<string>)
      modifies this
      ensures Data() == old(Data()).WithThumbnailPath(value)
    {
      storedThumbnail := value.GetOr("");
    }

    /** `Clone`: a new object whose fields are the copied values. */
    method Clone() returns (c: Photograph)
      ensures fresh(c)
      ensures c.Data() == Data().Cloned()
    {
      var thumbnail := Data().ThumbnailPath();
      c := new Photograph.FromData(Data());
      c.storedThumbnail := if thumbnail == path then "" else thumbnail;
    }
  }
}

=== FILE: report_executor.dfy ===
/**
 * `GenerateReportExecutor`: the last step of a marketing run, reached once from every research
 * chain of every medium. A counter of arrivals holds the step back until as many arrivals as the
 * run has fan-in nodes have been counted; the step then writes the workflow diagram, copies the
 * style sheet and the photo into the run's folder, and writes the HTML report: the photo's
 * introduction, one item per critique, and for each medium its rendition followed by the research
 * of that medium, grouped under area headings.
 *
 * The report is assembled as the lines appended to a `StringBuilder`, after the opening block the
 * builder starts with; `AppendLine` ends each line with `NewLine`.
 */
module ReportGeneration {
  import opened Wrappers
  import opened Text
  import opened Paths
  import opened Files
  import opened Photographs
  import opened Ordering
  import opened WorkflowNodes
  import opened WorkflowContext

  /** A 32-bit `int` value: the integer wrapped into the two's-complement range. */
  function Int32(x: int): (r: int)
    ensures -0x8000_0000 <= r < 0x8000_0000
    ensures -0x8000_0000 <= x < 0x8000_0000 ==> r == x
  {
    (x + 0x8000_0000) % 0x1_0000_0000 - 0x8000_0000
  }

  /** The executor's static `received`: one counter shared by every run in the process, never reset. */
  class FanInCounter {
    var received: int

    constructor ()
      ensures received == 0
    {
      received := 0;
    }

    /** `Interlocked.Increment`, then the barrier's test: the arrival proceeds once the count reaches the fan-in. */
    method Arrive(fanInNodes: int) returns (proceed: bool)
      modifies this
      ensures received == Int32(old(received) + 1)
      ensures proceed <==> received >= fanInNodes
    {
      received := Int32(received + 1);
      proceed := received >= fanInNodes;
    }
  }

  /** Whether the `k`-th arrival proceeds when the counter stood at `start` before the first of them. */
  function Proceeds(start: int, k: nat, fanInNodes: int): bool {
    Int32(start + k) >= fanInNodes
  }

  /**
   * In the first run of the process the counter starts at zero: the `k`-th arrival proceeds
   * exactly when `k` has reached the fan-in count, so of exactly N arrivals only the N-th
   * proceeds, and any arrival after it proceeds too.
   */
  lemma FirstRunProceedsFromLast(fanInNodes: int, k: nat)
    requires 0 < k < 0x8000_0000
    ensures Proceeds(0, k, fanInNodes) <==> k >= fanInNodes
  {
  }

  /**
   * Because the counter is never reset, once earlier runs have counted `previous` arrivals, the
   * very first arrival of a run with at most `previous + 1` fan-in nodes already proceeds, before
   * the rest of that run's research has reported.
   */
  lemma SharedCounterProceedsEarly(previous: nat, fanInNodes: int)
    requires previous < 0x7FFF_FFFF && fanInNodes <= previous + 1
    ensures Proceeds(previous, 1, fanInNodes)
  {
  }

  /** A second run of four fan-in nodes, after a first run of four: its first arrival proceeds. */
  lemma SecondRunOfFourProceedsAtOnce()
    ensures Proceeds(4, 1, 4)
  {
    SharedCounterProceedsEarly(4, 4);
  }

  /**
   * A counter per run, keyed by the run's context and starting at zero for each: the evident
   * intent of the barrier. One run's arrivals leave every other run's count as it was.
   */
  class RunCounters {
    var received: map<MarketingWorkflowContext, int>

    constructor ()
      ensures received == map[]
    {
      received := map[];
    }

    /** The count of a run: zero before its first arrival. */
    function Count(run: MarketingWorkflowContext): int
      reads this
    {
      CountOf(received, run)
    }

    method Arrive(run: MarketingWorkflowContext, fanInNodes: int) returns (proceed: bool)
      modifies this
      ensures received == AfterArrivals(old(received), [run])
      ensures proceed <==> Count(run) >= fanInNodes
    {
      received := received[run := Int32(Count(run) + 1)];
      proceed := received[run] >= fanInNodes;
    }
  }

  /** The count a table of per-run counts holds for a run: zero for a run it does not hold. */
  function CountOf(received: map<MarketingWorkflowContext, int>, run: MarketingWorkflowContext): int {
    if run in received then received[run] else 0
  }

  /** The per-run counts after a sequence of arrivals, each counted, with 32-bit wrap-around, against its own run. */
  function AfterArrivals(received: map<MarketingWorkflowContext, int>, arrivals: seq<MarketingWorkflowContext>)
    : map<MarketingWorkflowContext, int>
  {
    if arrivals == [] then received
    else
      var before := AfterArrivals(received, arrivals[..|arrivals| - 1]);
      var run := arrivals[|arrivals| - 1];
      before[run := Int32(CountOf(before, run) + 1)]
  }

  /** Starting from no counts, a run's count is the number of its own arrivals, however other runs interleave with it. */
  lemma {:induction false} OwnArrivalsCounted(arrivals: seq<MarketingWorkflowContext>, run: MarketingWorkflowContext)
    requires multiset(arrivals)[run] < 0x8000_0000
    ensures CountOf(AfterArrivals(map[], arrivals), run) == multiset(arrivals)[run]
  {
    if arrivals != [] {
      var n := |arrivals| - 1;
      assert arrivals == arrivals[..n] + [arrivals[n]];
      assert multiset(arrivals) == multiset(arrivals[..n]) + multiset{arrivals[n]};
      OwnArrivalsCounted(arrivals[..n], run);
    }
  }

  /**
   * With a counter per run, every run, not only the first, proceeds on exactly the N-th of its N
   * arrivals: the arrival that ends `arrivals` proceeds exactly when it is its run's N-th.
   */
  lemma RunCounterProceedsOnce(arrivals: seq<MarketingWorkflowContext>, fanInNodes: int)
    requires arrivals != [] && multiset(arrivals)[arrivals[|arrivals| - 1]] <= fanInNodes < 0x8000_0000
    ensures var run := arrivals[|arrivals| - 1];
            CountOf(AfterArrivals(map[], arrivals), run) >= fanInNodes <==> multiset(arrivals)[run] == fanInNodes
  {
    OwnArrivalsCounted(arrivals, arrivals[|arrivals| - 1]);
  }

  /** The `workflow.md` document: the diagram in a mermaid code fence. */
  function MermaidDocument(diagram: string): string {
    "# Workflow diagram\r\n\r\n```mermaid\r\n" + diagram + "\r\n```\r\n"
  }

  /** The path of the photo, or `None` without a photo. */
  function PhotoPath(photo: Photograph?): (r: Option<string>)
    reads photo
    ensures r.Some? <==> photo != null
  {
    if photo == null then None else Some(photo.path)
  }

  /**
   * The files the report needs besides itself: the diagram is written, then the style sheet of
   * the application folder and then the photo are copied, in that order, into the run's folder.
   * A copy onto an existing file fails; a missing photo fails only after the first two.
   */
  function Artifacts(d: Disk, dir: string, appBase: string, diagram: string, photoPath: Option<string>): (r: (Disk, Outcome))
  {
    var (d1, o1) := Write(d, Combine(dir, "workflow.md"), Text(MermaidDocument(diagram)));
    if o1.Failed? then (d1, o1)
    else
      var (d2, o2) := Copy(d1, Combine(appBase, "index.css"), Combine(dir, "index.css"));
      if o2.Failed? then (d2, o2)
      else if photoPath.None? then (d2, Failed(NullReference))
      else Copy(d2, photoPath.value, Combine(dir, GetFileName(photoPath.value)))
  }

  /** Everything a proceeding arrival does to the disk: the artifacts, then `index.html` if the report could be built. */
  function Publish(d: Disk, dir: string, appBase: string, diagram: string, photoPath: Option<string>, html: Result<string>)
    : (r: (Disk, Outcome))
  {
    var (d1, o1) := Artifacts(d, dir, appBase, diagram, photoPath);
    if o1.Failed? then (d1, o1)
    else if html.Err? then (d1, Failed(html.error))
    else Write(d1, Combine(dir, "index.html"), Text(html.value))
  }

  /** The files the artifacts occupy in the run's folder. */
  function ArtifactTargets(dir: string, photoPath: string): set<string> {
    {Combine(dir, "workflow.md"), Combine(dir, "index.css"), Combine(dir, GetFileName(photoPath))}
  }

  /** The files a report touches in the run's folder. */
  function ReportTargets(dir: string, photoPath: string): set<string> {
    ArtifactTargets(dir, photoPath) + {Combine(dir, "index.html")}
  }

  /** A file outside `targets` is the same on both disks. */
  ghost predicate SameOutside(d: Disk, e: Disk, targets: set<string>) {
    && e.dirs == d.dirs && e.denied == d.denied
    && forall p :: p !in targets ==> (p in e.files <==> p in d.files) && (p in d.files ==> e.files[p] == d.files[p])
  }

  /** The names the report writes are distinct plain names, so their paths in one folder differ and name them. */
  lemma ReportNames(dir: string, appBase: string)
    ensures Combine(dir, "workflow.md") != Combine(dir, "index.css")
    ensures Combine(dir, "workflow.md") != Combine(dir, "index.html")
    ensures Combine(dir, "index.css") != Combine(dir, "index.html")
    ensures Combine(appBase, "index.css") != Combine(dir, "workflow.md")
  {
    CombineFileName(dir, "workflow.md");
    CombineFileName(dir, "index.css");
    CombineFileName(dir, "index.html");
    CombineFileName(appBase, "index.css");
  }

  /**
   * The artifacts, when all three are in place: the diagram is in `workflow.md`, the style sheet
   * is the application's, the photo has a copy, and no other file is touched.
   */
  lemma {:induction false} ArtifactFiles(d: Disk, dir: string, appBase: string, diagram: string, photoPath: Option<string>)
    requires Artifacts(d, dir, appBase, diagram, photoPath).1 == Done
    ensures photoPath.Some? && Combine(appBase, "index.css") in d.files
    ensures var e := Artifacts(d, dir, appBase, diagram, photoPath).0;
      && SameOutside(d, e, ArtifactTargets(dir, photoPath.value))
      && e.files[Combine(dir, "workflow.md")] == Text(MermaidDocument(diagram))
      && e.files[Combine(dir, "index.css")] == d.files[Combine(appBase, "index.css")]
      && Combine(dir, GetFileName(photoPath.value)) in e.files
  {
    ReportNames(dir, appBase);
    var md, css, sheet := Combine(dir, "workflow.md"), Combine(dir, "index.css"), Combine(appBase, "index.css");
    var d1 := Write(d, md, Text(MermaidDocument(diagram))).0;
    var d2 := Copy(d1, sheet, css).0;
    assert d1.files == d.files[md := Text(MermaidDocument(diagram))];
    assert d2.files == d1.files[css := d1.files[sheet]];
    var target := Combine(dir, GetFileName(photoPath.value));
    assert target != md && target != css;
  }

  /**
   * A published report leaves the diagram, the style sheet and the report in the run's folder,
   * with a copy of the photo there, and changes no other file.
   */
  lemma {:induction false} PublishedFiles(d: Disk, dir: string, appBase: string, diagram: string, photoPath: Option<string>,
                                          html: Result<string>)
    requires Publish(d, dir, appBase, diagram, photoPath, html).1 == Done
    ensures photoPath.Some? && html.Ok? && Combine(appBase, "index.css") in d.files
    ensures var e := Publish(d, dir, appBase, diagram, photoPath, html).0;
      && SameOutside(d, e, ReportTargets(dir, photoPath.value))
      && e.files[Combine(dir, "workflow.md")] == Text(MermaidDocument(diagram))
      && e.files[Combine(dir, "index.css")] == d.files[Combine(appBase, "index.css")]
      && Combine(dir, GetFileName(photoPath.value)) in e.files
      && e.files[Combine(dir, "index.html")] == Text(html.value)
  {
    ArtifactFiles(d, dir, appBase, diagram, photoPath);
    ReportNames(dir, appBase);
    var d1 := Artifacts(d, dir, appBase, diagram, photoPath).0;
    var e := Publish(d, dir, appBase, diagram, photoPath, html).0;
    assert e.files == d1.files[Combine(dir, "index.html") := Text(html.value)];
  }

  /**
   * A report cannot be published twice into the same folder: on the disk a first report left,
   * the same report fails when it copies the style sheet onto the copy already there.
   */
  lemma {:induction false} RepublishFails(d: Disk, dir: string, appBase: string, diagram: string, photoPath: Option<string>,
                                          html: Result<string>)
    requires Publish(d, dir, appBase, diagram, photoPath, html).1 == Done
    ensures var e := Publish(d, dir, appBase, diagram, photoPath, html).0;
      Publish(e, dir, appBase, diagram, photoPath, html).1 == Failed(IOFailure(Combine(dir, "index.css")))
  {
    PublishedFiles(d, dir, appBase, diagram, photoPath, html);
    ReportNames(dir, appBase);
    var e := Publish(d, dir, appBase, diagram, photoPath, html).0;
    var sheet := Combine(appBase, "index.css");
    assert sheet in e.files;
    var e1 := Write(e, Combine(dir, "workflow.md"), Text(MermaidDocument(diagram))).0;
    assert sheet in e1.files && Combine(dir, "index.css") in e1.files;
  }

  /** One research answer, as the report reads it off its node. */
  datatype ResearchEntry = ResearchEntry(medium: string, area: string, topic: string, content: string)

  /** The key the research is ordered by: "{Area} {Topic}". */
  function Key(e: ResearchEntry): string {
    e.area + " " + e.topic
  }

  /** `Where(r => r.Result.Medium == medium)`: the entries of the medium, in their order. */
  function OfMedium(entries: seq<ResearchEntry>, medium: string): (r: seq<ResearchEntry>)
    ensures forall e :: multiset(r)[e] == if e.medium == medium then multiset(entries)[e] else 0
  {
    if entries == [] then []
    else
      var rest := OfMedium(entries[..|entries| - 1], medium);
      var last := entries[|entries| - 1];
      assert entries == entries[..|entries| - 1] + [last];
      if last.medium == medium then rest + [last] else rest
  }

  /**
   * The research shown under a medium: each entry of that medium as often as it occurs, and no
   * other, ordered by key.
   */
  function Shown(entries: seq<ResearchEntry>, medium: string, le: (string, string) -> bool): (r: seq<ResearchEntry>)
    requires TotalPreorder(le)
    ensures forall e :: multiset(r)[e] == if e.medium == medium then multiset(entries)[e] else 0
    ensures SortedBy(r, Key, le)
  {
    SortBy(OfMedium(entries, medium), Key, le)
  }

  /**
   * `OrderBy` is stable: entries of the medium whose keys the culture's order ties keep the order
   * in which the research nodes were registered.
   */
  lemma ShownStable(entries: seq<ResearchEntry>, medium: string, le: (string, string) -> bool, k: string)
    requires TotalPreorder(le)
    ensures TiedWith(Shown(entries, medium, le), Key, le, k) == TiedWith(OfMedium(entries, medium), Key, le, k)
  {
    SortByStable(OfMedium(entries, medium), Key, le, k);
  }

  /** The area before the `k`-th entry: the empty string before the first. */
  function Prev(entries: seq<ResearchEntry>, k: nat): string
    requires k <= |entries|
  {
    if k == 0 then "" else entries[k - 1].area
  }

  /** `n` spaces: the indentation of a template line. */
  function Spaces(n: nat): (r: string)
    ensures |r| == n && forall i :: 0 <= i < n ==> r[i] == ' '
  {
    seq(n, _ => ' ')
  }

  /** The opening tag of a section. */
  function SectionTag(): string {
    "<section>"
  }

  /** Closes a section or an area subsection. */
  function SectionClose(): string {
    "</section>"
  }

  function AreaOpen(): string {
    SectionTag() + "\n" + Spaces(28) + "<h4>"
  }

  function AreaOpenClose(): string {
    "</h4>"
  }

  function TopicOpen(): string {
    "<p><strong>"
  }

  function TopicClose(): string {
    "</strong></p>"
  }

  function AreaHeading(area: string): string {
    AreaOpen() + area + AreaOpenClose()
  }

  function TopicLine(topic: string): string {
    TopicOpen() + topic + TopicClose()
  }

  /**
   * The lines of an entry after one of area `prev`: an area other than `prev` opens a subsection,
   * after closing the previous one if `prev` is not blank; then the topic and the content rendered
   * from markdown.
   */
  function EntryLinesAfter(prev: string, e: ResearchEntry, toHtml: string -> string): seq<string> {
    (if e.area != prev then (if IsBlank(prev) then [] else [SectionClose()]) + [AreaHeading(e.area)] else [])
    + [TopicLine(e.topic), toHtml(e.content)]
  }

  /** The lines of the `k`-th entry. */
  function EntryLines(entries: seq<ResearchEntry>, k: nat, toHtml: string -> string): seq<string>
    requires k < |entries|
  {
    EntryLinesAfter(Prev(entries, k), entries[k], toHtml)
  }

  /** The lines of the first `n` entries. */
  function EntriesLines(entries: seq<ResearchEntry>, n: nat, toHtml: string -> string): seq<string>
    requires n <= |entries|
  {
    if n == 0 then [] else EntriesLines(entries, n - 1, toHtml) + EntryLines(entries, n - 1, toHtml)
  }

  /** Closes an image's source and opens its alternative text. */
  function ImageAlt(): string {
    "\" alt=\""
  }

  function MediumOpen(): string {
    SectionTag() + "\n" + Spaces(20) + "<h3>Research for medium: "
  }

  function MediumOpenClose(): string {
    "</h3>"
  }

  function FigureOpen(): string {
    "<figure>\n" + Spaces(20) + "<img src=\""
  }

  function FigureCaption(): string {
    "\">\n" + Spaces(20) + "<figcaption>This is an example of the photograph as a "
  }

  function FigureClose(): string {
    "</figcaption>\n" + Spaces(16) + "</figure>"
  }

  function MediumHeading(medium: string): string {
    MediumOpen() + medium + MediumOpenClose()
  }

  function Figure(imageFile: string, medium: string): string {
    FigureOpen() + imageFile + ImageAlt() + medium + FigureCaption() + medium + FigureClose()
  }

  /** The section of one medium: its heading, its rendition, its research, and one closing tag. */
  function MediumLines(medium: string, imageFile: string, shown: seq<ResearchEntry>, toHtml: string -> string): seq<string> {
    [MediumHeading(medium), Figure(imageFile, medium)] + EntriesLines(shown, |shown|, toHtml) + [SectionClose()]
  }

  /** The loop over one medium's research, tracking the current area. */
  method MediumSection(medium: string, imageFile: string, shown: seq<ResearchEntry>, toHtml: string -> string)
    returns (lines: seq<string>)
    ensures lines == MediumLines(medium, imageFile, shown, toHtml)
  {
    lines := [MediumHeading(medium), Figure(imageFile, medium)];
    var area := "";
    for i := 0 to |shown|
      invariant area == Prev(shown, i)
      invariant lines == [MediumHeading(medium), Figure(imageFile, medium)] + EntriesLines(shown, i, toHtml)
    {
      lines, area := AppendEntry(lines, area, shown[i], toHtml);
    }
    lines := lines + [SectionClose()];
  }

  /** One pass of that loop: the entry's lines are appended, and its area becomes the current one. */
  method AppendEntry(lines: seq<string>, area: string, e: ResearchEntry, toHtml: string -> string)
    returns (lines': seq<string>, area': string)
    ensures lines' == lines + EntryLinesAfter(area, e, toHtml) && area' == e.area
  {
    lines', area' := lines, area;
    if e.area != area' {
      if !IsBlank(area') {
        lines' := lines' + [SectionClose()];
      }
      lines' := lines' + [AreaHeading(e.area)];
      area' := e.area;
    }
    lines' := lines' + [TopicLine(e.topic), toHtml(e.content)];
  }

  /** A line that opens a section or a subsection. */
  predicate Opens(line: string) {
    StartsWith(line, SectionTag())
  }

  /** A line that neither opens nor closes a section. */
  predicate Neutral(line: string) {
    !Opens(line) && line != SectionClose()
  }

  /** How many more sections the lines open than they close. */
  function Depth(lines: seq<string>): int {
    if lines == [] then 0
    else
      var last := lines[|lines| - 1];
      Depth(lines[..|lines| - 1]) + (if Opens(last) then 1 else if last == SectionClose() then -1 else 0)
  }

  lemma {:induction false} DepthAppend(front: seq<string>, back: seq<string>)
    ensures Depth(front + back) == Depth(front) + Depth(back)
    decreases |back|
  {
    if back == [] {
      assert front + back == front;
    } else {
      var n := |back| - 1;
      var whole := front + back;
      assert whole[..|whole| - 1] == front + back[..n] && whole[|whole| - 1] == back[n];
      DepthAppend(front, back[..n]);
    }
  }

  /** A line that starts with a piece opening a section opens one itself. */
  lemma OpensWith(piece: string, rest: string)
    requires Opens(piece)
    ensures Opens(piece + rest)
  {
    assert (piece + rest)[..|SectionTag()|] == piece[..|SectionTag()|];
  }

  /** A line whose first piece differs from both section tags at some position is neutral. */
  lemma NeutralWith(piece: string, rest: string, i: nat)
    requires i < |piece| && i < |SectionTag()| && i < |SectionClose()|
    requires piece[i] != SectionTag()[i] && piece[i] != SectionClose()[i]
    ensures Neutral(piece + rest)
  {
    var line := piece + rest;
    assert line[i] == piece[i];
    if |SectionTag()| <= |line| {
      assert line[..|SectionTag()|][i] != SectionTag()[i];
    }
  }

  lemma AreaHeadingOpens(area: string)
    ensures Opens(AreaHeading(area))
  {
    assert Opens(SectionTag()) by {
      assert SectionTag()[..|SectionTag()|] == SectionTag();
    }
    OpensWith(SectionTag(), "\n");
    OpensWith(SectionTag() + "\n", Spaces(28));
    OpensWith(SectionTag() + "\n" + Spaces(28), "<h4>");
    OpensWith(AreaOpen(), area);
    OpensWith(AreaOpen() + area, AreaOpenClose());
  }

  lemma MediumHeadingOpens(medium: string)
    ensures Opens(MediumHeading(medium))
  {
    assert Opens(SectionTag()) by {
      assert SectionTag()[..|SectionTag()|] == SectionTag();
    }
    OpensWith(SectionTag(), "\n");
    OpensWith(SectionTag() + "\n", Spaces(20));
    OpensWith(SectionTag() + "\n" + Spaces(20), "<h3>Research for");
    OpensWith(SectionTag() + "\n" + Spaces(20) + "<h3>Research for", " medium: ");
    OpensWith(MediumOpen(), medium);
    OpensWith(MediumOpen() + medium, MediumOpenClose());
  }

  lemma TopicLineNeutral(topic: string)
    ensures Neutral(TopicLine(topic))
  {
    assert TopicLine(topic) == TopicOpen() + (topic + TopicClose());
    NeutralWith(TopicOpen(), topic + TopicClose(), 1);
  }

  lemma FigureNeutral(imageFile: string, medium: string)
    ensures Neutral(Figure(imageFile, medium))
  {
    var rest := Spaces(20) + "<img src=\"" + imageFile + ImageAlt() + medium + FigureCaption() + medium + FigureClose();
    assert Figure(imageFile, medium) == "<figure>\n" + rest;
    NeutralWith("<figure>\n", rest, 1);
  }

  lemma SectionCloseCloses()
    ensures !Opens(SectionClose())
  {
    assert SectionClose()[..|SectionTag()|][1] != SectionTag()[1];
  }

  /** The depth of one line. */
  lemma DepthSingle(line: string)
    ensures Depth([line]) == if Opens(line) then 1 else if line == SectionClose() then -1 else 0
  {
    assert [line][..0] == [];
  }

  /** A medium's heading and figure open its section. */
  lemma HeadDepth(medium: string, imageFile: string)
    ensures Depth([MediumHeading(medium), Figure(imageFile, medium)]) == 1
  {
    MediumHeadingOpens(medium);
    FigureNeutral(imageFile, medium);
    DepthSingle(MediumHeading(medium));
    DepthSingle(Figure(imageFile, medium));
    DepthAppend([MediumHeading(medium)], [Figure(imageFile, medium)]);
    assert [MediumHeading(medium)] + [Figure(imageFile, medium)] == [MediumHeading(medium), Figure(imageFile, medium)];
  }

  /** The depth of what an entry adds besides its topic and content: a heading, after a closing tag or not. */
  lemma OpeningDepth(close: bool, area: string)
    ensures Depth((if close then [SectionClose()] else []) + [AreaHeading(area)]) == if close then 0 else 1
  {
    AreaHeadingOpens(area);
    SectionCloseCloses();
    DepthSingle(AreaHeading(area));
    DepthSingle(SectionClose());
    DepthAppend(if close then [SectionClose()] else [], [AreaHeading(area)]);
  }

  /** The topic and the rendered content of an entry leave the depth as it was. */
  lemma BodyDepth(topic: string, html: string)
    requires Neutral(html)
    ensures Depth([TopicLine(topic), html]) == 0
  {
    TopicLineNeutral(topic);
    DepthSingle(TopicLine(topic));
    DepthSingle(html);
    DepthAppend([TopicLine(topic)], [html]);
    assert [TopicLine(topic)] + [html] == [TopicLine(topic), html];
  }

  /** The depth of the lines of the first `k` entries and the `k`-th one after them. */
  lemma DepthStep(entries: seq<ResearchEntry>, k: nat, toHtml: string -> string)
    requires k < |entries| && Neutral(toHtml(entries[k].content))
    ensures Depth(EntriesLines(entries, k + 1, toHtml))
            == Depth(EntriesLines(entries, k, toHtml))
               + (if entries[k].area == Prev(entries, k) then 0 else if IsBlank(Prev(entries, k)) then 1 else 0)
  {
    var e := entries[k];
    var prev := Prev(entries, k);
    var opening := if e.area != prev then (if IsBlank(prev) then [] else [SectionClose()]) + [AreaHeading(e.area)] else [];
    DepthAppend(EntriesLines(entries, k, toHtml), EntryLines(entries, k, toHtml));
    DepthAppend(opening, [TopicLine(e.topic), toHtml(e.content)]);
    BodyDepth(e.topic, toHtml(e.content));
    if e.area != prev {
      OpeningDepth(!IsBlank(prev), e.area);
    }
  }

  /**
   * As written, the research of a medium whose areas are not blank leaves one subsection open:
   * each area closes the one before it, and none closes the last.
   */
  lemma {:induction false} EntriesLeaveAreaOpen(shown: seq<ResearchEntry>, n: nat, toHtml: string -> string)
    requires n <= |shown|
    requires forall k :: 0 <= k < |shown| ==> !IsBlank(shown[k].area) && Neutral(toHtml(shown[k].content))
    ensures Depth(EntriesLines(shown, n, toHtml)) == if n == 0 then 0 else 1
  {
    if n > 0 {
      EntriesLeaveAreaOpen(shown, n - 1, toHtml);
      DepthStep(shown, n - 1, toHtml);
      if n == 1 {
        assert shown[0].area != "" by {
          assert !IsBlank(shown[0].area);
        }
      }
    }
  }

  /**
   * As written, a medium with research leaves its section open: the closing tag after the loop
   * closes the last area subsection instead, so the next medium's section opens inside it.
   */
  lemma LastAreaLeftOpen(medium: string, imageFile: string, shown: seq<ResearchEntry>, toHtml: string -> string)
    requires shown != []
    requires forall k :: 0 <= k < |shown| ==> !IsBlank(shown[k].area) && Neutral(toHtml(shown[k].content))
    ensures Depth(MediumLines(medium, imageFile, shown, toHtml)) == 1
  {
    EntriesLeaveAreaOpen(shown, |shown|, toHtml);
    var head := [MediumHeading(medium), Figure(imageFile, medium)];
    HeadDepth(medium, imageFile);
    SectionCloseCloses();
    DepthSingle(SectionClose());
    DepthAppend(head + EntriesLines(shown, |shown|, toHtml), [SectionClose()]);
    DepthAppend(head, EntriesLines(shown, |shown|, toHtml));
  }

  /** Whether an area subsection has been opened by the first `n` entries. */
  predicate AnyHeading(entries: seq<ResearchEntry>, n: nat)
    requires n <= |entries|
  {
    n > 0 && (AnyHeading(entries, n - 1) || entries[n - 1].area != Prev(entries, n - 1))
  }

  /** The lines of the `k`-th entry, closing the open subsection, whatever its area, before opening another. */
  function CorrectedEntryLines(entries: seq<ResearchEntry>, k: nat, toHtml: string -> string): seq<string>
    requires k < |entries|
  {
    var e := entries[k];
    (if e.area != Prev(entries, k) then (if AnyHeading(entries, k) then [SectionClose()] else []) + [AreaHeading(e.area)]
     else [])
    + [TopicLine(e.topic), toHtml(e.content)]
  }

  function CorrectedEntriesLines(entries: seq<ResearchEntry>, n: nat, toHtml: string -> string): seq<string>
    requires n <= |entries|
  {
    if n == 0 then [] else CorrectedEntriesLines(entries, n - 1, toHtml) + CorrectedEntryLines(entries, n - 1, toHtml)
  }

  /** The section of one medium, closing the last area subsection, if any, before the medium's own. */
  function CorrectedMediumLines(medium: string, imageFile: string, shown: seq<ResearchEntry>, toHtml: string -> string)
    : seq<string>
  {
    [MediumHeading(medium), Figure(imageFile, medium)] + CorrectedEntriesLines(shown, |shown|, toHtml)
    + (if AnyHeading(shown, |shown|) then [SectionClose()] else []) + [SectionClose()]
  }

  /** The loop over one medium's research with the correction: it also tracks whether a subsection is open. */
  method CorrectedMediumSection(medium: string, imageFile: string, shown: seq<ResearchEntry>, toHtml: string -> string)
    returns (lines: seq<string>)
    ensures lines == CorrectedMediumLines(medium, imageFile, shown, toHtml)
  {
    var head := [MediumHeading(medium), Figure(imageFile, medium)];
    lines := head;
    var area, inArea := "", false;
    for i := 0 to |shown|
      invariant area == Prev(shown, i) && inArea == AnyHeading(shown, i)
      invariant lines == head + CorrectedEntriesLines(shown, i, toHtml)
    {
      lines, area, inArea := AppendCorrectedEntry(lines, area, inArea, shown[i], toHtml);
    }
    if inArea {
      lines := lines + [SectionClose()];
    }
    lines := lines + [SectionClose()];
  }

  /** One pass of the corrected loop: a change of area closes the open subsection, whatever its area. */
  method AppendCorrectedEntry(lines: seq<string>, area: string, inArea: bool, e: ResearchEntry, toHtml: string -> string)
    returns (lines': seq<string>, area': string, inArea': bool)
    ensures lines' == lines + (if e.area != area then (if inArea then [SectionClose()] else []) + [AreaHeading(e.area)] else [])
                     + [TopicLine(e.topic), toHtml(e.content)]
    ensures area' == e.area && inArea' == (inArea || e.area != area)
  {
    lines', area', inArea' := lines, area, inArea;
    if e.area != area' {
      if inArea' {
        lines' := lines' + [SectionClose()];
      }
      lines' := lines' + [AreaHeading(e.area)];
      area', inArea' := e.area, true;
    }
    lines' := lines' + [TopicLine(e.topic), toHtml(e.content)];
  }

  /** The depth the corrected lines of the `k`-th entry add: a heading opens one subsection only if none is open. */
  lemma CorrectedDepthStep(entries: seq<ResearchEntry>, k: nat, toHtml: string -> string)
    requires k < |entries| && Neutral(toHtml(entries[k].content))
    ensures Depth(CorrectedEntriesLines(entries, k + 1, toHtml))
            == Depth(CorrectedEntriesLines(entries, k, toHtml))
               + (if entries[k].area != Prev(entries, k) && !AnyHeading(entries, k) then 1 else 0)
  {
    var e := entries[k];
    var opening := if e.area != Prev(entries, k) then (if AnyHeading(entries, k) then [SectionClose()] else [])
                                                      + [AreaHeading(e.area)] else [];
    DepthAppend(CorrectedEntriesLines(entries, k, toHtml), CorrectedEntryLines(entries, k, toHtml));
    DepthAppend(opening, [TopicLine(e.topic), toHtml(e.content)]);
    BodyDepth(e.topic, toHtml(e.content));
    if e.area != Prev(entries, k) {
      OpeningDepth(AnyHeading(entries, k), e.area);
    }
  }

  /** With the correction, exactly one subsection is open after the entries once any has been opened. */
  lemma {:induction false} CorrectedEntriesDepth(shown: seq<ResearchEntry>, n: nat, toHtml: string -> string)
    requires n <= |shown|
    requires forall k :: 0 <= k < |shown| ==> Neutral(toHtml(shown[k].content))
    ensures AnyHeading(shown, n) ==> Depth(CorrectedEntriesLines(shown, n, toHtml)) == 1
    ensures !AnyHeading(shown, n) ==> Depth(CorrectedEntriesLines(shown, n, toHtml)) == 0
  {
    if n > 0 {
      var k := n - 1;
      CorrectedEntriesDepth(shown, k, toHtml);
      CorrectedDepthStep(shown, k, toHtml);
      var depthBefore, depthAfter := Depth(CorrectedEntriesLines(shown, k, toHtml)), Depth(CorrectedEntriesLines(shown, n, toHtml));
      var heading := shown[k].area != Prev(shown, k);
      assert depthAfter == depthBefore + (if heading && !AnyHeading(shown, k) then 1 else 0);
      assert AnyHeading(shown, n) == (AnyHeading(shown, k) || heading);
    }
  }

  /** With the correction, every medium's section is balanced, whatever its areas. */
  lemma CorrectedMediumBalanced(medium: string, imageFile: string, shown: seq<ResearchEntry>, toHtml: string -> string)
    requires forall k :: 0 <= k < |shown| ==> Neutral(toHtml(shown[k].content))
    ensures Depth(CorrectedMediumLines(medium, imageFile, shown, toHtml)) == 0
  {
    CorrectedEntriesDepth(shown, |shown|, toHtml);
    HeadDepth(medium, imageFile);
    SectionCloseCloses();
    DepthSingle(SectionClose());
    var head := [MediumHeading(medium), Figure(imageFile, medium)];
    var body := CorrectedEntriesLines(shown, |shown|, toHtml);
    var closing := (if AnyHeading(shown, |shown|) then [SectionClose()] else []) + [SectionClose()];
    assert CorrectedMediumLines(medium, imageFile, shown, toHtml) == head + body + closing;
    DepthAppend(head + body, closing);
    DepthAppend(head, body);
    if AnyHeading(shown, |shown|) {
      DepthAppend([SectionClose()], [SectionClose()]);
    }
  }

  /** The label of a critique item: "{Area} (Rating: {Rating}/10)". */
  function RatingLabel(c: Critique): string {
    c.area + " (Rating: " + IntToString(c.rating) + "/10)"
  }

  function ItemOpen(): string {
    "<li><strong>"
  }

  function ItemLabelClose(): string {
    "</strong>"
  }

  function ListOpen(): string {
    "<ul>"
  }

  function ListClose(): string {
    "</ul>"
  }

  function PraiseOpen(): string {
    "<li><em>Praise:</em> "
  }

  function SuggestionOpen(): string {
    "<li><em>Improvement Suggestion:</em> "
  }

  function ItemClose(): string {
    "</li>"
  }

  /** The five lines of one critique. */
  function CritiqueItem(c: Critique): (r: seq<string>)
    ensures |r| == 5
  {
    [ ItemOpen() + RatingLabel(c) + ItemLabelClose(), ListOpen(), PraiseOpen() + c.praise + ItemClose(),
      SuggestionOpen() + c.improvementSuggestion + ItemClose(), ListClose() ]
  }

  /** The lines of each element in turn. */
  function Lines<T>(xs: seq<T>, item: T -> seq<string>): seq<string> {
    if xs == [] then [] else Lines(xs[..|xs| - 1], item) + item(xs[|xs| - 1])
  }

  /** The lines of two sequences one after the other are their lines one after the other. */
  lemma {:induction false} LinesAppend<T>(front: seq<T>, back: seq<T>, item: T -> seq<string>)
    ensures Lines(front + back, item) == Lines(front, item) + Lines(back, item)
    decreases |back|
  {
    if back == [] {
      assert front + back == front;
    } else {
      var n := |back| - 1;
      var whole := front + back;
      assert whole[..|whole| - 1] == front + back[..n] && whole[|whole| - 1] == back[n];
      LinesAppend(front, back[..n], item);
    }
  }

  /** With items of `width` lines each, there are `width` lines per element. */
  lemma {:induction false} LinesLength<T>(xs: seq<T>, item: T -> seq<string>, width: nat)
    requires forall x :: |item(x)| == width
    ensures |Lines(xs, item)| == width * |xs|
    decreases |xs|
  {
    if xs != [] {
      LinesLength(xs[..|xs| - 1], item, width);
      assert width * |xs| == width * (|xs| - 1) + width;
    }
  }

  /** The critique list: the items of the critiques, in order. */
  function CritiqueLines(critiques: seq<Critique>): seq<string> {
    Lines(critiques, CritiqueItem)
  }

  /** The lines of the `i`-th element come after those of the elements before it and before those after it. */
  lemma {:induction false} LinesSplit<T>(xs: seq<T>, i: nat, item: T -> seq<string>)
    requires i < |xs|
    ensures Lines(xs, item) == Lines(xs[..i], item) + item(xs[i]) + Lines(xs[i + 1..], item)
  {
    assert xs == xs[..i] + [xs[i]] + xs[i + 1..];
    LinesAppend(xs[..i] + [xs[i]], xs[i + 1..], item);
    LinesAppend(xs[..i], [xs[i]], item);
    assert Lines([xs[i]], item) == item(xs[i]) by {
      assert [xs[i]][..0] == [];
    }
  }

  /**
   * The critique list holds one five-line item per critique, in order: the `i`-th critique's
   * item comes after the items of the critiques before it and before those of the critiques
   * after it.
   */
  lemma CritiqueItems(critiques: seq<Critique>, i: nat)
    requires i < |critiques|
    ensures |CritiqueLines(critiques)| == 5 * |critiques|
    ensures CritiqueLines(critiques)
            == CritiqueLines(critiques[..i]) + CritiqueItem(critiques[i]) + CritiqueLines(critiques[i + 1..])
  {
    LinesLength(critiques, CritiqueItem, 5);
    LinesSplit(critiques, i, CritiqueItem);
  }

  /** `Environment.NewLine`, which `AppendLine` ends every line with. */
  function NewLine(): string {
    "\n"
  }

  /** The text of appended lines, each ended by `NewLine`. */
  function Concatenated(lines: seq<string>): string {
    if lines == [] then "" else Concatenated(lines[..|lines| - 1]) + lines[|lines| - 1] + NewLine()
  }

  /** The clock reading the footer shows: the date's fields and its short rendering in the current culture. */
  datatype ReportDate = ReportDate(year: nat, month: nat, day: nat, shortDate: string)

  /** The custom numeric format of `width` zeros: the decimal digits, left-padded with zeros to `width`. */
  function Padded(n: nat, width: nat): (r: string)
    ensures |r| >= width && |r| >= |NatToString(n)|
    ensures r[|r| - |NatToString(n)|..] == NatToString(n)
    ensures forall i :: 0 <= i < |r| - |NatToString(n)| ==> r[i] == '0'
  {
    var digits := NatToString(n);
    if |digits| >= width then digits else seq(width - |digits|, _ => '0') + digits
  }

  /** The fixed text of the report between the values it shows, as the executor's templates write it. */
  datatype Template = Template(
    headOpen: string, headMiddle: string, headClose: string,
    introOpen: string, introImage: string, introDescription: string, introClose: string,
    critiqueOpening: string, marketResearchOpening: string, footerOpen: string, footerClose: string)

  /**
   * The templates of `GenerateReportExecutor`, line by line, with their verbatim line breaks as
   * `\n` and their indentation as `Spaces`.
   */
  function Page(): Template {
    Template(
      "<!DOCTYPE html>\n" + "<html lang=\"en\">\n" + "<head>\n"
      + Spaces(4) + "<meta charset=\"UTF-8\">\n"
      + Spaces(4) + "<meta name=\"viewport\"" + " content=\"width=device-width," + " initial-scale=1.0\">\n"
      + Spaces(4) + "<title>Marketing report" + " for ",
      "</title>\n"
      + Spaces(4) + "<link rel=\"stylesheet\"" + " href=\"index.css\">\n" + "</head>\n" + "<body>\n"
      + Spaces(4) + "<header>\n"
      + Spaces(8) + "<h1>Marketing report" + " for ",
      "</h1>\n"
      + Spaces(8) + "<p class=\"subtitle\">" + "Generated market research" + "</p>\n"
      + Spaces(4) + "</header>\n",
      "<main>\n"
      + Spaces(8) + "<article>\n"
      + Spaces(12) + "<section>\n"
      + Spaces(16) + "<h2>Introduction</h2>\n"
      + Spaces(16) + "<p>The photograph" + " titled, \"",
      "\" is being considered" + " as the basis for a new" + " work of art and" + " possibly several" + " different styles of"
      + " print.</p>\n"
      + Spaces(16) + "<img src=\"",
      "\">\n"
      + Spaces(16) + "<p>Here is a" + " description that was" + " generated for the" + " photograph.</p>\n"
      + Spaces(16) + "<blockquote>\n"
      + Spaces(20) + "<p>",
      "</p>\n"
      + Spaces(16) + "</blockquote>\n"
      + Spaces(12) + "</section>",
      "<section>\n"
      + Spaces(16) + "<h2>Photo critique</h2>\n"
      + Spaces(16) + "<ul>",
      "<section><h2>Market" + " research</h2>",
      " </article>\n"
      + Spaces(4) + "</main>\n" + "\n"
      + Spaces(4) + "<footer>\n"
      + Spaces(8) + "<p>Generated on" + " <time datetime=\"",
      "</time></p>\n"
      + Spaces(8) + "<p>ArtistTool</p>\n"
      + Spaces(4) + "</footer>\n" + "</body>\n" + "</html>\n")
  }

  /** The block the builder starts with: the document's head and the page header, both naming the photo. */
  function Head(page: Template, title: string): string {
    page.headOpen + title + page.headMiddle + title + page.headClose
  }

  /** The introduction: the photo's title, its copy in the folder, and its generated description. */
  function Intro(page: Template, title: string, photoFile: string, description: string): string {
    page.introOpen + title + page.introImage + photoFile + ImageAlt() + title + page.introDescription + description
    + page.introClose
  }

  /** The footer: the date as year, month and day, padded to four, two and two digits, and its short form. */
  function Footer(page: Template, date: ReportDate): string {
    page.footerOpen + Padded(date.year, 4) + "-" + Padded(date.month, 2) + "-" + Padded(date.day, 2) + "\">"
    + date.shortDate + page.footerClose
  }

  /** The report: the head, then the introduction, the critiques, the market research and the footer as lines. */
  function Document(page: Template, title: string, description: string, photoFile: string, critiques: seq<Critique>, media: seq<string>,
                    date: ReportDate): string
  {
    Head(page, title)
    + Concatenated([Intro(page, title, photoFile, description), page.critiqueOpening] + CritiqueLines(critiques)
                   + [ListClose(), SectionClose(), page.marketResearchOpening] + media + [SectionClose(), Footer(page, date)])
  }

  /** The critiques of the critique node, or `None` for a node without a critique result. */
  function CritiquesOf(node: WorkflowNode): (r: Option<seq<Critique>>)
    reads node, CritiqueObjects(node)
    ensures r.Some? <==> node.result.Some? && node.result.value.Critiqued?
    ensures r.Some? ==> r.value == node.result.value.critique.critiques
  {
    if node.result.Some? && node.result.value.Critiqued? then Some(node.result.value.critique.critiques) else None
  }

  /** The critique response a node holds, if any. */
  function CritiqueObjects(node: WorkflowNode): set<CritiqueResponse>
    reads node
  {
    if node.result.Some? && node.result.value.Critiqued? then {node.result.value.critique} else {}
  }

  /** The research responses the nodes hold. */
  function ResearchObjects(nodes: seq<WorkflowNode>): set<ResearchResponse>
    reads nodes
  {
    set k | 0 <= k < |nodes| && nodes[k].result.Some? && nodes[k].result.value.Researched? :: nodes[k].result.value.research
  }

  /** The entry of one research response. */
  function Entry(r: ResearchResponse): ResearchEntry
    reads r
  {
    ResearchEntry(r.medium, r.area, r.topic, r.content)
  }

  /**
   * The research of the run, node by node, or `None` when some node holds no research result,
   * which the report's filter dereferences.
   */
  function ResearchEntries(nodes: seq<WorkflowNode>): (r: Option<seq<ResearchEntry>>)
    reads nodes, ResearchObjects(nodes)
    ensures r.Some? <==> forall k :: 0 <= k < |nodes| ==> nodes[k].result.Some? && nodes[k].result.value.Researched?
    ensures r.Some? ==> |r.value| == |nodes|
                        && forall k :: 0 <= k < |nodes| ==> r.value[k] == Entry(nodes[k].result.value.research)
  {
    if nodes == [] then Some([])
    else
      var n := |nodes| - 1;
      var front := ResearchEntries(nodes[..n]);
      var last := nodes[n];
      if front.Some? && last.result.Some? && last.result.value.Researched? then
        Some(front.value + [Entry(last.result.value.research)])
      else None
  }

  /** The file name of a medium's rendition, or `None` for a node without a preview result. */
  function ImageFile(node: WorkflowNode): (r: Option<string>)
    reads node
    ensures r.Some? <==> node.result.Some? && node.result.value.Previewed?
  {
    if node.result.Some? && node.result.value.Previewed? then Some(GetFileName(node.result.value.preview.imagePath))
    else None
  }

  /** Which loop writes a medium's section: the source's, which leaves an area section open, or the corrected one. */
  datatype Sections = AsWritten | Corrected

  /** The lines of one medium's section, as the chosen loop writes them. */
  function SectionLines(sections: Sections, medium: string, imageFile: string, shown: seq<ResearchEntry>,
                        toHtml: string -> string): seq<string> {
    match sections
    case AsWritten => MediumLines(medium, imageFile, shown, toHtml)
    case Corrected => CorrectedMediumLines(medium, imageFile, shown, toHtml)
  }

  /** One medium's section, written by the chosen loop. */
  method WriteSection(sections: Sections, medium: string, imageFile: string, shown: seq<ResearchEntry>,
                      toHtml: string -> string)
    returns (section: seq<string>)
    ensures section == SectionLines(sections, medium, imageFile, shown, toHtml)
  {
    if sections.AsWritten? {
      section := MediumSection(medium, imageFile, shown, toHtml);
    } else {
      section := CorrectedMediumSection(medium, imageFile, shown, toHtml);
    }
  }

  /**
   * The market research, medium by medium in `order`, given each medium's rendition file: a
   * medium without a rendition, or research read when some research node has no result, ends the
   * report with a null reference.
   */
  function MediaLines(order: seq<string>, images: map<string, Option<string>>, research: Option<seq<ResearchEntry>>,
                      toHtml: string -> string, le: (string, string) -> bool, sections: Sections): (r: Result<seq<string>>)
    requires TotalPreorder(le) && forall m :: m in order ==> m in images
    ensures r.Err? ==> r.error == NullReference
    ensures r.Ok? <==> (forall m :: m in order ==> images[m].Some?) && (order != [] ==> research.Some?)
  {
    if order == [] then Ok([])
    else
      var n := |order| - 1;
      assert forall m :: m in order <==> m in order[..n] || m == order[n];
      var before :- MediaLines(order[..n], images, research, toHtml, le, sections);
      var file := images[order[n]];
      if file.None? || research.None? then Err(NullReference)
      else Ok(before + SectionLines(sections, order[n], file.value, Shown(research.value, order[n], le), toHtml))
  }

  /** The loop over the media. */
  method MediaSection(order: seq<string>, images: map<string, Option<string>>, research: Option<seq<ResearchEntry>>,
                      toHtml: string -> string, le: (string, string) -> bool, sections: Sections)
    returns (media: Result<seq<string>>)
    requires TotalPreorder(le) && forall m :: m in order ==> m in images
    ensures media == MediaLines(order, images, research, toHtml, le, sections)
  {
    var lines := [];
    for i := 0 to |order|
      invariant MediaLines(order[..i], images, research, toHtml, le, sections) == Ok(lines)
    {
      var medium := order[i];
      var file := images[medium];
      if file.None? || research.None? {
        return Err(NullReference);
      }
      var section := WriteSection(sections, medium, file.value, Shown(research.value, medium, le), toHtml);
      assert order[..i + 1][..i] == order[..i];
      lines := lines + section;
    }
    assert order[..|order|] == order;
    media := Ok(lines);
  }

  /** What the report reads off the context, as values. */
  datatype ReportData = ReportData(
    photo: Option<PhotoData>,
    baseDirectory: string,
    critiques: Option<seq<Critique>>,
    images: map<string, Option<string>>,
    research: Option<seq<ResearchEntry>>)

  /** The context as the report sees it: the media map to their rendition files. */
  function Snapshot(context: MarketingWorkflowContext): (r: ReportData)
    reads context, context.photo, context.critique, CritiqueObjects(context.critique), context.mediumPreviews.Values,
          context.researchNodes, ResearchObjects(context.researchNodes)
    ensures r.images.Keys == context.mediumPreviews.Keys
    ensures r.photo.Some? <==> context.photo != null
  {
    ReportData(
      if context.photo == null then None else Some(context.photo.Data()),
      context.baseDirectory,
      CritiquesOf(context.critique),
      map m | m in context.mediumPreviews :: ImageFile(context.mediumPreviews[m]),
      ResearchEntries(context.researchNodes))
  }

  /** The report of a photo, given its critiques and its market research, or the error the research ended with. */
  function Assemble(page: Template, photo: PhotoData, dir: string, critiques: seq<Critique>, media: Result<seq<string>>,
                    date: ReportDate): (r: Result<string>)
    ensures r.Ok? <==> media.Ok?
    ensures media.Err? ==> r == Err(media.error)
  {
    var lines :- media;
    var target := Combine(dir, GetFileName(photo.path));
    Ok(Document(page, photo.title, photo.description, GetFileName(target), critiques, lines, date))
  }

  /**
   * The report built from what the context holds, media in `order`, or the null reference met
   * while building it: a missing photo, critique result, rendition or research result.
   */
  function Html(page: Template, data: ReportData, order: seq<string>, toHtml: string -> string,
                le: (string, string) -> bool, date: ReportDate, sections: Sections): (r: Result<string>)
    requires TotalPreorder(le) && forall m :: m in order ==> m in data.images
    ensures r.Err? ==> r.error == NullReference
    ensures r.Ok? <==> && data.photo.Some? && data.critiques.Some?
                       && (forall m :: m in order ==> data.images[m].Some?)
                       && (order != [] ==> data.research.Some?)
  {
    if data.photo.None? || data.critiques.None? then Err(NullReference)
    else
      Assemble(page, data.photo.value, data.baseDirectory, data.critiques.value,
               MediaLines(order, data.images, data.research, toHtml, le, sections), date)
  }

  /** The building of the report: the critiques, then the media, then the lines together. */
  method BuildHtml(page: Template, data: ReportData, order: seq<string>, toHtml: string -> string,
                   le: (string, string) -> bool, date: ReportDate, sections: Sections)
    returns (html: Result<string>)
    requires TotalPreorder(le) && forall m :: m in order ==> m in data.images
    ensures html == Html(page, data, order, toHtml, le, date, sections)
  {
    if data.photo.None? || data.critiques.None? {
      return Err(NullReference);
    }
    var media := MediaSection(order, data.images, data.research, toHtml, le, sections);
    html := BuildDocument(page, data.photo.value, data.baseDirectory, data.critiques.value, media, date);
  }

  /** The lines of the report appended in order, once the critiques and the research are known. */
  method BuildDocument(page: Template, photo: PhotoData, dir: string, critiques: seq<Critique>, media: Result<seq<string>>,
                       date: ReportDate)
    returns (html: Result<string>)
    ensures html == Assemble(page, photo, dir, critiques, media, date)
  {
    if media.Err? {
      return Err(media.error);
    }
    var target := Combine(dir, GetFileName(photo.path));
    var items := CritiqueSection(critiques);
    var lines := [Intro(page, photo.title, GetFileName(target), photo.description), page.critiqueOpening] + items
                 + [ListClose(), SectionClose(), page.marketResearchOpening] + media.value
                 + [SectionClose(), Footer(page, date)];
    html := Ok(Head(page, photo.title) + Concatenated(lines));
  }

  /** The loop over the critiques. */
  method CritiqueSection(critiques: seq<Critique>) returns (lines: seq<string>)
    ensures lines == CritiqueLines(critiques)
  {
    lines := [];
    for i := 0 to |critiques|
      invariant lines == CritiqueLines(critiques[..i])
    {
      assert critiques[..i + 1][..i] == critiques[..i];
      lines := lines + CritiqueItem(critiques[i]);
    }
    assert critiques[..|critiques|] == critiques;
  }

  /** The diagram and the two copies, in the source's order. */
  method WriteArtifacts(context: MarketingWorkflowContext, appBase: string) returns (outcome: Outcome)
    modifies context.fs
    ensures (context.fs.State(), outcome)
            == Artifacts(old(context.fs.State()), context.baseDirectory, appBase, context.workflowDiagram,
                         PhotoPath(context.photo))
  {
    var dir := context.baseDirectory;
    outcome := context.fs.WriteFile(Combine(dir, "workflow.md"), Text(MermaidDocument(context.workflowDiagram)));
    if outcome.Failed? {
      return;
    }
    outcome := context.fs.CopyFile(Combine(appBase, "index.css"), Combine(dir, "index.css"));
    if outcome.Failed? {
      return;
    }
    var photo := context.photo;
    if photo == null {
      return Failed(NullReference);
    }
    var source := photo.path;
    outcome := context.fs.CopyFile(source, Combine(dir, GetFileName(source)));
  }

  /**
   * `HandleAsync`, given the application folder, the markdown renderer, the culture's string
   * order and the clock, with the two corrections of this module: arrivals are counted per run,
   * and every medium's section is closed. An arrival that does not bring its run's count to the
   * fan-in count changes nothing else. One that does publishes the report of the context as it
   * stood on arrival, media in the order the dictionary enumerates them. The context itself is
   * left as it was: the step does not mark the run completed.
   */
  method Handle(context: MarketingWorkflowContext, counter: RunCounters, appBase: string, toHtml: string -> string,
                le: (string, string) -> bool, date: ReportDate)
    returns (outcome: Outcome, ghost order: seq<string>)
    requires TotalPreorder(le)
    modifies counter, context.fs
    ensures counter.received == old(counter.received)[context := Int32(old(counter.Count(context)) + 1)]
    ensures counter.Count(context) < context.fanInNodes
            ==> outcome == Done && context.fs.State() == old(context.fs.State())
    ensures counter.Count(context) >= context.fanInNodes
            ==> && Enumerates(order, context.mediumPreviews.Keys)
                && (context.fs.State(), outcome)
                   == Publish(old(context.fs.State()), context.baseDirectory, appBase, context.workflowDiagram,
                              PhotoPath(context.photo), Html(Page(), old(Snapshot(context)), order, toHtml, le, date, Corrected))
  {
    var data := Snapshot(context);
    var proceed := counter.Arrive(context, context.fanInNodes);
    if !proceed {
      return Done, [];
    }
    outcome, order := Report(context, appBase, Page(), data, toHtml, le, date, Corrected);
  }

  /**
   * `HandleAsync` as written: the one static counter shared by every run, and the medium loop
   * that leaves an area section open. An arrival proceeds once the shared count reaches this
   * run's fan-in count, whichever runs made the earlier arrivals; it then publishes the report
   * exactly as the corrected handler does, except for the medium sections.
   */
  method HandleAsWritten(context: MarketingWorkflowContext, counter: FanInCounter, appBase: string,
                         toHtml: string -> string, le: (string, string) -> bool, date: ReportDate)
    returns (outcome: Outcome, ghost order: seq<string>)
    requires TotalPreorder(le)
    modifies counter, context.fs
    ensures counter.received == Int32(old(counter.received) + 1)
    ensures counter.received < context.fanInNodes
            ==> outcome == Done && context.fs.State() == old(context.fs.State())
    ensures counter.received >= context.fanInNodes
            ==> && Enumerates(order, context.mediumPreviews.Keys)
                && (context.fs.State(), outcome)
                   == Publish(old(context.fs.State()), context.baseDirectory, appBase, context.workflowDiagram,
                              PhotoPath(context.photo), Html(Page(), old(Snapshot(context)), order, toHtml, le, date, AsWritten))
  {
    var data := Snapshot(context);
    var proceed := counter.Arrive(context.fanInNodes);
    if !proceed {
      return Done, [];
    }
    outcome, order := Report(context, appBase, Page(), data, toHtml, le, date, AsWritten);
  }

  /** The steps after the barrier: the artifacts, then the report built from `data`, then its file. */
  method Report(context: MarketingWorkflowContext, appBase: string, page: Template, data: ReportData,
                toHtml: string -> string, le: (string, string) -> bool, date: ReportDate, sections: Sections)
    returns (outcome: Outcome, ghost order: seq<string>)
    requires TotalPreorder(le) && data.images.Keys == context.mediumPreviews.Keys
    modifies context.fs
    ensures Enumerates(order, context.mediumPreviews.Keys)
    ensures (context.fs.State(), outcome)
            == Publish(old(context.fs.State()), context.baseDirectory, appBase, context.workflowDiagram,
                       PhotoPath(context.photo), Html(page, data, order, toHtml, le, date, sections))
  {
    var keys := EnumerateKeys(context.mediumPreviews.Keys);
    order := keys;
    outcome := WriteArtifacts(context, appBase);
    if outcome.Failed? {
      return;
    }
    var html := BuildHtml(page, data, keys, toHtml, le, date, sections);
    if html.Err? {
      return Failed(html.error), order;
    }
    outcome := context.fs.WriteFile(Combine(context.baseDirectory, "index.html"), Text(html.value));
  }
}

=== FILE: research_executor.dfy ===
/**
 * `ResearchExecutor`: one research step of a marketing run, for one medium, area and topic. Every
 * call registers a new node with the context, starts it, gives it a `ResearchResponse` naming the
 * medium, area and topic, asks the researcher agent, and fills in the answer before completing
 * the node. Nothing checks for a node registered by an earlier call.
 */
module ResearchExecution {
  import opened Wrappers
  import opened Agents
  import opened Observables
  import opened WorkflowNodes
  import opened WorkflowContext

  /** What the node relays when the answer is filled in: the response's "Content" notification, if any. */
  function ContentRelayed(content: string): (r: seq<string>)
    ensures r == [] <==> content == ""
    ensures content != "" ==> r == [NodeTypeName + ".Content"]
  {
    if content == "" then [] else [NodeTypeName + ".Content"]
  }

  /**
   * `HandleAsync`. Exactly one node, a new one, is added after the nodes registered before it; it
   * is started and holds the response before the agent is asked. When the agent fails, the node
   * stays started, not completed, with empty content; otherwise the content is the agent's answer
   * (relayed by the node as it is set) and the node is completed.
   */
  method Handle(context: MarketingWorkflowContext, medium: string, area: string, topic: string,
                agent: ResearchAgent, prompt: string)
    returns (outcome: Outcome, node: WorkflowNode, response: ResearchResponse)
    modifies context
    ensures fresh(node) && fresh(node.base) && fresh(response) && fresh(response.base) && node.Valid()
    ensures context.researchNodes == old(context.researchNodes) + [node]
    ensures context.photo == old(context.photo) && context.baseDirectory == old(context.baseDirectory)
    ensures context.completed == old(context.completed) && context.fanInNodes == old(context.fanInNodes)
    ensures context.critique == old(context.critique) && context.mediumPreviews == old(context.mediumPreviews)
    ensures context.workflowDiagram == old(context.workflowDiagram)
    ensures node.started && node.result == Some(Researched(response))
    ensures response.medium == medium && response.area == area && response.topic == topic
    ensures outcome.Done? <==> agent.run(prompt).Ok?
    ensures outcome.Failed?
            ==> outcome.error == agent.run(prompt).error && !node.completed && response.content == ""
    ensures outcome.Done? ==> node.completed && response.content == agent.run(prompt).value
    ensures node.base.notifications
            == ["Started", "Result"]
               + (if outcome.Done? then ContentRelayed(response.content) + ["Completed"] else [])
  {
    node, response := Open(context, medium, area, topic);
    var answer := agent.run(prompt);
    if answer.Err? {
      return Failed(answer.error), node, response;
    }
    Fill(node, response, answer.value);
    outcome := Done;
  }

  /** The steps before the agent is asked: register a new node, start it, and store the response. */
  method Open(context: MarketingWorkflowContext, medium: string, area: string, topic: string)
    returns (node: WorkflowNode, response: ResearchResponse)
    modifies context
    ensures fresh(node) && fresh(node.base) && fresh(response) && fresh(response.base) && node.Valid()
    ensures node.base != response.base
    ensures context.researchNodes == old(context.researchNodes) + [node]
    ensures context.photo == old(context.photo) && context.baseDirectory == old(context.baseDirectory)
    ensures context.completed == old(context.completed) && context.fanInNodes == old(context.fanInNodes)
    ensures context.critique == old(context.critique) && context.mediumPreviews == old(context.mediumPreviews)
    ensures context.workflowDiagram == old(context.workflowDiagram)
    ensures node.started && !node.completed && node.result == Some(Researched(response))
    ensures node.base.notifications == ["Started", "Result"] && node.base.subscriptions == multiset{response}
    ensures response.medium == medium && response.area == area && response.topic == topic && response.content == ""
  {
    node := new WorkflowNode();
    context.RegisterResearch(node);
    node.SetStarted(true);
    response := new ResearchResponse(area, topic, medium);
    node.SetResult(Some(Researched(response)));
  }

  /** The steps after the agent answered: fill in the content, relayed by the node, then complete the node. */
  method Fill(node: WorkflowNode, response: ResearchResponse, content: string)
    requires node.Valid() && node.base != response.base
    requires node.base.subscriptions == multiset{response} && response.content == ""
    modifies node, node.base, response, response.base
    ensures node.Valid() && node.started == old(node.started) && node.result == old(node.result) && node.completed
    ensures response.content == content && response.medium == old(response.medium)
    ensures response.area == old(response.area) && response.topic == old(response.topic)
    ensures node.base.notifications
            == old(node.base.notifications) + ContentRelayed(content) + Raised(old(node.completed), "Completed")
  {
    response.SetContent(content);
    if content != "" {
      assert node.base.subscriptions[response] == 1;
      node.base.ChildPropertyChanged(response, "Content");
      assert node.base.name + "." + "Content" == NodeTypeName + ".Content";
    }
    node.SetCompleted(true);
  }
}

=== FILE: text.dfy ===
/**
 * The string operations of the .NET base library that the modelled code relies on:
 * `string.IsNullOrWhiteSpace`, `Trim`, `ToLower`, ordinal and case-insensitive comparison,
 * `Contains` and the decimal rendering of integers inside interpolated strings.
 */
module Text {
  import opened Wrappers

  /** `char.IsWhiteSpace`: the Unicode space, line and paragraph separators and the C0/C1 blanks. */
  predicate IsWhiteSpace(c: char) {
    || c == ' ' || '\t' <= c <= '\r' || c == '\U{85}' || c == '\U{A0}' || c == '\U{1680}'
    || '\U{2000}' <= c <= '\U{200A}' || c == '\U{2028}' || c == '\U{2029}' || c == '\U{202F}'
    || c == '\U{205F}' || c == '\U{3000}'
  }

  /** `string.IsNullOrWhiteSpace` on a string that is not null. */
  predicate IsBlank(s: string) {
    forall i :: 0 <= i < |s| ==> IsWhiteSpace(s[i])
  }

  /** `string.IsNullOrWhiteSpace` on a nullable string. */
  predicate IsNullOrWhiteSpace(s: Option<string>) {
    s.None? || IsBlank(s.value)
  }

  /** `s.TrimStart(pred)`: drops the leading characters that satisfy `drop`. */
  function TrimStartBy(s: string, drop: char -> bool): (r: string)
    ensures |r| <= |s| && r == s[|s| - |r|..]
    ensures r == [] || !drop(r[0])
    ensures forall i :: 0 <= i < |s| - |r| ==> drop(s[i])
  {
    if s == [] || !drop(s[0]) then s else TrimStartBy(s[1..], drop)
  }

  /** `s.TrimEnd(pred)`: drops the trailing characters that satisfy `drop`. */
  function TrimEndBy(s: string, drop: char -> bool): (r: string)
    ensures |r| <= |s| && r == s[..|r|]
    ensures r == [] || !drop(r[|r| - 1])
    ensures forall i :: |r| <= i < |s| ==> drop(s[i])
  {
    if s == [] || !drop(s[|s| - 1]) then s else TrimEndBy(s[..|s| - 1], drop)
  }

  /** `s.Trim()`: without leading or trailing white space. */
  function Trim(s: string): (r: string)
    ensures r == [] || (!IsWhiteSpace(r[0]) && !IsWhiteSpace(r[|r| - 1]))
    ensures exists k :: OccursAt(s, r, k)
  {
    var start := TrimStartBy(s, IsWhiteSpace);
    var r := TrimEndBy(start, IsWhiteSpace);
    assert OccursAt(s, r, |s| - |start|);
    r
  }

  /** `s.Trim(c)`: without leading or trailing occurrences of `c`. */
  function TrimChar(s: string, c: char): (r: string)
    ensures r == [] || (r[0] != c && r[|r| - 1] != c)
    ensures exists k :: OccursAt(s, r, k)
  {
    var start := TrimStartBy(s, x => x == c);
    var r := TrimEndBy(start, x => x == c);
    assert OccursAt(s, r, |s| - |start|);
    r
  }

  /** `char.ToLowerInvariant`, restricted to the ASCII letters. */
  function LowerChar(c: char): char {
    if 'A' <= c <= 'Z' then (c as int + 32) as char else c
  }

  /** `s.ToLower()`, restricted to the ASCII letters. */
  function ToLower(s: string): (r: string)
    ensures |r| == |s|
    ensures forall i :: 0 <= i < |s| ==> r[i] == LowerChar(s[i])
  {
    if s == [] then [] else [LowerChar(s[0])] + ToLower(s[1..])
  }

  /** `StringComparer.OrdinalIgnoreCase.Equals(a, b)`, restricted to the ASCII letters. */
  predicate EqualsIgnoreCase(a: string, b: string) {
    ToLower(a) == ToLower(b)
  }

  /** `s.StartsWith(prefix)` under ordinal comparison. */
  predicate StartsWith(s: string, prefix: string) {
    |prefix| <= |s| && s[..|prefix|] == prefix
  }

  /** `s.Contains(sub)`: ordinal, case-sensitive substring search. */
  predicate Contains(s: string, sub: string)
    decreases |s|
  {
    StartsWith(s, sub) || (s != [] && Contains(s[1..], sub))
  }

  /** `sub` occurs in `s` at offset `k`. */
  predicate OccursAt(s: string, sub: string, k: int) {
    0 <= k <= |s| - |sub| && s[k..k + |sub|] == sub
  }

  /** `Contains` holds exactly when `sub` occurs at some offset of `s`. */
  lemma {:induction false} ContainsIffOccurs(s: string, sub: string)
    ensures Contains(s, sub) <==> exists k :: OccursAt(s, sub, k)
    decreases |s|
  {
    if StartsWith(s, sub) {
      assert OccursAt(s, sub, 0);
    } else if s == [] {
    } else {
      ContainsIffOccurs(s[1..], sub);
      if Contains(s[1..], sub) {
        var k :| OccursAt(s[1..], sub, k);
        assert OccursAt(s, sub, k + 1);
      }
      if exists k :: OccursAt(s, sub, k) {
        var k :| OccursAt(s, sub, k);
        if k != 0 {
          assert OccursAt(s[1..], sub, k - 1);
        }
      }
    }
  }

  /** An occurrence inside an occurrence is an occurrence. */
  lemma OccursWithin(s: string, t: string, r: string, i: int, j: int)
    requires OccursAt(s, t, i) && OccursAt(t, r, j)
    ensures OccursAt(s, r, i + j)
  {
    assert t == s[i..i + |t|];
    assert forall x :: 0 <= x < |r| ==> s[i + j + x] == t[j + x] == r[x];
  }

  /** The decimal digit of a value below ten. */
  function Digit(d: nat): char
    requires d < 10
  {
    "0123456789"[d]
  }

  /** The value of a decimal digit character. */
  function DigitValue(c: char): nat {
    if '0' <= c <= '9' then c as int - '0' as int else 0
  }

  /** The decimal rendering of a natural number, without leading zeros. */
  function NatToString(n: nat): (r: string)
    ensures |r| > 0
    ensures forall i :: 0 <= i < |r| ==> '0' <= r[i] <= '9'
    decreases n
  {
    if n < 10 then [Digit(n)] else NatToString(n / 10) + [Digit(n % 10)]
  }

  /** The value of a string of decimal digits. */
  function ParseDigits(s: string): nat
    decreases |s|
  {
    if s == [] then 0 else 10 * ParseDigits(s[..|s| - 1]) + DigitValue(s[|s| - 1])
  }

  /** Reading a rendered natural number back gives the number: rendering is injective. */
  lemma {:induction false} NatToStringRoundTrip(n: nat)
    ensures ParseDigits(NatToString(n)) == n
    decreases n
  {
    if n >= 10 {
      NatToStringRoundTrip(n / 10);
      var s := NatToString(n);
      assert s[..|s| - 1] == NatToString(n / 10);
    }
  }

  /** The invariant-culture rendering of an integer, as string interpolation produces it. */
  function IntToString(n: int): string {
    if n < 0 then "-" + NatToString(-n) else NatToString(n)
  }
}

=== FILE: utility.dfy ===
/**
 * `Utility.AsByteSize`: a 64-bit byte count rendered in the largest binary unit (at most
 * gigabytes) that does not exceed it, with the amount truncated to a whole number.
 */
module Utility {
  import opened Text

  /** C#'s `long`. */
  newtype Long = x: int | -0x8000_0000_0000_0000 <= x < 0x8000_0000_0000_0000

  const Kilobyte: Long := 1024
  const Megabyte: Long := Kilobyte * Kilobyte
  const Gigabyte: Long := Megabyte * Kilobyte

  /** The units a size is rendered in, smallest first. */
  datatype Unit = Bytes | Kilobytes | Megabytes | Gigabytes {
    /** How many bytes one of this unit holds. */
    function Size(): (n: nat)
      ensures n >= 1 && n == Pow1024(Rank())
    {
      match this
      case Bytes => 1
      case Kilobytes => Kilobyte as nat
      case Megabytes => Megabyte as nat
      case Gigabytes =>
        assert Pow1024(2) == 1024 * 1024;
        assert Pow1024(3) == 1024 * Pow1024(2);
        Gigabyte as nat
    }

    /** The word the rendering ends with. */
    function Word(): string {
      match this
      case Bytes => "bytes"
      case Kilobytes => "kilobytes"
      case Megabytes => "megabytes"
      case Gigabytes => "gigabytes"
    }

    /** The position of the unit in the order bytes < kilobytes < megabytes < gigabytes. */
    function Rank(): nat {
      match this
      case Bytes => 0
      case Kilobytes => 1
      case Megabytes => 2
      case Gigabytes => 3
    }
  }

  /** 1024 to the power `k`. */
  function Pow1024(k: nat): nat {
    if k == 0 then 1 else 1024 * Pow1024(k - 1)
  }

  /** The unit a value is rendered in: the largest one that fits, with every value below a kilobyte in bytes. */
  function UnitFor(value: Long): (u: Unit)
    ensures u == Bytes || u.Size() <= value as int
    ensures u == Gigabytes || value as int < u.Size() * 1024
  {
    if value < Kilobyte then Bytes
    else if value < Megabyte then Kilobytes
    else if value < Gigabyte then Megabytes
    else Gigabytes
  }

  /** `AsByteSize`: "{amount} {unit}", the amount being the value over the unit's size, truncated. */
  function AsByteSize(value: Long): (r: string)
    ensures r == IntToString(ScaledAmount(value)) + " " + UnitFor(value).Word()
  {
    if value < Kilobyte then
      IntToString(value as int) + " " + "bytes"
    else if value < Megabyte then
      assert UnitFor(value) == Kilobytes;
      IntToString(value as int / Kilobyte as int) + " " + "kilobytes"
    else if value < Gigabyte then
      assert UnitFor(value) == Megabytes;
      IntToString(value as int / Megabyte as int) + " " + "megabytes"
    else
      assert UnitFor(value) == Gigabytes;
      IntToString(value as int / Gigabyte as int) + " " + "gigabytes"
  }

  /**
   * The amount shown. Division only happens on values of at least a kilobyte, which are
   * positive, so C#'s truncating division agrees with Dafny's.
   */
  function ScaledAmount(value: Long): int {
    if value < Kilobyte then value as int else value as int / UnitFor(value).Size()
  }

  /**
   * The amount is exact below a kilobyte (negative counts included); above it the amount is
   * the whole number of units, between 1 and 1023 except for gigabytes, which have no cap.
   */
  lemma AmountBounds(value: Long)
    ensures var n := ScaledAmount(value);
      var u := UnitFor(value).Size();
      && (value < Kilobyte ==> n == value as int)
      && (value >= Kilobyte ==> 1 <= n && n * u <= value as int < (n + 1) * u)
      && (Kilobyte <= value < Gigabyte ==> n < 1024)
  {
    if value >= Kilobyte {
      var n := ScaledAmount(value);
      var u := UnitFor(value).Size();
      DivisionBounds(value as int, u);
      if value < Gigabyte {
        assert value as int < u * 1024;
        if n >= 1024 {
          MultiplyMonotone(1024, n, u);
        }
      }
    }
  }

  /** Truncated division brackets the dividend. */
  lemma DivisionBounds(v: nat, u: nat)
    requires 1 <= u <= v
    ensures 1 <= v / u && (v / u) * u <= v < (v / u + 1) * u
  {
    var n := v / u;
    assert v == n * u + v % u;
    assert (n + 1) * u == n * u + u;
  }

  lemma MultiplyMonotone(a: nat, b: nat, u: nat)
    requires a <= b
    ensures a * u <= b * u
  {
  }

  /** A larger count never shows a smaller unit, nor, in the same unit, a smaller amount. */
  lemma AsByteSizeMonotone(v: Long, w: Long)
    requires v <= w
    ensures UnitFor(v).Rank() <= UnitFor(w).Rank()
    ensures UnitFor(v) == UnitFor(w) ==> ScaledAmount(v) <= ScaledAmount(w)
  {
    if UnitFor(v) == UnitFor(w) && v >= Kilobyte {
      DivisionMonotone(v as int, w as int, UnitFor(v).Size());
    }
  }

  lemma DivisionMonotone(v: nat, w: nat, u: nat)
    requires v <= w && u >= 1
    ensures v / u <= w / u
  {
    var a, b := v / u, w / u;
    assert v == a * u + v % u && w == b * u + w % u;
    if a > b {
      MultiplyMonotone(b + 1, a, u);
    }
  }
}

=== FILE: workflow.dfy ===
/**
 * `MarketingWorkflow`: for one photo, a graph of steps built from the agents' configuration —
 * the critique first, then for every medium a preview step followed by four chains of research
 * steps, one chain per research role, all of whose last steps fan in to the report.
 *
 * The graph is kept as explicit lists of steps, edges and fan-in sources. Running it is the
 * workflow library's business; the model takes the run's outcome as a parameter.
 */
module MarketingWorkflows {
  import opened Wrappers
  import opened Photographs
  import opened Files
  import opened WorkflowNodes
  import opened WorkflowContext
  import opened Agents
  import opened PhotoCatalog
  import opened IntelligentStore
  import opened PersistentStore

  /** The agent whose prompt names are the media, and whose prompts ask for a rendition in each. */
  const MediumAgent: string := "Medium Preview Agent"

  /** The research roles, in order, and the area each one researches. */
  const Researchers: seq<string> :=
    ["Research Specialist", "Marketing Expert", "Social Media Content Creator", "Email Marketing Specialist"]
  const Areas: seq<string> :=
    ["Product research", "Marketing research", "Social media strategy", "Email marketing strategy"]

  /** One step of the graph. */
  datatype Executor =
    | CritiqueStep
    | MediumPreviewStep(id: string, medium: string)
    | ResearchStep(id: string, medium: string, area: string, topic: string, researcher: string, prompt: string)
    | ReportStep

  datatype Edge = Edge(source: Executor, target: Executor)

  /**
   * The steps bound, the edges, and the sources of the fan-in edge into the report. A fan-in
   * source is `None` for a role without prompts: the C# code adds `last!`, a null reference.
   */
  datatype Graph = Graph(executors: seq<Executor>, edges: seq<Edge>, fanIn: seq<Option<Executor>>)

  /** The preview step of a medium. */
  function PreviewStep(medium: string): Executor {
    MediumPreviewStep("MediumPreviewExecutor_" + medium, medium)
  }

  /** The text every research prompt for a medium ends with. */
  function EnhancedText(title: string, description: string, medium: string): string {
    "The photograph titled '" + title + "' is described as: " + description
    + ". The medium to focus your research on is " + medium
  }

  /** The first `k` research roles are cached agents, each listing every prompt name once. */
  ghost predicate RolesConfigured(cache: map<string, AgentData>, k: nat)
    requires k <= 4
  {
    forall j :: 0 <= j < k ==> Researchers[j] in cache && cache[Researchers[j]].Valid()
  }

  /** Every research role is a cached agent listing every prompt name once. */
  ghost predicate Configured(cache: map<string, AgentData>) {
    RolesConfigured(cache, 4)
  }

  /** The research step of a role for one prompt name: its prompt is the template, a space, and the medium's text. */
  function Step(cache: map<string, AgentData>, idx: nat, medium: string, text: string, name: string): (e: Executor)
    requires idx < 4 && Researchers[idx] in cache && name in cache[Researchers[idx]].prompts
    ensures e.ResearchStep? && e.medium == medium && e.area == Areas[idx] && e.topic == name
    ensures e.id == Researchers[idx] + "_" + medium + "_" + name
    ensures e.prompt == cache[Researchers[idx]].prompts[name] + " " + text
  {
    var researcher := Researchers[idx];
    ResearchStep(researcher + "_" + medium + "_" + name, medium, Areas[idx], name, researcher,
                 cache[researcher].prompts[name] + " " + text)
  }

  /** The chain of one role for one medium: a step per prompt name of the role, in enumeration order. */
  function RoleSteps(cache: map<string, AgentData>, idx: nat, medium: string, text: string): (r: seq<Executor>)
    requires idx < 4 && RolesConfigured(cache, idx + 1)
    ensures |r| == |cache[Researchers[idx]].promptKeys|
  {
    var names := cache[Researchers[idx]].promptKeys;
    seq(|names|, i requires 0 <= i < |names| => Step(cache, idx, medium, text, names[i]))
  }

  /** The edges of a chain: the first step follows `head`, every later one the step before it. */
  function Chain(head: Executor, steps: seq<Executor>): (r: seq<Edge>)
    ensures |r| == |steps|
  {
    seq(|steps|, i requires 0 <= i < |steps| => Edge(if i == 0 then head else steps[i - 1], steps[i]))
  }

  /** The last step of a chain, `None` for an empty one. */
  function LastStep(steps: seq<Executor>): Option<Executor> {
    if steps == [] then None else Some(steps[|steps| - 1])
  }

  /** The graph a configuration yields for one medium, roles `0 .. k-1`: their steps, edges and fan-in sources. */
  function Roles(cache: map<string, AgentData>, k: nat, medium: string, text: string): (g: Graph)
    requires k <= 4 && RolesConfigured(cache, k)
    ensures |g.fanIn| == k
  {
    if k == 0 then Graph([], [], [])
    else
      var g := Roles(cache, k - 1, medium, text);
      var steps := RoleSteps(cache, k - 1, medium, text);
      Graph(g.executors + steps, g.edges + Chain(PreviewStep(medium), steps), g.fanIn + [LastStep(steps)])
  }

  /** The part of the graph for one medium: its preview step after the critique, then the four chains. */
  function MediumPart(cache: map<string, AgentData>, medium: string, title: string, description: string): Graph
    requires Configured(cache)
  {
    var roles := Roles(cache, 4, medium, EnhancedText(title, description, medium));
    Graph([PreviewStep(medium)] + roles.executors, [Edge(CritiqueStep, PreviewStep(medium))] + roles.edges,
          roles.fanIn)
  }

  /** The graph for the media, before the report step is bound: the critique step is the start. */
  function Plan(cache: map<string, AgentData>, media: seq<string>, title: string, description: string): Graph
    requires media != [] ==> Configured(cache)
    decreases |media|
  {
    if media == [] then Graph([CritiqueStep], [], [])
    else
      var g := Plan(cache, media[..|media| - 1], title, description);
      var part := MediumPart(cache, media[|media| - 1], title, description);
      Graph(g.executors + part.executors, g.edges + part.edges, g.fanIn + part.fanIn)
  }

  /** The graph made of the critique step followed by the parts, in order. */
  function Assemble(parts: seq<Graph>): (g: Graph)
    ensures |g.executors| >= 1 && g.executors[0] == CritiqueStep
  {
    if parts == [] then Graph([CritiqueStep], [], [])
    else
      var g := Assemble(parts[..|parts| - 1]);
      var part := parts[|parts| - 1];
      Graph(g.executors + part.executors, g.edges + part.edges, g.fanIn + part.fanIn)
  }

  /** The plan is the critique followed by every medium's part, in the media's order. */
  lemma {:induction false} PlanAssembles(cache: map<string, AgentData>, media: seq<string>, title: string,
                                         description: string, parts: seq<Graph>)
    requires media != [] ==> Configured(cache)
    requires |parts| == |media|
    requires forall k :: 0 <= k < |media| ==> parts[k] == MediumPart(cache, media[k], title, description)
    ensures Assemble(parts) == Plan(cache, media, title, description)
    decreases |media|
  {
    if media != [] {
      var n := |media| - 1;
      PlanAssembles(cache, media[..n], title, description, parts[..n]);
    }
  }

  /** Appending the next medium's part keeps the parts those of the media so far. */
  lemma PartsExtend(cache: map<string, AgentData>, media: seq<string>, title: string, description: string,
                    parts: seq<Graph>, part: Graph)
    requires Configured(cache) && |parts| < |media|
    requires forall k :: 0 <= k < |parts| ==> parts[k] == MediumPart(cache, media[k], title, description)
    requires part == MediumPart(cache, media[|parts|], title, description)
    ensures forall k :: 0 <= k < |parts| + 1 ==> (parts + [part])[k] == MediumPart(cache, media[k], title, description)
  {
  }

  /** The whole graph: the plan with the report step bound at the end. */
  function WholeGraph(cache: map<string, AgentData>, media: seq<string>, title: string, description: string): Graph
    requires media != [] ==> Configured(cache)
  {
    var g := Plan(cache, media, title, description);
    g.(executors := g.executors + [ReportStep])
  }

  /** The fan-in has one source per medium and role, whether or not the role has prompts. */
  lemma {:induction false} FanInCount(cache: map<string, AgentData>, media: seq<string>, title: string, description: string)
    requires media != [] ==> Configured(cache)
    ensures |Plan(cache, media, title, description).fanIn| == 4 * |media|
    decreases |media|
  {
    if media != [] {
      FanInCount(cache, media[..|media| - 1], title, description);
    }
  }

  /** Within one medium, the `j`-th fan-in source is null exactly when role `j` has no prompts. */
  lemma {:induction false} RolesFanInNull(cache: map<string, AgentData>, k: nat, medium: string, text: string, j: nat)
    requires k <= 4 && Configured(cache) && j < k
    ensures Roles(cache, k, medium, text).fanIn[j].None? <==> cache[Researchers[j]].promptKeys == []
    ensures Roles(cache, k, medium, text).fanIn[j].Some?
            ==> Roles(cache, k, medium, text).fanIn[j].value.ResearchStep?
                && Roles(cache, k, medium, text).fanIn[j].value.area == Areas[j]
  {
    if j < k - 1 {
      RolesFanInNull(cache, k - 1, medium, text, j);
    } else {
      var steps := RoleSteps(cache, j, medium, text);
      if steps != [] {
        assert steps[|steps| - 1].area == Areas[j];
      }
    }
  }

  /** Across the media, fan-in source `4 * i + j` is null exactly when role `j` has no prompts. */
  lemma {:induction false} FanInNull(cache: map<string, AgentData>, media: seq<string>, title: string, description: string,
                                     i: nat, j: nat)
    requires Configured(cache) && i < |media| && j < 4
    ensures |Plan(cache, media, title, description).fanIn| == 4 * |media|
    ensures Plan(cache, media, title, description).fanIn[4 * i + j].None? <==> cache[Researchers[j]].promptKeys == []
    decreases |media|
  {
    FanInCount(cache, media, title, description);
    var n := |media| - 1;
    FanInCount(cache, media[..n], title, description);
    var text := EnhancedText(title, description, media[n]);
    PlanFanIn(cache, media, title, description, i, j);
    if i < n {
      FanInNull(cache, media[..n], title, description, i, j);
    } else {
      RolesFanInNull(cache, 4, media[n], text, j);
    }
  }

  /**
   * The fan-in of the media is that of all media but the last, then the last medium's four
   * roles': source `4 * i + j` is the earlier media's for `i` before the last, and role `j`'s of
   * the last.
   */
  lemma PlanFanIn(cache: map<string, AgentData>, media: seq<string>, title: string, description: string, i: nat, j: nat)
    requires Configured(cache) && i < |media| && j < 4
    requires |Plan(cache, media[..|media| - 1], title, description).fanIn| == 4 * (|media| - 1)
    ensures var n := |media| - 1;
      var before := Plan(cache, media[..n], title, description).fanIn;
      var last := Roles(cache, 4, media[n], EnhancedText(title, description, media[n])).fanIn;
      && 4 * i + j < |Plan(cache, media, title, description).fanIn|
      && (i < n ==> Plan(cache, media, title, description).fanIn[4 * i + j] == before[4 * i + j])
      && (i == n ==> Plan(cache, media, title, description).fanIn[4 * i + j] == last[j])
  {
    var n := |media| - 1;
    var before := Plan(cache, media[..n], title, description).fanIn;
    var last := MediumPart(cache, media[n], title, description).fanIn;
    assert Plan(cache, media, title, description).fanIn == before + last;
    assert |last| == 4;
  }

  /** Every medium's preview step follows the critique. */
  lemma {:induction false} PreviewAfterCritique(cache: map<string, AgentData>, media: seq<string>, title: string,
                                                description: string, medium: string)
    requires Configured(cache) && medium in media
    ensures Edge(CritiqueStep, PreviewStep(medium)) in Plan(cache, media, title, description).edges
    decreases |media|
  {
    var n := |media| - 1;
    var part := MediumPart(cache, media[n], title, description);
    if medium == media[n] {
      assert part.edges[0] == Edge(CritiqueStep, PreviewStep(medium));
    } else {
      assert medium in media[..n];
      PreviewAfterCritique(cache, media[..n], title, description, medium);
    }
  }

  /**
   * Whether a medium's part of the graph can be built: the photo's title is needed (a missing
   * photo is a null dereference), and then every research role must be a cached agent.
   */
  function PartOutcome(cache: map<string, AgentData>, photo: Photograph?): (r: Outcome)
    ensures r == Done <==> photo != null && forall j :: 0 <= j < 4 ==> Researchers[j] in cache
    ensures photo == null ==> r == Failed(NullReference)
    ensures r.Failed? && photo != null ==> exists j :: 0 <= j < 4 && Researchers[j] !in cache
                                                   && r == Failed(AgentNotFound(Researchers[j]))
  {
    if photo == null then Failed(NullReference)
    else match MissingRole(cache, 4)
      case Some(j) => Failed(AgentNotFound(Researchers[j]))
      case None => Done
  }

  /** How building the graph for the media ends: the first medium's part fails or none does. */
  function MediaOutcome(cache: map<string, AgentData>, media: seq<string>, photo: Photograph?): Outcome {
    if media == [] then Done else PartOutcome(cache, photo)
  }

  /** The photo's title, empty without a photo. */
  function TitleOf(photo: Photograph?): string
    reads photo
  {
    if photo == null then "" else photo.title
  }

  /** The photo's description, empty without a photo. */
  function DescriptionOf(photo: Photograph?): string
    reads photo
  {
    if photo == null then "" else photo.description
  }

  /** The media: the prompt names of the medium agent, none when it is not cached. */
  function Media(cache: map<string, AgentData>): seq<string> {
    if MediumAgent in cache then cache[MediumAgent].promptKeys else []
  }

  /**
   * How building the whole graph ends: listing the media fails for an uncached medium agent,
   * and otherwise as building the media's parts does.
   */
  function BuildOutcome(cache: map<string, AgentData>, photo: Photograph?): (r: Outcome)
    ensures MediumAgent !in cache ==> r == Failed(AgentNotFound(MediumAgent))
    ensures MediumAgent in cache ==> r == MediaOutcome(cache, cache[MediumAgent].promptKeys, photo)
  {
    if MediumAgent !in cache then Failed(AgentNotFound(MediumAgent)) else MediaOutcome(cache, Media(cache), photo)
  }

  /** Storing into a dictionary overlaid with new entries is storing into the new entries. */
  lemma OverlayUpdate<V>(base: map<string, V>, added: map<string, V>, k: string, v: V)
    ensures (base + added)[k := v] == base + added[k := v]
  {
  }

  /** The first missing research role, if any. */
  function MissingRole(cache: map<string, AgentData>, k: nat): (r: Option<nat>)
    requires k <= 4
    ensures r.None? ==> forall j :: 0 <= j < k ==> Researchers[j] in cache
    ensures r.Some? ==> r.value < k && Researchers[r.value] !in cache
                        && forall j :: 0 <= j < r.value ==> Researchers[j] in cache
  {
    if k == 0 then None
    else match MissingRole(cache, k - 1)
      case Some(j) => Some(j)
      case None => if Researchers[k - 1] in cache then None else Some(k - 1)
  }

  /** Once role `j` is the first missing one, it stays the first missing one among more roles. */
  lemma {:induction false} MissingRoleStays(cache: map<string, AgentData>, j: nat, k: nat)
    requires j < k <= 4 && MissingRole(cache, j + 1) == Some(j)
    ensures MissingRole(cache, k) == Some(j)
    decreases k
  {
    if k > j + 1 {
      MissingRoleStays(cache, j, k - 1);
    }
  }

  /** The inner loop: one role's chain for one medium, linked from the preview step. */
  method BuildRole(cache: AgentCache, idx: nat, medium: string, text: string) returns (steps: seq<Executor>, edges: seq<Edge>, last: Option<Executor>)
    requires idx < 4 && cache.Valid() && RolesConfigured(cache.cache, idx + 1)
    ensures steps == RoleSteps(cache.cache, idx, medium, text)
    ensures edges == Chain(PreviewStep(medium), steps)
    ensures last == LastStep(steps)
  {
    var researcher := Researchers[idx];
    var names := cache.GetPromptsForAgent(researcher).value;
    var first := true;
    steps, edges, last := [], [], None;
    for j := 0 to |names|
      invariant |steps| == j && first == (j == 0)
      invariant forall i :: 0 <= i < j ==> steps[i] == Step(cache.cache, idx, medium, text, names[i])
      invariant edges == Chain(PreviewStep(medium), steps)
      invariant last == LastStep(steps)
    {
      cache.ListedPromptsResolve(researcher, names[j]);
      var prompt := cache.GetPrompt(researcher, names[j]).value;
      var step := ResearchStep(researcher + "_" + medium + "_" + names[j], medium, Areas[idx], names[j], researcher,
                               prompt + " " + text);
      assert step == Step(cache.cache, idx, medium, text, names[j]);
      ChainExtend(PreviewStep(medium), steps, step);
      if first {
        edges := edges + [Edge(PreviewStep(medium), step)];
        first := false;
      } else {
        edges := edges + [Edge(last.value, step)];
      }
      steps := steps + [step];
      last := Some(step);
    }
  }

  /** A chain grows by one edge, from the head or the last step, when a step is appended. */
  lemma ChainExtend(head: Executor, steps: seq<Executor>, step: Executor)
    ensures Chain(head, steps + [step])
            == Chain(head, steps) + [Edge(if steps == [] then head else LastStep(steps).value, step)]
  {
    var r := Chain(head, steps + [step]);
    forall i | 0 <= i < |steps| ensures r[i] == Chain(head, steps)[i] {
      assert (steps + [step])[i] == steps[i];
      if i > 0 { assert (steps + [step])[i - 1] == steps[i - 1]; }
    }
  }

  /** The loop over the roles for one medium; it fails at the first role that is not a cached agent. */
  method BuildRoles(cache: AgentCache, medium: string, text: string) returns (outcome: Outcome, g: Graph)
    requires cache.Valid()
    ensures MissingRole(cache.cache, 4).Some?
            ==> outcome == Failed(AgentNotFound(Researchers[MissingRole(cache.cache, 4).value]))
    ensures MissingRole(cache.cache, 4).None?
            ==> outcome == Done && Configured(cache.cache) && g == Roles(cache.cache, 4, medium, text)
  {
    g := Graph([], [], []);
    for idx := 0 to 4
      invariant MissingRole(cache.cache, idx).None? && RolesConfigured(cache.cache, idx)
      invariant g == Roles(cache.cache, idx, medium, text)
    {
      var agent := cache.Agent(Researchers[idx]);
      if agent.Err? {
        assert MissingRole(cache.cache, idx + 1) == Some(idx);
        MissingRoleStays(cache.cache, idx, 4);
        return Failed(agent.error), g;
      }
      assert MissingRole(cache.cache, idx + 1).None?;
      var steps, edges, last := BuildRole(cache, idx, medium, text);
      g := Graph(g.executors + steps, g.edges + edges, g.fanIn + [last]);
    }
    outcome := Done;
  }

  class MarketingWorkflow {
    const context: MarketingWorkflowContext
    /** `_workflow`: the graph, once the run has built it. */
    var workflow: Option<Graph>

    constructor (fs: FileSystem)
      ensures workflow == None && fresh(context) && fresh(context.base) && context.fs == fs
      ensures context.photo == null && context.mediumPreviews == map[] && !context.completed
      ensures context.base.Valid() && context.base.name == "MarketingWorkflowContext"
    {
      workflow := None;
      context := new MarketingWorkflowContext(fs);
    }

    /**
     * `InitAsync`: once the graph is built, `false` and nothing else happens. Before that, the
     * photo with the id (`null` for an unknown id) becomes the context's photo, and the answer is
     * `true`. A disposed database's exception goes through.
     */
    method InitAsync(id: string, database: IntelligentPhotoDatabase) returns (r: Result<bool>)
      modifies context, context.base, context.fs
      ensures workflow.Some? ==> r == Ok(false) && context.photo == old(context.photo)
                                 && context.fs.State() == old(context.fs.State())
      ensures workflow.None? && database.persistent.disposed
              ==> r == Err(DatabaseDisposed) && context.photo == old(context.photo)
                  && context.fs.State() == old(context.fs.State())
      ensures workflow.None? && !database.persistent.disposed
              ==> r == Ok(true)
                  && (context.photo == null <==> GetPhoto(database.persistent.store.Model(), id).None?)
                  && (context.photo != null
                      ==> context.photo.Data() == GetPhoto(database.persistent.store.Model(), id).value)
      ensures workflow.None? && !database.persistent.disposed && context.photo == null
              ==> context.fs.State() == old(context.fs.State()) && context.baseDirectory == old(context.baseDirectory)
      ensures workflow.None? && !database.persistent.disposed && context.photo != null
              ==> && context.baseDirectory == RunDirectory(context.photo.path, context.photo.id)
                  && context.fs.State() == old(context.fs.State()).(dirs := old(context.fs.dirs) + {context.baseDirectory})
      ensures workflow == old(workflow)
    {
      if workflow.Some? {
        return Ok(false);
      }
      var found := database.GetPhotographWithId(id);
      if found.Err? {
        return Err(found.error);
      }
      context.SetPhoto(found.value);
      r := Ok(true);
    }

    /**
     * `RunWorkflowAsync`: build the graph from the cached configuration, record the fan-in
     * count and the diagram, run the graph, and mark the context completed once the run
     * returns. The nodes added to `MediumPreviews` before an exception stay.
     */
    method RunWorkflow(cache: AgentCache, mermaid: Graph -> string, run: Outcome)
      returns (outcome: Outcome, ghost added: map<string, WorkflowNode>)
      requires cache.Valid() && context.base.Valid()
      modifies this, context, context.base
      ensures context.base.Valid() && context.photo == old(context.photo)
      ensures context.mediumPreviews == old(context.mediumPreviews) + added
      ensures forall m | m in added :: m in Media(cache.cache) && fresh(added[m]) && !added[m].started
      ensures BuildOutcome(cache.cache, context.photo).Failed?
              ==> outcome == BuildOutcome(cache.cache, context.photo)
                  && workflow == old(workflow) && context.completed == old(context.completed)
                  && context.fanInNodes == old(context.fanInNodes)
      ensures BuildOutcome(cache.cache, context.photo).Done?
              ==> Succeeded(cache.cache, mermaid, run, outcome) && forall m :: m in Media(cache.cache) ==> m in added
    {
      var g;
      outcome, g, added := BuildWorkflow(cache);
      if outcome.Failed? {
        return;
      }
      outcome := Record(g, mermaid, run);
    }

    /** The running half of `RunWorkflowAsync`: record the graph, its fan-in count and diagram, then run it. */
    method Record(g: Graph, mermaid: Graph -> string, run: Outcome) returns (outcome: Outcome)
      requires context.base.Valid()
      modifies this, context, context.base
      ensures context.base.Valid() && context.photo == old(context.photo)
      ensures context.mediumPreviews == old(context.mediumPreviews)
      ensures workflow == Some(g) && context.fanInNodes == |g.fanIn| && context.workflowDiagram == mermaid(g)
      ensures outcome == run && (run.Done? ==> context.completed)
    {
      context.fanInNodes := |g.fanIn|;
      workflow := Some(g);
      context.SetWorkflowDiagram(mermaid(g));
      outcome := run;
      if run.Done? {
        context.SetCompleted(true);
      }
    }

    /**
     * The building half of `RunWorkflowAsync`: the media are the prompt names of the medium
     * agent; the graph is their plan with the report step bound at the end.
     */
    method BuildWorkflow(cache: AgentCache) returns (outcome: Outcome, g: Graph, ghost added: map<string, WorkflowNode>)
      requires cache.Valid()
      modifies context
      ensures Settings() == old(Settings())
      ensures context.mediumPreviews == old(context.mediumPreviews) + added
      ensures forall m | m in added :: m in Media(cache.cache) && fresh(added[m]) && !added[m].started
      ensures outcome == BuildOutcome(cache.cache, context.photo)
      ensures outcome == Done
              ==> && (Media(cache.cache) != [] ==> Configured(cache.cache))
                  && g == WholeGraph(cache.cache, Media(cache.cache), TitleOf(context.photo), DescriptionOf(context.photo))
                  && |g.fanIn| == 4 * |Media(cache.cache)|
                  && forall m :: m in Media(cache.cache) ==> m in added
    {
      added := map[];
      var listed := cache.GetPromptsForAgent(MediumAgent);
      if listed.Err? {
        return Failed(listed.error), Graph([], [], []), added;
      }
      var media := listed.value;
      outcome, g, added := BuildMedia(cache, media);
      if outcome.Failed? {
        return;
      }
      FanInCount(cache.cache, media, TitleOf(context.photo), DescriptionOf(context.photo));
      g := g.(executors := g.executors + [ReportStep]);
    }

    /**
     * The loop over the media: a fresh node per medium in `MediumPreviews`, then its part of the
     * graph, stopping at the first medium whose part cannot be built.
     */
    method BuildMedia(cache: AgentCache, media: seq<string>)
      returns (outcome: Outcome, g: Graph, ghost added: map<string, WorkflowNode>)
      requires cache.Valid()
      modifies context
      ensures Settings() == old(Settings())
      ensures outcome == MediaOutcome(cache.cache, media, context.photo)
      ensures outcome == Done ==> (media != [] ==> Configured(cache.cache))
                                  && g == Plan(cache.cache, media, TitleOf(context.photo), DescriptionOf(context.photo))
      ensures context.mediumPreviews == old(context.mediumPreviews) + added
      ensures forall m | m in added :: m in media && fresh(added[m]) && !added[m].started
      ensures outcome == Done ==> forall m :: m in media ==> m in added
    {
      ghost var previews := context.mediumPreviews;
      ghost var title, description := TitleOf(context.photo), DescriptionOf(context.photo);
      var parts: seq<Graph> := [];
      added := map[];
      g := Graph([CritiqueStep], [], []);
      for i := 0 to |media|
        invariant Settings() == old(Settings())
        invariant i > 0 ==> PartOutcome(cache.cache, context.photo) == Done && Configured(cache.cache)
        invariant |parts| == i
        invariant forall k :: 0 <= k < i ==> parts[k] == MediumPart(cache.cache, media[k], title, description)
        invariant context.mediumPreviews == previews + added
        invariant forall m :: m in added <==> m in media[..i]
        invariant forall m | m in added :: fresh(added[m]) && !added[m].started
      {
        assert media[..i + 1] == media[..i] + [media[i]];
        var part;
        outcome, part := AddMedium(cache, media[i]);
        OverlayUpdate(previews, added, media[i], context.mediumPreviews[media[i]]);
        added := added[media[i] := context.mediumPreviews[media[i]]];
        if outcome.Failed? {
          return outcome, g, added;
        }
        assert part == MediumPart(cache.cache, media[i], title, description);
        PartsExtend(cache.cache, media, title, description, parts, part);
        parts := parts + [part];
      }
      assert media[..|media|] == media;
      PlanAssembles(cache.cache, media, title, description, parts);
      g := Assemble(parts);
      outcome := Done;
    }

    /** The context's fields that building the graph leaves alone. */
    function Settings(): (Photograph?, bool, int, string)
      reads this, context
    {
      (context.photo, context.completed, context.fanInNodes, context.workflowDiagram)
    }

    /**
     * One turn of the loop over the media: a fresh node in `MediumPreviews`, then the medium's
     * preview step and research chains. The photo is needed for the research prompts' text.
     */
    method AddMedium(cache: AgentCache, medium: string) returns (outcome: Outcome, part: Graph)
      requires cache.Valid()
      modifies context
      ensures medium in context.mediumPreviews && fresh(context.mediumPreviews[medium])
              && !context.mediumPreviews[medium].started
      ensures context.mediumPreviews == old(context.mediumPreviews)[medium := context.mediumPreviews[medium]]
      ensures Settings() == old(Settings())
      ensures outcome == PartOutcome(cache.cache, context.photo)
      ensures outcome == Done ==> Configured(cache.cache) && context.photo != null
                                  && part == MediumPart(cache.cache, medium, context.photo.title, context.photo.description)
    {
      var node := new WorkflowNode();
      context.AddMediumPreview(medium, node);
      if context.photo == null {
        return Failed(NullReference), Graph([], [], []);
      }
      var text := EnhancedText(context.photo.title, context.photo.description, medium);
      var roles;
      outcome, roles := BuildRoles(cache, medium, text);
      part := Graph([PreviewStep(medium)] + roles.executors, [Edge(CritiqueStep, PreviewStep(medium))] + roles.edges,
                    roles.fanIn);
    }

    /** What a run that built its graph leaves behind. */
    ghost predicate Succeeded(cache: map<string, AgentData>, mermaid: Graph -> string, run: Outcome, outcome: Outcome)
      reads this, context, context.photo, context.mediumPreviews.Values
    {
      var media := Media(cache);
      && (media != [] ==> Configured(cache))
      && workflow == Some(WholeGraph(cache, media, TitleOf(context.photo), DescriptionOf(context.photo)))
      && context.fanInNodes == 4 * |media|
      && context.workflowDiagram == mermaid(workflow.value)
      && outcome == run
      && (run.Done? ==> context.completed)
      && (forall m :: m in media ==> m in context.mediumPreviews && !context.mediumPreviews[m].started)
    }
  }
}

=== FILE: workflow_node.dfy ===
/**
 * The agents' answers the workflow stores, and `WorkflowNode<T>`: the progress of one step of the
 * marketing workflow (started, completed, and the step's result), raising a notification whenever
 * one of them changes.
 */
module WorkflowNodes {
  import opened Wrappers
  import opened Observables

  /** One line of the critique agent's answer. `Rating` is a `short` from 1 to 10. */
  datatype Critique = Critique(area: string, rating: int, praise: string, improvementSuggestion: string)

  /** `CritiqueResponse`: the critique agent's answer, an observable object. */
  class CritiqueResponse {
    const base: Observable
    var critiques: seq<Critique>

    /** The answer as the chat client deserializes it; nobody listens to it yet. */
    constructor (critiques: seq<Critique>)
      ensures fresh(base) && base.name == "CritiqueResponse" && base.Valid()
      ensures this.critiques == critiques
    {
      base := new Observable("CritiqueResponse");
      this.critiques := critiques;
    }
  }

  /** `ResearchResponse`: one research step's answer, an observable object filled in as the step runs. */
  class ResearchResponse {
    const base: Observable
    var medium: string
    var area: string
    var topic: string
    var content: string

    /**
     * `new ResearchResponse { Area = area, Topic = topic, Medium = medium }`: every field starts
     * empty, so each initializer that sets a non-empty value raises its property's notification.
     */
    constructor (area: string, topic: string, medium: string)
      ensures fresh(base) && base.name == "ResearchResponse" && base.Valid()
      ensures base.values == map[] && base.subscriptions == multiset{}
      ensures base.notifications
              == (if area != "" then ["Area"] else []) + (if topic != "" then ["Topic"] else [])
                 + (if medium != "" then ["Medium"] else [])
      ensures this.area == area && this.topic == topic && this.medium == medium && content == ""
    {
      this.area, this.topic, this.medium, content := area, topic, medium, "";
      base := new Observable("ResearchResponse");
      new;
      if area != "" {
        base.OnPropertyChanged("Area");
      }
      if topic != "" {
        base.OnPropertyChanged("Topic");
      }
      if medium != "" {
        base.OnPropertyChanged("Medium");
      }
    }

    /** The `Content` setter: a new value is stored and announced; the same value changes nothing. */
    method SetContent(value: string)
      modifies this, base
      ensures content == value && medium == old(medium) && area == old(area) && topic == old(topic)
      ensures base.notifications == old(base.notifications) + (if old(content) != value then ["Content"] else [])
      ensures base.values == old(base.values) && base.subscriptions == old(base.subscriptions)
      ensures base.disposed == old(base.disposed)
    {
      if content != value {
        content := value;
        base.OnPropertyChanged("Content");
      }
    }
  }

  /** `MediumPreviewResponse`: where the rendition in one medium was saved. */
  datatype MediumPreviewResponse = MediumPreviewResponse(medium: string, imagePath: string)

  /**
   * What a node's `Result` holds: the answer of the step the node tracks. The critique and
   * research answers are observable objects; a medium preview's is not.
   */
  datatype StepResult =
    | Critiqued(critique: CritiqueResponse)
    | Researched(research: ResearchResponse)
    | Previewed(preview: MediumPreviewResponse)

  /** A result as the observable object it is, or `null` for one that raises no notifications. */
  function Observed(value: Option<StepResult>): object? {
    match value
    case Some(Critiqued(c)) => c
    case Some(Researched(r)) => r
    case _ => null
  }

  /**
   * `WorkflowNode<T>`. The setter of `Result` relays an observable result's notifications, and
   * only announces any other result.
   */
  class WorkflowNode {
    const base: Observable
    var started: bool
    var completed: bool
    var result: Option<StepResult>

    ghost predicate Valid()
      reads this, base
    {
      base.Valid() && base.name == NodeTypeName
    }

    constructor ()
      ensures fresh(base) && Valid()
      ensures !started && !completed && result == None
      ensures base.values == map[] && base.subscriptions == multiset{} && base.notifications == []
    {
      started, completed, result := false, false, None;
      base := new Observable(NodeTypeName);
    }

    /** The `Started` setter: a change is stored and announced; the same value changes nothing. */
    method SetStarted(value: bool)
      requires Valid()
      modifies this, base
      ensures Valid() && started == value && completed == old(completed) && result == old(result)
      ensures base.notifications == old(base.notifications) + (if old(started) != value then ["Started"] else [])
      ensures base.values == old(base.values) && base.subscriptions == old(base.subscriptions)
    {
      if started != value {
        started := value;
        base.OnPropertyChanged("Started");
      }
    }

    /** The `Completed` setter: a change is stored and announced; the same value changes nothing. */
    method SetCompleted(value: bool)
      requires Valid()
      modifies this, base
      ensures Valid() && completed == value && started == old(started) && result == old(result)
      ensures base.notifications
              == old(base.notifications) + (if old(completed) != value then ["Completed"] else [])
      ensures base.values == old(base.values) && base.subscriptions == old(base.subscriptions)
    {
      if completed != value {
        completed := value;
        base.OnPropertyChanged("Completed");
      }
    }

    /**
     * The `Result` setter. A different observable result is stored under "Result": the node
     * detaches from the one stored before and relays the new one's notifications. A different
     * result that is not observable, `null` included, is only announced: whatever was stored
     * under "Result" stays attached. The same result changes nothing.
     */
    method SetResult(value: Option<StepResult>)
      requires Valid()
      modifies this, base
      ensures Valid() && result == value && started == old(started) && completed == old(completed)
      ensures old(result) == value ==> base.notifications == old(base.notifications)
      ensures old(result) != value ==> base.notifications == old(base.notifications) + ["Result"]
      ensures old(result) == value || Observed(value) == null
              ==> base.values == old(base.values) && base.subscriptions == old(base.subscriptions)
      ensures old(result) != value && Observed(value) != null
              ==> base.values == old(base.values)["Result" := Observed(value)]
                  && base.subscriptions
                     == (if "Result" in old(base.values)
                         then old(base.subscriptions) - multiset{old(base.values)["Result"]}
                         else old(base.subscriptions))
                        + multiset{Observed(value)}
    {
      if result != value {
        result := value;
        var child := Observed(value);
        if child != null {
          base.OnObservablePropertyChanged("Result", child);
        } else {
          base.OnPropertyChanged("Result");
        }
      }
    }
  }

  /** The notification a node raises when one of its flags is set true: none if it already was. */
  function Raised(before: bool, property: string): (r: seq<string>)
    ensures r == [] <==> before
    ensures !before ==> r == [property]
  {
    if before then [] else [property]
  }

  /** Once a node holds an observable result, a notification the result raises is relayed by the node. */
  method RelayedAfterSetResult(node: WorkflowNode, value: StepResult, property: string)
    requires node.Valid() && node.result != Some(value) && Observed(Some(value)) != null
    modifies node, node.base
    ensures node.result == Some(value)
    ensures |node.base.notifications| > 0
            && node.base.notifications[|node.base.notifications| - 1] == NodeTypeName + "." + property
  {
    node.SetResult(Some(value));
    node.base.ChildPropertyChanged(Observed(Some(value)), property);
  }
}

=== FILE: workflows_host.dfy ===
/**
 * `WorkflowsHost`: the hosted service that keeps one marketing workflow per photo id. Starting it
 * only sets a flag, stopping it does nothing, and asking for a photo's workflow either returns
 * the context already registered for the id or creates, initialises and registers a new one.
 */
module WorkflowsHosting {
  import opened Wrappers
  import opened Photographs
  import opened Files
  import opened PhotoCatalog
  import opened PersistentStore
  import opened IntelligentStore
  import opened WorkflowContext
  import opened MarketingWorkflows

  /** The exception thrown when a new workflow could not be initialised or registered. */
  function InitFailure(photoId: string): Error {
    InvalidOperation("Failed to initialize workflow for " + photoId + ".")
  }

  class WorkflowsHost {
    var started: bool
    /** `_workflows`: the workflow registered for each photo id. */
    var workflows: map<string, MarketingWorkflow>
    /** Where new workflows create their run folders, and where they look their photos up. */
    const fs: FileSystem
    const database: IntelligentPhotoDatabase

    constructor (fs: FileSystem, database: IntelligentPhotoDatabase)
      ensures this.fs == fs && this.database == database
      ensures !started && workflows == map[]
    {
      this.fs, this.database := fs, database;
      started, workflows := false, map[];
    }

    /** `StartAsync`: the first call sets the flag; later calls change nothing. */
    method Start()
      modifies this
      ensures started && workflows == old(workflows)
      ensures old(started) ==> unchanged(this)
    {
      if started {
        return;
      }
      started := true;
    }

    /** `StopAsync`: nothing is stopped and no workflow is removed. */
    method Stop()
      ensures unchanged(this)
    {
    }

    /**
     * `GetOrStartMarketingWorkflowAsync`. A registered id gives back its workflow's context, and
     * nothing is created. For any other id a new workflow looks the photo up (an unknown id gives
     * a context without a photo) and is registered only if no other caller registered one for the
     * same id in the meantime; `rival` is the workflow such a caller added, if any. Losing that
     * race throws, and the winner's context is not returned. A disposed database's exception goes
     * through before anything is registered.
     */
    method GetOrStart(photoId: string, rival: Option<MarketingWorkflow>) returns (r: Result<MarketingWorkflowContext>)
      modifies this, fs
      ensures started == old(started)
      ensures forall id :: id in old(workflows) ==> id in workflows && workflows[id] == old(workflows)[id]
      ensures photoId in old(workflows)
              ==> r == Ok(old(workflows)[photoId].context) && workflows == old(workflows)
                  && fs.State() == old(fs.State())
      ensures photoId !in old(workflows) && database.persistent.disposed
              ==> r == Err(DatabaseDisposed) && workflows == old(workflows) + Added(photoId, rival)
                  && fs.State() == old(fs.State())
      ensures photoId !in old(workflows) && !database.persistent.disposed
              ==> fs.State()
                  == old(fs.State()).(dirs := old(fs.dirs) + RunFolders(GetPhoto(database.persistent.store.Model(), photoId)))
      ensures photoId !in old(workflows) && !database.persistent.disposed && rival.Some?
              ==> r == Err(InitFailure(photoId)) && workflows == old(workflows)[photoId := rival.value]
      ensures photoId !in old(workflows) && !database.persistent.disposed && rival.None?
              ==> && photoId in workflows && fresh(workflows[photoId])
                  && workflows == old(workflows)[photoId := workflows[photoId]]
                  && r == Ok(workflows[photoId].context) && fresh(r.value)
                  && (r.value.photo == null <==> GetPhoto(database.persistent.store.Model(), photoId).None?)
                  && (r.value.photo != null
                      ==> r.value.photo.Data() == GetPhoto(database.persistent.store.Model(), photoId).value
                          && r.value.baseDirectory == RunDirectory(r.value.photo.path, r.value.photo.id)
                          && r.value.baseDirectory in fs.State().dirs)
    {
      if photoId in workflows {
        return Ok(workflows[photoId].context);
      }
      var workflow, init := Create(photoId);
      r := Register(photoId, rival, workflow, init);
    }

    /**
     * The `TryAdd` after initialisation: another caller's workflow, if any, is registered first;
     * then a successful initialisation registers this one unless the id is taken.
     */
    method Register(photoId: string, rival: Option<MarketingWorkflow>, workflow: MarketingWorkflow, init: Result<bool>)
      returns (r: Result<MarketingWorkflowContext>)
      requires photoId !in workflows
      modifies this
      ensures started == old(started)
      ensures init.Err? ==> r == Err(init.error) && workflows == old(workflows) + Added(photoId, rival)
      ensures init == Ok(true) && rival.Some?
              ==> r == Err(InitFailure(photoId)) && workflows == old(workflows)[photoId := rival.value]
      ensures init == Ok(true) && rival.None?
              ==> r == Ok(workflow.context) && workflows == old(workflows)[photoId := workflow]
      ensures init == Ok(false) ==> r == Err(InitFailure(photoId)) && workflows == old(workflows) + Added(photoId, rival)
    {
      workflows := workflows + Added(photoId, rival);
      if init.Err? {
        return Err(init.error);
      }
      if init.value && photoId !in workflows {
        workflows := workflows[photoId := workflow];
        r := Ok(workflow.context);
      } else {
        r := Err(InitFailure(photoId));
      }
    }

    /** A new workflow for the id, initialised: it looks the photograph up and creates its run folder. */
    method Create(photoId: string) returns (workflow: MarketingWorkflow, init: Result<bool>)
      modifies fs
      ensures fresh(workflow) && fresh(workflow.context)
      ensures database.persistent.disposed ==> init == Err(DatabaseDisposed) && fs.State() == old(fs.State())
      ensures !database.persistent.disposed
              ==> && init == Ok(true)
                  && fs.State()
                     == old(fs.State()).(dirs := old(fs.dirs) + RunFolders(GetPhoto(database.persistent.store.Model(), photoId)))
                  && (workflow.context.photo == null <==> GetPhoto(database.persistent.store.Model(), photoId).None?)
                  && (workflow.context.photo != null
                      ==> workflow.context.photo.Data() == GetPhoto(database.persistent.store.Model(), photoId).value
                          && workflow.context.baseDirectory
                             == RunDirectory(workflow.context.photo.path, workflow.context.photo.id)
                          && workflow.context.baseDirectory in fs.State().dirs)
    {
      workflow := new MarketingWorkflow(fs);
      init := workflow.InitAsync(photoId, database);
    }
  }

  /** The run folder a new workflow creates for the photograph found under its id, if one is found. */
  function RunFolders(found: Option<PhotoData>): (r: set<string>)
    ensures found.None? <==> r == {}
    ensures found.Some? ==> RunDirectory(found.value.path, found.value.id) in r && |r| == 1
  {
    if found.Some? then {RunDirectory(found.value.path, found.value.id)} else {}
  }

  /** What another caller registered while a new workflow was being initialised. */
  function Added(photoId: string, rival: Option<MarketingWorkflow>): map<string, MarketingWorkflow> {
    if rival.Some? then map[photoId := rival.value] else map[]
  }
}

=== FILE: wrappers.dfy ===
/** Option and Result, and the exceptions the modelled code raises or lets through. */
module Wrappers {

  /** A nullable value: `None` stands for C#'s `null`. */
  datatype Option<+T> = None | Some(value: T) {
    /** The `??` operator. */
    function GetOr(default: T): T {
      if Some? then value else default
    }
  }

  /** The exception classes that appear in the modelled code. */
  datatype Error =
    | InvalidOperation(message: string)
    | KeyNotFound(message: string)
    | ObjectDisposed(objectName: string)
    | FileNotFound(path: string)
    /** Any other `IOException`: a locked, unwritable or already existing file. */
    | IOFailure(path: string)
    /** A dereference of `null` (the C# `!` operator or a member access on a null value). */
    | NullReference
    /** A JSON document that does not have the shape the reader expects. */
    | MalformedDocument(path: string)
    /** An exception thrown by an AI client, an agent or a callback the model does not see into. */
    | ExternalFailure

  /** A value or the exception that ended the computation. */
  datatype Result<+T> = Ok(value: T) | Err(error: Error) {
    predicate IsFailure() {
      Err?
    }

    function PropagateFailure<U>(): Result<U>
      requires Err?
    {
      Err(error)
    }

    function Extract(): T
      requires Ok?
    {
      value
    }
  }

  /** The outcome of an operation that returns nothing (`Task` or `void`). */
  datatype Outcome = Done | Failed(error: Error) {
    predicate IsFailure() {
      Failed?
    }

    function PropagateFailure(): Outcome
      requires Failed?
    {
      this
    }
  }
}
